=== FILE: README.md ===
# nosql document engine, modelled in Dafny

This project models the core of gocontrib/nosql, a Go library that stores JSON
documents in named collections on several back ends. It covers these parts:

- **The kv engine**: collections over an ordered key-value store, secondary
  string indexes, filters, views with skip/limit/sort, the scan, index and
  sort iterators, and the view cursor.
- **Two key-value adapters**: bolt and redis.
- **Two translators**: filter trees to PostgreSQL conditions and to MongoDB
  query documents.

Every Go `interface{}` the engine switches on becomes a closed Dafny datatype:

- filter nodes become `Query.Node`;
- scalar operands become `Values.Value`;
- documents become association lists.

Every operation is a pure function over immutable state. A transaction is the
store it leaves behind, plus the error it stops with.

The modules follow the source layout:

| module | source |
|---|---|
| `Values` | util/compare.go |
| `Strings`, `Sorting` | Go's strings, strconv and sort functions the engine calls |
| `Wrappers` | `Option`/`Result` and the engine's errors |
| `Query` | q/model.go |
| `Docs` | decoded JSON objects |
| `Kv` | the key-value interfaces of kv/interfaces.go |
| `Bolt` | boltdb/store.go |
| `Redis` | redis/store.go, redis/bucket.go, redis/cursor.go |
| `Schema` | the struct descriptor standing in for reflection, plus the index metadata |
| `KeyList` | the index entry format |
| `Indexing` | kv/indexing.go |
| `Collection` | kv/collection.go, by-id operations |
| `ByFilter` | kv/collection.go, by-selector Update and Delete |
| `Consistency` | the index invariant and its preservation |
| `Filter` | kv/filter.go |
| `Lookup` | kv/lookup.go |
| `FilterIter` | kv/filteriter.go |
| `KeysIter` | kv/keysiter.go |
| `SortIter` | kv/sortiter.go and the iterator pipeline |
| `View` | kv/view.go |
| `ViewCursor` | kv/cursor.go |
| `Postgres` | postgresql/filter.go, postgresql/query.go |
| `Mongo` | mongo/filter.go |

## Model

| member | source | states |
|---|---|---|
| Values.WrapToInt64 | util/compare.go:80-81 | int64(u) of an unsigned value is the value congruent to it modulo 2^64 |
| Values.WrapToUInt64 | util/compare.go:96-97 | uint64(i) of a signed value is the value congruent to it modulo 2^64 |
| Values.IntCmp | util/compare.go:459-468 | intcmp answers 0 on equal operands and -1 on every other pair, never 1 |
| Values.UIntCmp | util/compare.go:470-478 | uintcmp answers 0 on equal operands and -1 on every other pair |
| Values.FloatCmp | util/compare.go:480-488 | floatcmp is a three-way comparison: -1, 0 and 1 exactly for <, == and > |
| Values.Compare | util/compare.go:23-436 | Compare always answers -1, 0 or 1 |
| Values.NilOrdering | util/compare.go:24-32 | nil equals nil and is below every other value, on either side |
| Values.StringOrdering | util/compare.go:65-71 | two strings compare as strings.Compare does; a string is above every non-nil, non-string value, and that value is below it |
| Values.UnhandledPairs | util/compare.go:435 | a left operand of a type the switch does not list, or Go's `uint`, gives -1; an unlisted right operand gives -1, except 1 against a string |
| Values.IntLikeNeverGreater | util/compare.go:34-64 | two bool or int-like operands compare 0 when their int64 values agree and -1 otherwise, never 1 |
| Values.UIntNeverGreater | util/compare.go:320-371 | two uint64 operands compare 0 when equal and -1 otherwise |
| Values.NotAntisymmetric | util/compare.go:459-468 | 1 is "less" than 2 and 2 is "less" than 1; likewise true and false |
| Values.FloatPairsAntisymmetric | util/compare.go:403-434 | a float64 against any numeric operand compares antisymmetrically |
| Values.UIntAboveNegatives | util/compare.go:320-371 | a uint64 is above every negative signed or float operand |
| Values.SignedAgainstUInt64 | util/compare.go:94-97 | a signed operand meets a uint64 through uint64(a): 0 exactly when they agree modulo 2^64, else -1; with the operands swapped, a negative signed value is below every uint64 |
| Values.MinusOneEqualsMaxUInt64 | util/compare.go:96-97 | Equals(-1, 2^64-1) holds, yet Equals(2^64-1, -1) does not |
| Values.NativeUIntWraps | util/compare.go:80-81 | Go's `uint` 2^64-1 on the right equals an int -1 on the left |
| Values.NumericEquality | util/compare.go:18-20 | except where a wrap-around conversion applies, Equals on numbers means equal mathematical values |
| Values.OrderedTotal | util/compare.go:65-71 | on the nil, float64 and string values a JSON field decodes to, Compare is 0 exactly on equal values and is antisymmetric |
| Values.OrderedTransitive | util/compare.go:403-434 | on those values, "less than" is transitive |
| Strings.Cmp | util/compare.go:67-68 | strings.Compare answers -1, 0 or 1, and 0 exactly on equal strings |
| Strings.CmpAntisymmetric | util/compare.go:67-68 | swapping the operands of strings.Compare negates the answer |
| Strings.CmpTransitive | util/compare.go:67-68 | strings.Compare's "less" is transitive |
| Strings.SortStrings | kv/indexing.go:201 | sort.Strings returns a permutation of its input in ascending byte order |
| Strings.StrictlySortedUnique | kv/lookup.go:190-197 | two strictly ascending lists with the same members are equal, so a sorted id set has one rendering |
| Strings.Digits | redis/bucket.go:60 | the decimal digits of a number form a non-empty digit string |
| Strings.ParseInt | postgresql/filter.go:150 | strconv.ParseInt accepts only values in the int64 range |
| Strings.DigitsValueOfDigits | redis/bucket.go:60 | reading back the digits of n gives n |
| Strings.FormatIntRoundTrip | boltdb/store.go:132 | ParseInt inverts FormatInt on the int64 range |
| Strings.FormatIntInjective | boltdb/store.go:132 | distinct int64 values format to distinct strings, so sequence ids never collide |
| Sorting.Sort | kv/sortiter.go:69 | the sort returns a permutation of its input, whatever the "less" relation |
| Sorting.SortSorted | kv/sortiter.go:69 | when "less" is a strict weak order on the input, the result is ordered by it |
| Docs.Lookup | kv/filter.go:120-123 | `v[name]` finds a value exactly when the document has that field, and it is that field's value |
| Kv.Decode | kv/collection.go:313-315 | decoding succeeds exactly on a stored JSON object, and gives that object |
| Kv.Find | kv/interfaces.go:32 | Bucket.Get finds a value exactly when the key is present, and it is the stored one |
| Kv.SetEntriesSpec | kv/interfaces.go:33 | Set keeps the keys sorted, reads back the new value, leaves every other key as it was and adds no other key |
| Kv.DeleteEntriesSpec | kv/interfaces.go:34 | Delete keeps the keys sorted, removes the key, leaves every other key as it was and adds no key |
| Kv.SetEntriesCount | kv/interfaces.go:33 | Set adds one entry exactly when the key is new |
| Kv.DeleteEntriesCount | kv/interfaces.go:34 | Delete drops one entry exactly when the key is present |
| Kv.Set | kv/interfaces.go:33 | Bucket.Set: the key reads back the value; other keys and the sequence are unchanged |
| Kv.Delete | kv/interfaces.go:34 | Bucket.Delete: the key reads as absent; other keys and the sequence are unchanged |
| Kv.EntryCounts | kv/interfaces.go:33-34 | the number of keys after Set and after Delete, by whether the key was present |
| Kv.NextSequence | kv/interfaces.go:35 | NextSequence increments the counter, leaves the entries alone, and returns the new value in decimal while it fits in int64 |
| Kv.Open | kv/interfaces.go:27 | Tx.Bucket(name, false) gives the existing bucket; for a missing one it gives nothing, except on a store where every bucket exists |
| Kv.OpenOrCreate | kv/interfaces.go:27 | Tx.Bucket(name, true) gives the existing bucket or a new empty one |
| Kv.CursorFirst | kv/interfaces.go:5 | Cursor.First gives the least entry, or nothing on an empty bucket |
| Kv.CursorNext | kv/interfaces.go:6 | Cursor.Next gives the entry after the last one read, or nothing past the end |
| Kv.SeekLands | kv/interfaces.go:7 | Cursor.Seek on bolt gives the first entry whose key is not below the one sought, and nil only when every key is below it, so on a sorted bucket a stored key finds its own entry and a missing one lands on a neighbour; the redis adapter's Seek finds exactly the key, and nil when it is absent |
| Kv.CeilingFirst | boltdb/store.go:135-136 | the bolt cursor's seek passes over only keys below the one sought, and stops at one that is not below it |
| Kv.CeilingHit | boltdb/store.go:135-136 | in a key-sorted bucket, the first entry not below a stored key is that key's own entry |
| Kv.SetGet | kv/interfaces.go:32-33 | a read after a Set gives the new value at that key and the old value elsewhere |
| Kv.SetIdempotent | kv/interfaces.go:33 | setting a key to the value it already holds changes nothing |
| Bolt.Begin | boltdb/store.go:49-58 | a new transaction is open, has the requested mode and has made no bolt call |
| Bolt.Commit | boltdb/store.go:73-82 | Commit closes the wrapper; it reaches bolt only for an open writable transaction, and reports only bolt's commit error |
| Bolt.Rollback | boltdb/store.go:84-90 | Rollback closes the wrapper, never reports an error, and reaches bolt once unless already closed |
| Bolt.CommitReleasing | boltdb/store.go:73-82 | the corrected Commit releases an open read-only transaction with a rollback; for a writable one it is Commit |
| Bolt.RunClosed | boltdb/store.go:73-90 | a closed wrapper ignores every further Commit and Rollback |
| Bolt.AtMostOneCall | boltdb/store.go:73-90 | of any sequence of Commit and Rollback calls, only the first can reach bolt |
| Bolt.CommitThenRollback | boltdb/store.go:73-90 | after a Commit, a Rollback never reaches bolt |
| Bolt.ReadTxNeverReleased | boltdb/store.go:78-81 | a read-only transaction closed by Commit then Rollback never reaches bolt at all |
| Bolt.CloseReleasesOnce | boltdb/store.go:73-90 | with the releasing Commit, Commit then Rollback reaches bolt exactly once, whatever the mode |
| Bolt.Bucket | boltdb/store.go:92-105 | opening without create gives the bucket or nil; creating succeeds only in a writable transaction with a non-empty name, and touches no other bucket |
| Bolt.CreateExisting | boltdb/store.go:93-98 | creating a bucket that exists returns it and changes nothing |
| Bolt.Get | boltdb/store.go:114-117 | bolt's Get never reports an error, and finds a value exactly when the key is present |
| Bolt.NextSequence | boltdb/store.go:127-133 | it fails on a read-only transaction; otherwise the unsigned 64-bit counter increments modulo 2^64, and the id is its int64 reading in decimal |
| Bolt.NextSequenceAgrees | boltdb/store.go:127-133 | below 2^63 - 1, bolt's sequence is the engine's sequence |
| Bolt.NextSequenceWraps | boltdb/store.go:132 | the id after 2^63 - 1 is negative |
| Redis.Get | redis/interfaces.go:13 | GET fails on a failing key, else finds a value exactly when the key is set |
| Redis.SetKey | redis/interfaces.go:14 | SET writes the one key, unless it fails |
| Redis.Del | redis/interfaces.go:15 | DEL removes the one key, unless it fails |
| Redis.IntOf | redis/bucket.go:29 | GetInt64 reads a stored value as strconv.ParseInt does, always within the int64 range |
| Redis.CounterOf | redis/interfaces.go:18 | the server's INCR reads a value only when it is the canonical decimal of an int64, which it then denotes as strconv.ParseInt reads it too |
| Redis.CounterOfFormatInt | redis/interfaces.go:18 | every int64 in decimal reads back as that counter |
| Redis.Incr | redis/interfaces.go:18 | INCR stores and returns the old integer plus one, or 1 for a missing key; it fails exactly on a failing key, a value that is not the canonical decimal of an int64, or a counter already at the int64 maximum; the result lies in the int64 range |
| Redis.IncrAgain | redis/interfaces.go:18 | INCR reads back what it wrote: a second INCR counts on by one, unless the first reached the int64 maximum |
| Redis.IncrRejectsNonCanonical | redis/bucket.go:20-30 | counters stored as "05", "+5" or "-0" are refused by INCR, while LastID reads them as 5, 5 and 0 |
| Redis.IncrNegative | redis/interfaces.go:18 | a negative counter counts up like any other: INCR on "-5" stores and returns -4 |
| Redis.BucketOf | redis/store.go:65-72 | bucket `name` prefixes its keys with `name_`, and keeps its counter under `_name_id` |
| Redis.BGet | redis/bucket.go:32-43 | bucket.Get reads the prefixed key |
| Redis.BSet | redis/bucket.go:45-48 | bucket.Set writes exactly the prefixed key |
| Redis.BDelete | redis/bucket.go:50-53 | bucket.Delete removes exactly the prefixed key |
| Redis.NextSequence | redis/bucket.go:55-61 | NextSequence increments the counter key and returns the new count in decimal |
| Redis.LastID | redis/bucket.go:20-30 | LastID is 0 without a counter key, and the counter's integer value otherwise |
| Redis.BucketSetGet | redis/bucket.go:32-48 | a read after a bucket Set gives the new value at that key and the old value at every other key of the bucket |
| Redis.PrefixSeparation | redis/store.go:66 | for bucket names without `_`, two prefixed keys coincide exactly when bucket and key both agree |
| Redis.PrefixCollision | redis/store.go:66 | key "b_1" of bucket "a" is key "1" of bucket "a_b" |
| Redis.CounterIsAKey | redis/store.go:69 | bucket `name`'s counter is key "id" of bucket `_name` |
| Redis.NextSequenceThenLastID | redis/bucket.go:20-61 | LastID reads back the id NextSequence just handed out, which is at least 1 when the counter was not negative |
| Redis.NextSequenceCounts | redis/bucket.go:20-61 | a bucket without a counter hands out "1" first, and every later id is one more than LastID |
| Redis.Scan | redis/cursor.go:38-57 | scan does nothing after an error, keeps a failed SCAN's error, and otherwise installs the returned page at index 0 |
| Redis.Init | redis/cursor.go:22-36 | init runs once: it reads LastID and scans the first page, or records the error |
| Redis.SeekFull | redis/cursor.go:133-146 | seek GETs the full key, records a failing GET, strips the prefix from a found key, and panics on a key shorter than the prefix |
| Redis.Seek | redis/cursor.go:123-130 | Seek gives nothing for a nil key or after an error, and otherwise finds exactly the bucket's own key, with its value |
| Redis.First | redis/cursor.go:71-89 | First after an error gives nothing and keeps the error |
| Redis.Next | redis/cursor.go:91-121 | Next after an error gives nothing and keeps the error |
| Redis.StickyError | redis/cursor.go:78-79 | once the cursor holds an error, First, Next and Seek all give nothing |
| Redis.InitOnce | redis/cursor.go:23-25 | init is idempotent |
| Redis.FreshNextIsFirst | redis/cursor.go:92-95 | Next on a fresh cursor is First |
| Redis.FirstRescans | redis/cursor.go:74-76 | First after paging away rescans from cursor 0 |
| Redis.NextOnPage | redis/cursor.go:103-107 | within a page, Next seeks the following key; a key deleted since the scan ends the walk |
| Redis.PageEnd | redis/cursor.go:109-120 | at a page end, Next fetches the following page only when the scan cursor, LastID and the page are all non-zero |
| Redis.Listed | redis/cursor.go:133-146 | the pairs a walk gives for a list of readable keys, with the prefix stripped |
| Redis.WalkRest | redis/cursor.go:91-121 | on a last page of readable keys, repeated Next gives exactly the rest of the page |
| Redis.SinglePage | redis/cursor.go:71-121 | a bucket whose keys fit in one SCAN page is walked in SCAN order, every key once |
| Redis.Begin | redis/store.go:40-46 | Begin succeeds exactly when the server's Begin does |
| Redis.BeginIgnoresWritable | redis/store.go:40-46 | the writable flag is ignored |
| Redis.BucketIgnoresCreate | redis/store.go:65-72 | the create flag is ignored: every bucket exists |
| Schema.TagName | kv/indexing.go:66-70 | the name part of a json tag is its longest comma-free prefix |
| Schema.TagSplit | kv/indexing.go:68-69 | the name of the tag "a,b" is a, and for a comma-free b its parts are a and b |
| Schema.NoCommaTag | kv/indexing.go:68-69 | a tag without a comma is its own name and its only part |
| Schema.Parts | kv/indexing.go:68-69 | strings.Split of a tag on "," begins with the tag's name part |
| Schema.NameOptionTag | kv/indexing.go:66-70 | the tag "name,opt" names the key name and carries the one option opt, so the field is omitempty exactly when opt is "omitempty" |
| Schema.MetaNameMismatch | kv/indexing.go:65-70 | makemeta's index key differs from the key encoding/json writes exactly when the tag starts with a comma |
| Schema.JsonValue | kv/collection.go:305-315 | after a JSON round trip every number is a float64, and every other value is unchanged |
| Schema.Encode | kv/collection.go:305-311 | json.Marshal writes at most one entry per field |
| Schema.EncodeKeys | kv/collection.go:305-311 | the keys of a stored document are exactly the JSON names of the fields json.Marshal writes: not tagged "-", and not omitempty while holding the empty value |
| Schema.EncodeWellFormed | kv/collection.go:305-315 | when the written fields have distinct JSON names, the stored document has distinct keys |
| Schema.EncodeLookup | kv/collection.go:305-315 | a written field reads back its JSON value under its JSON name; an omitted field reads as absent, and so does a "-" field whose key no written field shares |
| Schema.EncodeAbsent | kv/collection.go:305-315 | a name that no written field carries is absent from the encoding |
| Schema.EncodeOne | kv/collection.go:305-311 | one field is written under its JSON name with its JSON value, unless it is omitted |
| Schema.OmitsEmptyString | kv/collection.go:305-311 | an omitempty string field holding "" is left out of the document, and written with any other value |
| Schema.IdxNameInjective | kv/indexing.go:76 | within one collection, different fields get different index buckets, none of them the collection's own |
| Schema.IdxNameCollision | kv/indexing.go:76 | across collections index bucket names collide: ("a_b", "c") and ("a", "b_c") share one |
| Schema.MetasFromSpec | kv/indexing.go:57-83 | makemeta's loop lists exactly the string fields not named id or _id, in field order, each once; as written it also lists fields tagged "-", corrected it passes over them |
| Schema.MakeMetaAsWritten | kv/indexing.go:49-84 | makemeta as written lists every string field not named id or _id, tagged "-" or not, under the tag's name part (the Go name for an empty tag), reading that key from the bucket idx_<collection>_<name> |
| Schema.MakeMeta | kv/indexing.go:49-84 | the corrected makemeta lists every string field encoding/json writes and that is not named id or _id, under the key encoding/json writes |
| Schema.MetasFromAgree | kv/indexing.go:57-83 | two runs of the loop that take the same fields under the same names give the same metadata |
| Schema.MakeMetaAgrees | kv/indexing.go:49-84 | when no string field is tagged "-" or has a tag with an empty name part, makemeta as written equals the corrected makemeta, so its metadata meets MetaFor for a valid descriptor |
| Schema.MakeMetaSpec | kv/indexing.go:49-84 | the corrected makemeta gives one entry per string field encoding/json writes and that is not named id or _id, reading the key it writes, with pairwise distinct buckets none of which is the collection's |
| Schema.OmitEmptyTagMismatch | kv/indexing.go:66-70 | with the tag ",omitempty", makemeta as written indexes key "" while the stored document has key "Name" |
| Schema.IgnoredFieldIndexed | kv/indexing.go:59-80 | makemeta as written indexes a string field tagged "-" under key "-" in bucket idx_users_-, though json.Marshal never writes it; the corrected makemeta leaves it out |
| Schema.MakeSetters | reflection/meta.go:18-50 | the id, CreatedAt and UpdatedAt setters each bind the last field whose name matches, or none; a name matches id when strings.ToLower makes it "id", which takes i, I or İ followed by d or D |
| Schema.DottedCapitalIsId | reflection/meta.go:34 | a field named "İd" is the id field, as Go's case mapping lowers İ to i, while "Ïd" is not |
| Schema.SetAt | reflection/util.go:17-26 | a setter without a field does nothing; reflect's Set panics exactly when the value's type is not assignable to the field, that is, the field is neither of the value's type nor an interface the value's type implements (any empty interface, or for time.Time one whose methods it has); otherwise exactly that one field is written |
| KeyList.UnmarshalKeys | kv/indexing.go:210-220 | the one-pass loop gives the pieces ending at each 0 byte, dropping an unterminated tail |
| KeyList.UnmarshalNoNul | kv/indexing.go:210-220 | no decoded id holds a 0 byte |
| KeyList.EncodeRoundTrip | kv/indexing.go:200-220 | decoding the encoding of NUL-free ids gives them back, whatever NUL-free bytes follow |
| KeyList.MarshalRoundTrip | kv/indexing.go:200-220 | unmarshalKeys(marshal(ks)) is ks sorted, a permutation of ks |
| KeyList.IndexOf | kv/indexing.go:230-237 | indexOfString gives the first occurrence, or reports there is none |
| KeyList.RemoveFirst | kv/indexing.go:222-228 | keys.remove drops exactly one occurrence of the id, and nothing when it is absent |
| KeyList.RemoveFromNoDup | kv/indexing.go:222-228 | in a duplicate-free list, remove leaves exactly the other ids, still duplicate-free |
| KeyList.AppendFresh | kv/indexing.go:134-137 | appending an id not in the list keeps it duplicate-free |
| KeyList.SortNoDup | kv/indexing.go:201 | sorting keeps a list duplicate-free |
| Indexing.IdxKeys | kv/indexing.go:157-162 | the ids an index entry lists hold no 0 byte |
| Indexing.InsertKey | kv/indexing.go:128-140 | insert touches only the index bucket |
| Indexing.InsertKeySpec | kv/indexing.go:128-140 | the entry then lists the old ids and the new one, sorted; every other entry is unchanged |
| Indexing.RemoveKey | kv/indexing.go:142-170 | remove does nothing when there is no value, fails with errNotString on a non-string value, and touches only the index bucket |
| Indexing.RemoveKeySpec | kv/indexing.go:142-170 | afterwards the entry lists the old ids less the removed one, and is deleted when that leaves none; other entries are unchanged |
| Indexing.Opened | kv/indexing.go:94-100 | update creates the index bucket only when there is an old document |
| Indexing.Unindex | kv/indexing.go:94-106 | the remove half of update touches only the field's bucket, and does nothing without an old document |
| Indexing.Reindex | kv/indexing.go:108-123 | the insert half touches only the field's bucket, and does nothing for an empty value |
| Indexing.UpdateIndexes | kv/indexing.go:86-126 | update touches only the buckets of the indexed fields |
| Indexing.UnreadStaysListed | kv/indexing.go:94-123 | when the old document has no value for the field, update removes nothing, so the id stays listed under the value it was indexed by, beside the new one |
| Indexing.CleanField | kv/indexing.go:173-191 | one step of clean touches only the index bucket of that field |
| Indexing.Clean | kv/indexing.go:172-194 | clean touches only the index buckets of the stored document's fields |
| Collection.Count | kv/collection.go:36-59 | Count fails with errNotFound exactly when the collection has no bucket, and otherwise is the number of stored keys |
| Collection.Get | kv/collection.go:111-136 | Get fails with errNotFound for a missing collection or id, and succeeds exactly on a stored JSON document, giving it |
| Collection.InsertOne | kv/collection.go:80-105 | one insert step keeps the store valid and the document well typed, gives the id field the next sequence number in decimal, and fails when stamping fails |
| Collection.StampUpdated | kv/collection.go:153-155 | Update sets the last field named UpdatedAt to now and nothing else; without such a field the document is unchanged, and it panics exactly when that field can hold no time.Time: it is neither a time.Time nor an interface time.Time implements, such as `interface{}` |
| Collection.InterfaceFieldsStamped | kv/collection.go:86-89 | an `interface{}` id takes the new id and an interface CreatedAt that time.Time implements takes the time |
| Collection.StringIntoMethodsPanics | kv/collection.go:86-87 | an id field of an interface with methods panics, as a string implements none |
| Collection.Stamp | kv/collection.go:86-89 | stamping keeps the document well typed, and the id field, when there is one, holds the new id |
| Collection.InsertAll | kv/collection.go:80-105 | the loop stamps one document per input, each well typed |
| Collection.Insert | kv/collection.go:62-108 | Insert fails with errNotFound for a missing collection, and otherwise stamps one document per input |
| Collection.UpdateDoc | kv/collection.go:201-222 | update reports errNotFound and changes nothing when the id is not stored |
| Collection.UpdateById | kv/collection.go:152-185 | Update by id fails for a missing collection or id |
| Collection.DeleteDoc | kv/collection.go:267-291 | delete reports errNotFound and changes nothing when the id is not stored; on success the id reads as absent |
| Collection.DeleteById | kv/collection.go:225-249 | Delete by id fails with errNotFound for a missing collection or id; on success the id reads as absent |
| Consistency.InsertOnePreserves | kv/collection.go:80-105 | storing one document under the next sequence id and indexing it succeeds, and keeps the index invariant (for metadata meeting Schema.MetaFor: makemeta's own whenever no string field is tagged "-" or has an empty tag name, Schema.MakeMetaAgrees) |
| Consistency.InsertAllPreserves | kv/collection.go:80-105 | the insert loop keeps the index invariant (for metadata meeting Schema.MetaFor: makemeta's own whenever no string field is tagged "-" or has an empty tag name, Schema.MakeMetaAgrees) |
| Consistency.InsertHead | kv/collection.go:80-105 | one insert step: the sequence and the count grow by one, the new id holds the encoding, and the documents already there are untouched (for metadata meeting Schema.MetaFor: makemeta's own whenever no string field is tagged "-" or has an empty tag name, Schema.MakeMetaAgrees) |
| Consistency.InsertAllContents | kv/collection.go:80-105 | after the loop, the i-th stamped document is stored under the i-th next sequence id, and earlier documents are untouched (for metadata meeting Schema.MetaFor: makemeta's own whenever no string field is tagged "-" or has an empty tag name, Schema.MakeMetaAgrees) |
| Consistency.InsertPreserves | kv/collection.go:62-108 | Insert keeps the index invariant; the count grows by the number inserted; each document reads back, stamped, under its id (for metadata meeting Schema.MetaFor: makemeta's own whenever no string field is tagged "-" or has an empty tag name, Schema.MakeMetaAgrees) |
| Consistency.UpdateDocPreserves | kv/collection.go:201-222 | overwriting a stored document keeps the invariant; the id holds the new encoding; other documents and the count are unchanged (for metadata meeting Schema.MetaFor: makemeta's own whenever no string field is tagged "-" or has an empty tag name, Schema.MakeMetaAgrees) |
| Consistency.UpdateByIdPreserves | kv/collection.go:152-185 | Update by id keeps the invariant; Get gives the stamped document back; the count is unchanged (for metadata meeting Schema.MetaFor: makemeta's own whenever no string field is tagged "-" or has an empty tag name, Schema.MakeMetaAgrees) |
| Consistency.DeleteDocPreserves | kv/collection.go:267-291 | deleting a stored document keeps the invariant; the id holds nothing; other documents are unchanged; the count drops by one (for metadata meeting Schema.MetaFor: makemeta's own whenever no string field is tagged "-" or has an empty tag name, Schema.MakeMetaAgrees) |
| Consistency.DeleteByIdPreserves | kv/collection.go:225-249 | Delete by id keeps the invariant; Get then fails with errNotFound; the count drops by one (for metadata meeting Schema.MetaFor: makemeta's own whenever no string field is tagged "-" or has an empty tag name, Schema.MakeMetaAgrees) |
| Consistency.EncodedFields | kv/indexing.go:108-110 | the stored document gives every indexed field the string the getter reads: under its key, or absent when an omitempty field holds "" |
| Consistency.UpdateIndexesSpec | kv/indexing.go:86-126 | when the collection's bucket already holds the new document, update brings every index back into agreement with the stored documents |
| Consistency.CleanSpec | kv/indexing.go:172-194 | once a document is deleted, clean drops its id from every index and leaves the indexes agreeing with what remains |
| Consistency.NextIdFresh | kv/collection.go:81 | the next sequence id is not yet a key of the collection |
| Filter.FieldName | kv/filter.go:62-64 | the field `_id` is looked up as `id`, every other name as itself |
| Filter.Compile | kv/filter.go:23-59 | condition fails only on an empty map or an Op of unknown kind (a map fails exactly when it is empty or holds such an Op), and compiles a node kind it does not know to the nil predicate |
| Filter.CompileAll | kv/filter.go:27-44 | a list compiles to one predicate per item, or fails with one of condition's two errors |
| Filter.CompileField | kv/filter.go:61-116 | a field test compiles unless it is an Op of an unknown kind, which panics with "invalid op" |
| Filter.CompileFields | kv/filter.go:49-52 | a map compiles exactly when none of its tests has an unknown Op kind, one compiled test per field |
| Filter.MakeFilterFn | kv/filter.go:12-21 | no filter gives a nil function; otherwise it is the conjunction of one compiled condition per item, and compiles exactly when each item does |
| Filter.AnyEqual | kv/filter.go:67-74 | the In test holds exactly when some listed value compares equal |
| Filter.FieldEval | kv/filter.go:61-126 | a compiled field test holds exactly when the independent meaning of the test holds of the document |
| Filter.CompileEvalHolds | kv/filter.go:23-59 | a valid condition compiles, and the compiled function computes the independent meaning of the condition |
| Filter.MakeFilterFnHolds | kv/filter.go:12-21 | the filter function accepts a document exactly when every item of the filter holds of it |
| Filter.EmptyMPanics | kv/filter.go:46-48 | an empty map panics with "invalid query", also nested inside And |
| Filter.UnknownOpPanics | kv/filter.go:107-108 | an Op with an unknown kind panics with "invalid op" |
| Filter.AbsentFieldTests | kv/filter.go:118-132 | a test on a missing field is false, so its Not is true |
| Filter.ConstructorsSemantics | q/model.go:46-68 | LT, LTE, GT, GTE and NotEqual test Compare against the value with <, <=, >, >= and != 0 |
| Filter.RawNodeFailsLate | kv/filter.go:58 | a condition of an unknown type compiles to a nil function, which fails only when called |
| Lookup.Add | kv/lookup.go:182-188 | hashset.add keeps the set duplicate-free and adds exactly the key |
| Lookup.ToArray | kv/lookup.go:190-197 | toArray lists exactly the set's members, strictly ascending |
| Lookup.FieldKeys | kv/lookup.go:53-78 | an id test gives the id itself when it is a string; a string equality on another field gives the ids its index entry lists; any other test gives none |
| Lookup.MKeys | kv/lookup.go:26-48 | a map gives, in ascending order, exactly the ids every one of its field tests gives, and none for an empty map |
| Lookup.CondKeys | kv/lookup.go:18-51 | every key set the lookup gives is strictly ascending |
| Lookup.AndKeys | kv/lookup.go:80-102 | and gives an ascending key set, and indexes out of range on an empty list |
| Lookup.OrKeys | kv/lookup.go:104-116 | or gives an ascending key set, and indexes out of range on an empty list |
| Lookup.Find | kv/lookup.go:14-16 | find gives an ascending key set, and indexes out of range on an empty filter |
| Lookup.FirstUnindexed | kv/lookup.go:144-167 | the position of the first field test whose index bucket is missing, or the end |
| Lookup.FieldsSuitable | kv/lookup.go:144-168 | a map is suitable exactly when the first test without an index bucket is an id test, or there is none |
| Lookup.IsSuitable | kv/lookup.go:119-171 | Not and conditions of unknown type are never suitable |
| Lookup.AllSuitable | kv/lookup.go:137-143 | a list is suitable exactly when every item is |
| Lookup.FieldExact | kv/lookup.go:53-78 | on a consistent store, an exact field test resolves to the ids of exactly the documents it holds of |
| Lookup.CondExact | kv/lookup.go:18-51 | on a consistent store, the ids an exact condition resolves to are exactly the stored documents it holds of |
| Lookup.AndExact | kv/lookup.go:80-102 | on a consistent store, and resolves to exactly the documents every item holds of |
| Lookup.OrExact | kv/lookup.go:104-116 | on a consistent store, or resolves to exactly the documents some item holds of |
| Lookup.FindExact | kv/lookup.go:14-16 | on a consistent store, find returns, strictly ascending, exactly the stored documents the scan's filter accepts |
| Lookup.SuitableOrderDependent | kv/lookup.go:144-167 | isSuitable depends on the map's order: an id test met first makes it suitable despite a missing index bucket; met last it does not |
| Lookup.EmptyStringMissed | kv/lookup.go:155-166 | an equality with "" is suitable, yet the index never lists "", so a document the scan selects is not found |
| Lookup.EmptyAndPanics | kv/lookup.go:80-84 | an empty And is suitable, and find then indexes out of range |
| Lookup.NestedSliceResolvesEmpty | kv/lookup.go:137-143 | a nested plain list is suitable, yet resolves to no keys at all |
| FilterIter.New | kv/filteriter.go:10-18 | the scan iterator starts fresh, holds the compiled filter exactly when there is one, and compiles exactly when the filter does |
| FilterIter.Accept | kv/filteriter.go:109-120 | without a filter every pair is accepted; with one, an undecodable value is an error |
| FilterIter.Next | kv/filteriter.go:42-86 | Next after close is false; false closes the iterator; true leaves a current pair and advances the cursor |
| FilterIter.CollectNew | kv/filteriter.go:42-130 | the scan passes over the first `skip` matches, then yields the next match whatever the limit, and the limit then counts the skipped matches too |
| FilterIter.CollectNoSkip | kv/filteriter.go:42-130 | without skip, the scan yields the accepted pairs in key order, up to the limit |
| FilterIter.SkipUsesLimit | kv/filteriter.go:88-107 | with skip s > 0 and limit l > 0 and more than s matches, min(matches - s, max(1, l - s)) pairs come out |
| FilterIter.DecodeFailureStops | kv/filteriter.go:71-75 | an undecodable first value under a filter ends the scan with that error and nothing yielded |
| KeysIter.New | kv/keysiter.go:4-11 | the index iterator starts fresh at key 0 with nothing counted |
| KeysIter.Next | kv/keysiter.go:35-80 | Next after close is false; false closes the iterator; true leaves the pair a seek landed on as current and moves past the previous key |
| KeysIter.CollectNew | kv/keysiter.go:35-80 | the index iterator yields the entries the seeks of the listed keys land on, in list order, less the first `skip` of them, up to the limit |
| KeysIter.FoundMembers | kv/keysiter.go:62-72 | an entry is fetched exactly when the seek of some listed key lands on it |
| KeysIter.ExactFound | kv/keysiter.go:62-72 | with a seek that matches exactly, the index path fetches the stored entries of the listed keys and nothing else |
| SortIter.New | kv/sortiter.go:12-20 | a sort stage starts fresh around the given iterator and fields |
| SortIter.Next | kv/sortiter.go:45-79 | the first call drains the wrapped iterator and keeps a permutation of what it yielded; later calls step through that data |
| SortIter.LessByAsymmetric | kv/sortiter.go:90-117 | on documents whose sort fields hold nil, float64 or string values, Less is asymmetric |
| SortIter.LessByNegTransitive | kv/sortiter.go:90-117 | on such documents, "not less" is transitive, so Less is a strict weak order |
| SortIter.CollectNew | kv/sortiter.go:45-79 | a sort stage panics on an undecodable value, passes an error of the wrapped iterator on, and otherwise yields each pair once, sorted |
| SortIter.CollectSorted | kv/sortiter.go:45-117 | on documents whose sort fields hold nil, float64 or string values, the output is ordered by Less |
| SortIter.Wrap | kv/sortiter.go:12-15 | without sort fields the iterator is passed through unchanged |
| SortIter.SortByNameAscending | kv/sortiter.go:90-117 | sorting Bob, Rob, Ben by "name" gives Ben, Bob, Rob |
| SortIter.SortByNameDescending | kv/sortiter.go:94-98 | sorting them by "-name" gives Rob, Bob, Ben |
| View.FindView | kv/collection.go:144-149 | Find makes a view of the filter with no limit, skip or sort |
| View.Limit | kv/view.go:110-114 | Limit sets the limit and changes nothing else |
| View.Skip | kv/view.go:117-121 | Skip sets skip and changes nothing else |
| View.Sort | kv/view.go:124-128 | Sort sets the sort fields and changes nothing else |
| View.Plan | kv/view.go:150-165 | the index path is taken exactly when the planner allows it, and otherwise the scan |
| View.OpenCursor | kv/view.go:135-179 | the cursor fails with errNotFound without a collection, runs in a new transaction, and wraps the planned iterator in the sort stage |
| View.Count | kv/view.go:30-40 | Count is the number of pairs the cursor yields, unless the pipeline panics, and then it is that panic |
| View.One | kv/view.go:43-52 | One decodes the first pair the cursor yields; with none, it is the panic that ended the pipeline, if one did, and errNotFound otherwise |
| View.DecodeAll | kv/view.go:97-107 | decoding a list succeeds exactly when every value is a JSON document, giving them in order |
| View.All | kv/view.go:55-95 | All needs a slice address, and otherwise decodes every pair the cursor yields; a value that does not decode ends it, and otherwise a panic that ended the pipeline is passed on |
| View.SortReordersWindow | kv/view.go:167-169 | sorting permutes the window the unsorted view yields |
| View.FoundSorted | kv/keysiter.go:62-72 | seeks that each land on the key sought, taken in strictly ascending key order, fetch entries in key order |
| View.DocStored | kv/collection.go:111-136 | a key holding a stored document is a key of the collection's bucket |
| View.FoundStored | kv/keysiter.go:62-72 | when every listed key is stored, bolt's seeks land on the keys themselves, so the index path fetches exactly their stored entries, in key order |
| View.FoundIsMatches | kv/view.go:152-165 | on a consistent store, for a filter the indexes answer exactly, the index iterator fetches exactly the entries the scan accepts |
| View.PlannerAgrees | kv/view.go:135-179 | for such a filter without skip, the view yields the same pairs on the index path as on the scan path |
| View.NilFilterPanics | kv/view.go:30-40 | a filter And holding a non-query operand panics in the filter stage, and Count passes the panic on instead of counting |
| View.IdLookup | kv/lookup.go:53-59 | the planner answers an id equality with that id, whether or not it is stored |
| View.MissingIdSeeksNext | kv/lookup.go:53-59 | the id lookup "0" over stored ids "1", "2", "3" takes the index path, and bolt's Seek lands on "1", so the view yields that document and Count is 1 |
| ViewCursor.Close | kv/cursor.go:16-29 | Close runs once: it commits, then rolls back unless the commit failed, and reports only the commit's error; over the wrapper as written, bolt hears a commit from a writable cursor and nothing from a read-only one |
| ViewCursor.CloseReleasing | kv/cursor.go:16-29 | with the releasing Commit, closing an open transaction reaches bolt exactly once: a commit when writable, a rollback otherwise |
| ViewCursor.PanicOf | kv/cursor.go:47-52 | the iterator error that unwinds through next is exactly a panic |
| ViewCursor.Step | kv/cursor.go:42-60 | next is false once closed; a returned iterator error closes the cursor with a rollback and is swallowed; a panic leaves it with the transaction open; the end closes it |
| ViewCursor.Drain | kv/cursor.go:42-60 | calling next until false leaves the cursor closed, unless a panic cut it short, which leaves the transaction as it was |
| ViewCursor.Next | kv/cursor.go:31-40 | cursor.Next decodes the current pair, with its key as the id; it is none at the end, and a panic passes through |
| ViewCursor.CloseIdempotent | kv/cursor.go:17-19 | a second Close returns nil and touches nothing |
| ViewCursor.DrainYields | kv/cursor.go:42-60 | draining gives exactly what the iterators yield before the end or the first error, and passes a panic on; otherwise bolt hears one rollback after an iterator error, one commit at the end of a writable cursor, and nothing at the end of a read-only one |
| ViewCursor.ReadCursorNeverReleased | kv/cursor.go:16-29 | a read-only cursor that reaches its end closes its transaction with no call reaching bolt |
| ViewCursor.FirstStep | kv/cursor.go:42-60 | the first next() succeeds exactly when there is something to yield, and stands on the first pair; it panics exactly when the pipeline panics before its first pair |
| ByFilter.SelectorView | kv/collection.go:293-303 | a nil selector selects everything, any other is the one-item filter |
| ByFilter.UpdateWhere | kv/collection.go:187-198 | Update by filter fails without changing the store when stamping or opening the cursor fails |
| ByFilter.UpdateFirstMatch | kv/collection.go:187-198 | nothing selected is errNotFound, or the panic that ended the selection; otherwise only the first selected document is updated, and a failed commit loses the update silently |
| ByFilter.DeleteGiven | kv/collection.go:267-291 | delete with a value in hand removes exactly that key, and fails on an undecodable value without a change |
| ByFilter.DeleteWhere | kv/collection.go:251-264 | Delete with a selector returns the error when the cursor cannot be opened, and whenever it returns an error the store is as it was |
| ByFilter.DeleteLoopIsEach | kv/collection.go:256-264 | the delete loop deletes exactly the pairs the cursor yields, then passes on a panic that ended them; an error leaves the cursor's transaction as it was |
| ByFilter.DeletePanics | kv/collection.go:251-264 | a panic in the selection after deletes that all succeed is passed on, and the store is left as it was |
| ByFilter.DeleteEachRemoves | kv/collection.go:256-262 | deleting stored pairs one by one removes exactly their keys |
| ByFilter.DeleteDrained | kv/collection.go:251-264 | Delete removes exactly the selected keys once bolt commits, changes nothing when the commit fails, and reports success either way |
| ByFilter.DeleteEverything | kv/collection.go:251-264 | Delete with a nil selector empties the collection |
| ByFilter.DeleteMatches | kv/collection.go:251-264 | Delete with a filter removes exactly the stored documents the filter accepts, whichever path the planner takes |
| ByFilter.DeleteErrorLeavesTxOpen | kv/collection.go:258-261 | an error in the delete loop returns without closing the transaction |
| Postgres.MapField | postgresql/filter.go:97-102 | id and _id map to the id column; any other name maps to `data->>'name'`, with the name quoted verbatim |
| Postgres.ParseIntValue | postgresql/filter.go:141-157 | int64 and uint64 pass unchanged; a string becomes the int64 it denotes when ParseInt accepts it; anything else is nil |
| Postgres.MapInt | postgresql/filter.go:104-139 | an Op test on the id always maps to nil; an In, NotIn or equality maps exactly when every value parses, value by value |
| Postgres.Param | postgresql/filter.go:159-162 | param appends the value and names it `$n`, n being the new number of arguments |
| Postgres.ParamList | postgresql/filter.go:79-82 | a list of values gets consecutive placeholders, numbered on from the arguments so far |
| Postgres.SqlOp | postgresql/filter.go:165-180 | sqlop gives "" exactly for an unknown kind; otherwise the SQL operator holds on a comparison's sign exactly when the kind does |
| Postgres.Field | postgresql/filter.go:68-95 | a field test renders to nothing exactly when it is an id test whose value does not map; otherwise it renders its column first; it adds exactly its own arguments |
| Postgres.Condition | postgresql/filter.go:29-66 | a condition renders exactly when it holds no condition of unknown type (which panics), and adds exactly its own arguments in order |
| Postgres.MakeFilter | postgresql/filter.go:11-27 | makeFilter renders exactly when every item does; its arguments are all the items' arguments in order; no filter gives ("", none) |
| Postgres.PlaceholdersMatchArguments | postgresql/filter.go:11-162 | for field names without `$`, the rendered filter holds exactly one `$` per argument |
| Postgres.EmptyConditionNoParams | postgresql/filter.go:37-39 | a condition that renders to nothing adds no argument, so dropping it loses none |
| Postgres.StringIdParsed | postgresql/filter.go:69-75 | a decimal id string is passed as the integer it denotes |
| Postgres.IdOpDropped | postgresql/filter.go:126-131 | an Op on the id drops out of an And, but a top-level list keeps it as an empty condition, so the rendered filter starts with " and " |
| Postgres.Limit | postgresql/query.go:84-88 | Limit copies the query, changing only the limit |
| Postgres.Skip | postgresql/query.go:91-95 | Skip copies the query, changing only the skip |
| Postgres.Sort | postgresql/query.go:98-102 | Sort copies the query, changing only the sort fields |
| Postgres.OrderBy | postgresql/query.go:53-66 | orderBy is "" exactly without sort fields, and otherwise starts with ORDER BY |
| Postgres.DescendingItem | postgresql/query.go:59-60 | a leading "-" only adds DESC to the item |
| Postgres.Statement | postgresql/query.go:49 | the statement starts with SELECT, the columns and the table, and ends with the WHERE clause |
| Postgres.SelectStmt | postgresql/query.go:31-51 | makeSelectStmt succeeds exactly when the filter renders, and passes the filter's arguments |
| Postgres.BareSelect | postgresql/query.go:31-51 | with nothing set, the statement is "SELECT id, data FROM " and the table |
| Postgres.LimitBeforeOrderBy | postgresql/query.go:49 | with a limit and a sort, " LIMIT " comes before " ORDER BY " in the statement |
| Postgres.OrderedStatement | postgresql/query.go:31-51 | the corrected statement starts with the head and the WHERE clause, and ends with LIMIT and OFFSET |
| Postgres.OrderedSameLength | postgresql/query.go:49 | the corrected statement is as long as the one as written: reordering drops and adds nothing |
| Postgres.OrderByBeforeLimit | postgresql/query.go:49 | in the corrected statement, " ORDER BY " comes before " LIMIT " |
| Mongo.Lookup | mongo/filter.go:39-45 | a key of a document is found exactly when it is one of its keys |
| Mongo.Put | mongo/filter.go:45 | `m[key] = v` keeps keys distinct, adds exactly the key, and appends a new key at the end |
| Mongo.PutLookup | mongo/filter.go:45 | after `m[key] = v` the key reads v, and every other key reads as before |
| Mongo.MongoKey | mongo/filter.go:41-44 | the field "id" becomes "_id"; every other name is kept |
| Mongo.MongoOp | mongo/filter.go:53-65 | a plain value is passed as is; an Op, In or NotIn becomes a one-key document whose key starts with `$`, holding an array exactly for In and NotIn |
| Mongo.FieldDoc | mongo/filter.go:38-47 | a map's document has distinct keys, exactly the mapped field names |
| Mongo.MongoCondition | mongo/filter.go:22-51 | a condition translates to a document exactly when it holds no condition of unknown type, which panics |
| Mongo.MongoConditions | mongo/filter.go:27-30 | a list translates item by item |
| Mongo.MongoFilter | mongo/filter.go:8-20 | mongoFilter is nil exactly for no filter, and translates exactly when every item does |
| Mongo.ValsRoundTrip | mongo/filter.go:59-61 | the values of an In or NotIn array read back unchanged |
| Mongo.OpRoundTrip | mongo/filter.go:53-65 | mongoOp is inverted by reading the document back |
| Mongo.FieldDocWellNamed | mongo/filter.go:38-47 | for distinct names other than _id, the map's document holds one key per field, in field order |
| Mongo.MapRoundTrip | mongo/filter.go:38-47 | for such names, reading the document back gives the map |
| Mongo.ConditionRoundTrip | mongo/filter.go:22-51 | for such names, reading the translation back gives the condition |
| Mongo.TranslationInjective | mongo/filter.go:22-51 | for such names, two conditions translate alike exactly when they are equal |
| Mongo.FilterReadsBack | mongo/filter.go:8-20 | a one-item filter reads back as its item, a longer one as the And of its items |
| Mongo.IdKeyCollision | mongo/filter.go:41-45 | a map with both "id" and "_id" keeps only the one written last |

## Left out

- I/O failures of bolt and redis: the primitive's own errors appear only as the `Backend` error a transaction may carry, not as failures of individual reads and writes.
- JSON encoding and reflection: `encoding/json` is an abstract encode/decode over maps with decoded numbers as `real`. The reflected struct type is replaced by an explicit descriptor of its fields (name, json tag, kind: string, time.Time, an interface with whether it is empty and whether time.Time implements it, or any other type); the setters and getters of reflection/meta.go and reflection/util.go are modelled over that descriptor. Unexported fields are assumed absent, and tag names are taken as encoding/json's isValidTag would accept them. The metadata cache of kv/indexing.go:26-47 is left out.
- Clocks: `time.Now` in Insert and Update is a parameter `now`.
- Concurrency: the index-metadata mutex and transaction isolation, which the primitive provides.
- Floating point: float64 is `real`, with no rounding, NaN or infinities.
- Go map iteration order: a `q.M` and a decoded document are sequences of pairs with distinct names, and the order of that sequence stands in for the order Go happens to use.
- The ledis adapter (ledis/store.go) and the redigo connection (redis/redis.go): network I/O.
- Redis SCAN: the page SCAN returns is a parameter of the cursor model, so the redis cursor yields keys in SCAN order, not in key order.
- Redis.Begin: Commit and Rollback of redis/store.go:57-63 forward to the backend transaction and are not modelled further; logKeys and makeKey are debugging helpers.
- Executing SQL and Mongo queries (postgresql/collection.go, postgresql/store.go, postgresql/cursor.go, mongo/collection.go, mongo/view.go, mongo/store.go, mongo/cursor.go): database I/O; only the translators are modelled.
- Mongo.MongoCondition: the child of a `Not` is kept as an `Untranslated` node, because the Go code hands the raw condition to the driver; an empty `And` or `Or` gives a nil list in Go, which the model does not tell apart from an empty array.
- ByFilter.DeleteGiven: the pairs to delete are the ones the cursor yields from the bucket as it was when the cursor opened; bolt's behaviour when a bucket is modified under an open cursor is not modelled.
- Kv.NextSequence: bolt's sequence is an unbounded counter here; its decimal form is only promised to parse back while it stays below 2^63.
- SortIter.CollectSorted: ordering is proved only for documents whose sort fields hold nil, float64 or string values, because Compare on integer and bool pairs is not a total order.
- FilterIter.CollectNoSkip: the yielded pairs are described only when every scanned value decodes and the predicate does not panic on it.
- Lookup.FindExact: exactness is proved only on a consistent store and for filters every node of which the index answers exactly (non-empty And, Or and M nodes whose field tests are non-empty string equalities on indexed fields other than the id).
- View.PlannerAgrees: stated without skip, for the same class of filters, on a bucket holding only JSON documents; the index and scan paths differ otherwise, as Lookup.EmptyStringMissed shows.
- Wiring: kv/debug.go (logging), driver.go and init.go (driver registration), util/strings.go (environment substitution), and the panicking bucket bootstrap of kv/store.go:34-56.
- Signatures: kv/interfaces.go and redis/interfaces.go give the shape of the primitive and carry no behaviour of their own.

## Findings

| source | as written | input that shows it | evidently intended | confidence | as-written member | corrected member |
|---|---|---|---|---|---|---|
| kv/indexing.go:66-70 | the index field name is the first component of the json tag, even when that component is empty | a string field `Name` tagged `json:",omitempty"` in collection `users`: the index bucket is `idx_users_` and reads key `""`, while encoding/json stores the value under `Name` | an empty tag name falls back to the Go field name, as encoding/json does | not executed | Schema.OmitEmptyTagMismatch | Schema.MakeMetaSpec |
| boltdb/store.go:73-82 | Commit on a read-only transaction only marks it closed, and the Rollback that kv/cursor.go:23-28 calls next returns early on the closed flag | any read-only cursor that reaches its end: Close makes no call to bolt, so its read transaction is never released | closing a read-only transaction rolls it back in bolt exactly once | not executed | ViewCursor.ReadCursorNeverReleased | ViewCursor.CloseReleasing |
| kv/keysiter.go:64-69 | the key iterator takes whatever entry Seek lands on, and bolt's Seek (boltdb/store.go:135-136) lands on the next key when the one sought is missing; kv/lookup.go:53-59 answers an id equality with the id whether stored or not | `Find(M{"id": "0"})` over stored ids "1", "2", "3": the view yields the document under "1" and Count is 1 | a seek that misses yields nothing, so a missing id selects no document | not executed | View.MissingIdSeeksNext | KeysIter.ExactFound |
| kv/indexing.go:59-80 | makemeta indexes every string field, including one tagged `json:"-"`, under the key "-"; json.Marshal never writes that field, so update and clean never find its old value | a string field `Secret` tagged `json:"-"` in collection `users`: its values are listed in idx_users_-, and an update that changes it leaves the id listed under the old value too (Indexing.UnreadStaysListed) | fields encoding/json leaves out are not indexed | not executed | Schema.IgnoredFieldIndexed | Schema.MakeMetaSpec |
| postgresql/query.go:49 | the statement is assembled as head, LIMIT, OFFSET, ORDER BY, then WHERE | a query with Limit(1) and Sort("name"): the statement reads "... LIMIT 1 ORDER BY ...", which PostgreSQL rejects | WHERE, then ORDER BY, then LIMIT and OFFSET | not executed | Postgres.LimitBeforeOrderBy | Postgres.OrderByBeforeLimit |

=== FILE: bolt.dfy ===
/** The bolt adapter (boltdb/store.go): the engine's transaction, bucket and
    sequence calls mapped onto a bolt database. The transaction wrapper keeps
    a closed flag so that only the first Commit or Rollback reaches bolt, and
    a Commit of a read-only transaction reaches nothing. What bolt itself
    reports from a commit (disk I/O) is a parameter of the transaction. */
module Bolt {
  import opened Wrappers
  import opened Kv
  import Strings
  import Values

  const TxNotWritable: Error := Backend("tx not writable")
  const BucketNameRequired: Error := Backend("bucket name required")

  // ------------------------------------------------------------ transactions

  /** A call that reached bolt's own transaction. */
  datatype Call = BoltCommit | BoltRollback

  /** txImpl: the wrapped bolt transaction, seen through the calls that reached
      it; `commitErr` is what bolt's Commit reports. */
  datatype Tx = Tx(writable: bool, closed: bool, commitErr: Option<Error>, calls: seq<Call>)

  /** store.Begin. */
  function Begin(writable: bool, commitErr: Option<Error>): (r: Tx)
    ensures r.writable == writable && !r.closed && r.calls == []
  {
    Tx(writable, false, commitErr, [])
  }

  /** txImpl.Commit: a no-op once closed; otherwise close, and commit in bolt
      only a writable transaction. */
  function Commit(tx: Tx): (r: (Tx, Option<Error>))
    ensures r.0.closed && r.0.writable == tx.writable && r.0.commitErr == tx.commitErr
    ensures tx.closed ==> r == (tx, None)
    ensures r.0.calls == tx.calls || r.0.calls == tx.calls + [BoltCommit]
    ensures r.0.calls != tx.calls <==> !tx.closed && tx.writable
    ensures r.1.Some? ==> !tx.closed && tx.writable && r.1 == tx.commitErr
  {
    if tx.closed then (tx, None)
    else if tx.writable then (tx.(closed := true, calls := tx.calls + [BoltCommit]), tx.commitErr)
    else (tx.(closed := true), None)
  }

  /** txImpl.Rollback: a no-op once closed; otherwise close and roll back in
      bolt. */
  function Rollback(tx: Tx): (r: (Tx, Option<Error>))
    ensures r.0.closed && r.0.writable == tx.writable && r.0.commitErr == tx.commitErr
    ensures r.1.None?
    ensures tx.closed ==> r.0 == tx
    ensures !tx.closed ==> r.0.calls == tx.calls + [BoltRollback]
  {
    if tx.closed then (tx, None) else (tx.(closed := true, calls := tx.calls + [BoltRollback]), None)
  }

  /** A Commit that releases a read-only transaction in bolt, which the
      cursor's Close (Commit, then Rollback) evidently relies on. */
  function CommitReleasing(tx: Tx): (r: (Tx, Option<Error>))
    ensures r.0.closed && r.0.writable == tx.writable && r.0.commitErr == tx.commitErr
    ensures tx.closed ==> r == (tx, None)
    ensures !tx.closed ==> r.0.calls == tx.calls + [if tx.writable then BoltCommit else BoltRollback]
    ensures r.1.Some? ==> !tx.closed && tx.writable && r.1 == tx.commitErr
    ensures tx.writable ==> r == Commit(tx)
  {
    if tx.closed then (tx, None)
    else if tx.writable then Commit(tx)
    else (tx.(closed := true, calls := tx.calls + [BoltRollback]), None)
  }

  /** A Commit or Rollback call on the wrapper. */
  datatype Op = DoCommit | DoRollback

  function Run(tx: Tx, ops: seq<Op>): Tx
    decreases |ops|
  {
    if |ops| == 0 then tx
    else Run(if ops[0] == DoCommit then Commit(tx).0 else Rollback(tx).0, ops[1..])
  }

  /** A closed wrapper ignores every further call. */
  lemma {:induction false} RunClosed(tx: Tx, ops: seq<Op>)
    requires tx.closed
    ensures Run(tx, ops) == tx
    decreases |ops|
  {
    if |ops| > 0 {
      RunClosed(tx, ops[1..]);
    }
  }

  /** Whatever sequence of Commit and Rollback calls the engine makes, at most
      one of them reaches bolt, and it is the first. */
  lemma {:induction false} AtMostOneCall(tx: Tx, ops: seq<Op>)
    requires !tx.closed && |ops| > 0
    ensures Run(tx, ops).closed
    ensures Run(tx, ops).calls == tx.calls + (
      if ops[0] == DoRollback then [BoltRollback]
      else if tx.writable then [BoltCommit]
      else [])
  {
    var tx1 := if ops[0] == DoCommit then Commit(tx).0 else Rollback(tx).0;
    RunClosed(tx1, ops[1..]);
  }

  /** After a Commit, Rollback never reaches bolt: this is how kv's cursor
      closes every transaction it opened. */
  lemma CommitThenRollback(tx: Tx)
    ensures Rollback(Commit(tx).0) == (Commit(tx).0, None)
  {
  }

  /** A read-only transaction closed by Commit then Rollback is never rolled
      back in bolt, so bolt never releases it. */
  lemma ReadTxNeverReleased(commitErr: Option<Error>)
    ensures var tx := Commit(Begin(false, commitErr)).0;
      Rollback(tx).0.calls == [] && Rollback(tx).0.closed
  {
  }

  /** With the releasing Commit, closing by Commit then Rollback reaches bolt
      exactly once, whatever the kind of transaction. */
  lemma CloseReleasesOnce(writable: bool, commitErr: Option<Error>)
    ensures var tx := CommitReleasing(Begin(writable, commitErr)).0;
      Rollback(tx).0.calls == [if writable then BoltCommit else BoltRollback]
  {
  }

  // ------------------------------------------------------------ buckets

  /** txImpl.Bucket. Opening a missing bucket gives nil without an error;
      creating one needs a writable transaction and a non-empty name, which
      bolt checks. Bolt has no implicit buckets. */
  function Bucket(st: Store, tx: Tx, name: string, create: bool): (r: Result<(Store, Option<Kv.Bucket>)>)
    requires st.Valid() && !st.implicit
    ensures !create ==> r == Ok((st, Open(st, name)))
    ensures !create && name !in st.buckets ==> r.value.1.None?
    ensures create ==> (r.Ok? <==> tx.writable && name != "")
    ensures create && r.Ok? ==> r.value.1 == Some(OpenOrCreate(st, name)) && Open(r.value.0, name) == r.value.1
    ensures create && r.Ok? ==> forall n :: n != name ==> Open(r.value.0, n) == Open(st, n)
    ensures r.Ok? ==> r.value.0.Valid() && !r.value.0.implicit
  {
    if !create then Ok((st, Open(st, name)))
    else if !tx.writable then Err(TxNotWritable)
    else if name == "" then Err(BucketNameRequired)
    else
      var b := OpenOrCreate(st, name);
      Ok((Put(st, name, b), Some(b)))
  }

  /** Creating a bucket that exists changes nothing. */
  lemma CreateExisting(st: Store, tx: Tx, name: string)
    requires st.Valid() && !st.implicit && tx.writable && name in st.buckets && name != ""
    ensures Bucket(st, tx, name, true) == Ok((st, Some(st.buckets[name])))
  {
    assert st.buckets[name := st.buckets[name]] == st.buckets;
    assert Put(st, name, st.buckets[name]) == st;
  }

  /** bucketImpl.Get: bolt's lookup, which never reports an error. */
  function Get(b: Kv.Bucket, k: string): (r: (Option<Blob>, Option<Error>))
    ensures r.1.None?
    ensures r.0.Some? <==> HasKey(b.entries, k)
  {
    (Kv.Get(b, k), None)
  }

  /** bucketImpl.NextSequence: bolt increments its 64-bit unsigned counter
      (refusing in a read-only transaction) and the adapter formats
      int64(counter) in decimal. */
  function NextSequence(tx: Tx, b: Kv.Bucket): (r: Result<(Kv.Bucket, string)>)
    requires b.sequence < Values.Two64
    ensures r.Ok? <==> tx.writable
    ensures r.Ok? ==> r.value.0.entries == b.entries && r.value.0.sequence < Values.Two64
    ensures r.Ok? ==> r.value.0.sequence == (b.sequence + 1) % Values.Two64
    ensures r.Ok? ==> Strings.ParseInt(r.value.1) == Some(Values.WrapToInt64(r.value.0.sequence))
  {
    if !tx.writable then Err(TxNotWritable)
    else
      var n := (b.sequence + 1) % Values.Two64;
      var id := Values.WrapToInt64(n);
      Strings.FormatIntRoundTrip(id);
      Ok((b.(sequence := n), Strings.FormatInt(id)))
  }

  /** Below 2^63 the bolt sequence is the engine's sequence. */
  lemma NextSequenceAgrees(tx: Tx, b: Kv.Bucket)
    requires tx.writable && b.sequence < Strings.Int64Max
    ensures NextSequence(tx, b) == Ok(Kv.NextSequence(b))
  {
  }

  /** The id after 2^63 - 1 is negative. */
  lemma NextSequenceWraps(tx: Tx, b: Kv.Bucket)
    requires tx.writable && b.sequence == Strings.Int64Max
    ensures NextSequence(tx, b).Ok? && NextSequence(tx, b).value.1[0] == '-'
  {
  }
}

=== FILE: byfilter.dfy ===
/** Update and Delete with a selector that is not an id (kv/collection.go):
    both open a writable view cursor over the selected documents. Update
    rewrites the first match only and then closes the cursor, which commits
    whatever the update wrote, error or not. Delete removes every match the
    cursor yields, using the value the cursor read, and returns what the
    second Close reports, which is always nil because the end of the
    iteration already closed the cursor. The cursor reads the bucket as it
    was when the cursor was opened. */
module ByFilter {
  import opened Wrappers
  import opened Kv
  import opened Query
  import Docs
  import Schema
  import opened Indexing
  import Collection
  import Filter
  import FilterIter
  import Lookup
  import opened SortIter
  import opened ViewCursor
  import Bolt
  import View
  import Consistency
  import Strings

  /** The selector of Update and Delete: an id string, nil, or a filter. */
  datatype Selector = Id(id: string) | Everything | Where(n: Node)

  /** collection.cursor: the view of the selected documents. */
  function SelectorView(c: string, sel: Selector): (r: View.View)
    requires !sel.Id?
    ensures r.collection == c && r.limit == 0 && r.skip == 0 && r.sort == []
    ensures sel.Everything? <==> |r.filter| == 0
    ensures sel.Where? ==> r.filter == [sel.n]
  {
    View.FindView(c, if sel.Everything? then [] else [sel.n])
  }

  /** The value bucket `c` holds under `k`, reading a missing bucket as empty. */
  function Stored(st: Store, c: string, k: string): Option<Blob> {
    Kv.Get(OpenOrCreate(st, c), k)
  }

  /** Whether bolt made the transaction's writes durable: its last call was a
      commit, and the commit succeeded. */
  predicate Committed(tx: Bolt.Tx) {
    |tx.calls| > 0 && tx.calls[|tx.calls| - 1] == Bolt.BoltCommit && tx.commitErr.None?
  }

  /** The store after a transaction: its writes when committed, the store it
      began from otherwise. */
  function Persist(before: Store, after: Store, tx: Bolt.Tx): Store {
    if Committed(tx) then after else before
  }

  // ------------------------------------------------------------ update

  /** collection.Update with a selector that is not an id: stamp UpdatedAt,
      open a writable cursor, update the first match through the cursor's
      transaction and close the cursor, which commits. The commit error is
      dropped and the update's own error is returned; no match is
      errNotFound. */
  function UpdateWhere(st: Store, c: string, fields: Schema.Descriptor, metas: seq<Schema.IdxMeta>, sel: Selector,
                       vals: Schema.Entity, now: string, commitErr: Option<Error>): (r: Outcome)
    requires st.Valid() && Schema.WellTyped(fields, vals) && Collection.ReadsStrings(fields, metas) && !sel.Id?
    ensures Collection.StampUpdated(fields, vals, now).Err? ==> r == Outcome(st, Some(Collection.StampUpdated(fields, vals, now).error))
    ensures View.OpenCursor(st, SelectorView(c, sel), true, commitErr).Err? ==> r.st == st && r.err.Some?
    ensures r.st.Valid()
  {
    match Collection.StampUpdated(fields, vals, now)
    case Err(e) => Outcome(st, Some(e))
    case Ok(stamped) =>
      match View.OpenCursor(st, SelectorView(c, sel), true, commitErr)
      case Err(e) => Outcome(st, Some(e))
      case Ok(cur) =>
        var (c1, res) := Step(cur);
        match res
        case Err(e) => Outcome(st, Some(e))
        case Ok(more) =>
          if !more then Outcome(st, Some(NotFound))
          else
            var out := Collection.UpdateDoc(st, c, metas, fields, stamped, Current(c1.iter).value.0);
            var (c2, _) := Close(c1);
            Outcome(Persist(st, out.st, c2.tx), out.err)
  }

  /** What Update does, in terms of what the selection yields: nothing
      selected is errNotFound with the store untouched, or the panic that
      ended the selection, if one did; otherwise the first
      selected document is updated, its writes are kept even when the update
      fails part way, unless bolt's commit fails, and the commit error is
      never reported. */
  lemma UpdateFirstMatch(st: Store, c: string, fields: Schema.Descriptor, metas: seq<Schema.IdxMeta>, sel: Selector,
                         vals: Schema.Entity, now: string, commitErr: Option<Error>,
                         stamped: Schema.Entity, cur: ViewCursor.Cursor)
    requires st.Valid() && Schema.WellTyped(fields, vals) && Collection.ReadsStrings(fields, metas) && !sel.Id?
    requires Collection.StampUpdated(fields, vals, now) == Ok(stamped)
    requires View.OpenCursor(st, SelectorView(c, sel), true, commitErr) == Ok(cur)
    ensures var d := PipelineCollect(cur.iter); var ys := d.items;
      var r := UpdateWhere(st, c, fields, metas, sel, vals, now, commitErr);
      && (|ys| == 0 ==> r == Outcome(st, Some(if PanicOf(d.err).Some? then d.err.value else NotFound)))
      && (|ys| > 0 ==>
            var out := Collection.UpdateDoc(st, c, metas, fields, stamped, ys[0].0);
            r == Outcome(if commitErr.None? then out.st else st, out.err))
  {
    FirstStep(cur);
  }

  // ------------------------------------------------------------ delete

  /** collection.delete given the value the cursor read: decode it, delete
      the key and clean the indexes from the decoded document. The stored
      value is not looked up again. */
  function DeleteGiven(st: Store, c: string, k: string, v: Blob): (r: Outcome)
    requires st.Valid()
    ensures r.st.Valid()
    ensures r.err.Some? <==> v.Bytes?
    ensures r.err.Some? ==> r == Outcome(st, Some(DecodeFailed))
    ensures r.err.None? ==> Stored(r.st, c, k) == None
    ensures forall j :: j != k ==> Stored(r.st, c, j) == Stored(st, c, j)
    ensures Stored(st, c, k) == Some(v) ==> r == Collection.DeleteDoc(st, c, k)
  {
    match Decode(v)
    case Err(e) => Outcome(st, Some(e))
    case Ok(data) =>
      var b := OpenOrCreate(st, c);
      var st1 := Put(st, c, Delete(b, k));
      var r := Clean(st1, c, k, data);
      forall i | 0 <= i < |data| ensures c != Schema.IdxName(c, data[i].0) {
        Schema.IdxNameInjective(c, data[i].0, data[i].0);
      }
      assert SameBucket(st1, r, c);
      assert OpenOrCreate(r, c) == Delete(b, k);
      Outcome(r, None)
  }

  /** Deleting the given pairs one after the other, stopping at the first
      error. */
  function DeleteEach(st: Store, c: string, es: seq<Entry>): (r: Outcome)
    requires st.Valid()
    ensures r.st.Valid()
    decreases |es|
  {
    if |es| == 0 then Outcome(st, None)
    else
      var out := DeleteGiven(st, c, es[0].0, es[0].1);
      if out.err.Some? then out else DeleteEach(out.st, c, es[1..])
  }

  /** The loop of Delete: delete what each next() yields through the cursor's
      transaction; the first error ends the loop. */
  function DeleteLoop(cur: ViewCursor.Cursor, st: Store, c: string): (r: (ViewCursor.Cursor, Outcome))
    requires cur.Valid() && st.Valid()
    decreases RankClosed(cur.iter), RankInit(cur.iter), RankLeft(cur.iter)
  {
    var (c1, res) := Step(cur);
    match res
    case Err(p) => (c1, Outcome(st, Some(p)))
    case Ok(more) =>
      if !more then (c1, Outcome(st, None))
      else
        var e := Current(c1.iter).value;
        var out := DeleteGiven(st, c, e.0, e.1);
        if out.err.Some? then (c1, out) else DeleteLoop(c1, out.st, c)
  }

  /** collection.Delete with a selector that is not an id. An error from
      delete is returned without closing the cursor, so its transaction is
      never committed; otherwise the result is that of a second Close. */
  function DeleteWhere(st: Store, c: string, sel: Selector, commitErr: Option<Error>): (r: Outcome)
    requires st.Valid() && !sel.Id?
    ensures View.OpenCursor(st, SelectorView(c, sel), true, commitErr).Err? ==> r.st == st && r.err.Some?
    ensures r.err.Some? ==> r.st == st
  {
    match View.OpenCursor(st, SelectorView(c, sel), true, commitErr)
    case Err(e) => Outcome(st, Some(e))
    case Ok(cur) =>
      var (c1, out) := DeleteLoop(cur, st, c);
      if out.err.Some? then Outcome(st, out.err)
      else
        var (c2, err) := Close(c1);
        if err.Some? then Outcome(st, err) else Outcome(Persist(st, out.st, c2.tx), None)
  }

  /** The loop deletes exactly what draining the cursor yields, then passes
      on the panic that cut the draining short, if one did; when no delete
      fails and nothing panics it leaves the cursor as draining does. */
  lemma {:induction false} DeleteLoopIsEach(cur: ViewCursor.Cursor, st: Store, c: string)
    requires cur.Valid() && st.Valid()
    ensures var d := Drain(cur).1; var each := DeleteEach(st, c, d.items);
      DeleteLoop(cur, st, c).1 == if each.err.None? && d.err.Some? then Outcome(each.st, d.err) else each
    ensures DeleteLoop(cur, st, c).1.err.None? ==> DeleteLoop(cur, st, c).0 == Drain(cur).0
    ensures DeleteLoop(cur, st, c).1.err.Some? ==> DeleteLoop(cur, st, c).0.tx == cur.tx
    decreases RankClosed(cur.iter), RankInit(cur.iter), RankLeft(cur.iter)
  {
    var (c1, res) := Step(cur);
    if res == Ok(true) {
      var e := Current(c1.iter).value;
      var out := DeleteGiven(st, c, e.0, e.1);
      var ys := Drain(cur).1.items;
      assert ys[0] == e && ys[1..] == Drain(c1).1.items;
      if out.err.None? {
        DeleteLoopIsEach(c1, out.st, c);
      }
    }
  }

  /** A panic that ends the selection after deletes that all succeed is
      passed on, and the store is left as it was: the writes were never
      committed. */
  lemma DeletePanics(st: Store, c: string, sel: Selector, commitErr: Option<Error>)
    requires st.Valid() && !sel.Id? && View.OpenCursor(st, SelectorView(c, sel), true, commitErr).Ok?
    requires var d := PipelineCollect(View.OpenCursor(st, SelectorView(c, sel), true, commitErr).value.iter);
      PanicOf(d.err).Some? && DeleteEach(st, c, d.items).err.None?
    ensures var d := PipelineCollect(View.OpenCursor(st, SelectorView(c, sel), true, commitErr).value.iter);
      DeleteWhere(st, c, sel, commitErr) == Outcome(st, d.err)
  {
    var cur := View.OpenCursor(st, SelectorView(c, sel), true, commitErr).value;
    DrainYields(cur);
    DeleteLoopIsEach(cur, st, c);
  }

  /** Deleting key-sorted pairs that are all stored JSON documents removes
      exactly their keys from the collection's bucket. */
  lemma {:induction false} DeleteEachRemoves(st: Store, c: string, es: seq<Entry>)
    requires st.Valid() && KeysSorted(es)
    requires forall i :: 0 <= i < |es| ==> es[i].1.Json? && Stored(st, c, es[i].0) == Some(es[i].1)
    ensures DeleteEach(st, c, es).err.None?
    ensures forall k :: Stored(DeleteEach(st, c, es).st, c, k) == if HasKey(es, k) then None else Stored(st, c, k)
    decreases |es|
  {
    if |es| > 0 {
      var out := DeleteGiven(st, c, es[0].0, es[0].1);
      SortedTail(es);
      forall i | 0 <= i < |es| - 1
        ensures es[1..][i].1.Json? && Stored(out.st, c, es[1..][i].0) == Some(es[1..][i].1)
      {
        assert es[1..][i] == es[i + 1];
        assert Strings.Less(es[0].0, es[i + 1].0);
      }
      DeleteEachRemoves(out.st, c, es[1..]);
      forall k ensures HasKey(es, k) <==> k == es[0].0 || HasKey(es[1..], k) {
        if HasKey(es, k) && k != es[0].0 {
          var i :| 0 <= i < |es| && es[i].0 == k;
          assert es[1..][i - 1] == es[i];
        }
        if HasKey(es[1..], k) {
          var i :| 0 <= i < |es| - 1 && es[1..][i].0 == k;
          assert es[i + 1] == es[1..][i];
        }
      }
    }
  }

  /** The end of Delete, in terms of what the selection yields: when the
      selection yields the stored documents `items` without an error, Delete
      reports success; with a successful bolt commit exactly their keys are
      gone from the collection, and with a failed one nothing changed, yet
      no error is reported. */
  lemma DeleteDrained(st: Store, c: string, sel: Selector, commitErr: Option<Error>, items: seq<Entry>)
    requires st.Valid() && !sel.Id? && View.OpenCursor(st, SelectorView(c, sel), true, commitErr).Ok?
    requires PipelineCollect(View.OpenCursor(st, SelectorView(c, sel), true, commitErr).value.iter) == Drained(items, None)
    requires KeysSorted(items)
    requires forall i :: 0 <= i < |items| ==> items[i].1.Json? && Stored(st, c, items[i].0) == Some(items[i].1)
    ensures DeleteWhere(st, c, sel, commitErr).err.None?
    ensures commitErr.None? ==> forall k ::
      Stored(DeleteWhere(st, c, sel, commitErr).st, c, k) == if HasKey(items, k) then None else Stored(st, c, k)
    ensures commitErr.Some? ==> DeleteWhere(st, c, sel, commitErr).st == st
  {
    var cur := View.OpenCursor(st, SelectorView(c, sel), true, commitErr).value;
    DrainYields(cur);
    DeleteLoopIsEach(cur, st, c);
    DeleteEachRemoves(st, c, items);
    var (c1, out) := DeleteLoop(cur, st, c);
    assert c1 == Drain(cur).0 && c1.closed;
    assert c1.tx.calls == [Bolt.BoltCommit];
  }

  /** Scanning without a filter yields every entry. */
  lemma {:induction false} MatchesEverything(es: seq<Entry>)
    ensures FilterIter.Clean(None, es) && FilterIter.Matches(None, es) == es
    decreases |es|
  {
    if |es| > 0 {
      MatchesEverything(es[1..]);
      assert es == [es[0]] + es[1..];
    }
  }

  /** The stored pairs of a bucket are what Stored reads. */
  lemma EntriesStored(st: Store, c: string, es: seq<Entry>)
    requires st.Valid() && Open(st, c).Some? && es == Open(st, c).value.entries
    ensures forall i :: 0 <= i < |es| ==> Stored(st, c, es[i].0) == Some(es[i].1)
    ensures forall k :: !HasKey(es, k) ==> Stored(st, c, k) == None
  {
    forall i | 0 <= i < |es| ensures Stored(st, c, es[i].0) == Some(es[i].1) {
      View.FindMember(es, es[i]);
    }
  }

  /** Delete(nil) on a collection of JSON documents succeeds and, when bolt
      commits, leaves the collection empty; when bolt's commit fails it
      still reports success and nothing changed. */
  lemma DeleteEverything(st: Store, c: string, commitErr: Option<Error>)
    requires st.Valid() && Open(st, c).Some? && View.AllDocs(Open(st, c).value)
    ensures DeleteWhere(st, c, Everything, commitErr).err.None?
    ensures commitErr.None? ==> forall k :: Stored(DeleteWhere(st, c, Everything, commitErr).st, c, k) == None
    ensures commitErr.Some? ==> DeleteWhere(st, c, Everything, commitErr).st == st
  {
    var b := Open(st, c).value;
    var v := SelectorView(c, Everything);
    MatchesEverything(b.entries);
    FilterIter.CollectNoSkip(CursorOf(b), [], 0, 0);
    var inner := View.Plan(st, v, b).value;
    WrapEmpty(inner);
    EntriesStored(st, c, b.entries);
    DeleteDrained(st, c, Everything, commitErr, b.entries);
  }

  /** Delete with a filter removes exactly the stored documents the filter
      accepts, whichever path the planner takes, provided the index path is
      taken only for filters the indexes answer exactly. */
  lemma DeleteMatches(st: Store, c: string, metas: seq<Schema.IdxMeta>, n: Node, commitErr: Option<Error>)
    requires st.Valid() && Open(st, c).Some? && View.AllDocs(Open(st, c).value)
    requires Filter.MakeFilterFn([n]).Ok?
    requires FilterIter.Clean(Filter.MakeFilterFn([n]).value, Open(st, c).value.entries)
    requires View.ByIndex(st, SelectorView(c, Where(n))) ==>
      Consistency.Consistent(st, c, metas) && Lookup.AllExact(c, metas, [n])
    ensures DeleteWhere(st, c, Where(n), commitErr).err.None?
    ensures commitErr.None? ==> forall k ::
      Stored(DeleteWhere(st, c, Where(n), commitErr).st, c, k) ==
      if HasKey(FilterIter.Matches(Filter.MakeFilterFn([n]).value, Open(st, c).value.entries), k) then None
      else Stored(st, c, k)
  {
    var b := Open(st, c).value;
    var v := SelectorView(c, Where(n));
    var fn := Filter.MakeFilterFn([n]).value;
    var ms := FilterIter.Matches(fn, b.entries);
    FilterIter.CollectNoSkip(CursorOf(b), [n], 0, 0);
    var scan := View.ScanOf(v, b).value;
    if View.ByIndex(st, v) {
      View.PlannerAgrees(st, metas, v);
    }
    var inner := View.Plan(st, v, b).value;
    assert InnerCollect(inner) == Drained(ms, None);
    WrapEmpty(inner);
    EntriesStored(st, c, b.entries);
    View.MatchesMembers(fn, b.entries);
    View.MatchesSorted(fn, b.entries);
    forall i | 0 <= i < |ms| ensures ms[i].1.Json? && Stored(st, c, ms[i].0) == Some(ms[i].1) {
      assert ms[i] in ms;
    }
    DeleteDrained(st, c, Where(n), commitErr, ms);
  }

  /** A delete that fails (a value that does not decode, yielded by a scan
      without a filter or by the index path) leaves the writable transaction open: neither committed
      nor rolled back. */
  lemma DeleteErrorLeavesTxOpen(cur: ViewCursor.Cursor, st: Store, c: string)
    requires cur.Valid() && st.Valid() && !cur.tx.closed
    requires DeleteLoop(cur, st, c).1.err.Some?
    ensures !DeleteLoop(cur, st, c).0.tx.closed && DeleteLoop(cur, st, c).0.tx.calls == cur.tx.calls
  {
    DeleteLoopIsEach(cur, st, c);
  }
}

=== FILE: collection.dfy ===
/** A collection of documents (kv/collection.go): the documents live in the
    bucket named after the collection, keyed by their decimal sequence id, and
    every write transaction is all-or-nothing: an error returns before the
    commit, so the caller keeps the store it had. `now` is the timestamp the
    source reads from the clock, already in its JSON text form. */
module Collection {
  import opened Wrappers
  import opened Values
  import opened Docs
  import opened Kv
  import Strings
  import opened Schema
  import opened Indexing

  /** The setter positions reflection.MakeMeta would bind for this descriptor. */
  function SettersOf(fields: Descriptor): Setters {
    Setters(Last(fields, IsIdName), Last(fields, IsCreatedAt), Last(fields, IsUpdatedAt))
  }

  /** The index metadata may read any of its fields as a string. */
  predicate ReadsStrings(fields: Descriptor, metas: seq<IdxMeta>) {
    forall m :: m in metas ==> m.pos < |fields| && fields[m.pos].kind == StringKind
  }

  /** collection.Count: the number of keys in the collection's bucket. */
  function Count(st: Store, c: string): (r: Result<nat>)
    ensures r.Err? <==> Open(st, c).None?
    ensures r.Err? ==> r.error == NotFound
    ensures r.Ok? ==> r.value == |Open(st, c).value.entries|
  {
    match Open(st, c)
    case None => Err(NotFound)
    case Some(b) => Ok(|b.entries|)
  }

  /** collection.Get: the stored document under `id`, decoded. */
  function Get(st: Store, c: string, id: string): (r: Result<Doc>)
    ensures Open(st, c).None? ==> r == Err(NotFound)
    ensures Open(st, c).Some? && Kv.Get(Open(st, c).value, id).None? ==> r == Err(NotFound)
    ensures r.Ok? <==> (Open(st, c).Some? && Kv.Get(Open(st, c).value, id).Some? && Kv.Get(Open(st, c).value, id).value.Json?)
    ensures r.Ok? ==> Kv.Get(Open(st, c).value, id) == Some(Json(r.value))
  {
    match Open(st, c)
    case None => Err(NotFound)
    case Some(b) =>
      match Kv.Get(b, id)
      case None => Err(NotFound)
      case Some(v) => Decode(v)
  }

  /** The setters Insert applies to one document: the new id, then the two
      timestamps. */
  function Stamp(fields: Descriptor, vals: Entity, id: string, now: string): (r: Result<Entity>)
    requires WellTyped(fields, vals)
    ensures r.Ok? ==> WellTyped(fields, r.value)
    ensures r.Ok? && SettersOf(fields).id.Some? ==> r.value[SettersOf(fields).id.value] == Str(id)
  {
    var s := SettersOf(fields);
    var v1 :- SetAt(fields, vals, s.id, Str(id), StringKind);
    var v2 :- SetAt(fields, v1, s.createdAt, Str(now), TimeKind);
    assert s.id.Some? ==> v2[s.id.value] == Str(id);
    SetAt(fields, v2, s.updatedAt, Str(now), TimeKind)
  }

  /** One document of collection.Insert once stamped: store its encoding under
      `id` in the bucket `b` NextSequence returned, then index it. */
  function StoreNew(st: Store, c: string, fields: Descriptor, metas: seq<IdxMeta>, vals: Entity, b: Bucket, id: string): (r: Outcome)
    requires st.Valid() && b.Valid() && WellTyped(fields, vals) && ReadsStrings(fields, metas)
    ensures r.st.Valid()
  {
    UpdateIndexes(Put(st, c, Set(b, id, Json(Encode(fields, vals)))), metas, id, vals, None)
  }

  /** One iteration of collection.Insert: take the next sequence number as
      id, stamp the document, store it, index it. */
  function InsertOne(st: Store, c: string, fields: Descriptor, metas: seq<IdxMeta>, doc: Entity, now: string): (r: Result<(Store, Entity)>)
    requires st.Valid() && ReadsStrings(fields, metas) && WellTyped(fields, doc)
    ensures r.Ok? ==> r.value.0.Valid() && WellTyped(fields, r.value.1)
    ensures r.Ok? && SettersOf(fields).id.Some? ==>
      r.value.1[SettersOf(fields).id.value] == Str(Strings.FormatInt(OpenOrCreate(st, c).sequence + 1))
    ensures Stamp(fields, doc, Strings.FormatInt(OpenOrCreate(st, c).sequence + 1), now).Err? ==> r.Err?
  {
    var (b, id) := NextSequence(OpenOrCreate(st, c));
    assert id == Strings.FormatInt(OpenOrCreate(st, c).sequence + 1);
    var stamped := Stamp(fields, doc, id, now);
    if stamped.Err? then Err(stamped.error)
    else
      var out := StoreNew(st, c, fields, metas, stamped.value, b, id);
      if out.err.Some? then Err(out.err.value) else Ok((out.st, stamped.value))
  }

  /** The loop of collection.Insert over the remaining documents, stopping at
      the first error. The stamped documents are returned, as the source
      updates them in place. */
  function InsertAll(st: Store, c: string, fields: Descriptor, metas: seq<IdxMeta>, docs: seq<Entity>, now: string): (r: Result<(Store, seq<Entity>)>)
    requires st.Valid() && ReadsStrings(fields, metas)
    requires forall i :: 0 <= i < |docs| ==> WellTyped(fields, docs[i])
    ensures r.Ok? ==> r.value.0.Valid() && |r.value.1| == |docs|
    ensures r.Ok? ==> forall i :: 0 <= i < |docs| ==> WellTyped(fields, r.value.1[i])
    decreases |docs|
  {
    if |docs| == 0 then Ok((st, []))
    else
      match InsertOne(st, c, fields, metas, docs[0], now)
      case Err(e) => Err(e)
      case Ok((st1, vals)) =>
        match InsertAll(st1, c, fields, metas, docs[1..], now)
        case Err(e) => Err(e)
        case Ok(rest) =>
          PrependTyped(fields, vals, rest.1);
          Ok((rest.0, [vals] + rest.1))
  }

  lemma PrependTyped(fields: Descriptor, vals: Entity, rest: seq<Entity>)
    requires WellTyped(fields, vals) && forall i :: 0 <= i < |rest| ==> WellTyped(fields, rest[i])
    ensures forall i :: 0 <= i < |rest| + 1 ==> WellTyped(fields, ([vals] + rest)[i])
  {
    forall i | 1 <= i < |rest| + 1 ensures WellTyped(fields, ([vals] + rest)[i]) {
      assert ([vals] + rest)[i] == rest[i - 1];
    }
  }

  /** collection.Insert. */
  function Insert(st: Store, c: string, fields: Descriptor, metas: seq<IdxMeta>, docs: seq<Entity>, now: string): (r: Result<(Store, seq<Entity>)>)
    requires st.Valid() && ReadsStrings(fields, metas)
    requires forall i :: 0 <= i < |docs| ==> WellTyped(fields, docs[i])
    ensures Open(st, c).None? ==> r == Err(NotFound)
    ensures r.Ok? ==> r.value.0.Valid() && |r.value.1| == |docs|
  {
    if Open(st, c).None? then Err(NotFound)
    else InsertAll(st, c, fields, metas, docs, now)
  }

  /** collection.update for the document under `id` in the opened bucket:
      overwrite it, then reconcile the indexes against the decoded old value.
      The writes made before an error are part of the outcome. */
  function UpdateDoc(st: Store, c: string, metas: seq<IdxMeta>, fields: Descriptor, vals: Entity, id: string): (r: Outcome)
    requires st.Valid() && WellTyped(fields, vals) && ReadsStrings(fields, metas)
    ensures r.st.Valid()
    ensures OpenOrCreate(st, c).Valid() && Kv.Get(OpenOrCreate(st, c), id).None? ==> r == Outcome(st, Some(NotFound))
  {
    var b := OpenOrCreate(st, c);
    match Kv.Get(b, id)
    case None => Outcome(st, Some(NotFound))
    case Some(prevBlob) =>
      var st1 := Put(st, c, Set(b, id, Json(Encode(fields, vals))));
      match Decode(prevBlob)
      case Err(e) => Outcome(st1, Some(e))
      case Ok(prev) => UpdateIndexes(st1, metas, id, vals, Some(prev))
  }

  /** Interface-typed fields take the setters' values: an `interface{}` id
      takes the new id, and a CreatedAt of an interface time.Time implements
      takes the time. */
  lemma InterfaceFieldsStamped(id: string, now: string)
    ensures Stamp([Field("ID", "id", InterfaceKind(true, true)), Field("CreatedAt", "", InterfaceKind(false, true)), Field("UpdatedAt", "", TimeKind)],
                  [Nil, Nil, Str("")], id, now)
         == Ok([Str(id), Str(now), Str(now)])
  {
    var fs := [Field("ID", "id", InterfaceKind(true, true)), Field("CreatedAt", "", InterfaceKind(false, true)), Field("UpdatedAt", "", TimeKind)];
    assert fs[..2][..1] == fs[..1] && fs[..2][1] == fs[1] && fs[..1][0] == fs[0];
    assert SettersOf(fs) == Setters(Some(0), Some(1), Some(2));
    var v1 := [Str(id), Nil, Str("")];
    var v2 := [Str(id), Str(now), Str("")];
    assert Assignable(StringKind, fs[0].kind) && Assignable(TimeKind, fs[1].kind) && Assignable(TimeKind, fs[2].kind);
    assert [Nil, Nil, Str("")][0 := Str(id)] == v1;
    assert v1[1 := Str(now)] == v2;
    assert v2[2 := Str(now)] == [Str(id), Str(now), Str(now)];
    assert SetAt(fs, [Nil, Nil, Str("")], Some(0), Str(id), StringKind) == Ok(v1);
    assert SetAt(fs, v1, Some(1), Str(now), TimeKind) == Ok(v2);
    assert SetAt(fs, v2, Some(2), Str(now), TimeKind) == Ok([Str(id), Str(now), Str(now)]);
  }

  /** A string has no methods, so an id field of a non-empty interface type
      makes the id setter panic. */
  lemma StringIntoMethodsPanics(id: string, now: string)
    ensures Stamp([Field("ID", "id", InterfaceKind(false, true))], [Nil], id, now).Err?
  {
  }

  /** The UpdatedAt setter Update applies before encoding: the last field
      named UpdatedAt gets `now` and nothing else changes; a document without
      one is left as it is, and one whose UpdatedAt cannot hold a time.Time
      (neither time.Time nor an interface time.Time implements) panics. */
  function StampUpdated(fields: Descriptor, vals: Entity, now: string): (r: Result<Entity>)
    requires WellTyped(fields, vals)
    ensures r.Ok? ==> WellTyped(fields, r.value)
    ensures (forall j :: 0 <= j < |fields| ==> fields[j].goName != "UpdatedAt") ==> r == Ok(vals)
    ensures forall p ::
      (0 <= p < |fields| && fields[p].goName == "UpdatedAt" && forall j :: p < j < |fields| ==> fields[j].goName != "UpdatedAt") ==>
        (r.Ok? <==> fields[p].kind == TimeKind || (fields[p].kind.InterfaceKind? && (fields[p].kind.empty || fields[p].kind.timeImplements))) &&
        (r.Ok? ==> r.value == vals[p := Str(now)])
  {
    var u := Last(fields, IsUpdatedAt);
    assert forall p :: 0 <= p < |fields| && fields[p].goName == "UpdatedAt" && (forall j :: p < j < |fields| ==> fields[j].goName != "UpdatedAt") ==> u == Some(p) by {
      forall p | 0 <= p < |fields| && fields[p].goName == "UpdatedAt" && (forall j :: p < j < |fields| ==> fields[j].goName != "UpdatedAt") ensures u == Some(p) {
        assert IsUpdatedAt(fields[p].goName);
      }
    }
    SetAt(fields, vals, u, Str(now), TimeKind)
  }

  /** collection.Update with an id selector. */
  function UpdateById(st: Store, c: string, fields: Descriptor, metas: seq<IdxMeta>, id: string, vals: Entity, now: string): (r: Result<Store>)
    requires st.Valid() && WellTyped(fields, vals) && ReadsStrings(fields, metas)
    ensures Open(st, c).None? ==> r.Err?
    ensures Open(st, c).Some? && Kv.Get(Open(st, c).value, id).None? ==> r.Err?
    ensures r.Ok? ==> r.value.Valid()
  {
    var stamped :- StampUpdated(fields, vals, now);
    if Open(st, c).None? then Err(NotFound)
    else
      var out := UpdateDoc(st, c, metas, fields, stamped, id);
      if out.err.Some? then Err(out.err.value) else Ok(out.st)
  }

  /** collection.delete for the key `id` of the opened bucket: decode the stored
      value, delete it, then clean the indexes from the decoded document. */
  function DeleteDoc(st: Store, c: string, id: string): (r: Outcome)
    requires st.Valid()
    ensures r.st.Valid()
    ensures Kv.Get(OpenOrCreate(st, c), id).None? ==> r == Outcome(st, Some(NotFound))
    ensures r.err.None? ==> Read(r.st, c, id) == None
  {
    var b := OpenOrCreate(st, c);
    match Kv.Get(b, id)
    case None => Outcome(st, Some(NotFound))
    case Some(v) =>
      match Decode(v)
      case Err(e) => Outcome(st, Some(e))
      case Ok(data) =>
        var st1 := Put(st, c, Delete(b, id));
        assert forall i :: 0 <= i < |data| ==> c != IdxName(c, data[i].0);
        var r := Clean(st1, c, id, data);
        assert SameBucket(st1, r, c);
        Outcome(r, None)
  }

  /** collection.Delete with an id selector. */
  function DeleteById(st: Store, c: string, id: string): (r: Result<Store>)
    requires st.Valid()
    ensures Open(st, c).None? ==> r == Err(NotFound)
    ensures Open(st, c).Some? && Kv.Get(Open(st, c).value, id).None? ==> r == Err(NotFound)
    ensures r.Ok? ==> r.value.Valid() && Read(r.value, c, id) == None
  {
    if Open(st, c).None? then Err(NotFound)
    else
      var out := DeleteDoc(st, c, id);
      if out.err.Some? then Err(out.err.value) else Ok(out.st)
  }
}

=== FILE: compare.dfy ===
/** The ordering of dynamically typed scalar values used by filtering and sorting
    (util/compare.go). Go's `interface{}` operands become the closed variant
    `Value`; every width conversion the source performs is written out. */
module Values {
  import Strings

  const Two64: int := 0x1_0000_0000_0000_0000
  const Two63: int := 0x8000_0000_0000_0000

  type Int64 = i: int | -Two63 <= i < Two63
  type UInt64 = u: int | 0 <= u < Two64

  /** A scalar as Compare sees it.
      - `Int` stands for int, int8, int16, int32, int64 and also uint8, uint16,
        uint32: Compare converts every one of them losslessly to int64 and treats
        them identically. `kind` records whether the Go type is exactly int64,
        which matters to code outside Compare (the SQL translator).
      - `UInt` is uint64.
      - `NativeUInt` is Go's 64-bit `uint`, which Compare handles differently from
        uint64: it has no case of its own as the left operand, and as the right
        operand of an int64-style comparison it is converted with int64(), which wraps.
      - `Float` is float32 or float64, kept as a real number.
      - `Other` is any type Compare does not switch on (slices, maps, structs). */
  datatype IntKind = GoInt64 | OtherInt

  datatype Value =
    | Nil
    | Bool(b: bool)
    | Int(i: Int64, kind: IntKind)
    | UInt(u: UInt64)
    | NativeUInt(w: UInt64)
    | Float(r: real)
    | Str(s: string)
    | Other

  /** int64(u) for a 64-bit unsigned u: two's-complement wrap-around. */
  function WrapToInt64(u: UInt64): (i: Int64)
    ensures (i - u) % Two64 == 0
  {
    if u < Two63 then u else u - Two64
  }

  /** uint64(i) for a signed i: two's-complement wrap-around. */
  function WrapToUInt64(i: Int64): (u: UInt64)
    ensures (u - i) % Two64 == 0
  {
    if i < 0 then i + Two64 else i
  }

  function BoolToInt64(b: bool): Int64 {
    if b then 1 else 0
  }

  /** intcmp: computes the wrapped difference a - b and answers -1 on either sign. */
  function IntCmp(a: Int64, b: Int64): (c: int)
    ensures c == (if a == b then 0 else -1)
  {
    var diff := a - b;
    var d := if diff < -Two63 then diff + Two64 else if diff >= Two63 then diff - Two64 else diff;
    if d < 0 then -1
    else if d > 0 then -1
    else 0
  }

  /** uintcmp: like intcmp, -1 both when a < b and when a > b. */
  function UIntCmp(a: UInt64, b: UInt64): (c: int)
    ensures c == (if a == b then 0 else -1)
  {
    if a < b then -1
    else if a > b then -1
    else 0
  }

  /** floatcmp: a proper three-way comparison. */
  function FloatCmp(a: real, b: real): (c: int)
    ensures c == -1 <==> a < b
    ensures c == 0 <==> a == b
    ensures c == 1 <==> a > b
  {
    if a < b then -1
    else if a > b then 1
    else 0
  }

  /** The cases of a left operand that Compare converts to int64: bool, the
      signed types and the small unsigned types. */
  function CompareInt64(a: Int64, y: Value): int {
    match y
    case Nil => 1
    case Bool(b) => IntCmp(a, BoolToInt64(b))
    case Str(_) => -1
    case Int(b, _) => IntCmp(a, b)
    case NativeUInt(b) => IntCmp(a, WrapToInt64(b))
    case UInt(b) => UIntCmp(WrapToUInt64(a), b)
    case Float(b) => FloatCmp(a as real, b)
    case Other => -1
  }

  /** The cases of a uint64 left operand: a negative signed or float right
      operand is reported as smaller without any conversion. */
  function CompareUInt64(a: UInt64, y: Value): int {
    match y
    case Nil => 1
    case Bool(b) => UIntCmp(a, BoolToInt64(b))
    case Str(_) => -1
    case Int(b, _) => if b < 0 then 1 else UIntCmp(a, b)
    case NativeUInt(b) => UIntCmp(a, b)
    case UInt(b) => UIntCmp(a, b)
    case Float(b) => if b < 0.0 then 1 else FloatCmp(a as real, b)
    case Other => -1
  }

  /** The cases of a float left operand: everything numeric is compared as a float. */
  function CompareFloat(a: real, y: Value): int {
    match y
    case Nil => 1
    case Bool(b) => FloatCmp(a, BoolToInt64(b) as real)
    case Str(_) => -1
    case Int(b, _) => FloatCmp(a, b as real)
    case NativeUInt(b) => FloatCmp(a, b as real)
    case UInt(b) => FloatCmp(a, b as real)
    case Float(b) => FloatCmp(a, b)
    case Other => -1
  }

  /** util.Compare. */
  function Compare(x: Value, y: Value): (c: int)
    ensures -1 <= c <= 1
  {
    if x.Nil? then (if y.Nil? then 0 else -1)
    else if y.Nil? then 1
    else
      match x
      case Str(a) => if y.Str? then Strings.Cmp(a, y.s) else 1
      case Bool(a) => CompareInt64(BoolToInt64(a), y)
      case Int(a, _) => CompareInt64(a, y)
      case UInt(a) => CompareUInt64(a, y)
      case Float(a) => CompareFloat(a, y)
      case NativeUInt(_) => -1
      case Other => -1
      case Nil => 0
  }

  /** util.Equals. */
  predicate Equals(x: Value, y: Value) {
    Compare(x, y) == 0
  }

  // ---------------------------------------------------------------- properties

  /** nil sorts first: equal to nil, below everything else. */
  lemma NilOrdering(y: Value)
    ensures Compare(Nil, y) == (if y.Nil? then 0 else -1)
    ensures !y.Nil? ==> Compare(y, Nil) == 1
  {
  }

  /** Strings compare with strings.Compare among themselves and sort after every
      other non-nil value, in both argument positions. */
  lemma StringOrdering(a: string, y: Value)
    ensures y.Str? ==> Compare(Str(a), y) == Strings.Cmp(a, y.s)
    ensures !y.Str? && !y.Nil? ==> Compare(Str(a), y) == 1 && Compare(y, Str(a)) == -1
  {
  }

  /** Any left operand of a type Compare does not switch on (and Go's `uint`)
      is reported smaller than every non-nil right operand; so is any left operand
      compared against an unswitched right operand, strings excepted. */
  lemma UnhandledPairs(x: Value, y: Value)
    requires !x.Nil? && !y.Nil?
    ensures (x.Other? || x.NativeUInt?) ==> Compare(x, y) == -1
    ensures y.Other? && !x.Str? ==> Compare(x, y) == -1
    ensures y.Other? && x.Str? ==> Compare(x, y) == 1
  {
  }

  /** The integer-like operands: bool and the types converted to int64. */
  predicate IntLike(v: Value) {
    v.Bool? || v.Int?
  }

  function IntOf(v: Value): Int64
    requires IntLike(v)
  {
    if v.Bool? then BoolToInt64(v.b) else v.i
  }

  /** Two int-like operands are never "greater": the result is 0 when their
      int64 values agree and -1 otherwise, whatever the order. */
  lemma IntLikeNeverGreater(x: Value, y: Value)
    requires IntLike(x) && IntLike(y)
    ensures Compare(x, y) == (if IntOf(x) == IntOf(y) then 0 else -1)
    ensures Compare(x, y) != 1
  {
  }

  /** uint64 pairs behave the same way. */
  lemma UIntNeverGreater(a: UInt64, b: UInt64)
    ensures Compare(UInt(a), UInt(b)) == (if a == b then 0 else -1)
  {
  }

  /** Hence Compare is not antisymmetric: 1 and 2 are each "less" than the other. */
  lemma NotAntisymmetric()
    ensures Compare(Int(1, GoInt64), Int(2, GoInt64)) == -1
    ensures Compare(Int(2, GoInt64), Int(1, GoInt64)) == -1
    ensures Compare(Bool(true), Bool(false)) == -1 && Compare(Bool(false), Bool(true)) == -1
  {
  }

  /** Pairs routed through floatcmp are antisymmetric. */
  lemma FloatPairsAntisymmetric(a: real, y: Value)
    requires y.Bool? || y.Int? || y.UInt? || y.Float?
    ensures Compare(y, Float(a)) == -Compare(Float(a), y)
  {
  }

  /** A uint64 is greater than any negative signed or float operand. */
  lemma UIntAboveNegatives(a: UInt64, y: Value)
    requires (y.Int? && y.i < 0) || (y.Float? && y.r < 0.0)
    ensures Compare(UInt(a), y) == 1
  {
  }

  /** A signed operand meets a uint64 through uint64(a): the two are equal exactly
      when they agree modulo 2^64, so -1 equals the largest uint64, while the
      reverse comparison reports the uint64 as greater. */
  lemma SignedAgainstUInt64(a: Int64, k: IntKind, b: UInt64)
    ensures Compare(Int(a, k), UInt(b)) == (if (a - b) % Two64 == 0 then 0 else -1)
    ensures a < 0 ==> Compare(UInt(b), Int(a, k)) == 1
  {
  }

  lemma MinusOneEqualsMaxUInt64()
    ensures Equals(Int(-1, GoInt64), UInt(Two64 - 1))
    ensures !Equals(UInt(Two64 - 1), Int(-1, GoInt64))
  {
    SignedAgainstUInt64(-1, GoInt64, Two64 - 1);
  }

  /** Go's `uint` on the right of an int64-style comparison goes through int64(),
      so the largest `uint` equals -1. */
  lemma NativeUIntWraps()
    ensures Equals(Int(-1, OtherInt), NativeUInt(Two64 - 1))
  {
  }

  /** The mathematical value of a numeric operand. */
  function NumOf(v: Value): real
    requires v.Bool? || v.Int? || v.UInt? || v.NativeUInt? || v.Float?
  {
    match v
    case Bool(b) => if b then 1.0 else 0.0
    case Int(i, _) => i as real
    case UInt(u) => u as real
    case NativeUInt(w) => w as real
    case Float(r) => r
  }

  /** Apart from the wrap-around conversions and Go's `uint` on the left, numeric
      equality is equality of mathematical value. */
  lemma NumericEquality(x: Value, y: Value)
    requires x.Bool? || x.Int? || x.UInt? || x.Float?
    requires y.Bool? || y.Int? || y.UInt? || y.NativeUInt? || y.Float?
    requires y.NativeUInt? ==> y.w < Two63
    requires x.Int? && y.UInt? ==> x.i >= 0
    ensures Equals(x, y) <==> NumOf(x) == NumOf(y)
  {
  }

  /** The values a JSON decoder produces for a document field, other than bool,
      which Compare orders inconsistently. */
  predicate Ordered(v: Value) {
    v.Nil? || v.Float? || v.Str?
  }

  /** On `Ordered` values Compare is a total order: zero exactly on equal values,
      antisymmetric, and transitive. */
  lemma OrderedTotal(x: Value, y: Value)
    requires Ordered(x) && Ordered(y)
    ensures Compare(x, y) == 0 <==> x == y
    ensures Compare(y, x) == -Compare(x, y)
  {
    if x.Str? && y.Str? {
      Strings.CmpAntisymmetric(x.s, y.s);
    }
  }

  lemma OrderedTransitive(x: Value, y: Value, z: Value)
    requires Ordered(x) && Ordered(y) && Ordered(z)
    requires Compare(x, y) < 0 && Compare(y, z) < 0
    ensures Compare(x, z) < 0
  {
    if x.Str? && y.Str? && z.Str? {
      Strings.CmpTransitive(x.s, y.s, z.s);
    }
  }
}

=== FILE: consistency.dfy ===
/** The index invariant: for every indexed field f of the collection and every
    non-empty string v, the entry v of bucket idx_<c>_<f> lists exactly the ids
    of the stored documents whose field f is the string v. Insert,
    Update-by-id and Delete-by-id preserve it. */
module Consistency {
  import opened Wrappers
  import opened Values
  import opened Docs
  import opened Kv
  import KeyList
  import Strings
  import opened Schema
  import opened Indexing
  import opened Collection

  /** The decoded document stored under `k` in collection `c`, if any. */
  function DocOf(st: Store, c: string, k: string): Option<Doc> {
    match Read(st, c, k)
    case Some(Json(d)) => Some(d)
    case _ => None
  }

  predicate FieldIs(d: Option<Doc>, f: string, v: string) {
    d.Some? && Lookup(d.value, f) == Some(Str(v))
  }

  /** Index `m` lists `k` under `v` exactly when the document stored under
      `k` has the non-empty string `v` in the indexed field. */
  predicate ListedAs(st: Store, c: string, m: IdxMeta, k: string, v: string) {
    k in IdxKeys(st, m.bucket, v) <==> v != "" && FieldIs(DocOf(st, c, k), m.field, v)
  }

  /** Index `m` agrees with the stored documents. */
  ghost predicate Agrees(st: Store, c: string, m: IdxMeta) {
    forall k, v :: ListedAs(st, c, m, k, v)
  }

  /** Index `m` agrees with the stored documents other than `id`. */
  ghost predicate OthersAgree(st: Store, c: string, m: IdxMeta, id: string) {
    forall k, v :: k != id ==> ListedAs(st, c, m, k, v)
  }

  /** Index `m` lists `id` exactly where document `d` says it should. */
  ghost predicate IdListed(st: Store, m: IdxMeta, id: string, d: Option<Doc>) {
    forall v :: id in IdxKeys(st, m.bucket, v) <==> v != "" && FieldIs(d, m.field, v)
  }

  ghost predicate NoDupLists(st: Store, m: IdxMeta) {
    forall v :: KeyList.NoDup(IdxKeys(st, m.bucket, v))
  }

  /** Every key of the collection is a sequence number already handed out. */
  ghost predicate IdsAreSequence(st: Store, c: string) {
    forall k :: Kv.Get(OpenOrCreate(st, c), k).Some? ==>
      exists n: nat :: 1 <= n <= OpenOrCreate(st, c).sequence && k == Strings.FormatInt(n)
  }

  ghost predicate DocsWellFormed(st: Store, c: string) {
    forall k :: DocOf(st, c, k).Some? ==> WellFormed(DocOf(st, c, k).value)
  }

  /** The invariant, with the facts about keys and documents it rests on. */
  ghost predicate Consistent(st: Store, c: string, metas: seq<IdxMeta>) {
    && st.Valid()
    && IdsAreSequence(st, c)
    && DocsWellFormed(st, c)
    && forall m :: m in metas ==> Agrees(st, c, m) && NoDupLists(st, m)
  }

  // ------------------------------------------------------------ frame lemmas

  lemma AgreesSplit(st: Store, c: string, m: IdxMeta, id: string)
    ensures Agrees(st, c, m) <==> OthersAgree(st, c, m, id) && IdListed(st, m, id, DocOf(st, c, id))
  {
    if OthersAgree(st, c, m, id) && IdListed(st, m, id, DocOf(st, c, id)) {
      forall k, v ensures ListedAs(st, c, m, k, v) {
        if k == id {
          assert id in IdxKeys(st, m.bucket, v) <==> v != "" && FieldIs(DocOf(st, c, id), m.field, v);
        }
      }
    }
    if Agrees(st, c, m) {
      forall v ensures id in IdxKeys(st, m.bucket, v) <==> v != "" && FieldIs(DocOf(st, c, id), m.field, v) {
        assert ListedAs(st, c, m, id, v);
      }
    }
  }

  /** Nothing about index `m` changes when neither its bucket nor the
      documents other than `id` change. */
  lemma Frame(st: Store, st2: Store, c: string, m: IdxMeta, id: string, d: Option<Doc>)
    requires SameBucket(st, st2, m.bucket)
    requires forall k :: k != id ==> DocOf(st2, c, k) == DocOf(st, c, k)
    ensures OthersAgree(st, c, m, id) ==> OthersAgree(st2, c, m, id)
    ensures IdListed(st, m, id, d) ==> IdListed(st2, m, id, d)
    ensures NoDupLists(st, m) ==> NoDupLists(st2, m)
  {
    SameBucketReads(st, st2, m.bucket);
    if OthersAgree(st, c, m, id) {
      OthersMove(st, st2, c, m, id);
    }
  }

  /** The agreement on the ids other than `id` carries over to a store that
      lists them, and stores their documents, as before. */
  lemma OthersMove(st: Store, st2: Store, c: string, m: IdxMeta, id: string)
    requires OthersAgree(st, c, m, id)
    requires forall k, v :: k != id ==> (k in IdxKeys(st2, m.bucket, v) <==> k in IdxKeys(st, m.bucket, v))
    requires forall k :: k != id ==> DocOf(st2, c, k) == DocOf(st, c, k)
    ensures OthersAgree(st2, c, m, id)
  {
    forall k, v | k != id ensures ListedAs(st2, c, m, k, v) {
      assert ListedAs(st, c, m, k, v);
      assert DocOf(st2, c, k) == DocOf(st, c, k);
      assert k in IdxKeys(st2, m.bucket, v) <==> k in IdxKeys(st, m.bucket, v);
    }
  }

  lemma FrameAgrees(st: Store, st2: Store, c: string, m: IdxMeta)
    requires SameBucket(st, st2, m.bucket) && SameBucket(st, st2, c)
    ensures Agrees(st, c, m) ==> Agrees(st2, c, m)
    ensures NoDupLists(st, m) ==> NoDupLists(st2, m)
  {
    SameBucketReads(st, st2, m.bucket);
    SameBucketReads(st, st2, c);
    if Agrees(st, c, m) {
      forall k, v ensures ListedAs(st2, c, m, k, v) {
        assert DocOf(st2, c, k) == DocOf(st, c, k);
        assert ListedAs(st, c, m, k, v);
      }
    }
  }

  // ------------------------------------------------------------ list steps

  ghost predicate Unlisted(st: Store, m: IdxMeta, id: string) {
    forall v :: id !in IdxKeys(st, m.bucket, v)
  }

  /** Index `m` lists every id other than `id` under the same values in both stores. */
  ghost predicate SameOthers(st: Store, r: Store, m: IdxMeta, id: string) {
    forall k, v :: k != id ==> (k in IdxKeys(r, m.bucket, v) <==> k in IdxKeys(st, m.bucket, v))
  }


  /** Removing `id` under the only value it is listed under unlists it and
      leaves every other id where it was. */
  lemma RemoveUnlists(st: Store, m: IdxMeta, id: string, name: string, given: Option<Value>, prev: Doc, r: Store)
    requires st.Valid() && NoDupLists(st, m)
    requires RemoveKey(st, m.bucket, id, name, given, prev) == Ok(r)
    requires forall v :: id in IdxKeys(st, m.bucket, v) ==> RemovedValue(name, given, prev) == Some(Str(v))
    ensures Unlisted(r, m, id)
    ensures SameOthers(st, r, m, id)
    ensures NoDupLists(r, m)
  {
    var rv := RemovedValue(name, given, prev);
    if rv.Some? {
      RemoveValueUnlists(st, m, id, name, given, prev, r, rv.value.s);
    } else {
      assert r == st;
      forall v ensures id !in IdxKeys(st, m.bucket, v) {
        assert rv.None?;
      }
    }
  }

  lemma RemoveValueUnlists(st: Store, m: IdxMeta, id: string, name: string, given: Option<Value>, prev: Doc, r: Store, s: string)
    requires st.Valid() && NoDupLists(st, m)
    requires RemoveKey(st, m.bucket, id, name, given, prev) == Ok(r)
    requires RemovedValue(name, given, prev) == Some(Str(s))
    requires forall v :: id in IdxKeys(st, m.bucket, v) ==> s == v
    ensures Unlisted(r, m, id)
    ensures SameOthers(st, r, m, id)
    ensures NoDupLists(r, m)
  {
    RemoveKeySpec(st, m.bucket, id, name, given, prev, s);
    KeyList.RemoveFromNoDup(IdxKeys(st, m.bucket, s), id);
    forall v | v != s ensures IdxKeys(r, m.bucket, v) == IdxKeys(st, m.bucket, v) {
      assert Read(r, m.bucket, v) == Read(st, m.bucket, v);
    }
    forall v ensures id !in IdxKeys(r, m.bucket, v) {
    }
    forall k, v | k != id ensures k in IdxKeys(r, m.bucket, v) <==> k in IdxKeys(st, m.bucket, v) {
    }
    forall v ensures KeyList.NoDup(IdxKeys(r, m.bucket, v)) {
      if v != s {
        assert IdxKeys(r, m.bucket, v) == IdxKeys(st, m.bucket, v);
      }
    }
  }

  /** Inserting an unlisted id under `val` lists it there and nowhere else. */
  lemma InsertLists(st: Store, m: IdxMeta, id: string, val: string)
    requires st.Valid() && KeyList.NoNul(id) && NoDupLists(st, m)
    requires forall v :: id !in IdxKeys(st, m.bucket, v)
    ensures var r := InsertKey(st, m.bucket, id, val);
      && (forall v :: id in IdxKeys(r, m.bucket, v) <==> v == val)
      && (forall k, v :: k != id ==> (k in IdxKeys(r, m.bucket, v) <==> k in IdxKeys(st, m.bucket, v)))
      && NoDupLists(r, m)
  {
    var r := InsertKey(st, m.bucket, id, val);
    InsertKeySpec(st, m.bucket, id, val);
    InsertedList(IdxKeys(st, m.bucket, val), id, IdxKeys(r, m.bucket, val));
    OtherEntries(st, r, m.bucket, val);
  }

  /** The entry written: the old list and the new id, sorted, duplicate-free. */
  lemma InsertedList(ks: seq<string>, id: string, r: seq<string>)
    requires KeyList.NoDup(ks) && id !in ks
    requires r == Strings.SortStrings(ks + [id])
    ensures forall x :: x in r <==> x in ks || x == id
    ensures KeyList.NoDup(r)
  {
    forall x ensures x in r <==> x in ks + [id] {
      assert x in ks + [id] <==> x in multiset(ks + [id]);
      assert x in r <==> x in multiset(r);
    }
    KeyList.AppendFresh(ks, id);
    KeyList.SortNoDup(ks + [id]);
  }

  /** The entries other than `val` read as before. */
  lemma OtherEntries(st: Store, r: Store, bucket: string, val: string)
    requires forall w :: w != val ==> Read(r, bucket, w) == Read(st, bucket, w)
    ensures forall v :: v != val ==> IdxKeys(r, bucket, v) == IdxKeys(st, bucket, v)
  {
  }

  // ------------------------------------------------------------ update

  /** The remove half of one field of collectionIdx.update leaves the id
      listed nowhere. */
  lemma RemovePhase(st: Store, m: IdxMeta, id: string, prev: Option<Doc>)
    requires st.Valid() && IdListed(st, m, id, prev) && NoDupLists(st, m)
    ensures var st1 := Opened(st, m, prev);
      Unindex(st1, m, id, prev).Ok? ==>
        var r1 := Unindex(st1, m, id, prev).value;
        Unlisted(r1, m, id) && SameOthers(st, r1, m, id) && NoDupLists(r1, m)
  {
    var st1 := Opened(st, m, prev);
    forall v ensures IdxKeys(st1, m.bucket, v) == IdxKeys(st, m.bucket, v) {
      assert Read(st1, m.bucket, v) == Read(st, m.bucket, v);
    }
    if prev.Some? && Unindex(st1, m, id, prev).Ok? {
      RemoveUnlists(st1, m, id, m.field, None, prev.value, Unindex(st1, m, id, prev).value);
    }
  }

  /** The insert half lists the id under the new value and nowhere else. */
  lemma InsertPhase(st: Store, m: IdxMeta, id: string, val: string)
    requires st.Valid() && KeyList.NoNul(id) && Unlisted(st, m, id) && NoDupLists(st, m)
    ensures var st2 := Reindex(st, m, id, val);
      && (forall v :: id in IdxKeys(st2, m.bucket, v) <==> v != "" && v == val)
      && SameOthers(st, st2, m, id) && NoDupLists(st2, m)
  {
    if |val| > 0 {
      InsertLists(st, m, id, val);
    }
  }

  /** One field of collectionIdx.update: from "id listed as in `prev`" to
      "id listed as in the new document", all other ids untouched. */
  lemma UpdateOne(st: Store, c: string, m: IdxMeta, id: string, val: string, prev: Option<Doc>, newDoc: Doc)
    requires st.Valid() && m.bucket != c && KeyList.NoNul(id)
    requires DocOf(st, c, id) == Some(newDoc) && Reads(newDoc, m.field, val)
    requires OthersAgree(st, c, m, id) && IdListed(st, m, id, prev) && NoDupLists(st, m)
    ensures var st1 := Opened(st, m, prev);
      Unindex(st1, m, id, prev).Ok? ==>
        var st2 := Reindex(Unindex(st1, m, id, prev).value, m, id, val);
        Agrees(st2, c, m) && NoDupLists(st2, m)
  {
    var st1 := Opened(st, m, prev);
    RemovePhase(st, m, id, prev);
    if Unindex(st1, m, id, prev).Ok? {
      var r1 := Unindex(st1, m, id, prev).value;
      var st2 := Reindex(r1, m, id, val);
      InsertPhase(r1, m, id, val);
      FrameTrans(st, st1, r1, {m.bucket}, {m.bucket});
      FrameTrans(st, r1, st2, {m.bucket}, {m.bucket});
      assert SameBucket(st, st2, c);
      SameBucketReads(st, st2, c);
      assert forall k :: DocOf(st2, c, k) == DocOf(st, c, k);
      assert forall k, v :: k != id ==> (k in IdxKeys(st2, m.bucket, v) <==> k in IdxKeys(st, m.bucket, v));
      OthersMove(st, st2, c, m, id);
      AgreesSplit(st2, c, m, id);
    }
  }

  /** The buckets of the metadata are distinct and none is the collection's own. */
  ghost predicate Separate(c: string, metas: seq<IdxMeta>) {
    && (forall j, l :: 0 <= j < l < |metas| ==> metas[j].bucket != metas[l].bucket)
    && (forall j :: 0 <= j < |metas| ==> metas[j].bucket != c)
  }

  lemma SeparateTail(c: string, metas: seq<IdxMeta>)
    requires Separate(c, metas) && |metas| > 0
    ensures Separate(c, metas[1..])
    ensures metas[0].bucket !in Buckets(metas[1..]) && c !in Buckets(metas)
  {
    forall j, l | 0 <= j < l < |metas| - 1 ensures metas[1..][j].bucket != metas[1..][l].bucket {
      assert metas[1..][j] == metas[j + 1] && metas[1..][l] == metas[l + 1];
    }
    forall j | 0 <= j < |metas| - 1 ensures metas[1..][j].bucket != metas[0].bucket {
      assert metas[1..][j] == metas[j + 1];
    }
  }

  /** collectionIdx.update brings every index of `metas` into agreement with
      the new document `newDoc` stored under `id`, given that each lists `id`
      as the old document `prev` says and agrees on every other id. */
  lemma {:induction false} UpdateIndexesSpec(st: Store, c: string, metas: seq<IdxMeta>, id: string, vals: Entity, prev: Option<Doc>, newDoc: Doc)
    requires st.Valid() && KeyList.NoNul(id) && Separate(c, metas)
    requires forall m :: m in metas ==> m.pos < |vals| && vals[m.pos].Str? && Reads(newDoc, m.field, vals[m.pos].s)
    requires DocOf(st, c, id) == Some(newDoc)
    requires forall m :: m in metas ==> OthersAgree(st, c, m, id) && IdListed(st, m, id, prev) && NoDupLists(st, m)
    ensures var r := UpdateIndexes(st, metas, id, vals, prev);
      r.err.None? ==> forall m :: m in metas ==> Agrees(r.st, c, m) && NoDupLists(r.st, m)
    decreases |metas|
  {
    var r := UpdateIndexes(st, metas, id, vals, prev);
    if |metas| > 0 && r.err.None? {
      var m := metas[0];
      SeparateTail(c, metas);
      var st1 := Opened(st, m, prev);
      var removed := Unindex(st1, m, id, prev);
      assert removed.Ok?;
      var st2 := Reindex(removed.value, m, id, vals[m.pos].s);
      UpdateOne(st, c, m, id, vals[m.pos].s, prev, newDoc);
      FrameTrans(st, st1, removed.value, {m.bucket}, {m.bucket});
      FrameTrans(st, removed.value, st2, {m.bucket}, {m.bucket});
      assert SameBucket(st, st2, c);
      SameBucketReads(st, st2, c);
      assert forall k :: DocOf(st2, c, k) == DocOf(st, c, k);
      forall m' | m' in metas[1..]
        ensures OthersAgree(st2, c, m', id) && IdListed(st2, m', id, prev) && NoDupLists(st2, m')
      {
        assert m' in metas;
        assert m'.bucket != m.bucket;
        Frame(st, st2, c, m', id, prev);
      }
      assert r == UpdateIndexes(st2, metas[1..], id, vals, prev);
      UpdateIndexesSpec(st2, c, metas[1..], id, vals, prev, newDoc);
      assert SameBucket(st2, r.st, m.bucket) && SameBucket(st2, r.st, c);
      FrameAgrees(st2, r.st, c, m);
      forall m' | m' in metas ensures Agrees(r.st, c, m') && NoDupLists(r.st, m') {
        if m' != m {
          assert m' in metas[1..];
        }
      }
    }
  }

  // ------------------------------------------------------------ delete

  /** The rest of a well-formed document after its first field. */
  lemma LookupTail(data: Doc, f: string)
    requires WellFormed(data) && |data| > 0
    ensures WellFormed(data[1..])
    ensures Lookup(data, data[0].0) == Some(data[0].1)
    ensures Lookup(data[1..], f) == if f == data[0].0 then None else Lookup(data, f)
  {
    forall i | 0 <= i < |data| - 1 ensures data[1..][i].0 != data[0].0 {
      assert data[1..][i] == data[i + 1];
    }
  }

  /** One step of clean: the index of the first field stops listing `id`;
      the other indexes, and every other id, are untouched. Afterwards each
      index lists `id` as the rest of the document says. */
  lemma CleanFieldSpec(st: Store, c: string, m: IdxMeta, id: string, data: Doc)
    requires st.Valid() && WellFormed(data) && |data| > 0
    requires m.bucket == IdxName(c, m.field)
    requires OthersAgree(st, c, m, id) && IdListed(st, m, id, Some(data)) && NoDupLists(st, m)
    ensures var st1 := CleanField(st, c, id, data);
      OthersAgree(st1, c, m, id) && IdListed(st1, m, id, Some(data[1..])) && NoDupLists(st1, m)
  {
    var (name, value) := data[0];
    var bucket := IdxName(c, name);
    var st1 := CleanField(st, c, id, data);
    LookupTail(data, m.field);
    IdxNameInjective(c, name, m.field);
    assert SameBucket(st, st1, c);
    SameBucketReads(st, st1, c);
    assert forall k :: DocOf(st1, c, k) == DocOf(st, c, k);
    if m.field != name {
      assert SameBucket(st, st1, m.bucket);
      Frame(st, st1, c, m, id, Some(data));
      SameBucketReads(st, st1, m.bucket);
    } else if !value.Str? || Open(st, bucket).None? {
      assert st1 == st;
      forall v ensures id !in IdxKeys(st, m.bucket, v) {
        assert bucket !in st.buckets ==> Read(st, m.bucket, v) == None;
      }
    } else {
      RemoveUnlists(st, m, id, name, Some(value), data, st1);
      OthersMove(st, st1, c, m, id);
    }
  }

  /** clean over the deleted document leaves `id` listed in no index and every
      other id where it was. */
  lemma {:induction false} CleanSpec(st: Store, c: string, metas: seq<IdxMeta>, id: string, data: Doc)
    requires st.Valid() && WellFormed(data)
    requires forall m :: m in metas ==> m.bucket == IdxName(c, m.field)
    requires forall m :: m in metas ==> OthersAgree(st, c, m, id) && IdListed(st, m, id, Some(data)) && NoDupLists(st, m)
    ensures var r := Clean(st, c, id, data);
      && SameBucket(st, r, c)
      && forall m :: m in metas ==> OthersAgree(r, c, m, id) && Unlisted(r, m, id) && NoDupLists(r, m)
    decreases |data|
  {
    var r := Clean(st, c, id, data);
    assert c !in CleanBuckets(c, data);
    if |data| > 0 {
      var st1 := CleanField(st, c, id, data);
      forall m | m in metas
        ensures OthersAgree(st1, c, m, id) && IdListed(st1, m, id, Some(data[1..])) && NoDupLists(st1, m)
      {
        CleanFieldSpec(st, c, m, id, data);
      }
      LookupTail(data, "");
      CleanSpec(st1, c, metas, id, data[1..]);
    }
  }

  // ------------------------------------------------------------ ids

  /** A sequence id is a digit string: it holds no 0 byte. */
  lemma IdNoNul(n: nat)
    ensures KeyList.NoNul(Strings.FormatInt(n))
  {
  }

  /** Distinct sequence numbers give distinct ids. */
  lemma IdDistinct(n: nat, k: nat)
    ensures n != k ==> Strings.FormatInt(n) != Strings.FormatInt(k)
  {
    Strings.DigitsValueOfDigits(n);
    Strings.DigitsValueOfDigits(k);
  }

  /** Every key of the collection is free of 0 bytes. */
  lemma StoredIdNoNul(st: Store, c: string, id: string)
    requires IdsAreSequence(st, c) && Kv.Get(OpenOrCreate(st, c), id).Some?
    ensures KeyList.NoNul(id)
  {
    var n: nat :| 1 <= n <= OpenOrCreate(st, c).sequence && id == Strings.FormatInt(n);
    IdNoNul(n);
  }

  /** The next sequence id is not yet a key of the collection. */
  lemma NextIdFresh(st: Store, c: string)
    requires IdsAreSequence(st, c)
    ensures var b := OpenOrCreate(st, c);
      Kv.Get(b, Strings.FormatInt(b.sequence + 1)).None? && DocOf(st, c, Strings.FormatInt(b.sequence + 1)) == None
  {
    var b := OpenOrCreate(st, c);
    forall n: nat | 1 <= n <= b.sequence ensures Strings.FormatInt(n) != Strings.FormatInt(b.sequence + 1) {
      IdDistinct(n, b.sequence + 1);
    }
    ReadOpened(st, c, Strings.FormatInt(b.sequence + 1));
  }

  /** Reading the collection is reading the bucket Tx.Bucket(c, true) opens. */
  lemma ReadOpened(st: Store, c: string, k: string)
    ensures Read(st, c, k) == Kv.Get(OpenOrCreate(st, c), k)
  {
  }

  /** Writing the collection's bucket with a bucket that differs at most under
      `id` changes no other document and no index. */
  lemma PrimaryWrite(st: Store, c: string, metas: seq<IdxMeta>, id: string, nb: Bucket)
    requires st.Valid() && nb.Valid() && Separate(c, metas)
    requires forall k :: k != id ==> Kv.Get(nb, k) == Kv.Get(OpenOrCreate(st, c), k)
    ensures forall k :: k != id ==> DocOf(Put(st, c, nb), c, k) == DocOf(st, c, k)
    ensures forall m :: m in metas ==> SameBucket(st, Put(st, c, nb), m.bucket)
  {
    forall k | k != id ensures DocOf(Put(st, c, nb), c, k) == DocOf(st, c, k) {
      ReadOpened(st, c, k);
    }
  }

  /** Before the primary write, the index state each index of `metas` had is
      carried over to the written store. */
  lemma PrimaryWriteIndexes(st: Store, c: string, metas: seq<IdxMeta>, id: string, nb: Bucket)
    requires st.Valid() && nb.Valid() && Separate(c, metas)
    requires forall k :: k != id ==> Kv.Get(nb, k) == Kv.Get(OpenOrCreate(st, c), k)
    requires forall m :: m in metas ==> Agrees(st, c, m) && NoDupLists(st, m)
    ensures forall m :: m in metas ==>
      && OthersAgree(Put(st, c, nb), c, m, id) && NoDupLists(Put(st, c, nb), m)
      && IdListed(Put(st, c, nb), m, id, DocOf(st, c, id))
  {
    PrimaryWrite(st, c, metas, id, nb);
    forall m | m in metas
      ensures OthersAgree(Put(st, c, nb), c, m, id) && NoDupLists(Put(st, c, nb), m)
      ensures IdListed(Put(st, c, nb), m, id, DocOf(st, c, id))
    {
      AgreesSplit(st, c, m, id);
      Frame(st, Put(st, c, nb), c, m, id, DocOf(st, c, id));
    }
  }

  /** The metadata makemeta builds satisfies the layout the invariant needs. */
  lemma MetaForSeparate(c: string, fields: Descriptor, metas: seq<IdxMeta>)
    requires MetaFor(c, fields, metas)
    ensures Separate(c, metas)
    ensures ReadsStrings(fields, metas)
  {
    forall j | 0 <= j < |metas| ensures metas[j].bucket != c {
      assert metas[j] in metas;
    }
  }

  /** Document `d` gives field `f` the string `s` the way decoding it into
      the struct would: present with that value, or absent when `s` is
      empty, as an omitempty field holding "" is. */
  predicate Reads(d: Doc, f: string, s: string) {
    Lookup(d, f) == Some(Str(s)) || (s == "" && Lookup(d, f) == None)
  }

  /** The stored document reads every indexed field as its entity value. */
  lemma EncodedFields(c: string, fields: Descriptor, metas: seq<IdxMeta>, vals: Entity)
    requires ValidDescriptor(fields) && MetaFor(c, fields, metas) && WellTyped(fields, vals)
    ensures forall m :: m in metas ==>
      m.pos < |vals| && vals[m.pos].Str? && Reads(Encode(fields, vals), m.field, vals[m.pos].s)
    ensures WellFormed(Encode(fields, vals))
  {
    forall m | m in metas
      ensures m.pos < |vals| && vals[m.pos].Str? && Reads(Encode(fields, vals), m.field, vals[m.pos].s)
    {
      EncodedField(fields, vals, m);
    }
    if |fields| > 0 {
      EncodeLookup(fields, vals, 0);
    }
  }

  /** One indexed field: a string, read back under its JSON name. */
  lemma EncodedField(fields: Descriptor, vals: Entity, m: IdxMeta)
    requires ValidDescriptor(fields) && WellTyped(fields, vals)
    requires m.pos < |fields| && Indexed(fields[m.pos], m.field) && m.field == JsonName(fields[m.pos]) && !Ignored(fields[m.pos])
    ensures m.pos < |vals| && vals[m.pos].Str? && Reads(Encode(fields, vals), m.field, vals[m.pos].s)
  {
    EncodeLookup(fields, vals, m.pos);
  }

  /** update never fails without an old document. */
  lemma {:induction false} UpdateIndexesFresh(st: Store, metas: seq<IdxMeta>, id: string, vals: Entity)
    requires st.Valid()
    requires forall m :: m in metas ==> m.pos < |vals| && vals[m.pos].Str?
    ensures UpdateIndexes(st, metas, id, vals, None).err.None?
    decreases |metas|
  {
    if |metas| > 0 {
      var m := metas[0];
      assert forall m' :: m' in metas[1..] ==> m' in metas;
      UpdateIndexesFresh(Reindex(st, m, id, vals[m.pos].s), metas[1..], id, vals);
    }
  }

  // ------------------------------------------------------------ operations

  /** Overwriting the document under `id` with the encoding of `vals` and
      running update against its previous version brings every index back into
      agreement; the collection's bucket is the written one. */
  lemma WriteAndIndex(st: Store, c: string, fields: Descriptor, metas: seq<IdxMeta>, vals: Entity, id: string, nb: Bucket)
    requires Consistent(st, c, metas) && ValidDescriptor(fields) && MetaFor(c, fields, metas)
    requires WellTyped(fields, vals) && KeyList.NoNul(id) && nb.Valid()
    requires Kv.Get(nb, id) == Some(Json(Encode(fields, vals)))
    requires forall k :: k != id ==> Kv.Get(nb, k) == Kv.Get(OpenOrCreate(st, c), k)
    ensures var out := UpdateIndexes(Put(st, c, nb), metas, id, vals, DocOf(st, c, id));
      && (DocOf(st, c, id).None? ==> out.err.None?)
      && SameBucket(Put(st, c, nb), out.st, c) && out.st.Valid()
      && (out.err.None? ==> forall m :: m in metas ==> Agrees(out.st, c, m) && NoDupLists(out.st, m))
  {
    var st1 := Put(st, c, nb);
    var doc := Encode(fields, vals);
    MetaForSeparate(c, fields, metas);
    PrimaryWriteIndexes(st, c, metas, id, nb);
    EncodedFields(c, fields, metas, vals);
    assert DocOf(st1, c, id) == Some(doc);
    UpdateIndexesSpec(st1, c, metas, id, vals, DocOf(st, c, id), doc);
    if DocOf(st, c, id).None? {
      UpdateIndexesFresh(st1, metas, id, vals);
    }
    SeparateOut(c, metas);
  }

  /** No bucket of the metadata is the collection's. */
  lemma SeparateOut(c: string, metas: seq<IdxMeta>)
    requires Separate(c, metas)
    ensures c !in Buckets(metas)
  {
    forall m | m in metas ensures m.bucket != c {
      var j :| 0 <= j < |metas| && metas[j] == m;
    }
  }

  /** The facts about the collection's own bucket carry over to a written
      bucket whose keys are sequence ids and whose documents are well formed. */
  lemma CollectionFacts(st: Store, r: Store, c: string, metas: seq<IdxMeta>, nb: Bucket)
    requires r.Valid() && OpenOrCreate(r, c) == nb && c in r.buckets
    requires forall k :: Kv.Get(nb, k).Some? ==> exists n: nat :: 1 <= n <= nb.sequence && k == Strings.FormatInt(n)
    requires forall k :: DocOf(r, c, k).Some? ==> WellFormed(DocOf(r, c, k).value)
    requires forall m :: m in metas ==> Agrees(r, c, m) && NoDupLists(r, m)
    ensures Consistent(r, c, metas)
  {
  }

  /** The written bucket's keys are sequence ids when the old keys were and
      the only new key is the next id. */
  lemma SequenceAfterWrite(st: Store, c: string, nb: Bucket, id: string)
    requires IdsAreSequence(st, c)
    requires nb.sequence >= OpenOrCreate(st, c).sequence
    requires forall k :: k != id ==> Kv.Get(nb, k) == Kv.Get(OpenOrCreate(st, c), k)
    requires Kv.Get(nb, id).Some? ==> exists n: nat :: 1 <= n <= nb.sequence && id == Strings.FormatInt(n)
    ensures forall k :: Kv.Get(nb, k).Some? ==> exists n: nat :: 1 <= n <= nb.sequence && k == Strings.FormatInt(n)
  {
    forall k | Kv.Get(nb, k).Some? && k != id
      ensures exists n: nat :: 1 <= n <= nb.sequence && k == Strings.FormatInt(n)
    {
      var n: nat :| 1 <= n <= OpenOrCreate(st, c).sequence && k == Strings.FormatInt(n);
    }
  }

  /** The documents of the written store: those of `st` except under `id`. */
  lemma DocsAfterWrite(st: Store, r: Store, c: string, nb: Bucket, id: string)
    requires DocsWellFormed(st, c) && c in r.buckets && r.buckets[c] == nb
    requires forall k :: k != id ==> Kv.Get(nb, k) == Kv.Get(OpenOrCreate(st, c), k)
    requires DocOf(r, c, id).Some? ==> WellFormed(DocOf(r, c, id).value)
    ensures forall k :: k != id ==> DocOf(r, c, k) == DocOf(st, c, k)
    ensures DocsWellFormed(r, c)
  {
    forall k | k != id ensures DocOf(r, c, k) == DocOf(st, c, k) {
      ReadOpened(st, c, k);
    }
  }

  /** Storing a new document under the next sequence id and indexing it keeps
      the collection consistent. */
  lemma InsertOnePreserves(st: Store, c: string, fields: Descriptor, metas: seq<IdxMeta>, vals: Entity, b: Bucket, id: string)
    requires Consistent(st, c, metas) && ValidDescriptor(fields) && MetaFor(c, fields, metas)
    requires WellTyped(fields, vals)
    requires NextSequence(OpenOrCreate(st, c)) == (b, id)
    ensures var out := StoreNew(st, c, fields, metas, vals, b, id);
      out.err.None? && Consistent(out.st, c, metas)
  {
    var nb := Set(b, id, Json(Encode(fields, vals)));
    MetaForSeparate(c, fields, metas);
    StoreNewFacts(st, c, fields, metas, vals, b, id);
    IdNoNul(OpenOrCreate(st, c).sequence + 1);
    assert b.entries == OpenOrCreate(st, c).entries;
    WriteAndIndex(st, c, fields, metas, vals, id, nb);
    var out := StoreNew(st, c, fields, metas, vals, b, id);
    EncodedFields(c, fields, metas, vals);
    DocsAfterWrite(st, out.st, c, nb, id);
    CollectionFacts(st, out.st, c, metas, nb);
  }

  /** collection.Insert keeps the collection consistent. */
  lemma {:induction false} InsertAllPreserves(st: Store, c: string, fields: Descriptor, metas: seq<IdxMeta>, docs: seq<Entity>, now: string)
    requires Consistent(st, c, metas) && ValidDescriptor(fields) && MetaFor(c, fields, metas)
    requires forall i :: 0 <= i < |docs| ==> WellTyped(fields, docs[i])
    ensures var r := InsertAll(st, c, fields, metas, docs, now);
      r.Ok? ==> Consistent(r.value.0, c, metas)
    decreases |docs|
  {
    var r := InsertAll(st, c, fields, metas, docs, now);
    if |docs| > 0 && r.Ok? {
      var (b, id) := NextSequence(OpenOrCreate(st, c));
      InsertOneSteps(st, c, fields, metas, docs[0], now);
      var vals := Stamp(fields, docs[0], id, now).value;
      var out := StoreNew(st, c, fields, metas, vals, b, id);
      InsertOnePreserves(st, c, fields, metas, vals, b, id);
      assert forall i :: 0 <= i < |docs[1..]| ==> WellTyped(fields, docs[1..][i]);
      InsertAllPreserves(out.st, c, fields, metas, docs[1..], now);
    }
  }

  /** A successful insert step is stamping followed by StoreNew. */
  lemma InsertOneSteps(st: Store, c: string, fields: Descriptor, metas: seq<IdxMeta>, doc: Entity, now: string)
    requires st.Valid() && ReadsStrings(fields, metas) && WellTyped(fields, doc)
    requires InsertOne(st, c, fields, metas, doc, now).Ok?
    ensures var (b, id) := NextSequence(OpenOrCreate(st, c));
      && Stamp(fields, doc, id, now).Ok?
      && InsertOne(st, c, fields, metas, doc, now)
         == Ok((StoreNew(st, c, fields, metas, Stamp(fields, doc, id, now).value, b, id).st, Stamp(fields, doc, id, now).value))
  {
  }

  /** The collection's bucket after storing one new document: the next id is
      fresh, its keys are still sequence ids, and indexing cannot fail. */
  lemma StoreNewFacts(st: Store, c: string, fields: Descriptor, metas: seq<IdxMeta>, vals: Entity, b: Bucket, id: string)
    requires st.Valid() && IdsAreSequence(st, c) && ReadsStrings(fields, metas) && Separate(c, metas)
    requires WellTyped(fields, vals)
    requires NextSequence(OpenOrCreate(st, c)) == (b, id)
    ensures var out := StoreNew(st, c, fields, metas, vals, b, id);
      && out.err.None? && IdsAreSequence(out.st, c) && c in out.st.buckets
      && OpenOrCreate(out.st, c) == Set(b, id, Json(Encode(fields, vals)))
      && Kv.Get(OpenOrCreate(st, c), id).None?
      && id == Strings.FormatInt(OpenOrCreate(st, c).sequence + 1)
  {
    var b0 := OpenOrCreate(st, c);
    var nb := Set(b, id, Json(Encode(fields, vals)));
    var st1 := Put(st, c, nb);
    NextIdFresh(st, c);
    assert b.entries == b0.entries;
    UpdateIndexesFresh(st1, metas, id, vals);
    SeparateOut(c, metas);
    var out := StoreNew(st, c, fields, metas, vals, b, id);
    SameBucketReads(st1, out.st, c);
    assert 1 <= b0.sequence + 1 <= nb.sequence;
    SequenceAfterWrite(st, c, nb, id);
  }

  /** One stored document, seen from the collection's bucket: the store stays
      valid with sequence ids, the sequence and the count grow by one, the new
      id holds the encoding, and the documents already there are untouched. */
  lemma InsertHead(st: Store, c: string, fields: Descriptor, metas: seq<IdxMeta>, doc: Entity, now: string)
    requires st.Valid() && IdsAreSequence(st, c) && ReadsStrings(fields, metas) && Separate(c, metas)
    requires WellTyped(fields, doc)
    requires InsertOne(st, c, fields, metas, doc, now).Ok?
    ensures var (st1, vals) := InsertOne(st, c, fields, metas, doc, now).value;
      && st1.Valid() && IdsAreSequence(st1, c) && c in st1.buckets
      && OpenOrCreate(st1, c).sequence == OpenOrCreate(st, c).sequence + 1
      && |OpenOrCreate(st1, c).entries| == |OpenOrCreate(st, c).entries| + 1
      && DocOf(st1, c, Strings.FormatInt(OpenOrCreate(st, c).sequence + 1)) == Some(Encode(fields, vals))
      && Kv.Get(OpenOrCreate(st1, c), Strings.FormatInt(OpenOrCreate(st, c).sequence + 1)).Some?
      && (forall k :: Kv.Get(OpenOrCreate(st, c), k).Some? ==>
            Kv.Get(OpenOrCreate(st1, c), k).Some? && DocOf(st1, c, k) == DocOf(st, c, k))
  {
    var (st1, vals) := InsertOne(st, c, fields, metas, doc, now).value;
    var b0 := OpenOrCreate(st, c);
    var (b, id) := NextSequence(b0);
    assert vals == Stamp(fields, doc, id, now).value;
    assert st1 == StoreNew(st, c, fields, metas, vals, b, id).st;
    StoreNewFacts(st, c, fields, metas, vals, b, id);
    EntryCounts(b, id, Json(Encode(fields, vals)));
    assert b.entries == b0.entries;
    ReadOpened(st1, c, id);
    forall k | Kv.Get(b0, k).Some?
      ensures Kv.Get(OpenOrCreate(st1, c), k).Some? && DocOf(st1, c, k) == DocOf(st, c, k)
    {
      ReadOpened(st1, c, k);
      ReadOpened(st, c, k);
    }
  }

  /** What collection.Insert stores: the i-th document, stamped, under the
      i-th next sequence id; the documents already stored are untouched and
      the count grows by the number inserted. */
  lemma {:induction false} InsertAllContents(st: Store, c: string, fields: Descriptor, metas: seq<IdxMeta>, docs: seq<Entity>, now: string, st': Store, stamped: seq<Entity>)
    requires st.Valid() && IdsAreSequence(st, c) && ReadsStrings(fields, metas) && Separate(c, metas)
    requires forall i :: 0 <= i < |docs| ==> WellTyped(fields, docs[i])
    requires InsertAll(st, c, fields, metas, docs, now) == Ok((st', stamped))
    ensures c in st.buckets || |docs| > 0 ==> c in st'.buckets
    ensures OpenOrCreate(st', c).sequence == OpenOrCreate(st, c).sequence + |docs|
    ensures |OpenOrCreate(st', c).entries| == |OpenOrCreate(st, c).entries| + |docs|
    ensures |stamped| == |docs|
    ensures forall i :: 0 <= i < |docs| ==> WellTyped(fields, stamped[i])
    ensures forall i :: 0 <= i < |docs| ==>
      DocOf(st', c, IdRange(OpenOrCreate(st, c).sequence + 1, |docs|)[i]) == Some(EncodeAll(fields, stamped)[i])
    ensures forall k :: Kv.Get(OpenOrCreate(st, c), k).Some? ==> DocOf(st', c, k) == DocOf(st, c, k)
    decreases |docs|
  {
    if |docs| > 0 {
      var (st1, vals) := InsertOne(st, c, fields, metas, docs[0], now).value;
      InsertHead(st, c, fields, metas, docs[0], now);
      var rest := InsertAll(st1, c, fields, metas, docs[1..], now).value;
      InsertAllContents(st1, c, fields, metas, docs[1..], now, rest.0, rest.1);
      assert stamped == [vals] + rest.1;
      PrependTyped(fields, vals, rest.1);
      InsertStep(st, st1, st', c, fields, vals, rest.1, stamped);
    }
  }

  /** The step of InsertAllContents: the head document stored in front of
      what the rest of the insert stored. */
  lemma InsertStep(st: Store, st1: Store, st': Store, c: string, fields: Descriptor, vals: Entity, rest: seq<Entity>, stamped: seq<Entity>)
    requires stamped == [vals] + rest && WellTyped(fields, vals)
    requires forall i :: 0 <= i < |rest| ==> WellTyped(fields, rest[i])
    requires forall i :: 0 <= i < |stamped| ==> WellTyped(fields, stamped[i])
    requires OpenOrCreate(st1, c).sequence == OpenOrCreate(st, c).sequence + 1
    requires var id := Strings.FormatInt(OpenOrCreate(st, c).sequence + 1);
      DocOf(st1, c, id) == Some(Encode(fields, vals)) && Kv.Get(OpenOrCreate(st1, c), id).Some?
    requires forall k :: Kv.Get(OpenOrCreate(st, c), k).Some? ==>
      Kv.Get(OpenOrCreate(st1, c), k).Some? && DocOf(st1, c, k) == DocOf(st, c, k)
    requires forall i :: 0 <= i < |rest| ==>
      DocOf(st', c, IdRange(OpenOrCreate(st1, c).sequence + 1, |rest|)[i]) == Some(EncodeAll(fields, rest)[i])
    requires forall k :: Kv.Get(OpenOrCreate(st1, c), k).Some? ==> DocOf(st', c, k) == DocOf(st1, c, k)
    ensures forall i :: 0 <= i < |stamped| ==>
      DocOf(st', c, IdRange(OpenOrCreate(st, c).sequence + 1, |stamped|)[i]) == Some(EncodeAll(fields, stamped)[i])
    ensures forall k :: Kv.Get(OpenOrCreate(st, c), k).Some? ==> DocOf(st', c, k) == DocOf(st, c, k)
  {
    var ids := IdRange(OpenOrCreate(st, c).sequence + 1, |stamped|);
    var ds := EncodeAll(fields, stamped);
    IdRangeTail(OpenOrCreate(st, c).sequence + 1, |stamped|);
    assert stamped[0] == vals && stamped[1..] == rest;
    EncodeAllTail(fields, stamped);
    assert DocOf(st', c, ids[0]) == Some(ds[0]);
    Shifted(st', c, ids, ds);
  }

  /** Reading a document through collection.Get. */
  lemma GetDoc(st: Store, c: string, id: string)
    requires c in st.buckets
    ensures Collection.Get(st, c, id).Ok? <==> DocOf(st, c, id).Some?
    ensures DocOf(st, c, id).Some? ==> Collection.Get(st, c, id) == Ok(DocOf(st, c, id).value)
  {
  }

  /** Overwriting a stored document keeps the collection consistent: the id
      now holds the new encoding, every other document and the count are
      unchanged. */
  lemma UpdateDocPreserves(st: Store, c: string, fields: Descriptor, metas: seq<IdxMeta>, vals: Entity, id: string)
    requires Consistent(st, c, metas) && ValidDescriptor(fields) && MetaFor(c, fields, metas)
    requires WellTyped(fields, vals) && ReadsStrings(fields, metas)
    ensures var out := UpdateDoc(st, c, metas, fields, vals, id);
      out.err.None? ==>
        && Consistent(out.st, c, metas) && c in out.st.buckets
        && DocOf(out.st, c, id) == Some(Encode(fields, vals))
        && (forall k :: k != id ==> DocOf(out.st, c, k) == DocOf(st, c, k))
        && |OpenOrCreate(out.st, c).entries| == |OpenOrCreate(st, c).entries|
  {
    MetaForSeparate(c, fields, metas);
    var b := OpenOrCreate(st, c);
    var out := UpdateDoc(st, c, metas, fields, vals, id);
    if Kv.Get(b, id).Some? && Kv.Get(b, id).value.Json? {
      var prev := Kv.Get(b, id).value.doc;
      var nb := Set(b, id, Json(Encode(fields, vals)));
      StoredIdNoNul(st, c, id);
      ReadOpened(st, c, id);
      WriteAndIndex(st, c, fields, metas, vals, id, nb);
      assert out == UpdateIndexes(Put(st, c, nb), metas, id, vals, Some(prev));
      if out.err.None? {
        EncodedFields(c, fields, metas, vals);
        ReadOpened(out.st, c, id);
        DocsAfterWrite(st, out.st, c, nb, id);
        forall k | Kv.Get(nb, k).Some?
          ensures exists n: nat :: 1 <= n <= nb.sequence && k == Strings.FormatInt(n)
        {
          assert Kv.Get(b, k).Some?;
        }
        CollectionFacts(st, out.st, c, metas, nb);
        EntryCounts(b, id, Json(Encode(fields, vals)));
      }
    }
  }

  /** collection.Update by id keeps the collection consistent, and reading
      the id back gives the stamped document. */
  lemma UpdateByIdPreserves(st: Store, c: string, fields: Descriptor, metas: seq<IdxMeta>, id: string, vals: Entity, now: string)
    requires Consistent(st, c, metas) && ValidDescriptor(fields) && MetaFor(c, fields, metas)
    requires WellTyped(fields, vals) && ReadsStrings(fields, metas)
    ensures var r := UpdateById(st, c, fields, metas, id, vals, now);
      r.Ok? ==>
        && Consistent(r.value, c, metas)
        && Collection.Get(r.value, c, id) == Ok(Encode(fields, StampUpdated(fields, vals, now).value))
        && Count(r.value, c) == Count(st, c)
  {
    MetaForSeparate(c, fields, metas);
    var r := UpdateById(st, c, fields, metas, id, vals, now);
    if r.Ok? {
      var stamped := StampUpdated(fields, vals, now).value;
      UpdateDocPreserves(st, c, fields, metas, stamped, id);
      var out := UpdateDoc(st, c, metas, fields, stamped, id);
      GetDoc(out.st, c, id);
    }
  }

  /** Deleting a stored document keeps the collection consistent: the id
      holds nothing afterwards, every other document is unchanged and the
      count drops by one. */
  lemma DeleteDocPreserves(st: Store, c: string, fields: Descriptor, metas: seq<IdxMeta>, id: string)
    requires Consistent(st, c, metas) && MetaFor(c, fields, metas)
    ensures var out := DeleteDoc(st, c, id);
      out.err.None? ==>
        && Consistent(out.st, c, metas) && c in out.st.buckets
        && DocOf(out.st, c, id) == None
        && (forall k :: k != id ==> DocOf(out.st, c, k) == DocOf(st, c, k))
        && |OpenOrCreate(out.st, c).entries| == |OpenOrCreate(st, c).entries| - 1
  {
    MetaForSeparate(c, fields, metas);
    var b := OpenOrCreate(st, c);
    var out := DeleteDoc(st, c, id);
    if Kv.Get(b, id).Some? && Kv.Get(b, id).value.Json? {
      var data := Kv.Get(b, id).value.doc;
      var nb := Delete(b, id);
      var st1 := Put(st, c, nb);
      ReadOpened(st, c, id);
      assert DocOf(st, c, id) == Some(data);
      assert WellFormed(data);
      PrimaryWriteIndexes(st, c, metas, id, nb);
      CleanSpec(st1, c, metas, id, data);
      assert out.st == Clean(st1, c, id, data);
      SameBucketReads(st1, out.st, c);
      ReadOpened(out.st, c, id);
      forall m | m in metas ensures Agrees(out.st, c, m) {
        AgreesSplit(out.st, c, m, id);
      }
      DocsAfterWrite(st, out.st, c, nb, id);
      forall k | Kv.Get(nb, k).Some?
        ensures exists n: nat :: 1 <= n <= nb.sequence && k == Strings.FormatInt(n)
      {
        assert Kv.Get(b, k).Some?;
      }
      CollectionFacts(st, out.st, c, metas, nb);
      EntryCounts(b, id, Json(data));
    }
  }

  /** collection.Delete by id keeps the collection consistent; the id is gone
      and the count drops by one. */
  lemma DeleteByIdPreserves(st: Store, c: string, fields: Descriptor, metas: seq<IdxMeta>, id: string)
    requires Consistent(st, c, metas) && MetaFor(c, fields, metas)
    ensures var r := DeleteById(st, c, id);
      r.Ok? ==>
        && Consistent(r.value, c, metas)
        && Collection.Get(r.value, c, id) == Err(NotFound)
        && Count(r.value, c) == Ok(Count(st, c).value - 1)
  {
    var r := DeleteById(st, c, id);
    if r.Ok? {
      DeleteDocPreserves(st, c, fields, metas, id);
    }
  }

  /** collection.Insert keeps the collection consistent; the i-th document,
      stamped, is read back under the i-th next sequence id and the count grows
      by the number inserted. */
  lemma InsertPreserves(st: Store, c: string, fields: Descriptor, metas: seq<IdxMeta>, docs: seq<Entity>, now: string)
    requires Consistent(st, c, metas) && ValidDescriptor(fields) && MetaFor(c, fields, metas)
    requires ReadsStrings(fields, metas)
    requires forall i :: 0 <= i < |docs| ==> WellTyped(fields, docs[i])
    requires Insert(st, c, fields, metas, docs, now).Ok?
    ensures var (st', stamped) := Insert(st, c, fields, metas, docs, now).value;
      && Consistent(st', c, metas)
      && Count(st', c).Ok? && Count(st', c).value == Count(st, c).value + |docs|
      && (forall i :: 0 <= i < |docs| ==> WellTyped(fields, stamped[i]))
      && (forall i :: 0 <= i < |docs| ==>
            Collection.Get(st', c, IdRange(OpenOrCreate(st, c).sequence + 1, |docs|)[i]) == Ok(EncodeAll(fields, stamped)[i]))
  {
    var (st', stamped) := Insert(st, c, fields, metas, docs, now).value;
    MetaForSeparate(c, fields, metas);
    assert InsertAll(st, c, fields, metas, docs, now) == Ok((st', stamped));
    InsertAllPreserves(st, c, fields, metas, docs, now);
    InsertAllContents(st, c, fields, metas, docs, now, st', stamped);
    if |docs| == 0 {
      assert st' == st;
    }
    CountOpened(st, c);
    CountOpened(st', c);
    var ids := IdRange(OpenOrCreate(st, c).sequence + 1, |docs|);
    var ds := EncodeAll(fields, stamped);
    GetAll(st', c, ids, ds);
  }

  /** Counting the collection is counting the bucket Tx.Bucket(c, true) opens. */
  lemma CountOpened(st: Store, c: string)
    ensures Open(st, c).Some? ==> Count(st, c) == Ok(|OpenOrCreate(st, c).entries|)
  {
  }

  /** Documents read through DocOf are read the same through collection.Get. */
  lemma GetAll(st: Store, c: string, ids: seq<string>, ds: seq<Doc>)
    requires |ids| == |ds|
    requires forall i :: 0 <= i < |ids| ==> DocOf(st, c, ids[i]) == Some(ds[i])
    ensures forall i :: 0 <= i < |ids| ==> Collection.Get(st, c, ids[i]) == Ok(ds[i])
  {
    forall i | 0 <= i < |ids| ensures Collection.Get(st, c, ids[i]) == Ok(ds[i]) {
      assert DocOf(st, c, ids[i]).Some?;
      GetDoc(st, c, ids[i]);
    }
  }

  /** The documents stored under consecutive ids, one more at the front. */
  lemma Shifted(r: Store, c: string, ids: seq<string>, ds: seq<Doc>)
    requires |ids| == |ds| > 0
    requires DocOf(r, c, ids[0]) == Some(ds[0])
    requires forall i :: 0 <= i < |ds| - 1 ==> DocOf(r, c, ids[1..][i]) == Some(ds[1..][i])
    ensures forall i :: 0 <= i < |ds| ==> DocOf(r, c, ids[i]) == Some(ds[i])
  {
    forall i | 1 <= i < |ds| ensures DocOf(r, c, ids[i]) == Some(ds[i]) {
      assert ds[i] == ds[1..][i - 1];
      assert ids[i] == ids[1..][i - 1];
    }
  }

  /** The ids FormatInt gives `n` consecutive sequence numbers from `start`. */
  function IdRange(start: nat, n: nat): (ids: seq<string>)
    ensures |ids| == n
    decreases n
  {
    if n == 0 then [] else [Strings.FormatInt(start)] + IdRange(start + 1, n - 1)
  }

  lemma IdRangeTail(start: nat, n: nat)
    requires n > 0
    ensures IdRange(start, n)[0] == Strings.FormatInt(start)
    ensures IdRange(start, n)[1..] == IdRange(start + 1, n - 1)
  {
  }

  lemma {:induction false} IdRangeAt(start: nat, n: nat, i: nat)
    requires i < n
    ensures IdRange(start, n)[i] == Strings.FormatInt(start + i)
    decreases n
  {
    if i > 0 {
      IdRangeAt(start + 1, n - 1, i - 1);
    }
  }
}

=== FILE: cursor.dfy ===
/** The cursor a view opens (kv/cursor.go): the transaction it runs in, the
    iterator pipeline, and a closed flag. Reaching the end closes the cursor,
    which commits and then rolls back its transaction; an iterator error
    closes it by rolling back and is not reported; a panic in the iterator
    is not recovered and unwinds through the cursor. The transaction is the
    bolt wrapper as written (Bolt.Commit); CloseReleasing is the Close over
    the releasing Commit. */
module ViewCursor {
  import opened Wrappers
  import opened Kv
  import opened SortIter
  import Bolt

  datatype Cursor = Cursor(tx: Bolt.Tx, iter: Pipeline, closed: bool) {
    predicate Valid() {
      iter.Valid() && (closed ==> tx.closed)
    }
  }

  /** cursor.Close: once only; commit, and roll back unless the commit
      failed. The wrapper's Commit of a read-only transaction reaches nothing
      in bolt and closes the wrapper, so the Rollback after it returns early:
      bolt hears from a read-only cursor's Close not at all. */
  function Close(c: Cursor): (r: (Cursor, Option<Error>))
    ensures r.0.closed && r.0.iter == c.iter && r.0.tx.writable == c.tx.writable && r.0.tx.commitErr == c.tx.commitErr
    ensures c.closed ==> r == (c, None)
    ensures !c.closed ==> r.0.tx.closed
    ensures !c.closed && !c.tx.closed ==> r.0.tx.calls == c.tx.calls + (if c.tx.writable then [Bolt.BoltCommit] else [])
    ensures r.1.Some? <==> !c.closed && !c.tx.closed && c.tx.writable && c.tx.commitErr.Some?
    ensures r.1.Some? ==> r.1 == c.tx.commitErr
  {
    if c.closed then (c, None)
    else
      var (tx1, err) := Bolt.Commit(c.tx);
      if err.Some? then (c.(tx := tx1, closed := true), err)
      else
        var (tx2, err2) := Bolt.Rollback(tx1);
        (c.(tx := tx2, closed := true), err2)
  }

  /** Close over the releasing Commit: every cursor that closes an open
      transaction reaches bolt exactly once, a read-only one with a
      rollback that releases it. */
  function CloseReleasing(c: Cursor): (r: (Cursor, Option<Error>))
    ensures r.0.closed && r.0.iter == c.iter && r.0.tx.writable == c.tx.writable && r.0.tx.commitErr == c.tx.commitErr
    ensures c.closed ==> r == (c, None)
    ensures !c.closed && !c.tx.closed ==>
      r.0.tx.closed && r.0.tx.calls == c.tx.calls + [if c.tx.writable then Bolt.BoltCommit else Bolt.BoltRollback]
    ensures c.tx.writable ==> r == Close(c)
  {
    if c.closed then (c, None)
    else
      var (tx1, err) := Bolt.CommitReleasing(c.tx);
      if err.Some? then (c.(tx := tx1, closed := true), err)
      else
        var (tx2, err2) := Bolt.Rollback(tx1);
        (c.(tx := tx2, closed := true), err2)
  }

  /** The error that unwinds through the cursor: a panic. Every other
      iterator error is turned into a quiet end of the results. */
  function PanicOf(err: Option<Error>): (r: Option<Error>)
    ensures r.Some? <==> err.Some? && err.value.Panic?
    ensures r.Some? ==> r == err
  {
    if err.Some? && err.value.Panic? then err else None
  }

  /** cursor.next: false once closed; an iterator error closes the cursor by
      rolling back and is swallowed; the end of the iteration closes it. A
      panic inside the iterator is not an error return: nothing recovers it,
      so it leaves next, and the cursor's caller, with the transaction still
      open. */
  function Step(c: Cursor): (r: (Cursor, Result<bool>))
    requires c.Valid()
    ensures r.0.Valid() && r.0.tx.writable == c.tx.writable && r.0.tx.commitErr == c.tx.commitErr
    ensures c.closed ==> r == (c, Ok(false))
    ensures r.1.Err? <==> !c.closed && PipelineNext(c.iter).1.Err? && PipelineNext(c.iter).1.error.Panic?
    ensures r.1.Err? ==> r.1 == PipelineNext(c.iter).1 && !r.0.closed && r.0.tx == c.tx
    ensures r.1 == Ok(false) ==> r.0.closed && r.0.tx.closed
    ensures r.1 == Ok(false) && !c.closed && PipelineNext(c.iter).1.Err? ==> r.0.tx == Bolt.Rollback(c.tx).0
    ensures r.1 == Ok(false) && !c.closed && PipelineNext(c.iter).1.Ok? ==> r.0.tx == Close(c).0.tx
    ensures r.1 == Ok(true) ==> !r.0.closed && Current(r.0.iter).Some? && Below(r.0.iter, c.iter) && r.0.tx == c.tx
    ensures r.0.iter.Plain? == c.iter.Plain?
  {
    if c.closed then (c, Ok(false))
    else
      var (p1, res) := PipelineNext(c.iter);
      match res
      case Err(e) =>
        if e.Panic? then (c.(iter := p1), Err(e))
        else (c.(iter := p1, closed := true, tx := Bolt.Rollback(c.tx).0), Ok(false))
      case Ok(more) =>
        if more then (c.(iter := p1), Ok(true))
        else (Close(c.(iter := p1)).0, Ok(false))
  }

  /** Calling next until it reports false: the cursor it leaves, the pairs it
      went over, and the panic that cut it short, if one did. */
  function Drain(c: Cursor): (r: (Cursor, Drained))
    requires c.Valid()
    ensures r.1.err.Some? ==> r.1.err.value.Panic? && !r.0.closed && r.0.tx == c.tx
    ensures r.1.err.None? ==> r.0.closed
    ensures r.0.tx.writable == c.tx.writable && r.0.tx.commitErr == c.tx.commitErr
    decreases RankClosed(c.iter), RankInit(c.iter), RankLeft(c.iter)
  {
    var (c1, res) := Step(c);
    match res
    case Err(e) => (c1, Drained([], Some(e)))
    case Ok(more) =>
      if !more then (c1, Drained([], None))
      else
        var (c2, rest) := Drain(c1);
        (c2, Drained([Current(c1.iter).value] + rest.items, rest.err))
  }

  /** cursor.Next: the current pair, decoded, with its key as the id; none at
      the end; a decode error otherwise; a panic passes through. */
  function Next(c: Cursor): (r: (Cursor, Result<Option<(string, Docs.Doc)>>))
    requires c.Valid()
    ensures r.0 == Step(c).0
    ensures Step(c).1.Err? ==> r.1 == Err(Step(c).1.error)
    ensures r.1 == Ok(None) <==> Step(c).1 == Ok(false)
    ensures r.1.Ok? && r.1.value.Some? ==> Current(r.0.iter) == Some((r.1.value.value.0, Json(r.1.value.value.1)))
    ensures r.1.Err? && Step(c).1.Ok? ==> r.1.error == DecodeFailed && Current(r.0.iter).value.1.Bytes?
  {
    var (c1, res) := Step(c);
    match res
    case Err(e) => (c1, Err(e))
    case Ok(more) =>
      if !more then (c1, Ok(None))
      else
        var (k, v) := Current(c1.iter).value;
        match Decode(v)
        case Err(e) => (c1, Err(e))
        case Ok(d) => (c1, Ok(Some((k, d))))
  }

  // ------------------------------------------------------------ properties

  /** Closing twice: the second Close returns nil and touches nothing. */
  lemma CloseIdempotent(c: Cursor)
    ensures Close(Close(c).0) == (Close(c).0, None)
  {
  }

  /** Draining the cursor gives exactly the pairs the pipeline yields before
      its end or its first error. A panic is passed on and leaves the
      transaction as it was; otherwise the transaction ends closed, after
      a rollback following an iterator error, a bolt commit for a writable
      cursor, and no call to bolt at all for a read-only one. */
  lemma {:induction false} DrainYields(c: Cursor)
    requires c.Valid() && !c.closed && !c.tx.closed
    ensures Drain(c).1.items == PipelineCollect(c.iter).items
    ensures Drain(c).1.err == PanicOf(PipelineCollect(c.iter).err)
    ensures Drain(c).1.err.Some? ==> Drain(c).0.tx == c.tx
    ensures Drain(c).1.err.None? ==> Drain(c).0.tx.closed
    ensures Drain(c).1.err.None? ==>
      Drain(c).0.tx.calls == c.tx.calls +
        (if PipelineCollect(c.iter).err.Some? then [Bolt.BoltRollback] else if c.tx.writable then [Bolt.BoltCommit] else [])
    decreases RankClosed(c.iter), RankInit(c.iter), RankLeft(c.iter)
  {
    var (c1, res) := Step(c);
    if res == Ok(true) {
      DrainYields(c1);
    }
  }

  /** A read-only cursor that reaches the end of its results closes its
      transaction without bolt ever hearing of it, so bolt never releases
      the read transaction. */
  lemma ReadCursorNeverReleased(c: Cursor)
    requires c.Valid() && !c.closed && !c.tx.closed && !c.tx.writable && c.tx.calls == []
    requires PipelineCollect(c.iter).err.None?
    ensures Drain(c).0.tx.closed && Drain(c).0.tx.calls == []
  {
    DrainYields(c);
  }

  /** The first next() on a fresh cursor: it yields exactly when the
      pipeline yields something, and then stands on the first pair; it
      panics exactly when the pipeline panics before its first pair; and
      closing a writable cursor there reaches bolt once, with a commit. */
  lemma FirstStep(c: Cursor)
    requires c.Valid() && !c.closed && !c.tx.closed && c.tx.calls == []
    ensures Step(c).1 == Ok(true) <==> |PipelineCollect(c.iter).items| > 0
    ensures Step(c).1.Err? <==> |PipelineCollect(c.iter).items| == 0 && PanicOf(PipelineCollect(c.iter).err).Some?
    ensures Step(c).1.Err? ==> Step(c).1.error == PipelineCollect(c.iter).err.value
    ensures Step(c).1 == Ok(true) ==> Current(Step(c).0.iter).value == PipelineCollect(c.iter).items[0]
    ensures Step(c).1 == Ok(true) && c.tx.writable ==> Close(Step(c).0).0.tx.calls == [Bolt.BoltCommit]
  {
    DrainYields(c);
  }
}

=== FILE: docs.dfy ===
/** A decoded JSON object (Go's map[string]interface{}), as an association list
    with distinct field names whose order stands for one map iteration order. */
module Docs {
  import opened Wrappers
  import opened Values

  type Doc = seq<(string, Value)>

  predicate WellFormed(d: Doc) {
    forall i, j :: 0 <= i < j < |d| ==> d[i].0 != d[j].0
  }

  predicate Has(d: Doc, name: string) {
    exists i :: 0 <= i < |d| && d[i].0 == name
  }

  /** `v, ok := d[name]`. */
  function Lookup(d: Doc, name: string): (r: Option<Value>)
    ensures r.None? <==> !Has(d, name)
    ensures r.Some? ==> exists i :: 0 <= i < |d| && d[i] == (name, r.value)
  {
    if |d| == 0 then None
    else if d[0].0 == name then Some(d[0].1)
    else
      var r := Lookup(d[1..], name);
      assert forall i :: 0 < i < |d| ==> d[i] == d[1..][i - 1];
      r
  }

  /** A missing entry reads as nil, as `d[name]` does in Go. */
  function Get(d: Doc, name: string): Value {
    Lookup(d, name).GetOr(Nil)
  }

  /** In a well-formed document the entry of a name is unique. */
  lemma LookupEntry(d: Doc, i: nat)
    requires WellFormed(d) && i < |d|
    ensures Lookup(d, d[i].0) == Some(d[i].1)
  {
    if i > 0 {
      assert d[1..][i - 1] == d[i];
      LookupEntry(d[1..], i - 1);
    }
  }
}

=== FILE: filter.dfy ===
/** The predicate compiler of kv/filter.go: a filter tree is compiled once into a
    predicate (Go closures, here the first-order `Pred`) that is then applied to
    each decoded document. Construction-time panics ("invalid query", "invalid
    op") are errors of `Compile`; calling a nil predicate, which Go only notices
    when the predicate is reached, is an error of `Eval`. */
module Filter {
  import opened Wrappers
  import opened Values
  import opened Query
  import opened Docs

  /** The field tests built by fieldFilter. */
  datatype Test =
    | TIn(vals: seq<Value>)
    | TNotIn(vals: seq<Value>)
    | TLt(w: Value)
    | TLte(w: Value)
    | TGt(w: Value)
    | TGte(w: Value)
    | TNe(w: Value)
    | TEq(w: Value)

  /** A compiled predicate; `PNil` is the nil FilterFn that `condition` returns
      for a node it does not recognise. */
  datatype Pred =
    | PNot(p: Pred)
    | PAnd(ps: seq<Pred>)
    | POr(ps: seq<Pred>)
    | PField(name: string, test: Test)
    | PNil

  const InvalidOp: Error := Panic("invalid op")
  const NilFilter: Error := Panic("nil filter function")

  // ------------------------------------------------------------ compilation

  /** The name a field test reads: `_id` is read as `id`. */
  function FieldName(name: string): (r: string)
    ensures name == "_id" ==> r == "id"
    ensures name != "_id" ==> r == name
  {
    if name == "_id" then "id" else name
  }

  /** fieldFilter. */
  function CompileField(name: string, t: Term): (r: Result<Pred>)
    ensures r.Err? <==> t.Op? && !KnownOp(t.kind)
    ensures r.Err? ==> r.error == InvalidOp
    ensures r.Ok? ==> r.value.PField? && r.value.name == FieldName(name)
  {
    var n := FieldName(name);
    match t
    case In(vals) => Ok(PField(n, TIn(vals)))
    case NotIn(vals) => Ok(PField(n, TNotIn(vals)))
    case Is(v) => Ok(PField(n, TEq(v)))
    case Op(kind, v) =>
      if kind == OpLT then Ok(PField(n, TLt(v)))
      else if kind == OpLTE then Ok(PField(n, TLte(v)))
      else if kind == OpGT then Ok(PField(n, TGt(v)))
      else if kind == OpGTE then Ok(PField(n, TGte(v)))
      else if kind == OpNE then Ok(PField(n, TNe(v)))
      else Err(InvalidOp)
  }

  /** A one-element list compiles to its only predicate, any other to a junction. */
  function Junction(ps: seq<Pred>, conj: bool): Pred {
    if |ps| == 1 then ps[0] else if conj then PAnd(ps) else POr(ps)
  }

  /** condition: the only errors are an empty map and an Op of unknown kind;
      a node kind it does not know compiles to the nil predicate. */
  function Compile(n: Node): (r: Result<Pred>)
    ensures r.Err? ==> r.error == InvalidQuery || r.error == InvalidOp
    ensures n.Slice? || n.Raw? ==> r == Ok(PNil)
    ensures n.M? ==> (r.Err? <==> |n.fields| == 0 || exists i :: 0 <= i < |n.fields| && n.fields[i].1.Op? && !KnownOp(n.fields[i].1.kind))
    ensures n.M? && |n.fields| == 0 ==> r == Err(InvalidQuery)
    decreases n, 1
  {
    match n
    case Not(c) =>
      var p :- Compile(c);
      Ok(PNot(p))
    case And(items) =>
      var ps :- CompileAll(items);
      Ok(Junction(ps, true))
    case Or(items) =>
      var ps :- CompileAll(items);
      Ok(Junction(ps, false))
    case M(fields) =>
      if |fields| == 0 then Err(InvalidQuery)
      else
        var ps :- CompileFields(fields);
        Ok(Junction(ps, true))
    case Slice(_) => Ok(PNil)
    case Raw(_) => Ok(PNil)
  }

  function CompileAll(items: seq<Node>): (r: Result<seq<Pred>>)
    ensures r.Ok? ==> |r.value| == |items|
    ensures r.Err? ==> r.error == InvalidQuery || r.error == InvalidOp
    decreases items, 0
  {
    if |items| == 0 then Ok([])
    else
      var p :- Compile(items[0]);
      var ps :- CompileAll(items[1..]);
      Ok([p] + ps)
  }

  function CompileFields(fields: seq<(string, Term)>): (r: Result<seq<Pred>>)
    ensures r.Ok? ==> |r.value| == |fields|
    ensures r.Ok? ==> forall i :: 0 <= i < |fields| ==>
      r.value[i].PField? && r.value[i].name == FieldName(fields[i].0)
    ensures r.Err? <==> exists i :: 0 <= i < |fields| && fields[i].1.Op? && !KnownOp(fields[i].1.kind)
    ensures r.Err? ==> r.error == InvalidOp
  {
    if |fields| == 0 then Ok([])
    else
      var p :- CompileField(fields[0].0, fields[0].1);
      var ps :- CompileFields(fields[1..]);
      assert forall i :: 1 <= i < |fields| ==> fields[i] == fields[1..][i - 1];
      Ok([p] + ps)
  }

  /** MakeFilterFn: no predicate for an empty filter, otherwise the conjunction of
      the top-level conditions (never collapsed, even for one condition). */
  function MakeFilterFn(filter: seq<Node>): (r: Result<Option<Pred>>)
    ensures |filter| == 0 ==> r == Ok(None)
    ensures |filter| > 0 && r.Ok? ==> r.value.Some? && r.value.value.PAnd? && |r.value.value.ps| == |filter|
    ensures |filter| > 0 ==> (r.Ok? <==> CompileAll(filter).Ok?)
  {
    if |filter| == 0 then Ok(None)
    else
      var ps :- CompileAll(filter);
      Ok(Some(PAnd(ps)))
  }

  // ------------------------------------------------------------ evaluation

  /** Some member of `vals` compares equal to `v` (the loop of the In test). */
  function AnyEqual(v: Value, vals: seq<Value>): (r: bool)
    ensures r <==> exists i :: 0 <= i < |vals| && Equals(v, vals[i])
  {
    if |vals| == 0 then false
    else if Equals(v, vals[0]) then true
    else
      assert forall i :: 1 <= i < |vals| ==> vals[i] == vals[1..][i - 1];
      AnyEqual(v, vals[1..])
  }

  /** The closure of one field test, applied to the field's value. */
  function Apply(t: Test, v: Value): bool {
    match t
    case TIn(vals) => AnyEqual(v, vals)
    case TNotIn(vals) => !AnyEqual(v, vals)
    case TLt(w) => Compare(v, w) < 0
    case TLte(w) => Compare(v, w) <= 0
    case TGt(w) => Compare(v, w) > 0
    case TGte(w) => Compare(v, w) >= 0
    case TNe(w) => !Equals(v, w)
    case TEq(w) => Equals(v, w)
  }

  /** Applies a compiled predicate to a document; `and`/`or` stop at the first
      deciding child, so a nil predicate behind it is never called. */
  function Eval(p: Pred, d: Doc): Result<bool>
    decreases p, 1
  {
    match p
    case PNil => Err(NilFilter)
    case PNot(q) =>
      var b :- Eval(q, d);
      Ok(!b)
    case PAnd(ps) => EvalAnd(ps, d)
    case POr(ps) => EvalOr(ps, d)
    case PField(name, t) =>
      match Lookup(d, name)
      case None => Ok(false)
      case Some(v) => Ok(Apply(t, v))
  }

  function EvalAnd(ps: seq<Pred>, d: Doc): Result<bool>
    decreases ps, 0
  {
    if |ps| == 0 then Ok(true)
    else
      var b :- Eval(ps[0], d);
      if !b then Ok(false) else EvalAnd(ps[1..], d)
  }

  function EvalOr(ps: seq<Pred>, d: Doc): Result<bool>
    decreases ps, 0
  {
    if |ps| == 0 then Ok(false)
    else
      var b :- Eval(ps[0], d);
      if b then Ok(true) else EvalOr(ps[1..], d)
  }

  /** The filter function of a whole filter list: none accepts every document. */
  function Check(f: Option<Pred>, d: Doc): Result<bool> {
    match f
    case None => Ok(true)
    case Some(p) => Eval(p, d)
  }

  // ------------------------------------------------------------ reference semantics

  /** A filter tree the compiler accepts and whose predicate never calls nil. */
  predicate Valid(n: Node) {
    match n
    case Not(c) => Valid(c)
    case And(items) => forall i :: 0 <= i < |items| ==> Valid(items[i])
    case Or(items) => forall i :: 0 <= i < |items| ==> Valid(items[i])
    case M(fields) => |fields| > 0 && forall i :: 0 <= i < |fields| ==> (fields[i].1.Op? ==> KnownOp(fields[i].1.kind))
    case Slice(_) => false
    case Raw(_) => false
  }

  predicate AllValid(items: seq<Node>) {
    forall i :: 0 <= i < |items| ==> Valid(items[i])
  }

  /** What a field test means for the value of a present field. */
  predicate TermHolds(t: Term, v: Value) {
    match t
    case In(vals) => exists i :: 0 <= i < |vals| && Equals(v, vals[i])
    case NotIn(vals) => forall i :: 0 <= i < |vals| ==> !Equals(v, vals[i])
    case Is(w) => Equals(v, w)
    case Op(kind, w) =>
      if kind == OpLT then Compare(v, w) < 0
      else if kind == OpLTE then Compare(v, w) <= 0
      else if kind == OpGT then Compare(v, w) > 0
      else if kind == OpGTE then Compare(v, w) >= 0
      else !Equals(v, w)
  }

  /** A field test holds only of a document that has the field. */
  predicate FieldHolds(d: Doc, name: string, t: Term) {
    Has(d, FieldName(name)) && TermHolds(t, Get(d, FieldName(name)))
  }

  /** The meaning of a valid filter tree, stated directly. */
  predicate Holds(n: Node, d: Doc)
    requires Valid(n)
    decreases n
  {
    match n
    case Not(c) => !Holds(c, d)
    case And(items) => forall i :: 0 <= i < |items| ==> Holds(items[i], d)
    case Or(items) => exists i :: 0 <= i < |items| && Holds(items[i], d)
    case M(fields) => forall i :: 0 <= i < |fields| ==> FieldHolds(d, fields[i].0, fields[i].1)
  }

  // ------------------------------------------------------------ properties

  lemma FieldEval(name: string, t: Term, d: Doc)
    requires t.Op? ==> KnownOp(t.kind)
    ensures CompileField(name, t).Ok?
    ensures Eval(CompileField(name, t).value, d) == Ok(FieldHolds(d, name, t))
  {
  }

  lemma {:induction false} FieldsEval(fields: seq<(string, Term)>, d: Doc)
    requires forall i :: 0 <= i < |fields| ==> (fields[i].1.Op? ==> KnownOp(fields[i].1.kind))
    ensures CompileFields(fields).Ok?
    ensures EvalAnd(CompileFields(fields).value, d) == Ok(forall i :: 0 <= i < |fields| ==> FieldHolds(d, fields[i].0, fields[i].1))
  {
    if |fields| > 0 {
      FieldEval(fields[0].0, fields[0].1, d);
      FieldsEval(fields[1..], d);
      assert forall i :: 1 <= i < |fields| ==> fields[i] == fields[1..][i - 1];
    }
  }

  lemma JunctionEval(ps: seq<Pred>, conj: bool, d: Doc)
    ensures Eval(Junction(ps, conj), d) == if conj then EvalAnd(ps, d) else EvalOr(ps, d)
  {
    if |ps| == 1 {
      assert ps[1..] == [];
      match Eval(ps[0], d)
      case Ok(b) =>
      case Err(_) =>
    }
  }

  /** Compiling a valid tree succeeds, and its predicate computes `Holds`. */
  lemma {:induction false} CompileEvalHolds(n: Node, d: Doc)
    requires Valid(n)
    ensures Compile(n).Ok?
    ensures Eval(Compile(n).value, d) == Ok(Holds(n, d))
    decreases n, 1
  {
    match n
    case Not(c) =>
      CompileEvalHolds(c, d);
    case And(items) =>
      AllEval(items, d, true);
      JunctionEval(CompileAll(items).value, true, d);
    case Or(items) =>
      AllEval(items, d, false);
      JunctionEval(CompileAll(items).value, false, d);
    case M(fields) =>
      FieldsEval(fields, d);
      JunctionEval(CompileFields(fields).value, true, d);
  }

  lemma {:induction false} AllEval(items: seq<Node>, d: Doc, conj: bool)
    requires AllValid(items)
    ensures CompileAll(items).Ok?
    ensures conj ==> EvalAnd(CompileAll(items).value, d) == Ok(forall i :: 0 <= i < |items| ==> Holds(items[i], d))
    ensures !conj ==> EvalOr(CompileAll(items).value, d) == Ok(exists i :: 0 <= i < |items| && Holds(items[i], d))
    decreases items, 0
  {
    if |items| > 0 {
      CompileEvalHolds(items[0], d);
      assert AllValid(items[1..]) by {
        forall i | 0 <= i < |items| - 1 ensures Valid(items[1..][i]) {
          assert items[1..][i] == items[i + 1];
        }
      }
      AllEval(items[1..], d, conj);
      assert forall i :: 1 <= i < |items| ==> items[i] == items[1..][i - 1];
    }
  }

  /** A whole valid filter list accepts exactly the documents satisfying all of its conditions. */
  lemma MakeFilterFnHolds(filter: seq<Node>, d: Doc)
    requires |filter| > 0 && AllValid(filter)
    ensures MakeFilterFn(filter).Ok?
    ensures Check(MakeFilterFn(filter).value, d) == Ok(forall i :: 0 <= i < |filter| ==> Holds(filter[i], d))
  {
    AllEval(filter, d, true);
  }

  /** `M{}` panics when the filter is built, wherever it sits. */
  lemma EmptyMPanics()
    ensures Compile(M([])) == Err(InvalidQuery)
    ensures MakeFilterFn([And([M([])])]) == Err(InvalidQuery)
  {
  }

  /** An operator kind outside q/model.go:32-43 panics when the filter is built. */
  lemma UnknownOpPanics(name: string, kind: string, v: Value)
    requires !KnownOp(kind)
    ensures Compile(M([(name, Op(kind, v))])) == Err(InvalidOp)
  {
  }

  /** Every field test is false on a document lacking the field, NotIn and "ne"
      included, so its negation is true there. */
  lemma AbsentFieldTests(name: string, t: Term, d: Doc)
    requires t.Op? ==> KnownOp(t.kind)
    requires !Has(d, FieldName(name))
    ensures Eval(CompileField(name, t).value, d) == Ok(false)
    ensures Compile(Not(M([(name, t)]))) == Ok(PNot(CompileField(name, t).value))
    ensures Eval(Compile(Not(M([(name, t)]))).value, d) == Ok(true)
  {
  }

  /** The q constructors produce tests with the advertised comparison. */
  lemma ConstructorsSemantics(v: Value, x: Value)
    ensures TermHolds(LT(v), x) <==> Compare(x, v) < 0
    ensures TermHolds(LTE(v), x) <==> Compare(x, v) <= 0
    ensures TermHolds(GT(v), x) <==> Compare(x, v) > 0
    ensures TermHolds(GTE(v), x) <==> Compare(x, v) >= 0
    ensures TermHolds(NotEqual(v), x) <==> Compare(x, v) != 0
    ensures KnownOp(LT(v).kind) && KnownOp(LTE(v).kind) && KnownOp(GT(v).kind)
    ensures KnownOp(GTE(v).kind) && KnownOp(NotEqual(v).kind)
  {
  }

  /** A filter tree containing a bare value compiles, but evaluating it fails
      once the evaluation reaches that value. */
  lemma RawNodeFailsLate(v: Value, d: Doc)
    ensures Compile(And([Raw(v)])) == Ok(PNil)
    ensures Eval(Compile(And([Raw(v)])).value, d) == Err(NilFilter)
    ensures Compile(Or([M([("a", Is(Nil))]), Raw(v)])).Ok?
  {
    assert [Raw(v)][1..] == [];
    assert Compile(Raw(v)) == Ok(PNil);
    assert CompileAll([]) == Ok([]);
    assert CompileAll([Raw(v)]) == Ok([PNil] + []);
    var items := [M([("a", Is(Nil))]), Raw(v)];
    assert items[1..] == [Raw(v)];
    assert CompileAll(items).Ok?;
  }
}

=== FILE: filteriter.dfy ===
/** The scan iterator (kv/filteriter.go): walks the bucket cursor in key
    order, decodes each value and yields the pairs the compiled filter
    accepts. Skip and limit are applied by counting: the skipped matches are
    counted too, and the limit is checked before the first call skips them. */
module FilterIter {
  import opened Wrappers
  import opened Docs
  import opened Kv
  import opened Query
  import Filter

  /** The iterator state: the cursor, the compiled predicate (none for an
      empty filter), limit and skip, the matches counted so far, the two flags
      and the current pair. */
  datatype Iter = Iter(
    cur: Cursor, fn: Option<Filter.Pred>, limit: int, skip: int, count: int,
    initialized: bool, closed: bool, key: Option<string>, value: Option<Blob>)
  {
    predicate Valid() {
      cur.Valid() && (closed ==> key.None? && value.None?)
    }
  }

  /** FilterIter. Building the predicate fails when the filter is malformed. */
  function New(cur: Cursor, filter: seq<Node>, limit: int, skip: int): (r: Result<Iter>)
    requires cur.Valid()
    ensures r.Ok? <==> Filter.MakeFilterFn(filter).Ok?
    ensures r.Ok? ==> r.value.Valid() && !r.value.initialized && !r.value.closed && r.value.count == 0
    ensures r.Ok? ==> (r.value.fn.Some? <==> |filter| > 0)
    ensures r.Ok? ==> r.value.cur == cur && r.value.limit == limit && r.value.skip == skip
  {
    var fn :- Filter.MakeFilterFn(filter);
    Ok(Iter(cur, fn, limit, skip, 0, false, false, None, None))
  }

  /** Whether the predicate accepts an entry: every entry without a filter,
      otherwise the decoded document must satisfy it. */
  function Accept(fn: Option<Filter.Pred>, e: Entry): (r: Result<bool>)
    ensures fn.None? ==> r == Ok(true)
    ensures fn.Some? && e.1.Bytes? ==> r == Err(DecodeFailed)
  {
    match fn
    case None => Ok(true)
    case Some(p) =>
      var d :- Decode(e.1);
      Filter.Eval(p, d)
  }

  /** filterIter.close: the pair is dropped once. */
  function Close(it: Iter): (r: Iter)
    requires it.Valid()
    ensures r.Valid() && r.closed && r.cur == it.cur && r.count == it.count && r.initialized == it.initialized
  {
    if it.closed then it else it.(closed := true, key := None, value := None)
  }

  datatype Step = Step(cur: Cursor, e: Option<Entry>, err: Option<Error>)

  /** The loop of filterIter.filter: from the candidate `e`, move the cursor
      on until an entry is accepted or the entries run out. */
  function Advance(cur: Cursor, fn: Option<Filter.Pred>, e: Option<Entry>): (r: Step)
    requires cur.Valid()
    ensures r.cur.Valid() && r.cur.entries == cur.entries && r.cur.next >= cur.next
    ensures fn.None? || e.None? ==> r == Step(cur, e, None)
    ensures r.err.None? && r.e.Some? ==> Accept(fn, r.e.value) == Ok(true)
    decreases |cur.entries| - cur.next, if e.Some? then 1 else 0
  {
    if fn.None? || e.None? then Step(cur, e, None)
    else
      match Accept(fn, e.value)
      case Err(err) => Step(cur, e, Some(err))
      case Ok(ok) =>
        if ok then Step(cur, e, None)
        else
          var (c2, e2) := CursorNext(cur);
          Advance(c2, fn, e2)
  }

  /** filterIter.filter: an accepted entry is counted. */
  function FilterStep(it: Iter, e: Option<Entry>): (r: (Iter, Option<Entry>, Option<Error>))
    requires it.Valid()
    ensures r.0.Valid() && r.0.cur.entries == it.cur.entries && r.0.cur.next >= it.cur.next
    ensures r.0.closed == it.closed && r.0.initialized == it.initialized
    ensures r.0.count == it.count + (if r.2.None? && r.1.Some? then 1 else 0)
  {
    var s := Advance(it.cur, it.fn, e);
    if s.err.Some? then (it.(cur := s.cur), s.e, s.err)
    else (it.(cur := s.cur, count := if s.e.Some? then it.count + 1 else it.count), s.e, None)
  }

  /** The skipping loop of filterIter.init: each of the first `skip` matches
      is counted and passed over. */
  function SkipLoop(it: Iter, e: Option<Entry>, skip: int): (r: (Iter, Option<Entry>, Option<Error>))
    requires it.Valid()
    ensures r.0.Valid() && r.0.cur.entries == it.cur.entries
    ensures r.0.closed == it.closed && r.0.initialized == it.initialized
    decreases if skip > 0 then skip else 0
  {
    if e.None? || skip <= 0 then (it, e, None)
    else
      var (it1, e1, err) := FilterStep(it, e);
      if err.Some? then (it1, None, err)
      else if e1.None? then (it1, None, None)
      else
        var (c2, e2) := CursorNext(it1.cur);
        SkipLoop(it1.(cur := c2), e2, skip - 1)
  }

  /** filterIter.init: rewind the cursor and skip. */
  function Init(it: Iter): (r: (Iter, Option<Entry>, Option<Error>))
    requires it.Valid()
    ensures r.0.Valid() && r.0.cur.entries == it.cur.entries
    ensures r.0.closed == it.closed && r.0.initialized == it.initialized
  {
    var (c, e) := CursorFirst(it.cur);
    if it.skip > 0 then SkipLoop(it.(cur := c), e, it.skip) else (it.(cur := c), e, None)
  }

  /** The candidate a call of Next starts from: what init leaves on the first
      call, the cursor's next entry afterwards. */
  function Fetch(it: Iter): (r: (Iter, Option<Entry>, Option<Error>))
    requires it.Valid()
    ensures r.0.Valid() && r.0.cur.entries == it.cur.entries && r.0.initialized
    ensures r.0.closed == it.closed
    ensures it.initialized ==> r.2.None? && r.0.count == it.count
    ensures it.initialized && r.1.Some? ==> r.0.cur.next == it.cur.next + 1
  {
    if !it.initialized then Init(it.(initialized := true))
    else
      var (c, e) := CursorNext(it.cur);
      (it.(cur := c), e, None)
  }

  /** The rest of Next: filter from the candidate and publish what it finds. */
  function Deliver(it: Iter, e: Option<Entry>): (r: (Iter, Result<bool>))
    requires it.Valid() && !it.closed
    ensures r.0.Valid() && r.0.cur.entries == it.cur.entries && r.0.cur.next >= it.cur.next
    ensures r.0.initialized == it.initialized
    ensures r.1 == Ok(false) ==> r.0.closed
    ensures r.1 == Ok(true) ==> !r.0.closed && r.0.key.Some? && r.0.value.Some?
  {
    if e.None? then (Close(it), Ok(false))
    else
      var (it2, e2, err) := FilterStep(it, e);
      if err.Some? then (it2, Err(err.value))
      else if e2.None? then (Close(it2), Ok(false))
      else (it2.(key := Some(e2.value.0), value := Some(e2.value.1)), Ok(true))
  }

  /** filterIter.Next. */
  function Next(it: Iter): (r: (Iter, Result<bool>))
    requires it.Valid()
    ensures r.0.Valid() && r.0.cur.entries == it.cur.entries
    ensures it.closed ==> r == (it, Ok(false))
    ensures r.1 == Ok(false) ==> r.0.closed
    ensures r.1 == Ok(true) ==> !r.0.closed && r.0.initialized && r.0.key.Some? && r.0.value.Some?
    ensures r.1 == Ok(true) && it.initialized ==> r.0.cur.next > it.cur.next
  {
    if it.closed then (it, Ok(false))
    else if it.limit > 0 && it.count >= it.limit then (Close(it), Ok(false))
    else
      var (it1, e, err) := Fetch(it);
      if err.Some? then (it1, Err(err.value)) else Deliver(it1, e)
  }

  /** Calling Next until it reports the end or an error. */
  function Collect(it: Iter): (r: Drained)
    requires it.Valid()
    decreases if it.closed then 0 else 1, if it.initialized then 0 else 1, |it.cur.entries| - it.cur.next
  {
    var (it1, res) := Next(it);
    match res
    case Err(e) => Drained([], Some(e))
    case Ok(more) =>
      if !more then Drained([], None)
      else
        var rest := Collect(it1);
        Drained([(it1.key.value, it1.value.value)] + rest.items, rest.err)
  }

  // ------------------------------------------------------------ reference

  /** Every entry decodes and the predicate evaluates on it without failing. */
  predicate Clean(fn: Option<Filter.Pred>, es: seq<Entry>) {
    forall i :: 0 <= i < |es| ==> Accept(fn, es[i]).Ok?
  }

  /** The accepted entries, in key order. */
  function Matches(fn: Option<Filter.Pred>, es: seq<Entry>): (r: seq<Entry>)
    requires Clean(fn, es)
  {
    if |es| == 0 then []
    else (if Accept(fn, es[0]).value then [es[0]] else []) + Matches(fn, es[1..])
  }

  /** The candidate `e` is the entry at position `p`, just read, or there is
      none and the cursor is at the end. */
  predicate At(cur: Cursor, e: Option<Entry>, p: nat) {
    && p <= |cur.entries|
    && (p < |cur.entries| ==> e == Some(cur.entries[p]) && cur.next == p + 1)
    && (p == |cur.entries| ==> e.None? && cur.next == p)
  }

  lemma CleanTail(fn: Option<Filter.Pred>, es: seq<Entry>, p: nat)
    requires Clean(fn, es) && p <= |es|
    ensures Clean(fn, es[p..])
  {
    assert forall i :: 0 <= i < |es| - p ==> es[p..][i] == es[p + i];
  }

  /** Matches from position `p`: the entry there, if accepted, then the rest. */
  lemma MatchesAt(fn: Option<Filter.Pred>, es: seq<Entry>, p: nat)
    requires Clean(fn, es) && p < |es|
    ensures Clean(fn, es[p..]) && Clean(fn, es[p + 1..])
    ensures Matches(fn, es[p..]) == (if Accept(fn, es[p]).value then [es[p]] else []) + Matches(fn, es[p + 1..])
  {
    CleanTail(fn, es, p);
    CleanTail(fn, es, p + 1);
    assert es[p..][1..] == es[p + 1..];
  }

  /** Advancing from the candidate at `p` stops at the first match from `p`
      on, or at the end when there is none. */
  lemma {:induction false} AdvanceSpec(cur: Cursor, fn: Option<Filter.Pred>, e: Option<Entry>, p: nat)
    requires cur.Valid() && Clean(fn, cur.entries) && At(cur, e, p)
    ensures Clean(fn, cur.entries[p..])
    ensures var r := Advance(cur, fn, e);
      && r.err.None?
      && (r.e.None? ==> Matches(fn, cur.entries[p..]) == [] && r.cur.next == |cur.entries|)
      && (r.e.Some? ==>
            && 1 <= r.cur.next <= |cur.entries|
            && Clean(fn, cur.entries[r.cur.next..])
            && Matches(fn, cur.entries[p..]) == [r.e.value] + Matches(fn, cur.entries[r.cur.next..]))
    decreases |cur.entries| - p
  {
    var es := cur.entries;
    CleanTail(fn, es, p);
    if p == |es| {
      assert es[p..] == [];
    } else {
      MatchesAt(fn, es, p);
      if fn.Some? && !Accept(fn, es[p]).value {
        var (c2, e2) := CursorNext(cur);
        AdvanceSpec(c2, fn, e2, p + 1);
      }
    }
  }

  /** The skipping loop passes over min(skip, matches) matches and counts
      them; `q` is where the candidate it leaves sits. */
  lemma {:induction false} SkipLoopSpec(it: Iter, e: Option<Entry>, skip: int, p: nat) returns (q: nat)
    requires it.Valid() && Clean(it.fn, it.cur.entries) && At(it.cur, e, p)
    ensures Clean(it.fn, it.cur.entries[p..])
    ensures var r := SkipLoop(it, e, skip);
      var ms := Matches(it.fn, it.cur.entries[p..]);
      var k := if skip > 0 then Min(skip, |ms|) else 0;
      && r.2.None? && r.0.fn == it.fn && r.0.limit == it.limit
      && r.0.count == it.count + k
      && p <= q <= |it.cur.entries| && At(r.0.cur, r.1, q)
      && Clean(it.fn, it.cur.entries[q..])
      && Matches(it.fn, it.cur.entries[q..]) == ms[k..]
    decreases if skip > 0 then skip else 0
  {
    var es := it.cur.entries;
    CleanTail(it.fn, es, p);
    var ms := Matches(it.fn, es[p..]);
    if e.None? || skip <= 0 {
      q := p;
      if e.None? {
        assert es[p..] == [];
      }
    } else {
      AdvanceSpec(it.cur, it.fn, e, p);
      var (it1, e1, err) := FilterStep(it, e);
      if e1.Some? {
        var c2, e2 := SkipUnfold(it, e, skip, it1, e1);
        q := SkipNext(it, e, skip, p, it1.(cur := c2), e2, it1.cur.next, e1.value);
      } else {
        q := |es|;
        assert At(it1.cur, None, |es|);
        assert es[|es|..] == [];
      }
    }
  }

  /** The step of SkipLoopSpec after the match `v` was found and counted:
      `it2` is the iterator the loop goes on with, its candidate `e2` at `q1`;
      what the rest of the loop leaves, measured from `p`. */
  lemma {:induction false} SkipNext(it: Iter, e: Option<Entry>, skip: int, p: nat, it2: Iter, e2: Option<Entry>, q1: nat, v: Entry)
    returns (q: nat)
    requires it.Valid() && it2.Valid() && Clean(it.fn, it.cur.entries) && skip > 0
    requires it2.fn == it.fn && it2.limit == it.limit && it2.count == it.count + 1 && it2.cur.entries == it.cur.entries
    requires p < q1 <= |it.cur.entries| && At(it2.cur, e2, q1)
    requires Clean(it.fn, it.cur.entries[p..]) && Clean(it.fn, it.cur.entries[q1..])
    requires Matches(it.fn, it.cur.entries[p..]) == [v] + Matches(it.fn, it.cur.entries[q1..])
    ensures var r := SkipLoop(it2, e2, skip - 1);
      var ms := Matches(it.fn, it.cur.entries[p..]);
      var k := Min(skip, |ms|);
      && r.2.None? && r.0.fn == it.fn && r.0.limit == it.limit
      && r.0.count == it.count + k
      && p <= q <= |it.cur.entries| && At(r.0.cur, r.1, q)
      && Clean(it.fn, it.cur.entries[q..])
      && Matches(it.fn, it.cur.entries[q..]) == ms[k..]
    decreases skip, 0
  {
    var es := it.cur.entries;
    var ms := Matches(it.fn, es[p..]);
    q := SkipLoopSpec(it2, e2, skip - 1, q1);
    var rest := Matches(it.fn, es[q1..]);
    var k1 := if skip - 1 > 0 then Min(skip - 1, |rest|) else 0;
    DropCons(v, rest, k1);
  }

  /** One round of the skipping loop after a match: the cursor moves on. */
  lemma SkipUnfold(it: Iter, e: Option<Entry>, skip: int, it1: Iter, e1: Option<Entry>) returns (c2: Cursor, e2: Option<Entry>)
    requires it.Valid() && e.Some? && skip > 0
    requires FilterStep(it, e) == (it1, e1, None) && e1.Some?
    requires 1 <= it1.cur.next <= |it.cur.entries|
    ensures (c2, e2) == CursorNext(it1.cur) && it1.(cur := c2).Valid()
    ensures At(c2, e2, it1.cur.next)
    ensures SkipLoop(it, e, skip) == SkipLoop(it1.(cur := c2), e2, skip - 1)
  {
    c2, e2 := CursorNext(it1.cur).0, CursorNext(it1.cur).1;
  }

  /** From an initialized iterator whose cursor has read the entries before
      position `next`, the rest of the matches are yielded up to the limit. */
  lemma {:induction false} CollectResumed(it: Iter)
    requires it.Valid() && it.initialized && !it.closed && Clean(it.fn, it.cur.entries)
    ensures Clean(it.fn, it.cur.entries[it.cur.next..])
    ensures Collect(it) == Drained(Allow(Matches(it.fn, it.cur.entries[it.cur.next..]), it.limit, it.count), None)
    decreases |it.cur.entries| - it.cur.next
  {
    var es := it.cur.entries;
    var p := it.cur.next;
    CleanTail(it.fn, es, p);
    var ms := Matches(it.fn, es[p..]);
    if it.limit > 0 && it.count >= it.limit {
    } else {
      var (c, e) := CursorNext(it.cur);
      assert At(c, e, p);
      AdvanceSpec(c, it.fn, e, p);
      var (it1, res) := Next(it);
      if res == Ok(true) {
        var it2 := it.(cur := c);
        var (it3, e3, err) := FilterStep(it2, e);
        assert it1 == it3.(key := Some(e3.value.0), value := Some(e3.value.1));
        CollectResumed(it1);
        assert ms == [e3.value] + Matches(it.fn, es[it1.cur.next..]);
        AllowCons(e3.value, Matches(it.fn, es[it1.cur.next..]), it.limit, it.count);
      } else {
        assert p < |es| ==> e.Some?;
        if p == |es| {
          assert es[p..] == [];
        }
      }
    }
  }

  /** The first call's init: the cursor is rewound and min(skip, matches)
      matches are passed over and counted; `q` is where the candidate it
      leaves sits. */
  lemma InitSpec(it: Iter) returns (q: nat)
    requires it.Valid() && it.initialized && it.count == 0 && Clean(it.fn, it.cur.entries)
    ensures var r := Init(it);
      var ms := Matches(it.fn, it.cur.entries);
      var k := if it.skip > 0 then Min(it.skip, |ms|) else 0;
      && r.2.None? && r.0.fn == it.fn && r.0.limit == it.limit && r.0.count == k
      && q <= |it.cur.entries| && At(r.0.cur, r.1, q)
      && Clean(it.fn, it.cur.entries[q..])
      && Matches(it.fn, it.cur.entries[q..]) == ms[k..]
  {
    var es := it.cur.entries;
    assert es[0..] == es;
    var (c, e) := CursorFirst(it.cur);
    assert At(c, e, 0);
    if it.skip > 0 {
      q := SkipLoopSpec(it.(cur := c), e, it.skip, 0);
    } else {
      q := 0;
      CleanTail(it.fn, es, 0);
    }
  }

  /** The rest of a call of Next from the candidate at `q`: the first match
      from there on is published and the calls after it yield the rest, up
      to the limit; with no match the iterator ends. */
  lemma DeliverSpec(it: Iter, e: Option<Entry>, q: nat)
    requires it.Valid() && it.initialized && !it.closed && Clean(it.fn, it.cur.entries) && At(it.cur, e, q)
    ensures Clean(it.fn, it.cur.entries[q..])
    ensures var (it2, res) := Deliver(it, e);
      var ms := Matches(it.fn, it.cur.entries[q..]);
      && res.Ok?
      && (res.value <==> |ms| > 0)
      && (res.value ==> (it2.key.value, it2.value.value) == ms[0] && it2.Valid() && it2.initialized && !it2.closed)
      && (res.value ==> Collect(it2) == Drained(Allow(ms[1..], it.limit, it.count + 1), None))
  {
    var es := it.cur.entries;
    AdvanceSpec(it.cur, it.fn, e, q);
    var (it2, res) := Deliver(it, e);
    if res == Ok(true) {
      var (it3, e3, err) := FilterStep(it, e);
      assert it2 == it3.(key := Some(e3.value.0), value := Some(e3.value.1));
      CollectResumed(it2);
      var ms := Matches(it.fn, es[q..]);
      assert ms == [e3.value] + Matches(it.fn, es[it2.cur.next..]);
      assert ms[1..] == Matches(it.fn, es[it2.cur.next..]);
    }
  }

  /** What a fresh iterator yields, in terms of its own skip and limit. */
  lemma CollectFresh(it: Iter)
    requires it.Valid() && !it.initialized && !it.closed && it.count == 0 && Clean(it.fn, it.cur.entries)
    ensures var ms := Matches(it.fn, it.cur.entries);
      var k := if it.skip > 0 then Min(it.skip, |ms|) else 0;
      Collect(it) == Drained(if |ms[k..]| == 0 then [] else [ms[k]] + Allow(ms[k + 1..], it.limit, k + 1), None)
  {
    var ms := Matches(it.fn, it.cur.entries);
    var k := if it.skip > 0 then Min(it.skip, |ms|) else 0;
    var it0 := it.(initialized := true);
    var q := InitSpec(it0);
    var (it1, e1, err1) := Init(it0);
    DeliverSpec(it1, e1, q);
    assert Next(it) == Deliver(it1, e1);
    if k < |ms| {
      assert ms[k + 1..] == ms[k..][1..];
    }
  }

  /** Everything the scan yields: the first `skip` matches are passed over
      (and counted), the next match is yielded whatever the limit, and the
      limit then counts the skipped matches with the yielded ones. */
  lemma CollectNew(cur: Cursor, filter: seq<Node>, limit: int, skip: int)
    requires cur.Valid() && New(cur, filter, limit, skip).Ok?
    requires Clean(New(cur, filter, limit, skip).value.fn, cur.entries)
    ensures var it := New(cur, filter, limit, skip).value;
      var ms := Matches(it.fn, cur.entries);
      var k := if skip > 0 then Min(skip, |ms|) else 0;
      Collect(it) == Drained(if |ms[k..]| == 0 then [] else [ms[k]] + Allow(ms[k + 1..], limit, k + 1), None)
  {
    CollectFresh(New(cur, filter, limit, skip).value);
  }

  /** Without skip, the scan yields the matches in key order, up to the limit. */
  lemma CollectNoSkip(cur: Cursor, filter: seq<Node>, limit: int, skip: int)
    requires cur.Valid() && New(cur, filter, limit, skip).Ok? && skip <= 0
    requires Clean(New(cur, filter, limit, skip).value.fn, cur.entries)
    ensures var it := New(cur, filter, limit, skip).value;
      Collect(it) == Drained(Allow(Matches(it.fn, cur.entries), limit, 0), None)
  {
    var it := New(cur, filter, limit, skip).value;
    var ms := Matches(it.fn, cur.entries);
    CollectNew(cur, filter, limit, skip);
    assert ms[0..] == ms;
    AllowHead(ms, limit);
  }

  /** With skip s > 0 and limit l > 0, the skipped matches use up the limit:
      max(1, l - s) pairs are yielded when enough matches remain. */
  lemma SkipUsesLimit(cur: Cursor, filter: seq<Node>, limit: int, skip: int)
    requires cur.Valid() && New(cur, filter, limit, skip).Ok? && skip > 0 && limit > 0
    requires Clean(New(cur, filter, limit, skip).value.fn, cur.entries)
    ensures var it := New(cur, filter, limit, skip).value;
      var ms := Matches(it.fn, cur.entries);
      |ms| > skip ==> |Collect(it).items| == Min(|ms| - skip, Max(1, limit - skip))
  {
    CollectNew(cur, filter, limit, skip);
  }

  /** A value that does not decode stops the scan with the decode error. */
  lemma DecodeFailureStops(cur: Cursor, filter: seq<Node>, limit: int)
    requires cur.Valid() && New(cur, filter, limit, 0).Ok? && |filter| > 0
    requires |cur.entries| > 0 && cur.entries[0].1.Bytes?
    ensures Next(New(cur, filter, limit, 0).value).1 == Err(DecodeFailed)
    ensures Collect(New(cur, filter, limit, 0).value) == Drained([], Some(DecodeFailed))
  {
  }
}

=== FILE: indexing.dfy ===
/** Secondary-index maintenance (kv/indexing.go:86-194): bucket `idx_<c>_<f>`
    maps each non-empty string value of field f to the NUL-terminated,
    ascending list of ids of the documents holding it. */
module Indexing {
  import opened Wrappers
  import opened Values
  import opened Docs
  import opened Kv
  import KeyList
  import Strings
  import opened Schema

  /** The ids a stored value lists. JSON text never holds a 0 byte, so a JSON
      value lists none, as unmarshalKeys would find. */
  function KeysOf(blob: Blob): seq<string> {
    match blob
    case Bytes(b) => KeyList.Unmarshal(b)
    case Json(_) => []
  }

  /** The ids index bucket `bucket` lists under value `v` (none when the bucket
      or the entry is missing). */
  function IdxKeys(st: Store, bucket: string, v: string): (r: seq<string>)
    ensures KeyList.AllNoNul(r)
  {
    match Read(st, bucket, v)
    case None => []
    case Some(blob) =>
      (if blob.Bytes? then KeyList.UnmarshalNoNul(blob.b); KeysOf(blob) else KeysOf(blob))
  }

  /** `r` holds the same bucket `name` as `st` (both missing, or equal). */
  predicate SameBucket(st: Store, r: Store, name: string) {
    && (name in r.buckets <==> name in st.buckets)
    && (name in r.buckets ==> r.buckets[name] == st.buckets[name])
  }

  /** `r` differs from `st` at most in the buckets of `names`. */
  ghost predicate OnlyChanged(st: Store, r: Store, names: set<string>) {
    && r.Valid() && r.implicit == st.implicit
    && forall b2 :: b2 !in names ==> SameBucket(st, r, b2)
  }

  lemma PutFrame(st: Store, name: string, b: Bucket)
    requires st.Valid() && b.Valid()
    ensures OnlyChanged(st, Put(st, name, b), {name})
  {
  }

  lemma FrameTrans(a: Store, b: Store, c: Store, s: set<string>, t: set<string>)
    requires OnlyChanged(a, b, s) && OnlyChanged(b, c, t)
    ensures OnlyChanged(a, c, s + t)
  {
  }

  lemma FrameWiden(a: Store, b: Store, s: set<string>, t: set<string>)
    requires OnlyChanged(a, b, s) && s <= t
    ensures OnlyChanged(a, b, t)
  {
  }

  lemma NoChange(st: Store, s: set<string>)
    requires st.Valid()
    ensures OnlyChanged(st, st, s)
  {
  }

  lemma SameBucketReads(st: Store, r: Store, name: string)
    requires SameBucket(st, r, name)
    ensures forall k :: Read(r, name, k) == Read(st, name, k)
    ensures forall k :: IdxKeys(r, name, k) == IdxKeys(st, name, k)
  {
  }

  lemma AppendNoNul(ks: seq<string>, id: string)
    requires KeyList.AllNoNul(ks) && KeyList.NoNul(id)
    ensures KeyList.AllNoNul(ks + [id])
  {
    var r := ks + [id];
    forall i | 0 <= i < |r| ensures KeyList.NoNul(r[i]) {
      assert i < |ks| ==> r[i] == ks[i];
    }
  }

  /** The entry written for a list of ids: their marshalled form, which decodes
      to the same ids in ascending order. */
  lemma WrittenKeys(st: Store, bucket: string, b: Bucket, v: string, ks: seq<string>)
    requires st.Valid() && b.Valid() && KeyList.AllNoNul(ks)
    ensures IdxKeys(Put(st, bucket, Set(b, v, Bytes(KeyList.Marshal(ks)))), bucket, v)
         == Strings.SortStrings(ks)
  {
    KeyList.MarshalRoundTrip(ks);
  }

  /** collectionIdx.insert: append the id to the entry of `v` (creating bucket
      and entry as needed) and write the list back sorted. */
  function InsertKey(st: Store, bucket: string, id: string, v: string): (r: Store)
    requires st.Valid()
    ensures OnlyChanged(st, r, {bucket})
  {
    var b := OpenOrCreate(st, bucket);
    var ks := match Kv.Get(b, v)
      case Some(blob) => KeysOf(blob) + [id]
      case None => [id];
    var nb := Set(b, v, Bytes(KeyList.Marshal(ks)));
    PutFrame(st, bucket, nb);
    Put(st, bucket, nb)
  }

  /** The entry of `v` then lists the old ids and the new one, sorted; the id is
      appended even when it is already listed. No other entry changes. */
  lemma InsertKeySpec(st: Store, bucket: string, id: string, v: string)
    requires st.Valid() && KeyList.NoNul(id)
    ensures IdxKeys(InsertKey(st, bucket, id, v), bucket, v) == Strings.SortStrings(IdxKeys(st, bucket, v) + [id])
    ensures forall w :: w != v ==> Read(InsertKey(st, bucket, id, v), bucket, w) == Read(st, bucket, w)
  {
    var b := OpenOrCreate(st, bucket);
    var ks := IdxKeys(st, bucket, v) + [id];
    AppendNoNul(IdxKeys(st, bucket, v), id);
    WrittenKeys(st, bucket, b, v, ks);
  }

  /** The value remove unindexes: the one it is given, else the old document's. */
  function RemovedValue(name: string, given: Option<Value>, prev: Doc): Option<Value> {
    if given.Some? then given else Lookup(prev, name)
  }

  /** collectionIdx.remove on bucket `bucket` (as opened by the caller):
      nothing to do for an absent old value or a missing entry; a non-string
      value is an error; otherwise the first occurrence of the id is dropped and
      the entry rewritten, or deleted when no id is left. */
  function RemoveKey(st: Store, bucket: string, id: string, name: string, given: Option<Value>, prev: Doc): (r: Result<Store>)
    requires st.Valid()
    ensures RemovedValue(name, given, prev).None? ==> r == Ok(st)
    ensures RemovedValue(name, given, prev).Some? ==> (r.Ok? <==> RemovedValue(name, given, prev).value.Str?)
    ensures r.Err? ==> r.error == NotString
    ensures r.Ok? ==> OnlyChanged(st, r.value, {bucket})
  {
    match RemovedValue(name, given, prev)
    case None => Ok(st)
    case Some(value) =>
      if !value.Str? then Err(NotString)
      else
        var s := value.s;
        var b := OpenOrCreate(st, bucket);
        match Kv.Get(b, s)
        case None => Ok(st)
        case Some(blob) =>
          var ks := KeyList.RemoveFirst(KeysOf(blob), id);
          var nb := if |ks| == 0 then Delete(b, s) else Set(b, s, Bytes(KeyList.Marshal(ks)));
          PutFrame(st, bucket, nb);
          Ok(Put(st, bucket, nb))
  }

  /** After a successful remove of value s, the entry of s lists exactly the ids
      it listed minus the first occurrence of `id`; no other entry changes. */
  lemma RemoveKeySpec(st: Store, bucket: string, id: string, name: string, given: Option<Value>, prev: Doc, s: string)
    requires st.Valid() && RemoveKey(st, bucket, id, name, given, prev).Ok?
    requires RemovedValue(name, given, prev) == Some(Str(s))
    ensures forall x :: x in IdxKeys(RemoveKey(st, bucket, id, name, given, prev).value, bucket, s)
                    <==> x in KeyList.RemoveFirst(IdxKeys(st, bucket, s), id)
    ensures forall w :: w != s ==> Read(RemoveKey(st, bucket, id, name, given, prev).value, bucket, w) == Read(st, bucket, w)
    ensures KeyList.NoDup(IdxKeys(st, bucket, s)) ==>
      KeyList.NoDup(IdxKeys(RemoveKey(st, bucket, id, name, given, prev).value, bucket, s))
  {
    var b := OpenOrCreate(st, bucket);
    var r := RemoveKey(st, bucket, id, name, given, prev).value;
    var ks := KeyList.RemoveFirst(IdxKeys(st, bucket, s), id);
    if Kv.Get(b, s).None? {
      assert r == st;
    } else {
      var blob := Kv.Get(b, s).value;
      assert KeysOf(blob) == IdxKeys(st, bucket, s);
      var nb := if |ks| == 0 then Delete(b, s) else Set(b, s, Bytes(KeyList.Marshal(ks)));
      assert r == Put(st, bucket, nb);
      KeyList.RemoveFirstNoNul(IdxKeys(st, bucket, s), id);
      if KeyList.NoDup(IdxKeys(st, bucket, s)) {
        KeyList.RemoveFromNoDup(IdxKeys(st, bucket, s), id);
      }
      RemovedEntry(st, bucket, b, s, ks);
    }
  }

  lemma RemovedEntry(st: Store, bucket: string, b: Bucket, s: string, ks: seq<string>)
    requires st.Valid() && b == OpenOrCreate(st, bucket)
    requires KeyList.AllNoNul(ks)
    ensures var nb := if |ks| == 0 then Delete(b, s) else Set(b, s, Bytes(KeyList.Marshal(ks)));
      && (forall x :: x in IdxKeys(Put(st, bucket, nb), bucket, s) <==> x in ks)
      && (forall w :: w != s ==> Read(Put(st, bucket, nb), bucket, w) == Read(st, bucket, w))
      && (KeyList.NoDup(ks) ==> KeyList.NoDup(IdxKeys(Put(st, bucket, nb), bucket, s)))
  {
    if |ks| > 0 {
      WrittenKeys(st, bucket, b, s, ks);
      if KeyList.NoDup(ks) {
        KeyList.SortNoDup(ks);
      }
      forall x ensures x in Strings.SortStrings(ks) <==> x in ks {
        assert x in ks <==> x in multiset(ks);
        assert x in Strings.SortStrings(ks) <==> x in multiset(Strings.SortStrings(ks));
      }
    }
  }

  /** A store after some writes, and the error that stopped them, if any. */
  datatype Outcome = Outcome(st: Store, err: Option<Error>)

  function Buckets(metas: seq<IdxMeta>): set<string> {
    set m | m in metas :: m.bucket
  }

  /** update opens the index bucket, creating it, only when there is an old
      document to unindex. */
  function Opened(st: Store, m: IdxMeta, prev: Option<Doc>): (r: Store)
    requires st.Valid()
    ensures OnlyChanged(st, r, {m.bucket})
    ensures prev.None? ==> r == st
  {
    if prev.Some? then PutFrame(st, m.bucket, OpenOrCreate(st, m.bucket)); Put(st, m.bucket, OpenOrCreate(st, m.bucket))
    else NoChange(st, {m.bucket}); st
  }

  /** The remove half of update for one field: unindex the old value. */
  function Unindex(st: Store, m: IdxMeta, id: string, prev: Option<Doc>): (r: Result<Store>)
    requires st.Valid()
    ensures prev.None? ==> r == Ok(st)
    ensures r.Ok? ==> OnlyChanged(st, r.value, {m.bucket})
  {
    if prev.Some? then RemoveKey(st, m.bucket, id, m.field, None, prev.value)
    else NoChange(st, {m.bucket}); Ok(st)
  }

  /** The insert half of update for one field: index a non-empty new value. */
  function Reindex(st: Store, m: IdxMeta, id: string, val: string): (r: Store)
    requires st.Valid()
    ensures OnlyChanged(st, r, {m.bucket})
    ensures |val| == 0 ==> r == st
  {
    if |val| > 0 then InsertKey(st, m.bucket, id, val)
    else NoChange(st, {m.bucket}); st
  }

  /** collectionIdx.update: for each indexed field, when there is an old
      document, open (creating) the bucket and remove the id under the old
      value; then, if the new value is non-empty, insert the id under it. */
  function UpdateIndexes(st: Store, metas: seq<IdxMeta>, id: string, vals: Entity, prev: Option<Doc>): (r: Outcome)
    requires st.Valid()
    requires forall m :: m in metas ==> m.pos < |vals| && vals[m.pos].Str?
    ensures OnlyChanged(st, r.st, Buckets(metas))
    decreases |metas|
  {
    if |metas| == 0 then NoChange(st, {}); Outcome(st, None)
    else
      var m := metas[0];
      assert {m.bucket} <= Buckets(metas);
      var st1 := Opened(st, m, prev);
      var removed := Unindex(st1, m, id, prev);
      if removed.Err? then
        FrameWiden(st, st1, {m.bucket}, Buckets(metas));
        Outcome(st1, Some(removed.error))
      else
        var st2 := Reindex(removed.value, m, id, vals[m.pos].s);
        assert OnlyChanged(st, st2, {m.bucket}) by {
          FrameTrans(st, st1, removed.value, {m.bucket}, {m.bucket});
          FrameTrans(st, removed.value, st2, {m.bucket}, {m.bucket});
        }
        assert forall m' :: m' in metas[1..] ==> m' in metas;
        var r := UpdateIndexes(st2, metas[1..], id, vals, prev);
        FrameTrans(st, st2, r.st, {m.bucket}, Buckets(metas[1..]));
        FrameWiden(st, r.st, {m.bucket} + Buckets(metas[1..]), Buckets(metas));
        r
  }

  /** When the old document has no value for the field (an encoder that never
      writes it, say) update removes nothing: the id stays listed under the
      value it was indexed by, beside any new one. */
  lemma UnreadStaysListed(st: Store, m: IdxMeta, id: string, vals: Entity, prev: Doc, was: string)
    requires st.Valid() && m.pos < |vals| && vals[m.pos].Str?
    requires Lookup(prev, m.field) == None
    requires id in IdxKeys(st, m.bucket, was) && was != vals[m.pos].s
    ensures var r := UpdateIndexes(st, [m], id, vals, Some(prev));
      r.err.None? && id in IdxKeys(r.st, m.bucket, was)
  {
    assert KeyList.NoNul(id);
    var st1 := Opened(st, m, Some(prev));
    assert m.bucket in st.buckets;
    assert st1 == st;
    assert Unindex(st1, m, id, Some(prev)) == Ok(st);
    var val := vals[m.pos].s;
    if |val| > 0 {
      InsertKeySpec(st, m.bucket, id, val);
    }
    var st2 := Reindex(st, m, id, val);
    assert Read(st2, m.bucket, was) == Read(st, m.bucket, was);
    assert [m][1..] == [];
    assert UpdateIndexes(st, [m], id, vals, Some(prev)) == UpdateIndexes(st2, [], id, vals, Some(prev));
  }

  /** The set of index buckets clean may touch. */
  function CleanBuckets(c: string, data: Doc): set<string> {
    set i | 0 <= i < |data| :: IdxName(c, data[i].0)
  }

  /** One step of clean, for the first field of the stored document `data`:
      when its value is a string and its index bucket exists, remove the id
      under that value. */
  function CleanField(st: Store, c: string, id: string, data: Doc): (r: Store)
    requires st.Valid() && |data| > 0
    ensures OnlyChanged(st, r, {IdxName(c, data[0].0)})
  {
    var (name, value) := data[0];
    var bucket := IdxName(c, name);
    if !value.Str? || Open(st, bucket).None? then NoChange(st, {bucket}); st
    else RemoveKey(st, bucket, id, name, Some(value), data).value
  }

  /** collectionIdx.clean: for each string-valued field of the stored document
      whose index bucket exists, remove the id under that value. */
  function Clean(st: Store, c: string, id: string, data: Doc): (r: Store)
    requires st.Valid()
    ensures OnlyChanged(st, r, CleanBuckets(c, data))
    decreases |data|
  {
    if |data| == 0 then NoChange(st, {}); st
    else
      var bucket := IdxName(c, data[0].0);
      assert {bucket} <= CleanBuckets(c, data);
      var st1 := CleanField(st, c, id, data);
      assert CleanBuckets(c, data[1..]) <= CleanBuckets(c, data) by {
        forall b | b in CleanBuckets(c, data[1..]) ensures b in CleanBuckets(c, data) {
          var i :| 0 <= i < |data| - 1 && b == IdxName(c, data[1..][i].0);
          assert data[1..][i] == data[i + 1];
        }
      }
      var r := Clean(st1, c, id, data[1..]);
      FrameTrans(st, st1, r, {bucket}, CleanBuckets(c, data[1..]));
      FrameWiden(st, r, {bucket} + CleanBuckets(c, data[1..]), CleanBuckets(c, data));
      r
  }
}

=== FILE: keylist.dfy ===
/** The value format of an index entry (kv/indexing.go:196-237): the ids of the
    documents holding one field value, each followed by a 0 byte. */
module KeyList {
  import Strings
  import Sorting

  const NUL: char := 0 as char

  predicate NoNul(s: string) {
    forall i :: 0 <= i < |s| ==> s[i] != NUL
  }

  predicate AllNoNul(ks: seq<string>) {
    forall i :: 0 <= i < |ks| ==> NoNul(ks[i])
  }

  predicate NoDup(ks: seq<string>) {
    forall i, j :: 0 <= i < j < |ks| ==> ks[i] != ks[j]
  }

  /** Each id followed by a 0 byte, in list order. */
  function Encode(ks: seq<string>): string {
    if |ks| == 0 then "" else ks[0] + [NUL] + Encode(ks[1..])
  }

  /** keys.marshal: sort, then encode. */
  function Marshal(ks: seq<string>): string {
    Encode(Strings.SortStrings(ks))
  }

  /** The position of the first 0 byte, or |s| when there is none. */
  function IndexOfNul(s: string): (r: nat)
    ensures r <= |s|
    ensures r < |s| ==> s[r] == NUL
    ensures forall k :: 0 <= k < r ==> s[k] != NUL
  {
    if |s| == 0 then 0
    else if s[0] == NUL then 0
    else IndexOfNul(s[1..]) + 1
  }

  /** unmarshalKeys: the 0-terminated pieces; an unterminated tail is dropped. */
  function Unmarshal(b: string): seq<string>
    decreases |b|
  {
    var i := IndexOfNul(b);
    if i == |b| then [] else [b[..i]] + Unmarshal(b[i + 1..])
  }

  /** unmarshalKeys as the source writes it: one pass that cuts at every 0 byte. */
  method UnmarshalKeys(b: string) returns (list: seq<string>)
    ensures list == Unmarshal(b)
  {
    list := [];
    var start := 0;
    var i := 0;
    while i < |b|
      invariant 0 <= start <= i <= |b|
      invariant forall k :: start <= k < i ==> b[k] != NUL
      invariant list + Unmarshal(b[start..]) == Unmarshal(b)
    {
      if b[i] == NUL {
        CutAt(b, start, i);
        assert list + [b[start..i]] + Unmarshal(b[i + 1..]) == list + ([b[start..i]] + Unmarshal(b[i + 1..]));
        list := list + [b[start..i]];
        start := i + 1;
      }
      i := i + 1;
    }
    NoNulTail(b[start..]);
  }

  /** Cutting at the first 0 byte. */
  lemma SplitAt(s: string, j: nat)
    requires j < |s| && s[j] == NUL
    requires forall k :: 0 <= k < j ==> s[k] != NUL
    ensures Unmarshal(s) == [s[..j]] + Unmarshal(s[j + 1..])
  {
    assert IndexOfNul(s) == j;
  }

  lemma CutAt(b: string, start: nat, i: nat)
    requires start <= i < |b| && b[i] == NUL
    requires forall k :: start <= k < i ==> b[k] != NUL
    ensures Unmarshal(b[start..]) == [b[start..i]] + Unmarshal(b[i + 1..])
  {
    var t := b[start..];
    forall k | 0 <= k < i - start ensures t[k] != NUL {
      assert t[k] == b[start + k];
    }
    SplitAt(t, i - start);
    assert t[i - start + 1..] == b[i + 1..];
    assert t[..i - start] == b[start..i];
  }

  lemma NoNulTail(s: string)
    requires NoNul(s)
    ensures Unmarshal(s) == []
  {
    assert IndexOfNul(s) == |s|;
  }

  /** Every decoded id is free of 0 bytes. */
  lemma {:induction false} UnmarshalNoNul(b: string)
    ensures AllNoNul(Unmarshal(b))
    decreases |b|
  {
    var i := IndexOfNul(b);
    if i < |b| {
      UnmarshalNoNul(b[i + 1..]);
      var r := Unmarshal(b);
      assert r == [b[..i]] + Unmarshal(b[i + 1..]);
      forall j | 0 <= j < |r| ensures NoNul(r[j]) {
        if j > 0 {
          assert r[j] == Unmarshal(b[i + 1..])[j - 1];
        }
      }
    }
  }

  /** Decoding the encoding of NUL-free ids gives them back, and bytes after the
      last terminator are ignored. */
  lemma {:induction false} EncodeRoundTrip(ks: seq<string>, tail: string)
    requires AllNoNul(ks) && NoNul(tail)
    ensures Unmarshal(Encode(ks) + tail) == ks
  {
    if |ks| == 0 {
      NoNulTail(tail);
    } else {
      var s := Encode(ks) + tail;
      var k := ks[0];
      assert s == k + [NUL] + (Encode(ks[1..]) + tail);
      assert s[..|k|] == k;
      assert s[|k| + 1..] == Encode(ks[1..]) + tail;
      assert forall m :: 0 <= m < |k| ==> s[m] == k[m];
      SplitAt(s, |k|);
      assert AllNoNul(ks[1..]) by {
        forall i | 0 <= i < |ks| - 1 ensures NoNul(ks[1..][i]) {
          assert ks[1..][i] == ks[i + 1];
        }
      }
      EncodeRoundTrip(ks[1..], tail);
      assert ks == [k] + ks[1..];
    }
  }

  lemma SortedNoNul(ks: seq<string>)
    requires AllNoNul(ks)
    ensures AllNoNul(Strings.SortStrings(ks))
  {
    var r := Strings.SortStrings(ks);
    forall i | 0 <= i < |r| ensures NoNul(r[i]) {
      assert r[i] in multiset(r);
      assert r[i] in multiset(ks);
      var j :| 0 <= j < |ks| && ks[j] == r[i];
    }
  }

  /** unmarshalKeys(marshal(ks)) is ks in ascending order. */
  lemma MarshalRoundTrip(ks: seq<string>)
    requires AllNoNul(ks)
    ensures Unmarshal(Marshal(ks)) == Strings.SortStrings(ks)
    ensures multiset(Unmarshal(Marshal(ks))) == multiset(ks)
  {
    SortedNoNul(ks);
    EncodeRoundTrip(Strings.SortStrings(ks), "");
    assert Encode(Strings.SortStrings(ks)) + "" == Encode(Strings.SortStrings(ks));
  }

  /** indexOfString: the position of the first occurrence of `s`, or |ks| when
      there is none (the source answers -1). */
  function IndexOf(ks: seq<string>, s: string): (i: nat)
    ensures i <= |ks|
    ensures i < |ks| ==> ks[i] == s
    ensures forall k :: 0 <= k < i ==> ks[k] != s
  {
    if |ks| == 0 then 0
    else if ks[0] == s then 0
    else IndexOf(ks[1..], s) + 1
  }

  /** keys.remove: drops the first occurrence of `s`, if there is one. */
  function RemoveFirst(ks: seq<string>, s: string): (r: seq<string>)
    ensures s !in ks ==> r == ks
    ensures multiset(r) == multiset(ks) - multiset{s}
  {
    var i := IndexOf(ks, s);
    if i < |ks| then
      assert ks == ks[..i] + [ks[i]] + ks[i + 1..];
      ks[..i] + ks[i + 1..]
    else
      assert s !in multiset(ks);
      ks
  }

  lemma RemoveFirstNoNul(ks: seq<string>, s: string)
    requires AllNoNul(ks)
    ensures AllNoNul(RemoveFirst(ks, s))
  {
    var r := RemoveFirst(ks, s);
    forall i | 0 <= i < |r| ensures NoNul(r[i]) {
      assert r[i] in multiset(ks);
    }
  }

  /** In a duplicate-free list, removing an id removes it entirely and keeps every other id. */
  lemma RemoveFromNoDup(ks: seq<string>, s: string)
    requires NoDup(ks)
    ensures forall x :: x in RemoveFirst(ks, s) <==> x in ks && x != s
    ensures NoDup(RemoveFirst(ks, s))
  {
    var r := RemoveFirst(ks, s);
    forall x ensures multiset(ks)[x] <= 1 {
      NoDupCount(ks, x);
    }
    forall x ensures x in r <==> x in ks && x != s {
      assert x in r <==> x in multiset(r);
      assert x in ks <==> x in multiset(ks);
    }
    forall i, j | 0 <= i < j < |r| ensures r[i] != r[j] {
      CountTwo(r, i, j);
      assert multiset(r)[r[i]] <= multiset(ks)[r[i]];
    }
  }

  lemma {:induction false} NoDupCount(ks: seq<string>, x: string)
    requires NoDup(ks)
    ensures multiset(ks)[x] <= 1
  {
    if |ks| > 0 {
      assert ks == [ks[0]] + ks[1..];
      assert NoDup(ks[1..]) by {
        forall i, j | 0 <= i < j < |ks| - 1 ensures ks[1..][i] != ks[1..][j] {
          assert ks[1..][i] == ks[i + 1] && ks[1..][j] == ks[j + 1];
        }
      }
      NoDupCount(ks[1..], x);
      if ks[0] == x {
        assert x !in ks[1..] by {
          forall i | 0 <= i < |ks| - 1 ensures ks[1..][i] != x {
            assert ks[1..][i] == ks[i + 1];
          }
        }
      }
    }
  }

  lemma CountTwo(r: seq<string>, i: nat, j: nat)
    requires i < j < |r|
    ensures r[i] == r[j] ==> multiset(r)[r[i]] >= 2
  {
    assert r == r[..i] + [r[i]] + r[i + 1..j] + [r[j]] + r[j + 1..];
  }

  /** A list with one more id that was not there stays duplicate-free. */
  lemma AppendFresh(ks: seq<string>, s: string)
    requires NoDup(ks) && s !in ks
    ensures NoDup(ks + [s])
  {
    var r := ks + [s];
    forall i, j | 0 <= i < j < |r| ensures r[i] != r[j] {
      if j == |ks| {
        assert r[i] == ks[i];
      } else {
        assert r[i] == ks[i] && r[j] == ks[j];
      }
    }
  }

  /** Sorting keeps a list duplicate-free. */
  lemma SortNoDup(ks: seq<string>)
    requires NoDup(ks)
    ensures NoDup(Strings.SortStrings(ks))
  {
    var r := Strings.SortStrings(ks);
    forall i, j | 0 <= i < j < |r| ensures r[i] != r[j] {
      CountTwo(r, i, j);
      NoDupCount(ks, r[i]);
    }
  }
}

=== FILE: keysiter.dfy ===
/** The index iterator (kv/keysiter.go): seeks each listed key in turn and
    yields, in list order, whatever entry the seek lands on. With bolt's
    Seek a key the bucket lacks lands on the next stored key, so only keys
    past the last stored one yield nothing; with a Seek that matches
    exactly, missing keys are skipped. Skip passes over keys whose seek
    found something, and the limit counts yielded pairs only. */
module KeysIter {
  import opened Wrappers
  import opened Kv

  datatype Iter = Iter(
    cur: Cursor, keys: seq<string>, limit: int, skip: int, idx: nat, count: int,
    initialized: bool, closed: bool, key: Option<string>, value: Option<Blob>)
  {
    predicate Valid() {
      && cur.Valid()
      && idx <= |keys|
      && (initialized && !closed ==> idx < |keys|)
      && (closed ==> key.None? && value.None?)
    }
  }

  /** KeysIter. */
  function New(cur: Cursor, keys: seq<string>, limit: int, skip: int): (r: Iter)
    requires cur.Valid()
    ensures r.Valid() && !r.initialized && !r.closed && r.idx == 0 && r.count == 0
  {
    Iter(cur, keys, limit, skip, 0, 0, false, false, None, None)
  }

  /** keysIter.close. */
  function Close(it: Iter): (r: Iter)
    requires it.cur.Valid() && it.idx <= |it.keys| && (it.closed ==> it.key.None? && it.value.None?)
    ensures r.Valid() && r.closed && r.idx == it.idx && r.count == it.count
  {
    if it.closed then it else it.(closed := true, key := None, value := None)
  }

  /** Where the search resumes after a key. */
  function Resume(it: Iter): (r: Iter)
    requires it.cur.Valid() && it.idx < |it.keys|
    ensures r.cur == it.cur && r.keys == it.keys && r.idx == it.idx + 1 && r.cur.Valid() && r.idx <= |r.keys|
    ensures r.count == it.count && r.limit == it.limit && r.initialized == it.initialized && r.closed == it.closed
  {
    it.(idx := it.idx + 1)
  }

  /** The skipping loop of the first Next: the index it leaves. Each key is
      looked up, and only a found key uses up one skip. */
  function SkipFrom(cur: Cursor, keys: seq<string>, i: nat, skip: int): (r: nat)
    requires cur.Valid() && i <= |keys|
    ensures i <= r <= |keys|
    decreases |keys| - i
  {
    if skip <= 0 || i >= |keys| then i
    else SkipFrom(cur, keys, i + 1, if CursorSeek(cur, keys[i]).Some? then skip - 1 else skip)
  }

  /** The search loop of Next: the first index from `i` on whose key the
      bucket holds, or the end of the list. */
  function SearchFrom(cur: Cursor, keys: seq<string>, i: nat): (r: nat)
    requires cur.Valid() && i <= |keys|
    ensures i <= r <= |keys|
    ensures r < |keys| ==> CursorSeek(cur, keys[r]).Some?
    decreases |keys| - i
  {
    if i >= |keys| then i
    else if CursorSeek(cur, keys[i]).Some? then i
    else SearchFrom(cur, keys, i + 1)
  }

  /** Where the search of the next call starts: after the skipping loop on
      the first call, one past the last yield afterwards. */
  function From(it: Iter): (r: nat)
    requires it.Valid() && !it.closed
    ensures r <= |it.keys|
    ensures it.initialized ==> r == it.idx + 1
  {
    if !it.initialized then SkipFrom(it.cur, it.keys, it.idx, it.skip) else it.idx + 1
  }

  /** The state after yielding the pair under key `j`. */
  function Yielded(it: Iter, j: nat): (r: Iter)
    requires it.Valid() && !it.closed && j < |it.keys| && CursorSeek(it.cur, it.keys[j]).Some?
    ensures r.Valid() && r.initialized && !r.closed && r.idx == j
    ensures r.cur == it.cur && r.keys == it.keys && r.limit == it.limit && r.count == it.count + 1
    ensures r.key.Some? && r.value.Some? && (r.key.value, r.value.value) == CursorSeek(it.cur, it.keys[j]).value
  {
    var e := CursorSeek(it.cur, it.keys[j]).value;
    it.(initialized := true, idx := j, key := Some(e.0), value := Some(e.1), count := it.count + 1)
  }

  /** keysIter.Next. It never fails. */
  function Next(it: Iter): (r: (Iter, bool))
    requires it.Valid()
    ensures r.0.Valid() && r.0.cur == it.cur && r.0.keys == it.keys
    ensures it.closed ==> r == (it, false)
    ensures !r.1 ==> r.0.closed
    ensures r.1 ==> !r.0.closed && r.0.initialized && r.0.key.Some? && r.0.value.Some?
    ensures r.1 && it.initialized ==> r.0.idx > it.idx
  {
    if it.closed then (it, false)
    else if it.limit > 0 && it.count >= it.limit then (Close(it), false)
    else
      var j := SearchFrom(it.cur, it.keys, From(it));
      if j >= |it.keys| then (Close(it.(initialized := true, idx := j)), false)
      else (Yielded(it, j), true)
  }

  /** Calling Next until it reports the end. */
  function Collect(it: Iter): (r: Drained)
    requires it.Valid()
    ensures r.err.None?
    decreases if it.closed then 0 else 1, if it.initialized then 0 else 1, |it.keys| - it.idx
  {
    var (it1, more) := Next(it);
    if !more then Drained([], None)
    else
      var rest := Collect(it1);
      Drained([(it1.key.value, it1.value.value)] + rest.items, None)
  }

  // ------------------------------------------------------------ reference

  /** The entries the seeks of the listed keys land on, in list order. */
  function Found(cur: Cursor, ks: seq<string>): (r: seq<Entry>)
    ensures |r| <= |ks|
  {
    if |ks| == 0 then []
    else
      match CursorSeek(cur, ks[0])
      case Some(e) => [e] + Found(cur, ks[1..])
      case None => Found(cur, ks[1..])
  }

  /** The entry found under key `i`, as a sequence of zero or one. */
  function FoundOne(cur: Cursor, k: string): (r: seq<Entry>)
    ensures |r| <= 1
  {
    match CursorSeek(cur, k)
    case Some(e) => [e]
    case None => []
  }

  /** Found over the keys from index `i` on, without slicing. */
  function FoundFrom(cur: Cursor, ks: seq<string>, i: nat): (r: seq<Entry>)
    requires i <= |ks|
    decreases |ks| - i
  {
    if i == |ks| then [] else FoundOne(cur, ks[i]) + FoundFrom(cur, ks, i + 1)
  }

  lemma {:induction false} FoundFromSlice(cur: Cursor, ks: seq<string>, i: nat)
    requires i <= |ks|
    ensures FoundFrom(cur, ks, i) == Found(cur, ks[i..])
    decreases |ks| - i
  {
    if i == |ks| {
      assert ks[i..] == [];
    } else {
      FoundFromSlice(cur, ks, i + 1);
      assert ks[i..][1..] == ks[i + 1..];
    }
  }

  /** The first key's entry, if found, then the rest. */
  lemma FoundFromCons(cur: Cursor, keys: seq<string>, i: nat)
    requires i < |keys|
    ensures CursorSeek(cur, keys[i]).None? ==> FoundFrom(cur, keys, i) == FoundFrom(cur, keys, i + 1)
    ensures CursorSeek(cur, keys[i]).Some? ==>
      FoundFrom(cur, keys, i) == [CursorSeek(cur, keys[i]).value] + FoundFrom(cur, keys, i + 1)
  {
  }

  /** Skipping passes over the first min(skip, found) found keys. */
  lemma {:induction false} SkipFromSpec(cur: Cursor, keys: seq<string>, i: nat, skip: int)
    requires cur.Valid() && i <= |keys|
    ensures var fs := FoundFrom(cur, keys, i);
      var k := if skip > 0 then Min(skip, |fs|) else 0;
      FoundFrom(cur, keys, SkipFrom(cur, keys, i, skip)) == fs[k..]
    decreases |keys| - i
  {
    if skip > 0 && i < |keys| {
      FoundFromCons(cur, keys, i);
      var e := CursorSeek(cur, keys[i]);
      var skip1 := if e.Some? then skip - 1 else skip;
      SkipFromSpec(cur, keys, i + 1, skip1);
      if e.Some? {
        var rest := FoundFrom(cur, keys, i + 1);
        DropCons(e.value, rest, if skip1 > 0 then Min(skip1, |rest|) else 0);
      }
    }
  }

  /** The search stops at the next found key, whose entry starts the rest. */
  lemma {:induction false} SearchFromSpec(cur: Cursor, keys: seq<string>, i: nat)
    requires cur.Valid() && i <= |keys|
    ensures var j := SearchFrom(cur, keys, i);
      && (j == |keys| ==> FoundFrom(cur, keys, i) == [])
      && (j < |keys| ==> FoundFrom(cur, keys, i) == [CursorSeek(cur, keys[j]).value] + FoundFrom(cur, keys, j + 1))
    decreases |keys| - i
  {
    if i < |keys| {
      FoundFromCons(cur, keys, i);
      var e := CursorSeek(cur, keys[i]);
      if e.None? {
        SearchFromSpec(cur, keys, i + 1);
        assert SearchFrom(cur, keys, i) == SearchFrom(cur, keys, i + 1);
      }
    }
  }

  /** One call to Collect on an open iterator: below the limit and with a
      key found from `From` on, that pair and then the rest; the end
      otherwise. */
  lemma CollectOnce(it: Iter)
    requires it.Valid() && !it.closed
    ensures var j := SearchFrom(it.cur, it.keys, From(it));
      if !(it.limit > 0 && it.count >= it.limit) && j < |it.keys| then
        Collect(it) == Drained([CursorSeek(it.cur, it.keys[j]).value] + Collect(Yielded(it, j)).items, None)
      else Collect(it) == Drained([], None)
  {
  }

  /** The found keys from `From` on, up to the limit: the pair under the key
      the search finds, then the rest. */
  lemma AllowFrom(it: Iter, j: nat, items: seq<Entry>)
    requires it.Valid() && !it.closed && !(it.limit > 0 && it.count >= it.limit)
    requires j == SearchFrom(it.cur, it.keys, From(it)) && j < |it.keys|
    requires items == Allow(FoundFrom(it.cur, it.keys, j + 1), it.limit, it.count + 1)
    ensures Allow(FoundFrom(it.cur, it.keys, From(it)), it.limit, it.count) == [CursorSeek(it.cur, it.keys[j]).value] + items
  {
    SearchFromSpec(it.cur, it.keys, From(it));
    AllowCons(CursorSeek(it.cur, it.keys[j]).value, FoundFrom(it.cur, it.keys, j + 1), it.limit, it.count);
  }

  /** Nothing more once the limit is reached or no key is found. */
  lemma AllowNone(it: Iter)
    requires it.Valid() && !it.closed
    requires (it.limit > 0 && it.count >= it.limit) || SearchFrom(it.cur, it.keys, From(it)) == |it.keys|
    ensures Allow(FoundFrom(it.cur, it.keys, From(it)), it.limit, it.count) == []
  {
    SearchFromSpec(it.cur, it.keys, From(it));
  }

  /** What an open iterator yields: the found keys from `From` on, up to the
      limit. */
  lemma {:induction false} CollectFrom(it: Iter)
    requires it.Valid() && !it.closed
    ensures Collect(it) == Drained(Allow(FoundFrom(it.cur, it.keys, From(it)), it.limit, it.count), None)
    decreases if it.initialized then 0 else 1, |it.keys| - it.idx
  {
    CollectOnce(it);
    var j := SearchFrom(it.cur, it.keys, From(it));
    if !(it.limit > 0 && it.count >= it.limit) && j < |it.keys| {
      var y := Yielded(it, j);
      CollectFrom(y);
      AllowFrom(it, j, Collect(y).items);
    } else {
      AllowNone(it);
    }
  }

  /** After a yield, the rest of the found keys are yielded up to the limit. */
  lemma CollectResumed(it: Iter)
    requires it.Valid() && it.initialized && !it.closed
    ensures Collect(it) == Drained(Allow(Found(it.cur, it.keys[it.idx + 1..]), it.limit, it.count), None)
  {
    FoundFromSlice(it.cur, it.keys, it.idx + 1);
    assert FoundFrom(it.cur, it.keys, From(it)) == Found(it.cur, it.keys[it.idx + 1..]);
    CollectFrom(it);
  }

  /** Everything the index iterator yields: the entries the seeks land on,
      in list order, less the first `skip` of them, up to the limit. */
  lemma CollectNew(cur: Cursor, keys: seq<string>, limit: int, skip: int)
    requires cur.Valid()
    ensures var fs := Found(cur, keys);
      var k := if skip > 0 then Min(skip, |fs|) else 0;
      Collect(New(cur, keys, limit, skip)) == Drained(Allow(fs[k..], limit, 0), None)
  {
    CollectFrom(New(cur, keys, limit, skip));
    SkipFromSpec(cur, keys, 0, skip);
    FoundFromSlice(cur, keys, 0);
    assert keys[0..] == keys;
  }

  /** What the seeks land on: an entry is found exactly when some listed
      key's seek gives it. */
  lemma {:induction false} FoundMembers(cur: Cursor, ks: seq<string>)
    ensures forall e :: e in Found(cur, ks) <==> exists i :: 0 <= i < |ks| && CursorSeek(cur, ks[i]) == Some(e)
    decreases |ks|
  {
    if |ks| > 0 {
      FoundMembers(cur, ks[1..]);
      assert Found(cur, ks) == FoundOne(cur, ks[0]) + Found(cur, ks[1..]);
      forall e ensures e in Found(cur, ks) <==> exists i :: 0 <= i < |ks| && CursorSeek(cur, ks[i]) == Some(e) {
        if e in Found(cur, ks[1..]) {
          var i :| 0 <= i < |ks[1..]| && CursorSeek(cur, ks[1..][i]) == Some(e);
          assert CursorSeek(cur, ks[i + 1]) == Some(e);
        }
        if exists i :: 0 <= i < |ks| && CursorSeek(cur, ks[i]) == Some(e) {
          var i :| 0 <= i < |ks| && CursorSeek(cur, ks[i]) == Some(e);
          if i > 0 {
            assert CursorSeek(cur, ks[1..][i - 1]) == Some(e);
          }
        }
      }
    }
  }

  /** With a Seek that matches exactly, the index path yields the stored
      entries of the listed keys and nothing else: the behaviour the lookup
      of an id that is not stored needs. */
  lemma ExactFound(b: Bucket, ks: seq<string>)
    requires b.Valid()
    ensures forall e :: e in Found(ExactCursorOf(b), ks) <==> e.0 in ks && e in b.entries
  {
    var cur := ExactCursorOf(b);
    FoundMembers(cur, ks);
    forall e ensures e in Found(cur, ks) <==> e.0 in ks && e in b.entries {
      if e.0 in ks && e in b.entries {
        var i :| 0 <= i < |ks| && ks[i] == e.0;
        var p :| 0 <= p < |b.entries| && b.entries[p] == e;
        SeekLands(cur, ks[i]);
        assert CursorSeek(cur, ks[i]) == Some(e);
      }
      if e in Found(cur, ks) {
        var i :| 0 <= i < |ks| && CursorSeek(cur, ks[i]) == Some(e);
        SeekLands(cur, ks[i]);
      }
    }
  }
}

=== FILE: kv.dfy ===
/** The ordered key-value primitive the document engine runs on (the Store, Tx,
    Bucket and Cursor interfaces of kv/interfaces.go). A bucket is a key-sorted
    list of entries plus its sequence counter; a store maps bucket names to
    buckets. Values are JSON documents or raw bytes; JSON encoding is the
    identity on documents and raw bytes never decode. */
module Kv {
  import opened Wrappers
  import Strings
  import opened Docs

  /** A stored value: the JSON encoding of a document, or other bytes (the
      NUL-terminated key lists of index buckets). */
  datatype Blob = Json(doc: Doc) | Bytes(b: string)

  /** json.Unmarshal into a map. */
  function Decode(v: Blob): (r: Result<Doc>)
    ensures r.Ok? <==> v.Json?
    ensures r.Ok? ==> r.value == v.doc
  {
    match v
    case Json(d) => Ok(d)
    case Bytes(_) => Err(DecodeFailed)
  }

  type Entry = (string, Blob)

  /** Strictly ascending keys: the order a bucket cursor visits them in. */
  predicate KeysSorted(es: seq<Entry>) {
    forall i, j :: 0 <= i < j < |es| ==> Strings.Less(es[i].0, es[j].0)
  }

  predicate HasKey(es: seq<Entry>, k: string) {
    exists i :: 0 <= i < |es| && es[i].0 == k
  }

  function Keys(es: seq<Entry>): (ks: seq<string>)
    ensures |ks| == |es|
    ensures forall i :: 0 <= i < |es| ==> ks[i] == es[i].0
  {
    if |es| == 0 then [] else [es[0].0] + Keys(es[1..])
  }

  datatype Bucket = Bucket(entries: seq<Entry>, sequence: nat) {
    predicate Valid() {
      KeysSorted(entries)
    }
  }

  const EmptyBucket: Bucket := Bucket([], 0)

  /** Bucket.Get: the value stored under `k`, if any. */
  function Find(es: seq<Entry>, k: string): (r: Option<Blob>)
    ensures r.None? <==> !HasKey(es, k)
    ensures r.Some? ==> exists i :: 0 <= i < |es| && es[i] == (k, r.value)
  {
    if |es| == 0 then None
    else if es[0].0 == k then Some(es[0].1)
    else
      assert forall i :: 1 <= i < |es| ==> es[i] == es[1..][i - 1];
      Find(es[1..], k)
  }

  function Get(b: Bucket, k: string): Option<Blob> {
    Find(b.entries, k)
  }

  lemma SortedTail(es: seq<Entry>)
    requires KeysSorted(es) && |es| > 0
    ensures KeysSorted(es[1..])
  {
    forall i, j | 0 <= i < j < |es| - 1 ensures Strings.Less(es[1..][i].0, es[1..][j].0) {
      assert es[1..][i] == es[i + 1] && es[1..][j] == es[j + 1];
    }
  }

  lemma SortedPrepend(e: Entry, es: seq<Entry>)
    requires KeysSorted(es)
    requires forall i :: 0 <= i < |es| ==> Strings.Less(e.0, es[i].0)
    ensures KeysSorted([e] + es)
  {
    var r := [e] + es;
    forall i, j | 0 <= i < j < |r| ensures Strings.Less(r[i].0, r[j].0) {
      if i == 0 {
        assert r[j] == es[j - 1];
      } else {
        assert r[i] == es[i - 1] && r[j] == es[j - 1];
      }
    }
  }

  /** In a sorted list, a key below the first key is absent. */
  lemma BelowFirstAbsent(es: seq<Entry>, k: string)
    requires KeysSorted(es) && |es| > 0 && Strings.Less(k, es[0].0)
    ensures !HasKey(es, k)
  {
    forall i | 0 <= i < |es| ensures es[i].0 != k {
      if i > 0 {
        Strings.CmpTransitive(k, es[0].0, es[i].0);
      }
    }
  }

  lemma FirstKeyIsLeast(es: seq<Entry>, k: string)
    requires KeysSorted(es) && HasKey(es, k)
    ensures !Strings.Less(k, es[0].0)
  {
    var i :| 0 <= i < |es| && es[i].0 == k;
    Strings.CmpAntisymmetric(es[0].0, k);
  }

  /** Bucket.Set: replace the value of a present key, or insert the key in order. */
  function SetEntries(es: seq<Entry>, k: string, v: Blob): seq<Entry> {
    if |es| == 0 then [(k, v)]
    else if es[0].0 == k then [(k, v)] + es[1..]
    else if Strings.Less(k, es[0].0) then [(k, v)] + es
    else [es[0]] + SetEntries(es[1..], k, v)
  }

  lemma {:induction false} SetEntriesSpec(es: seq<Entry>, k: string, v: Blob)
    requires KeysSorted(es)
    ensures KeysSorted(SetEntries(es, k, v))
    ensures Find(SetEntries(es, k, v), k) == Some(v)
    ensures forall j :: j != k ==> Find(SetEntries(es, k, v), j) == Find(es, j)
    ensures forall i :: 0 <= i < |SetEntries(es, k, v)| ==>
      SetEntries(es, k, v)[i].0 == k || HasKey(es, SetEntries(es, k, v)[i].0)
    decreases |es|, 1
  {
    var r := SetEntries(es, k, v);
    if |es| == 0 {
    } else if es[0].0 == k {
      SortedTail(es);
      SortedPrepend((k, v), es[1..]);
      assert forall i :: 1 <= i < |es| ==> es[i] == es[1..][i - 1];
    } else if Strings.Less(k, es[0].0) {
      forall i | 0 <= i < |es| ensures Strings.Less(k, es[i].0) {
        if i > 0 {
          Strings.CmpTransitive(k, es[0].0, es[i].0);
        }
      }
      SortedPrepend((k, v), es);
    } else {
      Strings.CmpAntisymmetric(k, es[0].0);
      SetEntriesCons(es, k, v);
    }
  }

  /** The step of SetEntriesSpec past a smaller first key. */
  lemma SetEntriesCons(es: seq<Entry>, k: string, v: Blob)
    requires KeysSorted(es) && |es| > 0 && Strings.Less(es[0].0, k)
    ensures var r := [es[0]] + SetEntries(es[1..], k, v);
      && KeysSorted(r) && Find(r, k) == Some(v)
      && (forall j :: j != k ==> Find(r, j) == Find(es, j))
      && (forall i :: 0 <= i < |r| ==> r[i].0 == k || HasKey(es, r[i].0))
    decreases |es|, 0
  {
    SortedTail(es);
    SetEntriesSpec(es[1..], k, v);
    var rest := SetEntries(es[1..], k, v);
    var r := [es[0]] + rest;
    assert forall i :: 1 <= i < |es| ==> es[i] == es[1..][i - 1];
    forall i | 0 <= i < |rest| ensures Strings.Less(es[0].0, rest[i].0) && (rest[i].0 == k || HasKey(es, rest[i].0)) {
      if rest[i].0 != k {
        var m :| 0 <= m < |es[1..]| && es[1..][m].0 == rest[i].0;
        assert es[m + 1].0 == rest[i].0;
      }
    }
    SortedPrepend(es[0], rest);
    forall i | 0 <= i < |r| ensures r[i].0 == k || HasKey(es, r[i].0) {
      if i > 0 {
        assert r[i] == rest[i - 1];
      }
    }
  }

  /** Bucket.Delete: remove the entry of `k`, if any. */
  function DeleteEntries(es: seq<Entry>, k: string): seq<Entry> {
    if |es| == 0 then []
    else if es[0].0 == k then es[1..]
    else [es[0]] + DeleteEntries(es[1..], k)
  }

  lemma {:induction false} DeleteEntriesSpec(es: seq<Entry>, k: string)
    requires KeysSorted(es)
    ensures KeysSorted(DeleteEntries(es, k))
    ensures Find(DeleteEntries(es, k), k) == None
    ensures forall j :: j != k ==> Find(DeleteEntries(es, k), j) == Find(es, j)
    ensures forall i :: 0 <= i < |DeleteEntries(es, k)| ==> HasKey(es, DeleteEntries(es, k)[i].0)
  {
    if |es| == 0 {
    } else if es[0].0 == k {
      SortedTail(es);
      assert forall i :: 1 <= i < |es| ==> es[i] == es[1..][i - 1];
      if |es| > 1 {
        BelowFirstAbsent(es[1..], k);
      }
    } else {
      SortedTail(es);
      DeleteEntriesSpec(es[1..], k);
      var rest := DeleteEntries(es[1..], k);
      assert forall i :: 1 <= i < |es| ==> es[i] == es[1..][i - 1];
      forall i | 0 <= i < |rest| ensures Strings.Less(es[0].0, rest[i].0) && HasKey(es, rest[i].0) {
        var m :| 0 <= m < |es[1..]| && es[1..][m].0 == rest[i].0;
        assert es[m + 1].0 == rest[i].0;
      }
      SortedPrepend(es[0], rest);
      var r := DeleteEntries(es, k);
      assert r == [es[0]] + rest;
      forall i | 0 <= i < |r| ensures HasKey(es, r[i].0) {
        if i > 0 {
          assert r[i] == rest[i - 1];
        }
      }
    }
  }

  /** Setting adds an entry exactly when the key is new. */
  lemma {:induction false} SetEntriesCount(es: seq<Entry>, k: string, v: Blob)
    requires KeysSorted(es)
    ensures |SetEntries(es, k, v)| == if HasKey(es, k) then |es| else |es| + 1
  {
    if |es| > 0 && es[0].0 != k {
      if Strings.Less(k, es[0].0) {
        BelowFirstAbsent(es, k);
      } else {
        SortedTail(es);
        SetEntriesCount(es[1..], k, v);
        assert HasKey(es, k) <==> HasKey(es[1..], k) by {
          assert forall i :: 1 <= i < |es| ==> es[i] == es[1..][i - 1];
        }
      }
    }
  }

  /** Deleting drops an entry exactly when the key is present. */
  lemma {:induction false} DeleteEntriesCount(es: seq<Entry>, k: string)
    requires KeysSorted(es)
    ensures |DeleteEntries(es, k)| == if HasKey(es, k) then |es| - 1 else |es|
  {
    if |es| > 0 && es[0].0 != k {
      SortedTail(es);
      DeleteEntriesCount(es[1..], k);
      assert HasKey(es, k) <==> HasKey(es[1..], k) by {
        assert forall i :: 1 <= i < |es| ==> es[i] == es[1..][i - 1];
      }
    }
  }

  function Set(b: Bucket, k: string, v: Blob): (r: Bucket)
    requires b.Valid()
    ensures r.Valid() && r.sequence == b.sequence
    ensures Get(r, k) == Some(v)
    ensures forall j :: j != k ==> Get(r, j) == Get(b, j)
  {
    SetEntriesSpec(b.entries, k, v);
    b.(entries := SetEntries(b.entries, k, v))
  }

  function Delete(b: Bucket, k: string): (r: Bucket)
    requires b.Valid()
    ensures r.Valid() && r.sequence == b.sequence
    ensures Get(r, k) == None
    ensures forall j :: j != k ==> Get(r, j) == Get(b, j)
  {
    DeleteEntriesSpec(b.entries, k);
    b.(entries := DeleteEntries(b.entries, k))
  }

  lemma FormatCounter(n: nat)
    ensures n <= Strings.Int64Max ==> Strings.ParseInt(Strings.FormatInt(n)) == Some(n)
  {
    if n <= Strings.Int64Max {
      Strings.FormatIntRoundTrip(n);
    }
  }

  /** The number of keys after Set and Delete. */
  lemma EntryCounts(b: Bucket, k: string, v: Blob)
    requires b.Valid()
    ensures |Set(b, k, v).entries| == if Get(b, k).None? then |b.entries| + 1 else |b.entries|
    ensures |Delete(b, k).entries| == if Get(b, k).None? then |b.entries| else |b.entries| - 1
  {
    SetEntriesCount(b.entries, k, v);
    DeleteEntriesCount(b.entries, k);
  }

  /** Bucket.NextSequence: the incremented counter, as a decimal string. */
  function NextSequence(b: Bucket): (r: (Bucket, string))
    ensures r.0.entries == b.entries && r.0.sequence == b.sequence + 1
    ensures Strings.ParseInt(r.1) == Some(b.sequence + 1) || b.sequence + 1 > Strings.Int64Max
  {
    var n := b.sequence + 1;
    FormatCounter(n);
    (b.(sequence := n), Strings.FormatInt(n))
  }

  /** Buckets by name. `implicit` marks a primitive on which every bucket exists
      (a flat keyspace with name prefixes, such as the redis adapter), so
      opening a missing bucket yields an empty one instead of nil. */
  datatype Store = Store(buckets: map<string, Bucket>, implicit: bool) {
    predicate Valid() {
      forall name :: name in buckets ==> buckets[name].Valid()
    }
  }

  /** Tx.Bucket(name, false). */
  function Open(st: Store, name: string): (r: Option<Bucket>)
    ensures name in st.buckets ==> r == Some(st.buckets[name])
    ensures name !in st.buckets ==> (r.Some? <==> st.implicit)
    ensures r.Some? && st.Valid() ==> r.value.Valid()
  {
    if name in st.buckets then Some(st.buckets[name])
    else if st.implicit then Some(EmptyBucket)
    else None
  }

  /** Tx.Bucket(name, true): the bucket, created empty if missing. */
  function OpenOrCreate(st: Store, name: string): (r: Bucket)
    ensures name in st.buckets ==> r == st.buckets[name]
    ensures name !in st.buckets ==> r == EmptyBucket
    ensures st.Valid() ==> r.Valid()
  {
    if name in st.buckets then st.buckets[name] else EmptyBucket
  }

  function Put(st: Store, name: string, b: Bucket): (r: Store)
    requires st.Valid() && b.Valid()
    ensures r.Valid() && r.implicit == st.implicit
    ensures r.buckets == st.buckets[name := b]
  {
    st.(buckets := st.buckets[name := b])
  }

  /** The value under `k` in bucket `name`, if both exist. */
  function Read(st: Store, name: string, k: string): Option<Blob> {
    if name in st.buckets then Get(st.buckets[name], k) else None
  }

  // ------------------------------------------------------------ cursor

  /** Bucket.Cursor over the entries of a bucket, in key order. `next` is the
      position the following Next reads. `exact` tells whose Seek it has:
      bolt's moves to the first key at or after the one given, the redis
      adapter's fetches exactly that key. */
  datatype Cursor = Cursor(entries: seq<Entry>, next: nat, exact: bool) {
    predicate Valid() {
      next <= |entries|
    }
  }

  /** A bolt bucket's cursor. */
  function CursorOf(b: Bucket): (r: Cursor)
    ensures r.Valid() && r.entries == b.entries && !r.exact
  {
    Cursor(b.entries, 0, false)
  }

  /** A cursor over the same entries whose Seek matches keys exactly. */
  function ExactCursorOf(b: Bucket): (r: Cursor)
    ensures r.Valid() && r.entries == b.entries && r.exact
  {
    Cursor(b.entries, 0, true)
  }

  /** Cursor.First: the least entry, nil on an empty bucket. */
  function CursorFirst(cur: Cursor): (r: (Cursor, Option<Entry>))
    ensures r.0.Valid() && r.0.entries == cur.entries
    ensures r.1.Some? <==> |cur.entries| > 0
    ensures r.1.Some? ==> r.1.value == cur.entries[0] && r.0.next == 1
    ensures r.1.None? ==> r.0.next == |cur.entries|
  {
    if |cur.entries| == 0 then (cur.(next := 0), None) else (cur.(next := 1), Some(cur.entries[0]))
  }

  /** Cursor.Next: the entry after the last one read, nil past the end. */
  function CursorNext(cur: Cursor): (r: (Cursor, Option<Entry>))
    requires cur.Valid()
    ensures r.0.Valid() && r.0.entries == cur.entries
    ensures r.1.Some? <==> cur.next < |cur.entries|
    ensures r.1.Some? ==> r.1.value == cur.entries[cur.next] && r.0.next == cur.next + 1
    ensures r.1.None? ==> r.0 == cur
  {
    if cur.next < |cur.entries| then (cur.(next := cur.next + 1), Some(cur.entries[cur.next])) else (cur, None)
  }

  /** The position of the first entry from `i` on whose key is not below
      `k`, or the end. */
  function CeilingFrom(es: seq<Entry>, k: string, i: nat): (r: nat)
    requires i <= |es|
    ensures i <= r <= |es|
    decreases |es| - i
  {
    if i == |es| || !Strings.Less(es[i].0, k) then i else CeilingFrom(es, k, i + 1)
  }

  /** Every key the ceiling passes over is below `k`, and the one it stops
      at is not. */
  lemma {:induction false} CeilingFirst(es: seq<Entry>, k: string, i: nat)
    requires i <= |es|
    ensures forall j :: i <= j < CeilingFrom(es, k, i) ==> Strings.Less(es[j].0, k)
    ensures CeilingFrom(es, k, i) < |es| ==> !Strings.Less(es[CeilingFrom(es, k, i)].0, k)
    decreases |es| - i
  {
    if i < |es| && Strings.Less(es[i].0, k) {
      CeilingFirst(es, k, i + 1);
    }
  }

  /** In key order, the first entry not below a stored key is that key's. */
  lemma CeilingHit(es: seq<Entry>, k: string)
    requires KeysSorted(es) && HasKey(es, k)
    ensures CeilingFrom(es, k, 0) < |es| && es[CeilingFrom(es, k, 0)] == (k, Find(es, k).value)
  {
    var p := CeilingFrom(es, k, 0);
    CeilingFirst(es, k, 0);
    var q :| 0 <= q < |es| && es[q].0 == k;
    Strings.CmpAntisymmetric(k, k);
    assert p == q;
    var i :| 0 <= i < |es| && es[i] == (k, Find(es, k).value);
    assert i == q;
  }

  /** Cursor.Seek. Bolt's moves to the first key at or after `k`; the redis
      adapter's fetches exactly `k`. SeekLands states what each finds. */
  function CursorSeek(cur: Cursor, k: string): (r: Option<Entry>)
  {
    if cur.exact then
      match Find(cur.entries, k)
      case None => None
      case Some(v) => Some((k, v))
    else
      var p := CeilingFrom(cur.entries, k, 0);
      if p < |cur.entries| then Some(cur.entries[p]) else None
  }

  /** What a seek finds. Bolt's gives the first entry whose key is not below
      `k`, nil only when every key is below it, so on a bucket that lacks
      `k` it lands on a neighbour; the redis adapter's gives the entry under
      exactly `k` and nil when there is none. Either way a stored key of a
      bucket in key order is found as itself. */
  lemma SeekLands(cur: Cursor, k: string)
    ensures var r := CursorSeek(cur, k);
      && (cur.exact ==> (r.Some? <==> HasKey(cur.entries, k)))
      && (cur.exact && r.Some? ==> r.value.0 == k && Find(cur.entries, k) == Some(r.value.1))
      && (!cur.exact ==> (r.None? <==> forall i :: 0 <= i < |cur.entries| ==> Strings.Less(cur.entries[i].0, k)))
      && (!cur.exact && r.Some? ==> r.value in cur.entries && !Strings.Less(r.value.0, k))
      && (!cur.exact && r.Some? ==> CeilingFrom(cur.entries, k, 0) < |cur.entries| && r.value == cur.entries[CeilingFrom(cur.entries, k, 0)])
      && (KeysSorted(cur.entries) && HasKey(cur.entries, k) ==> r == Some((k, Find(cur.entries, k).value)))
  {
    CeilingFirst(cur.entries, k, 0);
    if KeysSorted(cur.entries) && HasKey(cur.entries, k) {
      CeilingHit(cur.entries, k);
    }
  }

  /** What draining an iterator gives: the pairs it yielded until it reported
      the end, and the error that stopped it early, if one did. */
  datatype Drained = Drained(items: seq<Entry>, err: Option<Error>)

  function Min(a: int, b: int): int { if a <= b then a else b }
  function Max(a: int, b: int): int { if a >= b then a else b }

  /** The part of `xs` a limit lets through once `n` pairs have been counted;
      a limit of 0 or less means no limit. */
  function Allow(xs: seq<Entry>, limit: int, n: int): (r: seq<Entry>)
    ensures limit <= 0 ==> r == xs
    ensures limit > 0 ==> r == xs[..Min(|xs|, Max(0, limit - n))]
  {
    if limit <= 0 then xs else xs[..Min(|xs|, Max(0, limit - n))]
  }

  /** One more pair passes when the count is still below the limit. */
  lemma AllowCons(x: Entry, xs: seq<Entry>, limit: int, n: int)
    requires limit <= 0 || n < limit
    ensures Allow([x] + xs, limit, n) == [x] + Allow(xs, limit, n + 1)
  {
  }

  /** The first pair always passes a fresh count. */
  lemma AllowHead(xs: seq<Entry>, limit: int)
    ensures (if |xs| == 0 then [] else [xs[0]] + Allow(xs[1..], limit, 1)) == Allow(xs, limit, 0)
  {
    if |xs| > 0 {
      AllowCons(xs[0], xs[1..], limit, 0);
      assert [xs[0]] + xs[1..] == xs;
    }
  }

  /** Dropping one more pair from a longer sequence. */
  lemma DropCons(v: Entry, rest: seq<Entry>, k: nat)
    requires k <= |rest|
    ensures ([v] + rest)[k + 1..] == rest[k..]
  {
  }

  // ------------------------------------------------------------ properties

  /** Reading back what was set, and nothing else changes. */
  lemma SetGet(b: Bucket, k: string, v: Blob, j: string)
    requires b.Valid()
    ensures Get(Set(b, k, v), j) == if j == k then Some(v) else Get(b, j)
  {
  }

  /** Sorted entries with the same keys and values are the same entries. */
  lemma {:induction false} SortedEntriesUnique(a: seq<Entry>, b: seq<Entry>)
    requires KeysSorted(a) && KeysSorted(b)
    requires forall k :: Find(a, k) == Find(b, k)
    ensures a == b
  {
    if |a| == 0 || |b| == 0 {
      assert |a| > 0 ==> Find(a, a[0].0).Some?;
      assert |b| > 0 ==> Find(b, b[0].0).Some?;
    } else {
      var ka, kb := a[0].0, b[0].0;
      assert Find(a, ka).Some? && Find(b, kb).Some?;
      FirstKeyIsLeast(b, ka);
      FirstKeyIsLeast(a, kb);
      Strings.CmpAntisymmetric(ka, kb);
      assert Find(a, ka) == Some(a[0].1) && Find(b, ka) == Some(b[0].1);
      SortedTail(a);
      SortedTail(b);
      forall k ensures Find(a[1..], k) == Find(b[1..], k) {
        if k == ka {
          if |a| > 1 {
            assert a[1..][0] == a[1];
            BelowFirstAbsent(a[1..], k);
          }
          if |b| > 1 {
            assert b[1..][0] == b[1];
            BelowFirstAbsent(b[1..], k);
          }
        } else {
          assert Find(a, k) == Find(a[1..], k);
          assert Find(b, k) == Find(b[1..], k);
        }
      }
      SortedEntriesUnique(a[1..], b[1..]);
      assert a == [a[0]] + a[1..] && b == [b[0]] + b[1..];
    }
  }

  /** Setting a key to the value it already has changes nothing. */
  lemma SetIdempotent(b: Bucket, k: string, v: Blob)
    requires b.Valid() && Get(b, k) == Some(v)
    ensures Set(b, k, v) == b
  {
    var r := Set(b, k, v);
    forall j ensures Find(r.entries, j) == Find(b.entries, j) {
      if j != k {
        assert Get(r, j) == Get(b, j);
      }
    }
    SortedEntriesUnique(r.entries, b.entries);
  }
}

=== FILE: lookup.dfy ===
/** The index planner (kv/lookup.go): whether a filter can be answered from
    the index buckets alone (`IsSuitable`), and the ids it then resolves to
    (`Find`), by intersecting and uniting the id lists of the index entries.
    A Go hashset is a duplicate-free list here; its members are what matters,
    and `ToArray` sorts them. */
module Lookup {
  import opened Wrappers
  import opened Values
  import opened Docs
  import opened Kv
  import KeyList
  import Strings
  import opened Schema
  import opened Query
  import opened Indexing
  import Filter
  import opened Consistency

  /** The runtime panic of `f[0]` on an empty list. */
  const IndexOutOfRange: Error := Panic("index out of range")

  // ------------------------------------------------------------ hashset

  /** hashset.add. */
  function Add(s: seq<string>, k: string): (r: seq<string>)
    requires KeyList.NoDup(s)
    ensures KeyList.NoDup(r)
    ensures forall x :: x in r <==> x in s || x == k
  {
    if k in s then s else KeyList.AppendFresh(s, k); s + [k]
  }

  /** Adding every key of `ks`: newHashset, and the union loop of `or`. */
  function AddAll(s: seq<string>, ks: seq<string>): (r: seq<string>)
    requires KeyList.NoDup(s)
    ensures KeyList.NoDup(r)
    ensures forall x :: x in r <==> x in s || x in ks
    decreases |ks|
  {
    if |ks| == 0 then s
    else
      var r := AddAll(Add(s, ks[0]), ks[1..]);
      assert forall x :: x in ks <==> x == ks[0] || x in ks[1..];
      r
  }

  /** Adding the keys of `ks` that `acc` has: the intersection loops. */
  function AddShared(s: seq<string>, ks: seq<string>, acc: seq<string>): (r: seq<string>)
    requires KeyList.NoDup(s)
    ensures KeyList.NoDup(r)
    ensures forall x :: x in r <==> x in s || (x in ks && x in acc)
    decreases |ks|
  {
    if |ks| == 0 then s
    else
      var r := AddShared(if ks[0] in acc then Add(s, ks[0]) else s, ks[1..], acc);
      assert forall x :: x in ks <==> x == ks[0] || x in ks[1..];
      r
  }

  /** hashset.toArray: the members, ascending, each once. */
  function ToArray(acc: seq<string>): (r: seq<string>)
    requires KeyList.NoDup(acc)
    ensures Strings.StrictlySorted(r)
    ensures forall x :: x in r <==> x in acc
  {
    var r := Strings.SortStrings(acc);
    KeyList.SortNoDup(acc);
    Strings.SortedDistinctIsStrict(r);
    assert forall x :: x in r <==> x in multiset(r);
    assert forall x :: x in acc <==> x in multiset(acc);
    r
  }

  // ------------------------------------------------------------ key resolution

  predicate IsIdName(name: string) {
    name == "id" || name == "_id"
  }

  /** lookup.field: the ids one field test resolves to. */
  function FieldKeys(st: Store, c: string, name: string, t: Term): (r: seq<string>)
    ensures IsIdName(name) ==> r == (if t.Is? && t.v.Str? then [t.v.s] else [])
    ensures !IsIdName(name) && !(t.Is? && t.v.Str?) ==> r == []
    ensures !IsIdName(name) && t.Is? && t.v.Str? ==> r == IdxKeys(st, IdxName(c, name), t.v.s)
  {
    if IsIdName(name) then
      if t.Is? && t.v.Str? then [t.v.s] else []
    else
      match Open(st, IdxName(c, name))
      case None => []
      case Some(idx) =>
        if t.Is? && t.v.Str? then
          match Kv.Get(idx, t.v.s)
          case None => []
          case Some(raw) =>
            if raw.Bytes? then KeyList.UnmarshalNoNul(raw.b); KeysOf(raw) else KeysOf(raw)
        else []
  }

  /** Every field of `fields` resolves to a list holding `k`. */
  ghost predicate InAllFields(st: Store, c: string, fields: seq<(string, Term)>, k: string) {
    forall i :: 0 <= i < |fields| ==> k in FieldKeys(st, c, fields[i].0, fields[i].1)
  }

  /** The loop of condition over the fields of an M after the first. */
  function FieldsLoop(st: Store, c: string, fields: seq<(string, Term)>, acc: seq<string>): (r: seq<string>)
    requires KeyList.NoDup(acc)
    ensures Strings.StrictlySorted(r)
    ensures forall x :: x in r <==> x in acc && InAllFields(st, c, fields, x)
  {
    if |fields| == 0 then ToArray(acc)
    else
      var next := AddShared([], FieldKeys(st, c, fields[0].0, fields[0].1), acc);
      var r := if |next| == 0 then [] else FieldsLoop(st, c, fields[1..], next);
      assert forall x :: InAllFields(st, c, fields, x) <==>
        x in FieldKeys(st, c, fields[0].0, fields[0].1) && InAllFields(st, c, fields[1..], x) by {
        forall x ensures InAllFields(st, c, fields, x) <==>
          x in FieldKeys(st, c, fields[0].0, fields[0].1) && InAllFields(st, c, fields[1..], x) {
          assert forall i :: 1 <= i < |fields| ==> fields[i] == fields[1..][i - 1];
        }
      }
      r
  }

  /** condition on an M: the intersection of its fields' lists; an empty M
      resolves to nothing. */
  function MKeys(st: Store, c: string, fields: seq<(string, Term)>): (r: seq<string>)
    ensures Strings.StrictlySorted(r)
    ensures forall x :: x in r <==> |fields| > 0 && InAllFields(st, c, fields, x)
  {
    if |fields| == 0 then []
    else
      var r := FieldsLoop(st, c, fields[1..], AddAll([], FieldKeys(st, c, fields[0].0, fields[0].1)));
      assert forall x :: InAllFields(st, c, fields, x) <==>
        x in FieldKeys(st, c, fields[0].0, fields[0].1) && InAllFields(st, c, fields[1..], x) by {
        forall x ensures InAllFields(st, c, fields, x) <==>
          x in FieldKeys(st, c, fields[0].0, fields[0].1) && InAllFields(st, c, fields[1..], x) {
          assert forall i :: 1 <= i < |fields| ==> fields[i] == fields[1..][i - 1];
        }
      }
      r
  }

  /** lookup.condition. Only a panic on an empty And or Or fails. */
  function CondKeys(st: Store, c: string, n: Node): (r: Result<seq<string>>)
    ensures r.Ok? ==> Strings.StrictlySorted(r.value)
    decreases n, 1
  {
    match n
    case Not(_) => Ok([])
    case And(items) => AndKeys(st, c, items)
    case Or(items) => OrKeys(st, c, items)
    case M(fields) => Ok(MKeys(st, c, fields))
    case Slice(_) => Ok([])
    case Raw(_) => Ok([])
  }

  /** lookup.and: one condition is returned as it resolves; otherwise the
      running intersection, which stops at the first empty set. */
  function AndKeys(st: Store, c: string, items: seq<Node>): (r: Result<seq<string>>)
    ensures r.Ok? ==> Strings.StrictlySorted(r.value)
    ensures |items| == 0 ==> r == Err(IndexOutOfRange)
    decreases items, 0
  {
    if |items| == 0 then Err(IndexOutOfRange)
    else if |items| == 1 then CondKeys(st, c, items[0])
    else
      var first :- CondKeys(st, c, items[0]);
      var acc := AddAll([], first);
      if |acc| == 0 then Ok([]) else AndLoop(st, c, items[1..], acc)
  }

  function AndLoop(st: Store, c: string, items: seq<Node>, acc: seq<string>): (r: Result<seq<string>>)
    requires KeyList.NoDup(acc)
    ensures r.Ok? ==> Strings.StrictlySorted(r.value)
    decreases items, 0
  {
    if |items| == 0 then Ok(ToArray(acc))
    else
      var ks :- CondKeys(st, c, items[0]);
      var next := AddShared([], ks, acc);
      if |next| == 0 then Ok([]) else AndLoop(st, c, items[1..], next)
  }

  /** lookup.or: one condition is returned as it resolves; otherwise the union. */
  function OrKeys(st: Store, c: string, items: seq<Node>): (r: Result<seq<string>>)
    ensures r.Ok? ==> Strings.StrictlySorted(r.value)
    ensures |items| == 0 ==> r == Err(IndexOutOfRange)
    decreases items, 0
  {
    if |items| == 0 then Err(IndexOutOfRange)
    else if |items| == 1 then CondKeys(st, c, items[0])
    else
      var first :- CondKeys(st, c, items[0]);
      OrLoop(st, c, items[1..], AddAll([], first))
  }

  function OrLoop(st: Store, c: string, items: seq<Node>, acc: seq<string>): (r: Result<seq<string>>)
    requires KeyList.NoDup(acc)
    ensures r.Ok? ==> Strings.StrictlySorted(r.value)
    decreases items, 0
  {
    if |items| == 0 then Ok(ToArray(acc))
    else
      var ks :- CondKeys(st, c, items[0]);
      OrLoop(st, c, items[1..], AddAll(acc, ks))
  }

  /** lookup.find: the conjunction of the top-level conditions. */
  function Find(st: Store, c: string, filter: seq<Node>): (r: Result<seq<string>>)
    ensures r.Ok? ==> Strings.StrictlySorted(r.value)
    ensures |filter| == 0 ==> r == Err(IndexOutOfRange)
  {
    AndKeys(st, c, filter)
  }

  // ------------------------------------------------------------ isSuitable

  /** A field test the index buckets can answer, other than one on the id. */
  predicate IndexedTest(st: Store, c: string, f: (string, Term)) {
    f.1.Is? && f.1.v.Str? && !IsIdName(f.0) && Open(st, IdxName(c, f.0)).Some?
  }

  /** A string equality on the id. */
  predicate IdTest(f: (string, Term)) {
    f.1.Is? && f.1.v.Str? && IsIdName(f.0)
  }

  /** The position of the first field test the index cannot answer, or
      |fields| when it answers them all. */
  function FirstUnindexed(st: Store, c: string, fields: seq<(string, Term)>): (j: nat)
    ensures j <= |fields|
    ensures forall i :: 0 <= i < j ==> IndexedTest(st, c, fields[i])
    ensures j < |fields| ==> !IndexedTest(st, c, fields[j])
  {
    if |fields| == 0 || !IndexedTest(st, c, fields[0]) then 0
    else
      assert forall i :: 1 <= i < |fields| ==> fields[i] == fields[1..][i - 1];
      FirstUnindexed(st, c, fields[1..]) + 1
  }

  /** isSuitable on an M: its fields are read in map order, and the first id
      equality settles the answer, whatever follows it. */
  function FieldsSuitable(st: Store, c: string, fields: seq<(string, Term)>): (r: bool)
    ensures var j := FirstUnindexed(st, c, fields); r <==> j == |fields| || IdTest(fields[j])
  {
    if |fields| == 0 then true
    else
      var name := fields[0].0;
      var t := fields[0].1;
      if !t.Is? then false
      else if !t.v.Str? then false
      else if IsIdName(name) then true
      else if Open(st, IdxName(c, name)).None? then false
      else FieldsSuitable(st, c, fields[1..])
  }

  /** lookup.isSuitable. */
  function IsSuitable(st: Store, c: string, n: Node): (r: bool)
    ensures n.Not? || n.Raw? ==> !r
    decreases n, 1
  {
    match n
    case Not(_) => false
    case And(items) => AllSuitable(st, c, items)
    case Or(items) => AllSuitable(st, c, items)
    case Slice(items) => AllSuitable(st, c, items)
    case M(fields) => FieldsSuitable(st, c, fields)
    case Raw(_) => false
  }

  /** Every node of the list is suitable; the filter list itself is a
      []interface{} and is judged by this rule. */
  function AllSuitable(st: Store, c: string, items: seq<Node>): (r: bool)
    ensures r <==> forall i :: 0 <= i < |items| ==> IsSuitable(st, c, items[i])
    decreases items, 0
  {
    if |items| == 0 then true
    else
      var r := IsSuitable(st, c, items[0]) && AllSuitable(st, c, items[1..]);
      assert forall i :: 1 <= i < |items| ==> items[i] == items[1..][i - 1];
      r
  }

  // ------------------------------------------------------------ exactness

  /** A field test the index answers exactly: a non-empty string equality on
      a field the collection indexes. */
  ghost predicate ExactTest(c: string, metas: seq<IdxMeta>, f: (string, Term)) {
    && f.1.Is? && f.1.v.Str? && f.1.v.s != "" && !IsIdName(f.0)
    && exists m :: m in metas && m.field == f.0 && m.bucket == IdxName(c, f.0)
  }

  /** A filter built only from non-empty And, Or and M nodes over exact field
      tests. */
  ghost predicate Exact(c: string, metas: seq<IdxMeta>, n: Node)
    decreases n
  {
    match n
    case And(items) => |items| > 0 && forall i :: 0 <= i < |items| ==> Exact(c, metas, items[i])
    case Or(items) => |items| > 0 && forall i :: 0 <= i < |items| ==> Exact(c, metas, items[i])
    case M(fields) => |fields| > 0 && forall i :: 0 <= i < |fields| ==> ExactTest(c, metas, fields[i])
    case _ => false
  }

  ghost predicate AllExact(c: string, metas: seq<IdxMeta>, items: seq<Node>) {
    forall i :: 0 <= i < |items| ==> Exact(c, metas, items[i])
  }

  lemma {:induction false} ExactValid(c: string, metas: seq<IdxMeta>, n: Node)
    requires Exact(c, metas, n)
    ensures Filter.Valid(n)
    decreases n
  {
    match n
    case And(items) =>
      forall i | 0 <= i < |items| ensures Filter.Valid(items[i]) {
        ExactValid(c, metas, items[i]);
      }
    case Or(items) =>
      forall i | 0 <= i < |items| ensures Filter.Valid(items[i]) {
        ExactValid(c, metas, items[i]);
      }
    case M(fields) =>
  }

  lemma AllExactValid(c: string, metas: seq<IdxMeta>, items: seq<Node>)
    requires AllExact(c, metas, items)
    ensures Filter.AllValid(items)
  {
    forall i | 0 <= i < |items| ensures Filter.Valid(items[i]) {
      ExactValid(c, metas, items[i]);
    }
  }

  /** The stored document under `k` satisfies `n`. */
  ghost predicate Selected(st: Store, c: string, n: Node, k: string)
    requires Filter.Valid(n)
  {
    DocOf(st, c, k).Some? && Filter.Holds(n, DocOf(st, c, k).value)
  }

  /** The only value equal to a string is that string. */
  lemma StrEquals(x: Value, s: string)
    ensures Equals(x, Str(s)) <==> x == Str(s)
  {
    if x.Str? {
      StringOrdering(x.s, Str(s));
    } else if x.Nil? {
      NilOrdering(Str(s));
    } else {
      StringOrdering(s, x);
    }
  }

  /** Under the index invariant, an exact field test resolves to the ids of
      exactly the documents it holds of. */
  lemma FieldExact(st: Store, c: string, metas: seq<IdxMeta>, f: (string, Term), k: string)
    requires Consistent(st, c, metas) && ExactTest(c, metas, f)
    ensures k in FieldKeys(st, c, f.0, f.1) <==>
      DocOf(st, c, k).Some? && Filter.FieldHolds(DocOf(st, c, k).value, f.0, f.1)
  {
    var m :| m in metas && m.field == f.0 && m.bucket == IdxName(c, f.0);
    var v := f.1.v.s;
    assert ListedAs(st, c, m, k, v);
    assert Filter.FieldName(f.0) == f.0;
    if DocOf(st, c, k).Some? {
      var d := DocOf(st, c, k).value;
      StrEquals(Docs.Get(d, f.0), v);
    }
  }

  lemma MExact(st: Store, c: string, metas: seq<IdxMeta>, fields: seq<(string, Term)>, k: string)
    requires Consistent(st, c, metas) && Exact(c, metas, M(fields))
    ensures Filter.Valid(M(fields))
    ensures k in MKeys(st, c, fields) <==> Selected(st, c, M(fields), k)
  {
    ExactValid(c, metas, M(fields));
    forall i | 0 <= i < |fields|
      ensures k in FieldKeys(st, c, fields[i].0, fields[i].1) <==>
        DocOf(st, c, k).Some? && Filter.FieldHolds(DocOf(st, c, k).value, fields[i].0, fields[i].1)
    {
      FieldExact(st, c, metas, fields[i], k);
    }
    if k in MKeys(st, c, fields) {
      assert k in FieldKeys(st, c, fields[0].0, fields[0].1);
    }
  }

  /** Under the index invariant, an exact filter resolves to the ids of
      exactly the stored documents it selects. */
  lemma {:induction false} CondExact(st: Store, c: string, metas: seq<IdxMeta>, n: Node)
    requires Consistent(st, c, metas) && Exact(c, metas, n)
    ensures Filter.Valid(n)
    ensures CondKeys(st, c, n).Ok?
    ensures forall k :: k in CondKeys(st, c, n).value <==> Selected(st, c, n, k)
    decreases n, 2
  {
    ExactValid(c, metas, n);
    match n
    case And(items) =>
      AndExact(st, c, metas, items);
    case Or(items) =>
      OrExact(st, c, metas, items);
    case M(fields) =>
      forall k ensures k in MKeys(st, c, fields) <==> Selected(st, c, n, k) {
        MExact(st, c, metas, fields, k);
      }
  }

  /** Every node of `items` selects the document under `k`. */
  ghost predicate SelectedByAll(st: Store, c: string, items: seq<Node>, k: string)
    requires Filter.AllValid(items)
  {
    forall i :: 0 <= i < |items| ==> Selected(st, c, items[i], k)
  }

  /** Some node of `items` selects the document under `k`. */
  ghost predicate SelectedBySome(st: Store, c: string, items: seq<Node>, k: string)
    requires Filter.AllValid(items)
  {
    exists i :: 0 <= i < |items| && Selected(st, c, items[i], k)
  }

  lemma AllValidTail(items: seq<Node>)
    requires |items| > 0 && Filter.AllValid(items)
    ensures Filter.AllValid(items[1..])
  {
    forall i | 0 <= i < |items| - 1 ensures Filter.Valid(items[1..][i]) {
      assert items[1..][i] == items[i + 1];
    }
  }

  lemma AllExactTail(c: string, metas: seq<IdxMeta>, items: seq<Node>)
    requires |items| > 0 && AllExact(c, metas, items)
    ensures AllExact(c, metas, items[1..])
  {
    forall i | 0 <= i < |items| - 1 ensures Exact(c, metas, items[1..][i]) {
      assert items[1..][i] == items[i + 1];
    }
  }

  lemma SelectedSplit(st: Store, c: string, items: seq<Node>, k: string)
    requires |items| > 0 && Filter.AllValid(items)
    ensures Filter.AllValid(items[1..])
    ensures SelectedByAll(st, c, items, k) <==> Selected(st, c, items[0], k) && SelectedByAll(st, c, items[1..], k)
    ensures SelectedBySome(st, c, items, k) <==> Selected(st, c, items[0], k) || SelectedBySome(st, c, items[1..], k)
  {
    AllValidTail(items);
    assert forall i :: 1 <= i < |items| ==> items[i] == items[1..][i - 1];
    if SelectedBySome(st, c, items, k) && !Selected(st, c, items[0], k) {
      var i :| 0 <= i < |items| && Selected(st, c, items[i], k);
      assert Selected(st, c, items[1..][i - 1], k);
    }
  }

  lemma {:induction false} AndLoopExact(st: Store, c: string, metas: seq<IdxMeta>, items: seq<Node>, acc: seq<string>)
    requires Consistent(st, c, metas) && AllExact(c, metas, items) && KeyList.NoDup(acc)
    ensures Filter.AllValid(items)
    ensures AndLoop(st, c, items, acc).Ok?
    ensures forall k :: k in AndLoop(st, c, items, acc).value <==> k in acc && SelectedByAll(st, c, items, k)
    decreases items, 1
  {
    AllExactValid(c, metas, items);
    if |items| > 0 {
      CondExact(st, c, metas, items[0]);
      AllExactTail(c, metas, items);
      var ks := CondKeys(st, c, items[0]).value;
      var next := AddShared([], ks, acc);
      forall k ensures SelectedByAll(st, c, items, k) <==> Selected(st, c, items[0], k) && SelectedByAll(st, c, items[1..], k) {
        SelectedSplit(st, c, items, k);
      }
      if |next| > 0 {
        AndLoopExact(st, c, metas, items[1..], next);
      }
    }
  }

  lemma {:induction false} AndExact(st: Store, c: string, metas: seq<IdxMeta>, items: seq<Node>)
    requires Consistent(st, c, metas) && |items| > 0 && AllExact(c, metas, items)
    ensures Filter.AllValid(items)
    ensures AndKeys(st, c, items).Ok?
    ensures forall k :: k in AndKeys(st, c, items).value <==> SelectedByAll(st, c, items, k)
    decreases items, 1
  {
    AllExactValid(c, metas, items);
    CondExact(st, c, metas, items[0]);
    forall k ensures SelectedByAll(st, c, items, k) <==> Selected(st, c, items[0], k) && SelectedByAll(st, c, items[1..], k) {
      SelectedSplit(st, c, items, k);
    }
    if |items| > 1 {
      AllExactTail(c, metas, items);
      var acc := AddAll([], CondKeys(st, c, items[0]).value);
      if |acc| > 0 {
        AndLoopExact(st, c, metas, items[1..], acc);
      }
    } else {
      forall k ensures SelectedByAll(st, c, items[1..], k) {
        assert |items[1..]| == 0;
      }
    }
  }

  lemma {:induction false} OrLoopExact(st: Store, c: string, metas: seq<IdxMeta>, items: seq<Node>, acc: seq<string>)
    requires Consistent(st, c, metas) && AllExact(c, metas, items) && KeyList.NoDup(acc)
    ensures Filter.AllValid(items)
    ensures OrLoop(st, c, items, acc).Ok?
    ensures forall k :: k in OrLoop(st, c, items, acc).value <==> k in acc || SelectedBySome(st, c, items, k)
    decreases items, 1
  {
    AllExactValid(c, metas, items);
    if |items| > 0 {
      CondExact(st, c, metas, items[0]);
      AllExactTail(c, metas, items);
      var ks := CondKeys(st, c, items[0]).value;
      forall k ensures SelectedBySome(st, c, items, k) <==> Selected(st, c, items[0], k) || SelectedBySome(st, c, items[1..], k) {
        SelectedSplit(st, c, items, k);
      }
      OrLoopExact(st, c, metas, items[1..], AddAll(acc, ks));
    }
  }

  lemma {:induction false} OrExact(st: Store, c: string, metas: seq<IdxMeta>, items: seq<Node>)
    requires Consistent(st, c, metas) && |items| > 0 && AllExact(c, metas, items)
    ensures Filter.AllValid(items)
    ensures OrKeys(st, c, items).Ok?
    ensures forall k :: k in OrKeys(st, c, items).value <==> SelectedBySome(st, c, items, k)
    decreases items, 1
  {
    AllExactValid(c, metas, items);
    CondExact(st, c, metas, items[0]);
    forall k ensures SelectedBySome(st, c, items, k) <==> Selected(st, c, items[0], k) || SelectedBySome(st, c, items[1..], k) {
      SelectedSplit(st, c, items, k);
    }
    if |items| > 1 {
      AllExactTail(c, metas, items);
      OrLoopExact(st, c, metas, items[1..], AddAll([], CondKeys(st, c, items[0]).value));
    } else {
      forall k ensures !SelectedBySome(st, c, items[1..], k) {
        assert |items[1..]| == 0;
      }
    }
  }

  /** The planner's key set for an exact filter list is exactly the set of
      stored documents the scan would select, in ascending order. */
  lemma FindExact(st: Store, c: string, metas: seq<IdxMeta>, filter: seq<Node>)
    requires Consistent(st, c, metas) && |filter| > 0 && AllExact(c, metas, filter)
    ensures Filter.AllValid(filter)
    ensures Find(st, c, filter).Ok? && Strings.StrictlySorted(Find(st, c, filter).value)
    ensures forall k :: k in Find(st, c, filter).value <==>
      DocOf(st, c, k).Some? && forall i :: 0 <= i < |filter| ==> Filter.Holds(filter[i], DocOf(st, c, k).value)
  {
    AndExact(st, c, metas, filter);
  }

  // ------------------------------------------------------------ quirks

  /** isSuitable depends on the map order of an M: an id equality met first
      makes it suitable even when another field has no index bucket, met
      last it does not. */
  lemma SuitableOrderDependent()
    ensures var st := Store(map[], false);
      && IsSuitable(st, "c", M([("id", Is(Str("1"))), ("name", Is(Str("x")))]))
      && !IsSuitable(st, "c", M([("name", Is(Str("x"))), ("id", Is(Str("1")))]))
  {
    var st := Store(map[], false);
    assert FirstUnindexed(st, "c", [("name", Is(Str("x"))), ("id", Is(Str("1")))]) == 0;
    assert FirstUnindexed(st, "c", [("id", Is(Str("1"))), ("name", Is(Str("x")))]) == 0;
  }

  /** An equality with the empty string is suitable when the index bucket
      exists, yet the index never lists an id under "", so the document the
      scan would select is not found. */
  lemma EmptyStringMissed()
    ensures var doc := [("name", Str(""))];
      var st := Store(map["c" := Bucket([("1", Json(doc))], 1), "idx_c_name" := EmptyBucket], false);
      var f := M([("name", Is(Str("")))]);
      && IsSuitable(st, "c", f)
      && Find(st, "c", [f]) == Ok([])
      && Filter.Valid(f) && Filter.Holds(f, doc)
  {
    var doc := [("name", Str(""))];
    assert IdxName("c", "name") == "idx_c_name";
    StrEquals(Str(""), "");
    assert Lookup(doc, "name") == Some(Str(""));
  }

  /** An empty And is suitable (no child objects), but resolving it indexes
      its missing first element. */
  lemma EmptyAndPanics(st: Store, c: string)
    ensures IsSuitable(st, c, And([]))
    ensures Find(st, c, [And([])]) == Err(IndexOutOfRange)
  {
  }

  /** A nested []interface{} is suitable when its children are, but resolves
      to no ids at all. */
  lemma NestedSliceResolvesEmpty(st: Store, c: string, id: string)
    ensures IsSuitable(st, c, Slice([M([("id", Is(Str(id)))])]))
    ensures Find(st, c, [Slice([M([("id", Is(Str(id)))])])]) == Ok([])
  {
    assert FirstUnindexed(st, c, [("id", Is(Str(id)))]) == 0;
    assert CondKeys(st, c, Slice([M([("id", Is(Str(id)))])])) == Ok([]);
  }
}

=== FILE: mongo.dfy ===
/** The MongoDB translator (mongo/filter.go): a filter tree becomes a BSON
    query document. And and Or become `$and` and `$or` arrays, a field map
    becomes a document whose `id` key is renamed `_id`, the operators become
    `$`-prefixed keys, and Not wraps its condition untranslated. Only the
    document is modelled; sending it to a server is not. */
module Mongo {
  import opened Wrappers
  import opened Values
  import opened Query

  /** A BSON value as the translator builds it. `Doc` is a bson.M: the
      sequence order stands for one iteration order of the Go map.
      `Arr` is a slice, `Val` a plain value passed through, and
      `Untranslated` a filter node passed through as it is. */
  datatype Bson =
    | Doc(pairs: seq<(string, Bson)>)
    | Arr(items: seq<Bson>)
    | Val(v: Value)
    | Untranslated(n: Node)

  // ------------------------------------------------------------ documents

  predicate DistinctKeys(pairs: seq<(string, Bson)>) {
    forall i, j :: 0 <= i < j < |pairs| ==> pairs[i].0 != pairs[j].0
  }

  function Keys(pairs: seq<(string, Bson)>): set<string> {
    set i | 0 <= i < |pairs| :: pairs[i].0
  }

  /** The position of `key`, or |pairs| when it is absent. */
  function IndexOf(pairs: seq<(string, Bson)>, key: string): (r: nat)
    ensures r <= |pairs|
    ensures r < |pairs| ==> pairs[r].0 == key
    ensures forall i :: 0 <= i < r ==> pairs[i].0 != key
  {
    if |pairs| == 0 then 0
    else if pairs[0].0 == key then 0
    else 1 + IndexOf(pairs[1..], key)
  }

  /** m[key] on a bson.M. */
  function Lookup(pairs: seq<(string, Bson)>, key: string): (r: Option<Bson>)
    ensures r.Some? <==> key in Keys(pairs)
  {
    var i := IndexOf(pairs, key);
    assert i == |pairs| ==> key !in Keys(pairs);
    if i < |pairs| then Some(pairs[i].1) else None
  }

  /** m[key] = v on a bson.M: the key is overwritten where it stands, or
      added at the end. */
  function Put(pairs: seq<(string, Bson)>, key: string, v: Bson): (r: seq<(string, Bson)>)
    requires DistinctKeys(pairs)
    ensures DistinctKeys(r)
    ensures Keys(r) == Keys(pairs) + {key}
    ensures key !in Keys(pairs) ==> r == pairs + [(key, v)]
  {
    var i := IndexOf(pairs, key);
    if i < |pairs| then
      var r := pairs[i := (key, v)];
      assert forall j :: 0 <= j < |r| ==> r[j].0 == pairs[j].0;
      r
    else
      assert key !in Keys(pairs);
      var r := pairs + [(key, v)];
      assert forall j :: 0 <= j < |pairs| ==> r[j] == pairs[j];
      assert r[|pairs|] == (key, v);
      r
  }

  /** Put and Lookup agree: the key now holds the new value, and every other
      key holds what it held. */
  lemma PutLookup(pairs: seq<(string, Bson)>, key: string, v: Bson, k: string)
    requires DistinctKeys(pairs)
    ensures Lookup(Put(pairs, key, v), k) == if k == key then Some(v) else Lookup(pairs, k)
  {
    var r := Put(pairs, key, v);
    var i := IndexOf(pairs, key);
    if i < |pairs| {
      assert r == pairs[i := (key, v)];
    } else {
      assert r == pairs + [(key, v)];
    }
    assert forall m :: 0 <= m < |pairs| && m != i ==> r[m] == pairs[m];
    if k == key {
      assert r[i] == (key, v);
      IndexOfDistinct(r, key, i);
    } else if k in Keys(pairs) {
      var m :| 0 <= m < |pairs| && pairs[m].0 == k;
      IndexOfDistinct(pairs, k, m);
      IndexOfDistinct(r, k, m);
    }
  }

  /** In a document with distinct keys a key is found where it stands. */
  lemma IndexOfDistinct(pairs: seq<(string, Bson)>, key: string, i: nat)
    requires DistinctKeys(pairs) && i < |pairs| && pairs[i].0 == key
    ensures IndexOf(pairs, key) == i
  {
  }

  // ------------------------------------------------------------ operators

  /** The key a field of an M is stored under. */
  function MongoKey(name: string): (r: string)
    ensures r == "_id" <==> name == "id" || name == "_id"
    ensures name != "id" ==> r == name
  {
    if name == "id" then "_id" else name
  }

  function Vals(vs: seq<Value>): (r: seq<Bson>)
    ensures |r| == |vs| && forall i :: 0 <= i < |r| ==> r[i] == Val(vs[i])
  {
    seq(|vs|, i requires 0 <= i < |vs| => Val(vs[i]))
  }

  /** mongoOp: an operator becomes a one-key document under "$" + its kind,
      In and NotIn become `$in` and `$nin` over the values, and a plain value
      passes through. */
  function MongoOp(t: Term): (r: Bson)
    ensures r.Val? <==> t.Is?
    ensures r.Doc? ==> |r.pairs| == 1 && |r.pairs[0].0| > 0 && r.pairs[0].0[0] == '$'
    ensures r.Doc? && r.pairs[0].1.Arr? <==> t.In? || t.NotIn?
  {
    match t
    case Op(kind, v) => Doc([("$" + kind, Val(v))])
    case In(vs) => Doc([("$in", Arr(Vals(vs)))])
    case NotIn(vs) => Doc([("$nin", Arr(Vals(vs)))])
    case Is(v) => Val(v)
  }

  /** The loop of M: each field stored under its key, one after the other,
      so when two fields share a key the later one wins. */
  function FieldDoc(fields: seq<(string, Term)>): (r: seq<(string, Bson)>)
    ensures DistinctKeys(r)
    ensures Keys(r) == set i | 0 <= i < |fields| :: MongoKey(fields[i].0)
  {
    if |fields| == 0 then []
    else
      var init := fields[..|fields| - 1];
      var last := fields[|fields| - 1];
      assert (set i | 0 <= i < |fields| :: MongoKey(fields[i].0))
        == (set i | 0 <= i < |init| :: MongoKey(init[i].0)) + {MongoKey(last.0)};
      Put(FieldDoc(init), MongoKey(last.0), MongoOp(last.1))
  }

  // ------------------------------------------------------------ conditions

  /** The trees mongoCondition translates without panicking. Not does not
      look at its child, so anything may stand under it. */
  predicate Translatable(n: Node) {
    match n
    case Not(_) => true
    case And(items) => forall i :: 0 <= i < |items| ==> Translatable(items[i])
    case Or(items) => forall i :: 0 <= i < |items| ==> Translatable(items[i])
    case M(_) => true
    case Slice(_) => false
    case Raw(_) => false
  }

  predicate AllTranslatable(items: seq<Node>) {
    forall i :: 0 <= i < |items| ==> Translatable(items[i])
  }

  /** mongoCondition. */
  function MongoCondition(n: Node): (r: Result<Bson>)
    ensures r.Ok? <==> Translatable(n)
    ensures r.Err? ==> r.error == InvalidQuery
    ensures r.Ok? ==> r.value.Doc?
    decreases n, 1
  {
    match n
    case Not(c) => Ok(Doc([("$not", Untranslated(c))]))
    case And(items) =>
      var xs :- MongoConditions(items);
      Ok(Doc([("$and", Arr(xs))]))
    case Or(items) =>
      var xs :- MongoConditions(items);
      Ok(Doc([("$or", Arr(xs))]))
    case M(fields) => Ok(Doc(FieldDoc(fields)))
    case Slice(_) => Err(InvalidQuery)
    case Raw(_) => Err(InvalidQuery)
  }

  /** The loop of And and Or: every child translated, in order. */
  function MongoConditions(items: seq<Node>): (r: Result<seq<Bson>>)
    ensures r.Ok? <==> AllTranslatable(items)
    ensures r.Err? ==> r.error == InvalidQuery
    ensures r.Ok? ==> |r.value| == |items| && forall i :: 0 <= i < |items| ==> MongoCondition(items[i]) == Ok(r.value[i])
    decreases items, 0
  {
    if |items| == 0 then Ok([])
    else
      assert forall i :: 1 <= i < |items| ==> items[i] == items[1..][i - 1];
      var x :- MongoCondition(items[0]);
      var xs :- MongoConditions(items[1..]);
      Ok([x] + xs)
  }

  /** mongoFilter: nothing for an empty filter, the one condition's
      document, or an `$and` over all of them. */
  function MongoFilter(filter: seq<Node>): (r: Result<Option<Bson>>)
    ensures r.Ok? <==> AllTranslatable(filter)
    ensures r.Err? ==> r.error == InvalidQuery
    ensures r == Ok(None) <==> |filter| == 0
  {
    if |filter| == 0 then Ok(None)
    else if |filter| == 1 then
      var x :- MongoCondition(filter[0]);
      Ok(Some(x))
    else
      var xs :- MongoConditions(filter);
      Ok(Some(Doc([("$and", Arr(xs))])))
  }

  // ------------------------------------------------------------ reading a document back

  /** The inverse of MongoOp. */
  function FromOp(b: Bson): (r: Option<Term>)
  {
    match b
    case Val(v) => Some(Is(v))
    case Doc(ps) =>
      if |ps| != 1 || |ps[0].0| == 0 || ps[0].0[0] != '$' then None
      else if ps[0].1.Arr? then
        var vs :- FromVals(ps[0].1.items);
        if ps[0].0 == "$in" then Some(In(vs))
        else if ps[0].0 == "$nin" then Some(NotIn(vs))
        else None
      else if ps[0].1.Val? then Some(Op(ps[0].0[1..], ps[0].1.v))
      else None
    case _ => None
  }

  function FromVals(xs: seq<Bson>): (r: Option<seq<Value>>)
    ensures r.Some? ==> |r.value| == |xs|
  {
    if |xs| == 0 then Some([])
    else if !xs[0].Val? then None
    else
      var rest :- FromVals(xs[1..]);
      Some([xs[0].v] + rest)
  }

  /** The field name a key stands for. */
  function FromKey(key: string): string {
    if key == "_id" then "id" else key
  }

  function FromFields(ps: seq<(string, Bson)>): (r: Option<seq<(string, Term)>>)
    ensures r.Some? ==> |r.value| == |ps|
  {
    if |ps| == 0 then Some([])
    else
      var t :- FromOp(ps[0].1);
      var rest :- FromFields(ps[1..]);
      Some([(FromKey(ps[0].0), t)] + rest)
  }

  /** The inverse of MongoCondition: a one-key `$not` over an untranslated
      node, a one-key `$and` or `$or` over an array, or a field document. */
  function FromCondition(b: Bson): (r: Option<Node>)
    decreases b, 1
  {
    match b
    case Doc(ps) =>
      if |ps| == 1 && ps[0].0 == "$not" && ps[0].1.Untranslated? then Some(Not(ps[0].1.n))
      else if |ps| == 1 && (ps[0].0 == "$and" || ps[0].0 == "$or") && ps[0].1.Arr? then
        assert ps[0] in ps;
        var items :- FromConditions(ps[0].1.items);
        if ps[0].0 == "$and" then Some(And(items)) else Some(Or(items))
      else
        var fields :- FromFields(ps);
        Some(M(fields))
    case _ => None
  }

  function FromConditions(xs: seq<Bson>): (r: Option<seq<Node>>)
    ensures r.Some? ==> |r.value| == |xs|
    decreases xs, 0
  {
    if |xs| == 0 then Some([])
    else
      var x :- FromCondition(xs[0]);
      var rest :- FromConditions(xs[1..]);
      Some([x] + rest)
  }

  // ------------------------------------------------------------ properties

  /** The field maps the translation keeps apart: distinct names, and none
      spelled "_id", which the renaming of "id" would collide with. */
  predicate WellNamed(n: Node) {
    match n
    case Not(_) => true
    case And(items) => forall i :: 0 <= i < |items| ==> WellNamed(items[i])
    case Or(items) => forall i :: 0 <= i < |items| ==> WellNamed(items[i])
    case M(fields) => FieldsWellNamed(fields)
    case Slice(_) => true
    case Raw(_) => true
  }

  predicate FieldsWellNamed(fields: seq<(string, Term)>) {
    DistinctNames(fields) && forall i :: 0 <= i < |fields| ==> fields[i].0 != "_id"
  }

  /** The document of a well-named field map: one key per field, in order. */
  function Renamed(fields: seq<(string, Term)>): seq<(string, Bson)> {
    seq(|fields|, i requires 0 <= i < |fields| => (MongoKey(fields[i].0), MongoOp(fields[i].1)))
  }

  lemma {:induction false} ValsRoundTrip(vs: seq<Value>)
    ensures FromVals(Vals(vs)) == Some(vs)
  {
    if |vs| > 0 {
      assert Vals(vs)[1..] == Vals(vs[1..]);
      ValsRoundTrip(vs[1..]);
      assert [vs[0]] + vs[1..] == vs;
    }
  }

  /** Every field test is read back from its translation. */
  lemma OpRoundTrip(t: Term)
    ensures FromOp(MongoOp(t)) == Some(t)
  {
    match t
    case Op(kind, v) =>
      assert ("$" + kind)[1..] == kind;
    case In(vs) => ValsRoundTrip(vs);
    case NotIn(vs) => ValsRoundTrip(vs);
    case Is(_) =>
  }

  /** With well-named fields every Put of the loop adds a new key, so the
      document holds the fields in map order. */
  lemma {:induction false} FieldDocWellNamed(fields: seq<(string, Term)>)
    requires FieldsWellNamed(fields)
    ensures FieldDoc(fields) == Renamed(fields)
  {
    if |fields| > 0 {
      var init := fields[..|fields| - 1];
      var last := fields[|fields| - 1];
      assert forall i :: 0 <= i < |init| ==> init[i] == fields[i];
      FieldDocWellNamed(init);
      NewKey(fields);
      assert Renamed(init) + [(MongoKey(last.0), MongoOp(last.1))] == Renamed(fields);
    }
  }

  /** The last field of a well-named map adds a key the others do not have. */
  lemma NewKey(fields: seq<(string, Term)>)
    requires FieldsWellNamed(fields) && |fields| > 0
    ensures MongoKey(fields[|fields| - 1].0) !in Keys(FieldDoc(fields[..|fields| - 1]))
  {
    var init := fields[..|fields| - 1];
    var last := fields[|fields| - 1];
    forall i | 0 <= i < |init| ensures MongoKey(init[i].0) != MongoKey(last.0) {
      assert init[i] == fields[i];
    }
  }

  lemma {:induction false} FieldsRoundTrip(fields: seq<(string, Term)>)
    requires forall i :: 0 <= i < |fields| ==> fields[i].0 != "_id"
    ensures FromFields(Renamed(fields)) == Some(fields)
  {
    if |fields| > 0 {
      assert Renamed(fields)[1..] == Renamed(fields[1..]);
      FieldsRoundTrip(fields[1..]);
      OpRoundTrip(fields[0].1);
      assert FromKey(MongoKey(fields[0].0)) == fields[0].0;
      assert [fields[0]] + fields[1..] == fields;
    }
  }

  /** A translated field map is read back as a field map: its one key, if it
      has one, never holds what `$not`, `$and` or `$or` would. */
  lemma MapRoundTrip(fields: seq<(string, Term)>)
    requires FieldsWellNamed(fields)
    ensures FromCondition(Doc(FieldDoc(fields))) == Some(M(fields))
  {
    FieldDocWellNamed(fields);
    FieldsRoundTrip(fields);
    var ps := Renamed(fields);
    if |ps| == 1 {
      assert ps[0].1 == MongoOp(fields[0].1);
    }
  }

  /** Reading a translation back gives the filter it came from, for every
      translatable, well-named tree. */
  lemma {:induction false} ConditionRoundTrip(n: Node)
    requires Translatable(n) && WellNamed(n)
    ensures FromCondition(MongoCondition(n).value) == Some(n)
    decreases n, 1
  {
    match n
    case Not(_) =>
    case And(items) =>
      ConditionsRoundTrip(items);
    case Or(items) =>
      ConditionsRoundTrip(items);
    case M(fields) =>
      MapRoundTrip(fields);
  }

  lemma {:induction false} ConditionsRoundTrip(items: seq<Node>)
    requires AllTranslatable(items) && forall i :: 0 <= i < |items| ==> WellNamed(items[i])
    ensures FromConditions(MongoConditions(items).value) == Some(items)
    decreases items, 0
  {
    if |items| > 0 {
      var xs := MongoConditions(items).value;
      ConditionRoundTrip(items[0]);
      assert forall i :: 1 <= i < |items| ==> items[i] == items[1..][i - 1];
      ConditionsRoundTrip(items[1..]);
      assert xs[1..] == MongoConditions(items[1..]).value;
      assert [items[0]] + items[1..] == items;
    }
  }

  /** Two well-named filters that translate alike are the same filter. */
  lemma TranslationInjective(n1: Node, n2: Node)
    requires Translatable(n1) && WellNamed(n1) && Translatable(n2) && WellNamed(n2)
    ensures MongoCondition(n1) == MongoCondition(n2) <==> n1 == n2
  {
    ConditionRoundTrip(n1);
    ConditionRoundTrip(n2);
  }

  /** A top-level filter of several nodes is read back as their And, and a
      filter of one node as that node. */
  lemma FilterReadsBack(filter: seq<Node>)
    requires |filter| > 0 && AllTranslatable(filter)
    requires forall i :: 0 <= i < |filter| ==> WellNamed(filter[i])
    ensures FromCondition(MongoFilter(filter).value.value) == Some(if |filter| == 1 then filter[0] else And(filter))
  {
    if |filter| == 1 {
      ConditionRoundTrip(filter[0]);
    } else {
      ConditionRoundTrip(And(filter));
    }
  }

  /** Without WellNamed the translation loses fields: "id" and "_id" land on
      the same key and the later one wins. */
  lemma IdKeyCollision(a: Value, b: Value)
    ensures MongoCondition(M([("id", Is(a)), ("_id", Is(b))])) == Ok(Doc([("_id", Val(b))]))
    ensures MongoCondition(M([("_id", Is(b)), ("id", Is(a))])) == Ok(Doc([("_id", Val(a))]))
  {
    var f1 := [("id", Is(a)), ("_id", Is(b))];
    var f2 := [("_id", Is(b)), ("id", Is(a))];
    assert f1[..1] == [("id", Is(a))] && f1[..1][..0] == [];
    assert f2[..1] == [("_id", Is(b))] && f2[..1][..0] == [];
    assert FieldDoc(f1[..1]) == [("_id", Val(a))];
    assert FieldDoc(f2[..1]) == [("_id", Val(b))];
    PutOver("_id", Val(a), Val(b));
    PutOver("_id", Val(b), Val(a));
    assert f1[1] == ("_id", Is(b)) && f2[1] == ("id", Is(a));
    assert FieldDoc(f1) == Put(FieldDoc(f1[..1]), "_id", Val(b));
    assert FieldDoc(f2) == Put(FieldDoc(f2[..1]), "_id", Val(a));
  }

  /** Putting the only key of a one-key document replaces its value. */
  lemma PutOver(key: string, w: Bson, v: Bson)
    ensures Put([(key, w)], key, v) == [(key, v)]
  {
    assert IndexOf([(key, w)], key) == 0;
  }
}

=== FILE: postgres.dfy ===
/** The PostgreSQL translator (postgresql/filter.go, postgresql/query.go):
    a filter tree becomes a SQL condition over a table with an integer `id`
    column and a JSON `data` column, and every value it mentions becomes a
    numbered placeholder `$n` with the value appended to the argument list.
    Only the rendering is modelled; executing the statement is not. */
module Postgres {
  import opened Wrappers
  import opened Values
  import opened Query
  import Strings

  // ------------------------------------------------------------ fields and values

  predicate IsId(name: string) {
    name == "id" || name == "_id"
  }

  const DataPrefix: string := "data->>'"

  /** pgMapField: the id column, or the text of a top-level key of the JSON
      column. Any other name can be read back from the expression. */
  function MapField(name: string): (r: string)
    ensures r == "id" <==> IsId(name)
    ensures !IsId(name) ==> |r| == |name| + 9 && r[8..|r| - 1] == name
  {
    if IsId(name) then "id"
    else
      var r := DataPrefix + name + "'";
      assert r[8..|r| - 1] == name;
      r
  }

  /** parseInt: an int64 or a uint64 passes through, a string is read as a
      base-10 int64, and anything else (including an unreadable string) is
      nil. */
  function ParseIntValue(v: Value): (r: Option<Value>)
    ensures r.Some? ==> (r.value.Int? && r.value.kind == GoInt64) || r.value.UInt?
    ensures (v.Int? && v.kind == GoInt64) || v.UInt? ==> r == Some(v)
    ensures v.Str? ==> (r.Some? <==> Strings.ParseInt(v.s).Some?)
    ensures v.Str? && r.Some? ==> r.value.Int? && r.value.i == Strings.ParseInt(v.s).value
    ensures !v.Str? && !v.UInt? && !(v.Int? && v.kind == GoInt64) ==> r.None?
  {
    match v
    case Int(_, kind) => if kind == GoInt64 then Some(v) else None
    case UInt(_) => Some(v)
    case Str(s) =>
      (match Strings.ParseInt(s)
       case Some(i) => Some(Int(i, GoInt64))
       case None => None)
    case _ => None
  }

  /** The values a field test carries, in order. */
  function TermValues(t: Term): seq<Value> {
    match t
    case In(vs) => vs
    case NotIn(vs) => vs
    case Op(_, v) => [v]
    case Is(v) => [v]
  }

  predicate SameShape(t: Term, u: Term) {
    (t.In? <==> u.In?) && (t.NotIn? <==> u.NotIn?) && (t.Op? <==> u.Op?) && (t.Is? <==> u.Is?)
  }

  /** The loop of mapInt over an In or NotIn list: nil at the first value
      parseInt refuses. */
  function MapAll(vs: seq<Value>): (r: Option<seq<Value>>)
    ensures r.Some? <==> forall i :: 0 <= i < |vs| ==> ParseIntValue(vs[i]).Some?
    ensures r.Some? ==> |r.value| == |vs| && forall i :: 0 <= i < |vs| ==> ParseIntValue(vs[i]) == Some(r.value[i])
  {
    if |vs| == 0 then Some([])
    else
      match ParseIntValue(vs[0])
      case None => None
      case Some(x) =>
        assert forall i :: 1 <= i < |vs| ==> vs[i] == vs[1..][i - 1];
        match MapAll(vs[1..])
        case None => None
        case Some(xs) => Some([x] + xs)
  }

  /** mapInt: an id test rewritten to compare the integer column, or nil
      when some value is not an integer. An Op is handed to parseInt whole,
      not its operand, so an Op on the id always gives nil. */
  function MapInt(t: Term): (r: Option<Term>)
    ensures t.Op? ==> r.None?
    ensures !t.Op? ==> (r.Some? <==> forall i :: 0 <= i < |TermValues(t)| ==> ParseIntValue(TermValues(t)[i]).Some?)
    ensures r.Some? ==> SameShape(t, r.value) && |TermValues(r.value)| == |TermValues(t)|
    ensures r.Some? ==> forall i :: 0 <= i < |TermValues(t)| ==> ParseIntValue(TermValues(t)[i]) == Some(TermValues(r.value)[i])
  {
    match t
    case In(vs) =>
      assert TermValues(t) == vs;
      (match MapAll(vs)
       case None => None
       case Some(xs) => assert TermValues(In(xs)) == xs; Some(In(xs)))
    case NotIn(vs) =>
      assert TermValues(t) == vs;
      (match MapAll(vs)
       case None => None
       case Some(xs) => assert TermValues(NotIn(xs)) == xs; Some(NotIn(xs)))
    case Op(_, _) => None
    case Is(v) =>
      assert TermValues(t) == [v];
      (match ParseIntValue(v)
       case None => None
       case Some(x) => assert TermValues(Is(x)) == [x]; Some(Is(x)))
  }

  /** `s` is the placeholder of the n-th argument: `$` and n in decimal. */
  predicate IsPlaceholder(s: string, n: nat) {
    |s| > 1 && s[0] == '$' && Strings.AllDigits(s[1..]) && Strings.DigitsValue(s[1..]) == n
  }

  /** filterBuilder.param: append the value and name it by the new length
      of the argument list. */
  function Param(ps: seq<Value>, v: Value): (r: (string, seq<Value>))
    ensures r.1 == ps + [v] && IsPlaceholder(r.0, |r.1|)
  {
    var d := Strings.Digits(|ps| + 1);
    Strings.DigitsValueOfDigits(|ps| + 1);
    assert ("$" + d)[1..] == d;
    ("$" + d, ps + [v])
  }

  /** Placeholders for a list of values, numbered on from the arguments so far. */
  function ParamList(vs: seq<Value>, ps: seq<Value>): (r: (seq<string>, seq<Value>))
    ensures r.1 == ps + vs && |r.0| == |vs|
    ensures forall i :: 0 <= i < |vs| ==> IsPlaceholder(r.0[i], |ps| + i + 1)
    decreases |vs|
  {
    if |vs| == 0 then ([], ps)
    else
      var (p, ps1) := Param(ps, vs[0]);
      var (rest, ps2) := ParamList(vs[1..], ps1);
      assert ps1 + vs[1..] == ps + vs;
      ([p] + rest, ps2)
  }

  /** What a SQL comparison operator accepts, given the sign of the comparison. */
  predicate SqlHolds(op: string, c: int) {
    if op == "<" then c < 0
    else if op == "<=" then c <= 0
    else if op == ">" then c > 0
    else if op == ">=" then c >= 0
    else if op == "<>" then c != 0
    else false
  }

  /** What an operator kind of the filter language accepts, given the sign
      of the comparison (the meaning the key-value engine gives it). */
  predicate KindHolds(kind: string, c: int) {
    if kind == OpLT then c < 0
    else if kind == OpLTE then c <= 0
    else if kind == OpGT then c > 0
    else if kind == OpGTE then c >= 0
    else if kind == OpNE then c != 0
    else false
  }

  /** sqlop: the SQL operator of an operator kind; unknown kinds give "". */
  function SqlOp(kind: string): (r: string)
    ensures r == "" <==> !KnownOp(kind)
    ensures KnownOp(kind) ==> forall c :: SqlHolds(r, c) == KindHolds(kind, c)
  {
    if kind == OpLT then "<"
    else if kind == OpLTE then "<="
    else if kind == OpGT then ">"
    else if kind == OpGTE then ">="
    else if kind == OpNE then "<>"
    else ""
  }

  /** The arguments a field test contributes. */
  function FieldParams(name: string, t: Term): seq<Value> {
    var u := if IsId(name) then MapInt(t) else Some(t);
    if u.None? then [] else TermValues(u.value)
  }

  /** The switch of filterBuilder.field on the (mapped) test of column `f`:
      IN or NOT IN over a placeholder list, an operator, or equality. */
  function RenderTest(f: string, u: Term, ps: seq<Value>): (r: (string, seq<Value>))
    ensures r.1 == ps + TermValues(u)
    ensures f + " " <= r.0
  {
    match u
    case In(vs) =>
      var (xs, ps1) := ParamList(vs, ps);
      (f + " " + ("IN (" + Strings.Join(xs, ",") + ")"), ps1)
    case NotIn(vs) =>
      var (xs, ps1) := ParamList(vs, ps);
      (f + " " + ("NOT IN (" + Strings.Join(xs, ",") + ")"), ps1)
    case Op(kind, v) =>
      var (x, ps1) := Param(ps, v);
      (f + " " + (SqlOp(kind) + " " + x), ps1)
    case Is(v) =>
      var (x, ps1) := Param(ps, v);
      (f + " " + ("= " + x), ps1)
  }

  /** filterBuilder.field: "" for an id test mapInt refuses, otherwise the
      column, the operator and the placeholders. */
  function Field(name: string, t: Term, ps: seq<Value>): (r: (string, seq<Value>))
    ensures r.0 == "" <==> IsId(name) && MapInt(t).None?
    ensures r.1 == ps + FieldParams(name, t)
    ensures IsId(name) && t.Op? ==> r == ("", ps)
    ensures r.0 != "" ==> MapField(name) + " " <= r.0
  {
    var u := if IsId(name) then MapInt(t) else Some(t);
    if u.None? then ("", ps) else RenderTest(MapField(name), u.value, ps)
  }

  // ------------------------------------------------------------ conditions

  /** The trees condition renders without panicking: a bare slice or value
      anywhere it recurses is an invalid query. */
  predicate Renderable(n: Node) {
    match n
    case Not(c) => Renderable(c)
    case And(items) => forall i :: 0 <= i < |items| ==> Renderable(items[i])
    case Or(items) => forall i :: 0 <= i < |items| ==> Renderable(items[i])
    case M(_) => true
    case Slice(_) => false
    case Raw(_) => false
  }

  predicate AllRenderable(items: seq<Node>) {
    forall i :: 0 <= i < |items| ==> Renderable(items[i])
  }

  /** The arguments a tree contributes, in rendering order. */
  function ParamsOf(n: Node): seq<Value>
    decreases n, 1
  {
    match n
    case Not(c) => ParamsOf(c)
    case And(items) => ParamsOfAll(items)
    case Or(items) => ParamsOfAll(items)
    case M(fields) => ParamsOfFields(fields)
    case Slice(_) => []
    case Raw(_) => []
  }

  function ParamsOfAll(items: seq<Node>): seq<Value>
    decreases items, 0
  {
    if |items| == 0 then [] else ParamsOf(items[0]) + ParamsOfAll(items[1..])
  }

  function ParamsOfFields(fields: seq<(string, Term)>): seq<Value> {
    if |fields| == 0 then [] else FieldParams(fields[0].0, fields[0].1) + ParamsOfFields(fields[1..])
  }

  /** filterBuilder.condition: `not(...)` around a negation, the non-empty
      conditions of And, Or and M joined, and a panic on anything else. */
  function Condition(n: Node, ps: seq<Value>): (r: Result<(string, seq<Value>)>)
    ensures r.Ok? <==> Renderable(n)
    ensures r.Err? ==> r.error == InvalidQuery
    ensures r.Ok? ==> r.value.1 == ps + ParamsOf(n)
    decreases n, 1
  {
    match n
    case Not(c) =>
      var x :- Condition(c, ps);
      Ok(("not(" + x.0 + ")", x.1))
    case And(items) =>
      var x :- Conds(items, ps);
      Ok((Strings.Join(x.0, " and "), x.1))
    case Or(items) =>
      var x :- Conds(items, ps);
      Ok((Strings.Join(x.0, " or "), x.1))
    case M(fields) =>
      var x := FieldConds(fields, ps);
      Ok((Strings.Join(x.0, " and "), x.1))
    case Slice(_) => Err(InvalidQuery)
    case Raw(_) => Err(InvalidQuery)
  }

  /** The loop of And and Or: each child rendered in turn, the empty ones
      dropped. */
  function Conds(items: seq<Node>, ps: seq<Value>): (r: Result<(seq<string>, seq<Value>)>)
    ensures r.Ok? <==> AllRenderable(items)
    ensures r.Err? ==> r.error == InvalidQuery
    ensures r.Ok? ==> r.value.1 == ps + ParamsOfAll(items)
    ensures r.Ok? ==> forall i :: 0 <= i < |r.value.0| ==> r.value.0[i] != ""
    decreases items, 0
  {
    if |items| == 0 then Ok(([], ps))
    else
      assert forall i :: 1 <= i < |items| ==> items[i] == items[1..][i - 1];
      var x :- Condition(items[0], ps);
      var y :- Conds(items[1..], x.1);
      Ok(((if x.0 == "" then [] else [x.0]) + y.0, y.1))
  }

  /** The loop of M: each field test rendered in map order, the empty ones
      dropped. */
  function FieldConds(fields: seq<(string, Term)>, ps: seq<Value>): (r: (seq<string>, seq<Value>))
    ensures r.1 == ps + ParamsOfFields(fields)
    ensures forall i :: 0 <= i < |r.0| ==> r.0[i] != ""
  {
    if |fields| == 0 then ([], ps)
    else
      var (s, ps1) := Field(fields[0].0, fields[0].1, ps);
      var (rest, ps2) := FieldConds(fields[1..], ps1);
      ((if s == "" then [] else [s]) + rest, ps2)
  }

  /** The loop of build: every top-level condition, the empty ones kept. */
  function BuildAll(filter: seq<Node>, ps: seq<Value>): (r: Result<(seq<string>, seq<Value>)>)
    ensures r.Ok? <==> AllRenderable(filter)
    ensures r.Err? ==> r.error == InvalidQuery
    ensures r.Ok? ==> |r.value.0| == |filter| && r.value.1 == ps + ParamsOfAll(filter)
  {
    if |filter| == 0 then Ok(([], ps))
    else
      assert forall i :: 1 <= i < |filter| ==> filter[i] == filter[1..][i - 1];
      var x :- Condition(filter[0], ps);
      var y :- BuildAll(filter[1..], x.1);
      Ok(([x.0] + y.0, y.1))
  }

  /** makeFilter: the top-level conditions joined with " and ", and the
      arguments their placeholders stand for. */
  function MakeFilter(filter: seq<Node>): (r: Result<(string, seq<Value>)>)
    ensures r.Ok? <==> AllRenderable(filter)
    ensures r.Err? ==> r.error == InvalidQuery
    ensures r.Ok? ==> r.value.1 == ParamsOfAll(filter)
    ensures |filter| == 0 ==> r == Ok(("", []))
  {
    var x :- BuildAll(filter, []);
    Ok((Strings.Join(x.0, " and "), x.1))
  }

  // ------------------------------------------------------------ placeholders

  /** The number of `$` signs in a string. */
  function Dollars(s: string): nat {
    if |s| == 0 then 0 else (if s[0] == '$' then 1 else 0) + Dollars(s[1..])
  }

  function SumDollars(parts: seq<string>): nat {
    if |parts| == 0 then 0 else Dollars(parts[0]) + SumDollars(parts[1..])
  }

  /** No field name in the tree contains `$`. */
  predicate PlainNames(n: Node) {
    match n
    case Not(c) => PlainNames(c)
    case And(items) => forall i :: 0 <= i < |items| ==> PlainNames(items[i])
    case Or(items) => forall i :: 0 <= i < |items| ==> PlainNames(items[i])
    case M(fields) => forall i :: 0 <= i < |fields| ==> '$' !in fields[i].0
    case Slice(_) => true
    case Raw(_) => true
  }

  lemma {:induction false} DollarsConcat(a: string, b: string)
    ensures Dollars(a + b) == Dollars(a) + Dollars(b)
    decreases |a|
  {
    if |a| == 0 {
      assert a + b == b;
    } else {
      assert (a + b)[1..] == a[1..] + b;
      DollarsConcat(a[1..], b);
    }
  }

  lemma {:induction false} NoDollars(s: string)
    requires '$' !in s
    ensures Dollars(s) == 0
    decreases |s|
  {
    if |s| > 0 {
      assert s[0] != '$';
      assert forall k :: 0 <= k < |s| - 1 ==> s[1..][k] == s[k + 1];
      NoDollars(s[1..]);
    }
  }

  lemma NoDollarDigits(s: string)
    requires Strings.AllDigits(s)
    ensures Dollars(s) == 0
  {
    assert forall k :: 0 <= k < |s| ==> Strings.IsDigit(s[k]);
    NoDollars(s);
  }

  lemma {:induction false} JoinDollars(parts: seq<string>, sep: string)
    requires '$' !in sep
    ensures Dollars(Strings.Join(parts, sep)) == SumDollars(parts)
    decreases |parts|
  {
    if |parts| > 1 {
      JoinDollars(parts[1..], sep);
      NoDollars(sep);
      DollarsConcat(parts[0] + sep, Strings.Join(parts[1..], sep));
      DollarsConcat(parts[0], sep);
      assert SumDollars(parts[1..]) == Dollars(parts[1]) + SumDollars(parts[2..]);
    } else if |parts| == 1 {
      assert parts[1..] == [];
    }
  }

  /** A placeholder holds one `$`. */
  lemma OneDollar(x: string, n: nat)
    requires IsPlaceholder(x, n)
    ensures Dollars(x) == 1
  {
    NoDollarDigits(x[1..]);
  }

  lemma {:induction false} PlaceholderDollars(xs: seq<string>, base: nat)
    requires forall i :: 0 <= i < |xs| ==> IsPlaceholder(xs[i], base + i + 1)
    ensures SumDollars(xs) == |xs|
    decreases |xs|
  {
    if |xs| > 0 {
      OneDollar(xs[0], base + 1);
      PlaceholderDollars(xs[1..], base + 1);
    }
  }

  /** The dollars of a three-piece string whose middle piece has none. */
  lemma Around(a: string, b: string, c: string)
    requires '$' !in b
    ensures Dollars(a + b + c) == Dollars(a) + Dollars(c)
  {
    DollarsConcat(a + b, c);
    DollarsConcat(a, b);
    NoDollars(b);
  }

  /** A parenthesised placeholder list holds one `$` per value. */
  lemma ListDollars(word: string, vs: seq<Value>, ps: seq<Value>)
    requires Dollars(word) == 0
    ensures Dollars(word + Strings.Join(ParamList(vs, ps).0, ",") + ")") == |vs|
  {
    var xs := ParamList(vs, ps).0;
    JoinDollars(xs, ",");
    PlaceholderDollars(xs, |ps|);
    Bracketed(word, Strings.Join(xs, ","));
  }

  lemma Bracketed(word: string, j: string)
    requires Dollars(word) == 0
    ensures Dollars(word + j + ")") == Dollars(j)
  {
    DollarsConcat(word, j);
    NoDollars(")");
    DollarsConcat(word + j, ")");
  }

  /** A rendered test holds one `$` per argument it adds. */
  lemma RenderTestDollars(f: string, u: Term, ps: seq<Value>)
    requires Dollars(f) == 0
    ensures Dollars(RenderTest(f, u, ps).0) == |TermValues(u)|
  {
    match u
    case In(vs) =>
      ListDollars("IN (", vs, ps);
      Around(f, " ", "IN (" + Strings.Join(ParamList(vs, ps).0, ",") + ")");
    case NotIn(vs) =>
      ListDollars("NOT IN (", vs, ps);
      Around(f, " ", "NOT IN (" + Strings.Join(ParamList(vs, ps).0, ",") + ")");
    case Op(kind, v) =>
      NoDollars(SqlOp(kind));
      Around(SqlOp(kind), " ", Param(ps, v).0);
      SingleDollar(f, SqlOp(kind) + " " + Param(ps, v).0, ps, v);
    case Is(v) =>
      NoDollars("= ");
      DollarsConcat("= ", Param(ps, v).0);
      SingleDollar(f, "= " + Param(ps, v).0, ps, v);
  }

  /** A test with one placeholder: the operator text holds no `$`. */
  lemma SingleDollar(f: string, tail: string, ps: seq<Value>, v: Value)
    requires Dollars(f) == 0 && Dollars(tail) == Dollars(Param(ps, v).0)
    ensures Dollars(f + " " + tail) == 1
  {
    OneDollar(Param(ps, v).0, |ps| + 1);
    Around(f, " ", tail);
  }

  /** Each argument a field test adds has exactly one placeholder. */
  lemma FieldDollars(name: string, t: Term, ps: seq<Value>)
    requires '$' !in name
    ensures Dollars(Field(name, t, ps).0) == |FieldParams(name, t)|
  {
    var u := if IsId(name) then MapInt(t) else Some(t);
    if u.Some? {
      if IsId(name) {
        NoDollars("id");
      } else {
        Around(DataPrefix, name, "'");
        NoDollars(DataPrefix);
        NoDollars("'");
        DollarsConcat(DataPrefix + name, "'");
        DollarsConcat(DataPrefix, name);
        NoDollars(name);
      }
      RenderTestDollars(MapField(name), u.value, ps);
    } else {
      NoDollars("");
    }
  }

  lemma {:induction false} FieldCondsDollars(fields: seq<(string, Term)>, ps: seq<Value>)
    requires forall i :: 0 <= i < |fields| ==> '$' !in fields[i].0
    ensures SumDollars(FieldConds(fields, ps).0) == |ParamsOfFields(fields)|
    decreases |fields|
  {
    if |fields| > 0 {
      var (s, ps1) := Field(fields[0].0, fields[0].1, ps);
      FieldDollars(fields[0].0, fields[0].1, ps);
      assert forall i :: 0 <= i < |fields[1..]| ==> fields[1..][i] == fields[i + 1];
      FieldCondsDollars(fields[1..], ps1);
      var rest := FieldConds(fields[1..], ps1).0;
      if s == "" {
        assert FieldConds(fields, ps).0 == rest;
      } else {
        assert FieldConds(fields, ps).0 == [s] + rest;
        assert ([s] + rest)[1..] == rest;
      }
    }
  }

  lemma Wrapped(x: string)
    ensures Dollars("not(" + x + ")") == Dollars(x)
  {
    DollarsConcat("not(", x);
    NoDollars("not(");
    NoDollars(")");
    DollarsConcat("not(" + x, ")");
  }

  /** The rendered condition holds exactly one placeholder per argument it
      adds, provided no field name contains `$`. */
  lemma {:induction false} ConditionDollars(n: Node, ps: seq<Value>)
    requires Renderable(n) && PlainNames(n)
    ensures Dollars(Condition(n, ps).value.0) == |ParamsOf(n)|
    decreases n, 1
  {
    match n
    case Not(c) =>
      ConditionDollars(c, ps);
      Wrapped(Condition(c, ps).value.0);
    case And(items) =>
      CondsDollars(items, ps);
      JoinDollars(Conds(items, ps).value.0, " and ");
    case Or(items) =>
      CondsDollars(items, ps);
      JoinDollars(Conds(items, ps).value.0, " or ");
    case M(fields) =>
      FieldCondsDollars(fields, ps);
      JoinDollars(FieldConds(fields, ps).0, " and ");
  }

  lemma {:induction false} CondsDollars(items: seq<Node>, ps: seq<Value>)
    requires AllRenderable(items) && forall i :: 0 <= i < |items| ==> PlainNames(items[i])
    ensures SumDollars(Conds(items, ps).value.0) == |ParamsOfAll(items)|
    decreases items, 0
  {
    if |items| > 0 {
      var x := Condition(items[0], ps).value;
      ConditionDollars(items[0], ps);
      assert forall i :: 0 <= i < |items[1..]| ==> items[1..][i] == items[i + 1];
      CondsDollars(items[1..], x.1);
      var rest := Conds(items[1..], x.1).value.0;
      if x.0 == "" {
        assert Conds(items, ps).value.0 == rest;
      } else {
        assert Conds(items, ps).value.0 == [x.0] + rest;
        assert ([x.0] + rest)[1..] == rest;
      }
    }
  }

  lemma {:induction false} BuildAllDollars(filter: seq<Node>, ps: seq<Value>)
    requires AllRenderable(filter) && forall i :: 0 <= i < |filter| ==> PlainNames(filter[i])
    ensures SumDollars(BuildAll(filter, ps).value.0) == |ParamsOfAll(filter)|
    decreases |filter|
  {
    if |filter| > 0 {
      var x := Condition(filter[0], ps).value;
      ConditionDollars(filter[0], ps);
      assert forall i :: 0 <= i < |filter[1..]| ==> filter[1..][i] == filter[i + 1];
      BuildAllDollars(filter[1..], x.1);
      assert BuildAll(filter, ps).value.0[1..] == BuildAll(filter[1..], x.1).value.0;
    }
  }

  /** makeFilter renders exactly one placeholder per argument it returns. */
  lemma PlaceholdersMatchArguments(filter: seq<Node>)
    requires AllRenderable(filter) && forall i :: 0 <= i < |filter| ==> PlainNames(filter[i])
    ensures Dollars(MakeFilter(filter).value.0) == |MakeFilter(filter).value.1|
  {
    BuildAllDollars(filter, []);
    JoinDollars(BuildAll(filter, []).value.0, " and ");
  }

  /** A condition that renders empty adds no argument, so dropping it loses
      nothing. */
  lemma EmptyConditionNoParams(n: Node, ps: seq<Value>)
    requires Renderable(n) && PlainNames(n) && Condition(n, ps).value.0 == ""
    ensures ParamsOf(n) == []
  {
    ConditionDollars(n, ps);
  }

  // ------------------------------------------------------------ id tests

  /** A decimal id string is compared as the integer it denotes. */
  lemma StringIdParsed(name: string, i: Int64, ps: seq<Value>)
    requires IsId(name)
    ensures ParseIntValue(Str(Strings.FormatInt(i))) == Some(Int(i, GoInt64))
    ensures Field(name, Is(Str(Strings.FormatInt(i))), ps).1 == ps + [Int(i, GoInt64)]
  {
    Strings.FormatIntRoundTrip(i);
  }

  /** An Op on the id renders nothing, so it drops out of the surrounding
      And or M, and a top-level list keeps it as an empty condition: the
      rendered filter then starts with the separator. */
  lemma IdOpDropped()
    ensures var bob := M([("name", Is(Str("bob")))]);
      var idGt := M([("id", GT(Int(5, GoInt64)))]);
      && Condition(And([idGt, bob]), []) == Ok(("data->>'name' = $1", [Str("bob")]))
      && MakeFilter([idGt, bob]) == Ok((" and data->>'name' = $1", [Str("bob")]))
  {
    BobAndIdGt();
    BobAndIdGtFilter();
  }

  /** The two leaf conditions of the example: the name test and the id test
      that renders nothing. */
  lemma BobAndIdGtLeaves()
    ensures Condition(M([("name", Is(Str("bob")))]), []) == Ok(("data->>'name' = $1", [Str("bob")]))
    ensures Condition(M([("id", GT(Int(5, GoInt64)))]), []) == Ok(("", []))
  {
    var none: seq<Value> := [];
    var sql := "data->>'name' = $1";
    NameIsBob();
    var fs := [("name", Is(Str("bob")))];
    var gs := [("id", GT(Int(5, GoInt64)))];
    var ps1 := [Str("bob")];
    assert fs[1..] == [] && gs[1..] == [];
    assert FieldConds(fs[1..], ps1) == ([], ps1);
    assert FieldConds(fs, none) == ([sql] + [], ps1);
    assert Field(gs[0].0, gs[0].1, none) == ("", none);
    assert FieldConds(gs[1..], none) == ([], none);
    assert FieldConds(gs, none) == ([] + [], none);
  }

  /** The And of the example drops the empty id condition. */
  lemma BobAndIdGt()
    ensures Condition(And([M([("id", GT(Int(5, GoInt64)))]), M([("name", Is(Str("bob")))])]), [])
      == Ok(("data->>'name' = $1", [Str("bob")]))
  {
    BobAndIdGtLeaves();
    var bob := M([("name", Is(Str("bob")))]);
    var idGt := M([("id", GT(Int(5, GoInt64)))]);
    var both := [idGt, bob];
    CondsCons(both, [], ("", []));
    assert both[1..] == [bob];
    var one := [bob];
    var ps1 := [Str("bob")];
    var sql := "data->>'name' = $1";
    CondsCons(one, [], (sql, ps1));
    var rest: seq<Node> := [];
    assert one[1..] == rest;
    assert Conds(rest, ps1) == Ok(([], ps1));
    assert [sql] + [] == [sql];
    assert Conds(one, []) == Ok(([sql], ps1));
    assert Conds(both, []) == Ok(([] + [sql], ps1));
    assert [] + [sql] == [sql];
  }

  /** The top-level list of the example keeps the empty id condition. */
  lemma BobAndIdGtFilter()
    ensures MakeFilter([M([("id", GT(Int(5, GoInt64))) ]), M([("name", Is(Str("bob")))])])
      == Ok((" and data->>'name' = $1", [Str("bob")]))
  {
    var sql := "data->>'name' = $1";
    BobAndIdGtBuilt();
    FilterOfBuilt([M([("id", GT(Int(5, GoInt64))) ]), M([("name", Is(Str("bob")))])], ["", sql], [Str("bob")]);
    EmptyFirstJoin(sql, " and ");
    AndBobText();
  }

  /** The rendered text of the example, spelled out. */
  lemma AndBobText()
    ensures " and " + "data->>'name' = $1" == " and data->>'name' = $1"
  {
  }

  /** Joining an empty first part leaves the separator in front. */
  lemma EmptyFirstJoin(b: string, sep: string)
    ensures Strings.Join(["", b], sep) == sep + b
  {
    JoinPair("", b, sep);
    assert "" + sep == sep;
  }

  lemma BobAndIdGtBuilt()
    ensures BuildAll([M([("id", GT(Int(5, GoInt64))) ]), M([("name", Is(Str("bob")))])], [])
      == Ok((["", "data->>'name' = $1"], [Str("bob")]))
  {
    BobAndIdGtLeaves();
    var bob := M([("name", Is(Str("bob")))]);
    var idGt := M([("id", GT(Int(5, GoInt64)))]);
    var sql := "data->>'name' = $1";
    var both := [idGt, bob];
    BuildAllCons(both, [], ("", []));
    assert both[1..] == [bob];
    var one := [bob];
    var ps1 := [Str("bob")];
    BuildAllCons(one, [], (sql, ps1));
    var rest: seq<Node> := [];
    assert one[1..] == rest;
    assert BuildAll(rest, ps1) == Ok(([], ps1));
    assert [sql] + [] == [sql];
    assert BuildAll(one, []) == Ok(([sql], ps1));
    assert [""] + [sql] == ["", sql];
  }

  lemma FilterOfBuilt(filter: seq<Node>, parts: seq<string>, ps: seq<Value>)
    requires BuildAll(filter, []) == Ok((parts, ps))
    ensures MakeFilter(filter) == Ok((Strings.Join(parts, " and "), ps))
  {
  }

  lemma JoinPair(a: string, b: string, sep: string)
    ensures Strings.Join([a, b], sep) == a + sep + b
  {
    assert [a, b][1..] == [b];
  }

  /** One step of Conds: the head's condition, kept when it is not empty. */
  lemma CondsCons(items: seq<Node>, ps: seq<Value>, x: (string, seq<Value>))
    requires |items| > 0 && Condition(items[0], ps) == Ok(x)
    ensures Conds(items, ps) == match Conds(items[1..], x.1)
        case Err(e) => Err(e)
        case Ok(y) => Ok(((if x.0 == "" then [] else [x.0]) + y.0, y.1))
  {
  }

  /** One step of BuildAll: the head's condition, kept even when empty. */
  lemma BuildAllCons(items: seq<Node>, ps: seq<Value>, x: (string, seq<Value>))
    requires |items| > 0 && Condition(items[0], ps) == Ok(x)
    ensures BuildAll(items, ps) == match BuildAll(items[1..], x.1)
        case Err(e) => Err(e)
        case Ok(y) => Ok(([x.0] + y.0, y.1))
  {
  }

  /** The one field test of the example above. */
  lemma NameIsBob()
    ensures Field("name", Is(Str("bob")), []) == ("data->>'name' = $1", [Str("bob")])
  {
    var none: seq<Value> := [];
    var p := Param(none, Str("bob"));
    assert Strings.Digits(1) == "1";
    assert p.0 == "$" + Strings.Digits(|none| + 1) == "$1";
    assert p.1 == none + [Str("bob")] == [Str("bob")];
    assert MapField("name") == "data->>'name'";
    var r := RenderTest("data->>'name'", Is(Str("bob")), none);
    assert r.0 == "data->>'name'" + " " + ("= " + p.0) == "data->>'name' = $1";
  }

  // ------------------------------------------------------------ the select statement

  /** The query state of a view over one table. */
  datatype SqlQuery = SqlQuery(table: string, filter: seq<Node>, sort: seq<string>, limit: Int64, skip: Int64)

  /** query.Limit: a copy differing in the limit only. */
  function Limit(q: SqlQuery, n: Int64): (r: SqlQuery)
    ensures r.limit == n && r.(limit := q.limit) == q
  {
    q.(limit := n)
  }

  /** query.Skip: a copy differing in the skip only. */
  function Skip(q: SqlQuery, n: Int64): (r: SqlQuery)
    ensures r.skip == n && r.(skip := q.skip) == q
  {
    q.(skip := n)
  }

  /** query.Sort: a copy differing in the sort fields only. */
  function Sort(q: SqlQuery, fields: seq<string>): (r: SqlQuery)
    ensures r.sort == fields && r.(sort := q.sort) == q
  {
    q.(sort := fields)
  }

  /** One ORDER BY item: a leading "-" asks for descending order. */
  function OrderItem(f: string): (r: string)
    ensures (|f| == 0 || f[0] != '-') ==> r == MapField(f)
  {
    if |f| > 0 && f[0] == '-' then MapField(f[1..]) + " DESC" else MapField(f)
  }

  /** query.orderBy: nothing for no sort fields, otherwise ORDER BY and the
      items joined with ", ". */
  function OrderBy(sort: seq<string>): (r: string)
    ensures r == "" <==> |sort| == 0
    ensures |sort| > 0 ==> " ORDER BY " <= r
  {
    if |sort| == 0 then ""
    else " ORDER BY " + Strings.Join(seq(|sort|, i requires 0 <= i < |sort| => OrderItem(sort[i])), ", ")
  }

  /** A "-" before a field name only adds DESC to its item. */
  lemma DescendingItem(f: string)
    requires |f| == 0 || f[0] != '-'
    ensures OrderItem("-" + f) == OrderItem(f) + " DESC"
  {
    assert ("-" + f)[1..] == f;
  }

  const DefaultCols: string := "id, data"

  /** The statement head: the columns (id and data unless given) and the table. */
  function Head(q: SqlQuery, cols: string): string {
    "SELECT " + (if cols == "" then DefaultCols else cols) + " FROM " + q.table
  }

  function LimitClause(n: Int64): string {
    if n > 0 then " LIMIT " + Strings.FormatInt(n) else ""
  }

  function OffsetClause(n: Int64): string {
    if n > 0 then " OFFSET " + Strings.FormatInt(n) else ""
  }

  function WhereClause(cond: string): string {
    if |cond| > 0 then " WHERE " + cond else ""
  }

  /** Everything after the head, in the order the statement writes it. */
  function Clauses(q: SqlQuery, cond: string): string {
    LimitClause(q.limit) + OffsetClause(q.skip) + OrderBy(q.sort) + WhereClause(cond)
  }

  predicate EndsWith(s: string, w: string) {
    |w| <= |s| && s[|s| - |w|..] == w
  }

  lemma SuffixOf(x: string, w: string)
    ensures EndsWith(x + w, w)
  {
  }

  /** The statement for the rendered condition `cond`: it starts with the
      head and ends with the WHERE clause, if there is one. */
  function Statement(q: SqlQuery, cols: string, cond: string): (r: string)
    ensures Head(q, cols) <= r
    ensures EndsWith(r, WhereClause(cond))
  {
    var x := Head(q, cols) + (LimitClause(q.limit) + OffsetClause(q.skip) + OrderBy(q.sort));
    assert Head(q, cols) + Clauses(q, cond) == x + WhereClause(cond);
    SuffixOf(x, WhereClause(cond));
    Head(q, cols) + Clauses(q, cond)
  }

  /** query.makeSelectStmt: the head, then LIMIT and OFFSET when positive,
      then ORDER BY, then WHERE when the filter renders something; the
      arguments are the filter's. */
  function SelectStmt(q: SqlQuery, cols: string): (r: Result<(string, seq<Value>)>)
    ensures r.Ok? <==> AllRenderable(q.filter)
    ensures r.Err? ==> r.error == InvalidQuery
    ensures r.Ok? ==> r.value == (Statement(q, cols, MakeFilter(q.filter).value.0), ParamsOfAll(q.filter))
  {
    var f :- MakeFilter(q.filter);
    Ok((Statement(q, cols, f.0), f.1))
  }

  /** With no filter, sort, limit or skip the statement is the bare head. */
  lemma BareSelect(table: string)
    ensures SelectStmt(SqlQuery(table, [], [], 0, 0), "") == Ok(("SELECT id, data FROM " + table, []))
  {
    var q := SqlQuery(table, [], [], 0, 0);
    assert MakeFilter([]) == Ok(("", []));
    assert Clauses(q, "") == "";
    assert Head(q, "") + "" == Head(q, "") == "SELECT id, data FROM " + table;
  }

  /** Where LIMIT and ORDER BY sit in a statement built from five pieces. */
  lemma Pieces(s: string, h: string, limit: string, offset: string, ob: string, where: string) returns (i: nat, j: nat)
    requires " LIMIT " <= limit && " ORDER BY " <= ob
    requires s == h + limit + offset + ob + where
    ensures i + 7 <= j && j + 10 <= |s| && s[i..i + 7] == " LIMIT " && s[j..j + 10] == " ORDER BY "
  {
    assert s == h + (limit + offset + ob + where);
    assert s == (h + limit + offset) + (ob + where);
    i, j := |h|, |h| + |limit| + |offset|;
  }

  /** LIMIT is written before ORDER BY (and WHERE after both), so a
      statement with both a limit and a sort is not valid SQL as rendered. */
  lemma LimitBeforeOrderBy(q: SqlQuery, cols: string, cond: string) returns (i: nat, j: nat)
    requires q.limit > 0 && |q.sort| > 0
    ensures var s := Statement(q, cols, cond);
      i + 7 <= j && j + 10 <= |s| && s[i..i + 7] == " LIMIT " && s[j..j + 10] == " ORDER BY "
  {
    var limit := LimitClause(q.limit);
    assert " LIMIT " <= limit;
    i, j := Pieces(Statement(q, cols, cond), Head(q, cols), limit, OffsetClause(q.skip), OrderBy(q.sort), WhereClause(cond));
  }

  /** The statement in the clause order SQL requires: WHERE, then ORDER BY,
      then LIMIT and OFFSET. */
  function OrderedStatement(q: SqlQuery, cols: string, cond: string): (r: string)
    ensures Head(q, cols) + WhereClause(cond) <= r
    ensures EndsWith(r, LimitClause(q.limit) + OffsetClause(q.skip))
  {
    var front := Head(q, cols) + WhereClause(cond);
    var tail := LimitClause(q.limit) + OffsetClause(q.skip);
    Framed(front, OrderBy(q.sort), tail);
    front + OrderBy(q.sort) + tail
  }

  /** Three pieces glued together start with the first and end with the last. */
  lemma Framed(a: string, b: string, c: string)
    ensures a <= a + b + c && EndsWith(a + b + c, c)
  {
    assert (a + b + c)[..|a|] == a;
  }

  /** Reordering drops and adds nothing: the ordered statement is as long as
      the statement as written. */
  lemma OrderedSameLength(q: SqlQuery, cols: string, cond: string)
    ensures |OrderedStatement(q, cols, cond)| == |Statement(q, cols, cond)|
  {
  }

  /** Where ORDER BY and LIMIT sit in a statement built from four pieces. */
  lemma OrderedPieces(s: string, h: string, ob: string, limit: string, rest: string) returns (j: nat, i: nat)
    requires " ORDER BY " <= ob && " LIMIT " <= limit
    requires s == h + ob + limit + rest
    ensures j + 10 <= i && i + 7 <= |s| && s[j..j + 10] == " ORDER BY " && s[i..i + 7] == " LIMIT "
  {
    assert s == h + (ob + limit + rest);
    assert s == (h + ob) + (limit + rest);
    j, i := |h|, |h| + |ob|;
  }

  /** In the ordered statement ORDER BY comes before LIMIT, the order the
      as-written one reverses. */
  lemma OrderByBeforeLimit(q: SqlQuery, cols: string, cond: string) returns (j: nat, i: nat)
    requires q.limit > 0 && |q.sort| > 0
    ensures var s := OrderedStatement(q, cols, cond);
      j + 10 <= i && i + 7 <= |s| && s[j..j + 10] == " ORDER BY " && s[i..i + 7] == " LIMIT "
  {
    var limit := LimitClause(q.limit);
    assert " LIMIT " <= limit;
    j, i := OrderedPieces(OrderedStatement(q, cols, cond), Head(q, cols) + WhereClause(cond), OrderBy(q.sort), limit, OffsetClause(q.skip));
  }
}

=== FILE: query.dfy ===
/** The filter language of q/model.go. A Go filter is an `interface{}` tree; here
    it is the closed tree `Node`, whose leaves are field tests (`Term`) inside a
    field map (`M`). */
module Query {
  import opened Wrappers
  import opened Values

  /** The panic every translator raises for a node it does not recognise. */
  const InvalidQuery: Error := Panic("invalid query")

  /** The operator kinds of q/model.go:32-43. */
  const OpLT: string := "lt"
  const OpLTE: string := "lte"
  const OpGT: string := "gt"
  const OpGTE: string := "gte"
  const OpNE: string := "ne"

  /** The value a field of `M` is mapped to. `Is(v)` is any plain value (an
      equality test); `Op.kind` is a free string because q.OpKind is an open
      string type. */
  datatype Term =
    | In(vals: seq<Value>)
    | NotIn(vals: seq<Value>)
    | Op(kind: string, operand: Value)
    | Is(v: Value)

  /** A filter node. `M` is a Go map of field tests: its names are distinct and
      the sequence order stands for one iteration order of the map. `Slice` is a
      bare []interface{} nested inside a filter, and `Raw` any other value used
      where a node is expected. */
  datatype Node =
    | Not(cond: Node)
    | And(items: seq<Node>)
    | Or(items: seq<Node>)
    | M(fields: seq<(string, Term)>)
    | Slice(items: seq<Node>)
    | Raw(v: Value)

  predicate DistinctNames(fields: seq<(string, Term)>) {
    forall i, j :: 0 <= i < j < |fields| ==> fields[i].0 != fields[j].0
  }

  /** q.LT and its siblings (q/model.go:46-68). */
  function LT(v: Value): Term { Op(OpLT, v) }
  function LTE(v: Value): Term { Op(OpLTE, v) }
  function GT(v: Value): Term { Op(OpGT, v) }
  function GTE(v: Value): Term { Op(OpGTE, v) }
  function NotEqual(v: Value): Term { Op(OpNE, v) }

  predicate KnownOp(kind: string) {
    kind == OpLT || kind == OpLTE || kind == OpGT || kind == OpGTE || kind == OpNE
  }
}

=== FILE: redis.dfy ===
/** The redis adapter (redis/store.go, redis/bucket.go, redis/cursor.go): the
    engine's buckets emulated in one flat keyspace. Bucket `name` owns the
    keys starting with `name + "_"`, and its sequence counter lives under
    `"_" + name + "_id"`. The cursor walks the keys the server's SCAN returns,
    page by page, and fetches each value by GET. The server (GET, SET, DEL,
    EXISTS, INCR on a string keyspace, SCAN) is a parameter: a map, a set of
    keys whose commands fail, and the SCAN reply as a function. */
module Redis {
  import opened Wrappers
  import opened Kv
  import Strings

  const Separator: string := "_"
  const KeyId: string := "id"
  const KeyRangeLimit: int := 100

  const IoError: Error := Backend("i/o")
  const NotInteger: Error := Backend("value is not an integer or out of range")
  const SliceOutOfRange: Error := Panic("slice bounds out of range")

  // ------------------------------------------------------------ the server

  /** A SCAN reply: the cursor of the following page (0 after the last) and
      the keys of this one. */
  datatype Page = Page(next: int, keys: seq<string>)

  /** SCAN cursor MATCH prefix* COUNT count, given the last key read. */
  type ScanFn = (string, int, int, Option<string>) -> Result<Page>

  /** The server's keyspace, the keys whose commands fail, and its SCAN. */
  datatype Server = Server(data: map<string, Blob>, failing: set<string>, scan: ScanFn)

  /** GET: nil for a missing key. */
  function Get(s: Server, k: string): (r: Result<Option<Blob>>)
    ensures k in s.failing <==> r.Err?
    ensures r.Ok? ==> (r.value.Some? <==> k in s.data)
    ensures r.Ok? && k in s.data ==> r.value.value == s.data[k]
  {
    if k in s.failing then Err(IoError)
    else if k in s.data then Ok(Some(s.data[k]))
    else Ok(None)
  }

  function SetKey(s: Server, k: string, v: Blob): (r: Result<Server>)
    ensures k in s.failing <==> r.Err?
    ensures r.Ok? ==> r.value.data == s.data[k := v] && r.value.failing == s.failing && r.value.scan == s.scan
  {
    if k in s.failing then Err(IoError) else Ok(s.(data := s.data[k := v]))
  }

  function Del(s: Server, k: string): (r: Result<Server>)
    ensures k in s.failing <==> r.Err?
    ensures r.Ok? ==> r.value.data == s.data - {k} && r.value.failing == s.failing && r.value.scan == s.scan
  {
    if k in s.failing then Err(IoError) else Ok(s.(data := s.data - {k}))
  }

  /** The integer a stored value denotes, as redis.Int64 reads it: Go's
      strconv.ParseInt, which also takes a leading '+' and leading zeros. */
  function IntOf(v: Blob): (r: Option<int>)
    ensures r.Some? ==> Strings.Int64Min <= r.value <= Strings.Int64Max
  {
    match v
    case Bytes(t) => Strings.ParseInt(t)
    case Json(_) => None
  }

  /** The integer a stored value denotes as the server's INCR reads it: only
      the canonical decimal of an int64 (no '+', no leading zero, no "-0"),
      that is, exactly the text FormatInt writes. */
  function CounterOf(v: Blob): (r: Option<int>)
    ensures r.Some? ==> IntOf(v) == r && v == Bytes(Strings.FormatInt(r.value))
  {
    match v
    case Bytes(t) =>
      (match Strings.ParseInt(t)
       case Some(n) => if Strings.FormatInt(n) == t then Some(n) else None
       case None => None)
    case Json(_) => None
  }

  /** Every int64 INCR writes back it reads again. */
  lemma CounterOfFormatInt(n: int)
    requires Strings.Int64Min <= n <= Strings.Int64Max
    ensures CounterOf(Bytes(Strings.FormatInt(n))) == Some(n)
  {
    Strings.FormatIntRoundTrip(n);
  }

  /** INCR: a missing key counts from 0; a value that is not the canonical
      decimal of an int64, or an increment past the int64 range, is an error.
      Negative counters are incremented like any other. */
  function Incr(s: Server, k: string): (r: Result<(Server, int)>)
    ensures k in s.failing ==> r.Err?
    ensures r.Ok? <==> k !in s.failing && (k in s.data ==> CounterOf(s.data[k]).Some? && CounterOf(s.data[k]).value < Strings.Int64Max)
    ensures r.Ok? ==> Strings.Int64Min < r.value.1 <= Strings.Int64Max
    ensures r.Ok? ==> r.value.0 == s.(data := s.data[k := Bytes(Strings.FormatInt(r.value.1))])
    ensures r.Ok? && k in s.data ==> s.data[k] == Bytes(Strings.FormatInt(r.value.1 - 1)) && IntOf(s.data[k]) == Some(r.value.1 - 1)
    ensures r.Ok? && k !in s.data ==> r.value.1 == 1
  {
    if k in s.failing then Err(IoError)
    else
      var n :- if k in s.data then (match CounterOf(s.data[k]) case Some(n) => Ok(n) case None => Err(NotInteger)) else Ok(0);
      if n + 1 > Strings.Int64Max then Err(NotInteger)
      else Ok((s.(data := s.data[k := Bytes(Strings.FormatInt(n + 1))]), n + 1))
  }

  /** INCR reads back what it wrote: a second INCR on the same key counts on
      by one, unless the first one reached the int64 maximum. */
  lemma IncrAgain(s: Server, k: string)
    requires Incr(s, k).Ok?
    ensures var (s1, n) := Incr(s, k).value;
      Incr(s1, k).Ok? <==> n < Strings.Int64Max
    ensures var (s1, n) := Incr(s, k).value;
      Incr(s1, k).Ok? ==> Incr(s1, k).value.1 == n + 1
  {
    CounterOfFormatInt(Incr(s, k).value.1);
  }

  /** A negative counter counts up: INCR on "-5" stores and returns -4. */
  lemma IncrNegative(s: Server, k: string)
    requires k !in s.failing && k in s.data && s.data[k] == Bytes("-5")
    ensures Incr(s, k) == Ok((s.(data := s.data[k := Bytes("-4")]), -4))
  {
    Strings.FormatIntRoundTrip(-5);
    assert Strings.FormatInt(-5) == "-5";
    assert Strings.FormatInt(-4) == "-4";
  }

  /** Where the two readers part: a counter stored as "05" is 5 to LastID,
      but INCR refuses it, as it refuses "+5" and "-0". */
  lemma IncrRejectsNonCanonical(s: Server, k: string, t: string)
    requires k !in s.failing && k in s.data && s.data[k] == Bytes(t)
    requires t == "05" || t == "+5" || t == "-0"
    ensures Incr(s, k) == Err(NotInteger)
    ensures IntOf(s.data[k]) == Some(if t == "-0" then 0 else 5)
  {
    if t == "05" {
      assert t[..1] == "0" && t[..1][..0] == "";
      assert Strings.DigitsValue(t) == 5;
      assert Strings.FormatInt(5) == "5";
    } else if t == "+5" {
      assert t[1..] == "5" && t[1..][..0] == "";
      assert Strings.DigitsValue(t[1..]) == 5;
      assert Strings.FormatInt(5) == "5";
    } else {
      assert t[1..] == "0" && t[1..][..0] == "";
      assert Strings.DigitsValue(t[1..]) == 0;
      assert Strings.FormatInt(0) == "0";
    }
  }

  // ------------------------------------------------------------ buckets

  /** The bucket kvtx.Bucket hands out: its key prefix and the key of its
      sequence counter. */
  datatype RBucket = RBucket(prefix: string, keyID: string)

  /** kvtx.Bucket: never nil and never an error, whether or not it is asked
      to create the bucket. */
  function BucketOf(name: string, create: bool): (r: RBucket)
    ensures r.prefix == name + Separator && r.keyID == "_" + r.prefix + KeyId
    ensures Strings.HasPrefix(r.prefix, name) && |r.prefix| == |name| + 1
  {
    var prefix := name + Separator;
    RBucket(prefix, "_" + prefix + KeyId)
  }

  /** bucket.Get. */
  function BGet(s: Server, b: RBucket, k: string): (r: Result<Option<Blob>>)
    ensures r == Get(s, b.prefix + k)
  {
    Get(s, b.prefix + k)
  }

  /** bucket.Set. */
  function BSet(s: Server, b: RBucket, k: string, v: Blob): (r: Result<Server>)
    ensures r.Ok? <==> b.prefix + k !in s.failing
    ensures r.Ok? ==> r.value.data == s.data[b.prefix + k := v]
  {
    SetKey(s, b.prefix + k, v)
  }

  /** bucket.Delete. */
  function BDelete(s: Server, b: RBucket, k: string): (r: Result<Server>)
    ensures r.Ok? <==> b.prefix + k !in s.failing
    ensures r.Ok? ==> r.value.data == s.data - {b.prefix + k}
  {
    Del(s, b.prefix + k)
  }

  /** bucket.NextSequence: INCR on the counter key, in decimal. */
  function NextSequence(s: Server, b: RBucket): (r: Result<(Server, string)>)
    ensures r.Ok? <==> Incr(s, b.keyID).Ok?
    ensures r.Ok? ==> r.value.0 == Incr(s, b.keyID).value.0
    ensures r.Ok? ==> Strings.ParseInt(r.value.1) == Some(Incr(s, b.keyID).value.1)
  {
    var (s1, n) :- Incr(s, b.keyID);
    Strings.FormatIntRoundTrip(n);
    Ok((s1, Strings.FormatInt(n)))
  }

  /** bucket.LastID: 0 when the counter key does not exist, its integer
      value otherwise. */
  function LastID(s: Server, b: RBucket): (r: Result<int>)
    ensures b.keyID in s.failing ==> r.Err?
    ensures b.keyID !in s.failing && b.keyID !in s.data ==> r == Ok(0)
    ensures b.keyID !in s.failing && b.keyID in s.data ==>
      (r.Ok? <==> IntOf(s.data[b.keyID]).Some?) && (r.Ok? ==> Some(r.value) == IntOf(s.data[b.keyID]))
  {
    if b.keyID in s.failing then Err(IoError)
    else if b.keyID !in s.data then Ok(0)
    else match IntOf(s.data[b.keyID])
      case Some(n) => Ok(n)
      case None => Err(NotInteger)
  }

  // ------------------------------------------------------------ bucket properties

  /** Reading back a bucket write, and every other key of the bucket
      unchanged. */
  lemma BucketSetGet(s: Server, b: RBucket, k: string, v: Blob, j: string)
    requires BSet(s, b, k, v).Ok?
    ensures BGet(BSet(s, b, k, v).value, b, j) == if j == k then Ok(Some(v)) else BGet(s, b, j)
  {
    assert (b.prefix + j)[|b.prefix|..] == j;
    assert (b.prefix + k)[|b.prefix|..] == k;
  }

  /** In a key of a bucket whose name has no "_", the first "_" ends the
      name. */
  lemma SeparatorFirst(a: string, k: string)
    requires forall i :: 0 <= i < |a| ==> a[i] != '_'
    ensures var x := BucketOf(a, false).prefix + k;
      x[|a|] == '_' && forall i :: 0 <= i < |a| ==> x[i] != '_'
  {
    var x := BucketOf(a, false).prefix + k;
    assert forall i :: 0 <= i < |a| ==> x[i] == a[i];
  }

  /** Buckets whose names have no "_" never share a key. */
  lemma PrefixSeparation(a: string, c: string, k: string, j: string)
    requires forall i :: 0 <= i < |a| ==> a[i] != '_'
    requires forall i :: 0 <= i < |c| ==> c[i] != '_'
    ensures BucketOf(a, false).prefix + k == BucketOf(c, false).prefix + j <==> a == c && k == j
  {
    var x := BucketOf(a, false).prefix + k;
    var y := BucketOf(c, false).prefix + j;
    if x == y {
      SeparatorFirst(a, k);
      SeparatorFirst(c, j);
      assert |a| == |c| by {
        if |a| < |c| {
          assert false;
        } else if |c| < |a| {
          assert false;
        }
      }
      assert a == x[..|a|] && c == y[..|c|];
      assert k == x[|a| + 1..] && j == y[|c| + 1..];
    }
  }

  /** With "_" in a name, buckets overlap: key "b_1" of bucket "a" is key "1"
      of bucket "a_b". */
  lemma PrefixCollision(s: Server)
    ensures BGet(s, BucketOf("a", false), "b_1") == BGet(s, BucketOf("a_b", false), "1")
  {
    assert BucketOf("a", false).prefix + "b_1" == "a_b_1" == BucketOf("a_b", false).prefix + "1";
  }

  /** The sequence counter of bucket `name` is the key "id" of bucket
      "_" + name. */
  lemma CounterIsAKey(s: Server, name: string)
    ensures BGet(s, BucketOf("_" + name, false), KeyId) == Get(s, BucketOf(name, false).keyID)
  {
    var b := BucketOf(name, false);
    assert b.keyID == "_" + (name + Separator) + KeyId;
    assert BucketOf("_" + name, false).prefix + KeyId == ("_" + name + Separator) + KeyId;
    assert ("_" + name + Separator) + KeyId == "_" + (name + Separator) + KeyId;
  }

  /** LastID reads back the id NextSequence handed out, which is positive
      when the counter was not negative before. */
  lemma NextSequenceThenLastID(s: Server, b: RBucket)
    requires NextSequence(s, b).Ok?
    ensures var (s1, id) := NextSequence(s, b).value;
      LastID(s1, b).Ok? && Strings.ParseInt(id) == Some(LastID(s1, b).value)
    ensures var (s1, id) := NextSequence(s, b).value;
      LastID(s, b).Ok? && LastID(s, b).value >= 0 ==> LastID(s1, b).value >= 1
  {
    var n := Incr(s, b.keyID).value.1;
    Strings.FormatIntRoundTrip(n);
  }

  /** A bucket without a counter hands out "1" first, and each id after that
      is one more than the last. */
  lemma NextSequenceCounts(s: Server, b: RBucket)
    requires b.keyID !in s.failing
    ensures b.keyID !in s.data ==> NextSequence(s, b) == Ok((s.(data := s.data[b.keyID := Bytes("1")]), "1"))
    ensures NextSequence(s, b).Ok? && LastID(s, b).Ok? ==>
      Strings.ParseInt(NextSequence(s, b).value.1) == Some(LastID(s, b).value + 1)
  {
    if b.keyID !in s.data {
      assert Strings.FormatInt(1) == "1";
    }
  }

  // ------------------------------------------------------------ cursor

  /** redis/cursor.go's cursor: the sticky error, whether init ran, the last
      id read by init, the current page, the index in it, and the page's own
      and following scan cursors. */
  datatype RCursor = RCursor(bucket: RBucket, err: Option<Error>, initialized: bool, lastID: int,
                             keys: seq<string>, idx: nat, current: int, next: int) {
    /** Whether Next at the end of the page asks for the following one. */
    predicate MorePages() {
      next > 0 && lastID > 0 && |keys| > 0
    }

    /** Past the end of a page, no following page is pending: the page-end
        rule either fetched it or will never fetch it. */
    predicate Valid() {
      initialized && err.None? && idx >= |keys| ==> !MorePages()
    }
  }

  /** bucket.Cursor: a fresh, uninitialised cursor. */
  function Fresh(b: RBucket): (r: RCursor)
    ensures r.Valid() && !r.initialized && r.err.None? && r.bucket == b
  {
    RCursor(b, None, false, 0, [], 0, 0, 0)
  }

  /** cursor.scan: nothing once an error is recorded; otherwise fetch the
      page at `cur`, recording the server's error if it fails. */
  function Scan(c: RCursor, s: Server, cur: int, last: Option<string>): (r: RCursor)
    ensures r.bucket == c.bucket && r.initialized == c.initialized && r.lastID == c.lastID
    ensures c.err.Some? ==> r == c
    ensures c.err.None? && r.err.None? ==>
      r.idx == 0 && r.current == cur && s.scan(c.bucket.prefix, cur, KeyRangeLimit, last) == Ok(Page(r.next, r.keys))
    ensures c.err.None? && r.err.Some? ==> s.scan(c.bucket.prefix, cur, KeyRangeLimit, last).Err?
  {
    if c.err.Some? then c
    else
      match s.scan(c.bucket.prefix, cur, KeyRangeLimit, last)
      case Err(e) => c.(err := Some(e))
      case Ok(p) => c.(keys := p.keys, idx := 0, current := cur, next := p.next)
  }

  /** cursor.init: once only; read the last id, then scan page 0. */
  function Init(c: RCursor, s: Server): (r: RCursor)
    ensures r.initialized && r.bucket == c.bucket
    ensures c.initialized ==> r == c
    ensures c.err.Some? ==> r.err.Some?
    ensures !c.initialized && r.err.None? ==> r.idx == 0 && r.current == 0 && LastID(s, c.bucket) == Ok(r.lastID)
    ensures !c.initialized && r.err.None? ==> s.scan(c.bucket.prefix, 0, KeyRangeLimit, None) == Ok(Page(r.next, r.keys))
  {
    if c.initialized then c
    else
      var c1 := c.(initialized := true);
      match LastID(s, c.bucket)
      case Err(e) => c1.(err := Some(e))
      case Ok(id) => Scan(c1.(lastID := id), s, 0, None)
  }

  /** cursor.seek on a full key: fetch it and strip the bucket prefix. A
      failing GET records the error; a missing value is nil. A key shorter
      than the prefix cannot be sliced, which panics. */
  function SeekFull(c: RCursor, s: Server, k: string): (r: (RCursor, Result<Option<Entry>>))
    ensures r.0 == c || (k in s.failing && r.0 == c.(err := Some(IoError)))
    ensures r.1.Err? <==> k !in s.failing && k in s.data && |k| < |c.bucket.prefix|
    ensures r.1.Ok? && r.1.value.Some? <==> k !in s.failing && k in s.data && |k| >= |c.bucket.prefix|
    ensures r.1.Ok? && r.1.value.Some? ==> r.1.value.value == (k[|c.bucket.prefix|..], s.data[k])
  {
    match Get(s, k)
    case Err(e) => (c.(err := Some(e)), Ok(None))
    case Ok(None) => (c, Ok(None))
    case Ok(Some(v)) =>
      if |k| < |c.bucket.prefix| then (c, Err(SliceOutOfRange))
      else (c, Ok(Some((k[|c.bucket.prefix|..], v))))
  }

  /** cursor.Seek: nil for a nil key or once an error is recorded; otherwise
      the entry under the prefixed key, with the key given back. */
  function Seek(c: RCursor, s: Server, k: Option<string>): (r: (RCursor, Result<Option<Entry>>))
    ensures k.None? || c.err.Some? ==> r == (c, Ok(None))
    ensures r.1.Ok?
    ensures k.Some? && c.err.None? && r.1.value.Some? ==> r.1.value.value.0 == k.value
    ensures k.Some? && c.err.None? ==>
      (r.1.value.Some? <==> BGet(s, c.bucket, k.value).Ok? && BGet(s, c.bucket, k.value).value.Some?)
    ensures k.Some? && c.err.None? && r.1.value.Some? ==> Some(r.1.value.value.1) == BGet(s, c.bucket, k.value).value
  {
    if k.None? || c.err.Some? then (c, Ok(None))
    else
      var full := c.bucket.prefix + k.value;
      assert full[|c.bucket.prefix|..] == k.value;
      SeekFull(c, s, full)
  }

  /** cursor.First: init, rescan page 0 unless the current page is page 0,
      and go to the first key. */
  function First(c: RCursor, s: Server): (r: (RCursor, Result<Option<Entry>>))
    requires c.Valid()
    ensures r.0.Valid()
    ensures c.err.Some? ==> r.1 == Ok(None) && r.0.err.Some?
    ensures c.err.Some? && c.initialized ==> r.0.err == c.err
  {
    var c1 := Init(c, s);
    var c2 := if c1.current != 0 then Scan(c1, s, 0, None) else c1;
    if c2.err.Some? then (c2, Ok(None))
    else
      var c3 := c2.(idx := 0);
      if 0 < |c3.keys| then SeekFull(c3, s, c3.keys[0]) else (c3, Ok(None))
  }

  /** cursor.Next: the key after the current one; on a cursor not yet
      initialised, the first key. At the end of a page the following page is
      fetched only when there is one, the bucket has a last id, and the page
      was not empty. */
  function Next(c: RCursor, s: Server): (r: (RCursor, Result<Option<Entry>>))
    requires c.Valid()
    ensures r.0.Valid() && r.0.initialized && r.0.bucket == c.bucket
    ensures c.err.Some? ==> r.1 == Ok(None) && r.0.err.Some?
    ensures c.err.Some? && c.initialized ==> r.0.err == c.err
  {
    var inc := if c.initialized then 1 else 0;
    var c1 := Init(c, s);
    if c1.err.Some? then (c1, Ok(None))
    else
      var c2 := c1.(idx := c1.idx + inc);
      if c2.idx < |c2.keys| then SeekFull(c2, s, c2.keys[c2.idx])
      else if c2.MorePages() then
        var c3 := Scan(c2, s, c2.next, Some(c2.keys[c2.idx - 1]));
        if c3.err.Some? then (c3, Ok(None))
        else if c3.idx < |c3.keys| then SeekFull(c3, s, c3.keys[c3.idx])
        else (c3, Ok(None))
      else (c2, Ok(None))
  }

  // ------------------------------------------------------------ cursor properties

  /** Errors are sticky: once recorded, First, Next and Seek give nil and
      the cursor keeps an error (the same one, once init has run; before
      that, init may replace it with LastID's). */
  lemma StickyError(c: RCursor, s: Server, k: Option<string>)
    requires c.Valid() && c.err.Some?
    ensures First(c, s).1 == Ok(None) && First(c, s).0.err.Some?
    ensures Next(c, s).1 == Ok(None) && Next(c, s).0.err.Some?
    ensures c.initialized ==> First(c, s).0.err == c.err && Next(c, s).0.err == c.err
    ensures Seek(c, s, k) == (c, Ok(None))
  {
  }

  /** init runs once. */
  lemma InitOnce(c: RCursor, s: Server)
    ensures Init(Init(c, s), s) == Init(c, s)
  {
  }

  /** Next on a fresh cursor is First: the increment is 0 before init. */
  lemma FreshNextIsFirst(b: RBucket, s: Server)
    ensures Next(Fresh(b), s) == First(Fresh(b), s)
  {
  }

  /** First on a cursor that has moved to a later page fetches page 0
      again. */
  lemma FirstRescans(c: RCursor, s: Server)
    requires c.Valid() && c.initialized && c.err.None? && c.current != 0
    requires s.scan(c.bucket.prefix, 0, KeyRangeLimit, None) == Ok(Page(0, ["x"]))
    ensures First(c, s) == SeekFull(c.(keys := ["x"], idx := 0, current := 0, next := 0), s, "x")
  {
  }

  /** A cursor that has read `keys[idx]` of a page. */
  predicate OnPage(c: RCursor, keys: seq<string>) {
    c.initialized && c.err.None? && c.keys == keys && c.idx < |keys|
  }

  /** Next moves to the following key of the page and fetches it; a key whose
      value has vanished gives nil, which ends the iteration. */
  lemma NextOnPage(c: RCursor, s: Server)
    requires c.Valid() && OnPage(c, c.keys) && c.idx + 1 < |c.keys|
    ensures Next(c, s) == SeekFull(c.(idx := c.idx + 1), s, c.keys[c.idx + 1])
    ensures var k := c.keys[c.idx + 1]; k !in s.failing && k !in s.data ==> Next(c, s).1 == Ok(None)
  {
  }

  /** The page-end rule. Past the last key of a page, the following page is
      fetched after the last key read when it exists, the last id is
      positive and the page was not empty; its first key is read, and an
      empty page ends the iteration. Without a last id (a bucket whose
      counter is missing or 0) the iteration ends after the first page,
      whatever the server still has. */
  lemma PageEnd(c: RCursor, s: Server)
    requires c.Valid() && OnPage(c, c.keys) && c.idx + 1 == |c.keys|
    ensures !c.MorePages() ==> Next(c, s) == (c.(idx := |c.keys|), Ok(None))
    ensures c.lastID == 0 ==> Next(c, s).1 == Ok(None)
    ensures c.MorePages() ==>
      match s.scan(c.bucket.prefix, c.next, KeyRangeLimit, Some(c.keys[c.idx]))
      case Err(e) => Next(c, s) == (c.(idx := |c.keys|, err := Some(e)), Ok(None))
      case Ok(p) =>
        var c3 := c.(keys := p.keys, idx := 0, current := c.next, next := p.next);
        Next(c, s) == if |p.keys| == 0 then (c3, Ok(None)) else SeekFull(c3, s, p.keys[0])
  {
  }

  /** What iterating a cursor gives: the entries of the calls to Next (at
      most `fuel` of them) up to the first nil. */
  function Walk(c: RCursor, s: Server, fuel: nat): (r: seq<Entry>)
    requires c.Valid()
    ensures |r| <= fuel
    decreases fuel
  {
    if fuel == 0 then []
    else
      match Next(c, s)
      case (c1, Ok(Some(e))) => [e] + Walk(c1, s, fuel - 1)
      case _ => []
  }

  /** The entries of the listed full keys, with the prefix stripped. */
  function Listed(s: Server, prefix: string, keys: seq<string>): (r: seq<Entry>)
    requires forall i :: 0 <= i < |keys| ==> keys[i] in s.data && |keys[i]| >= |prefix|
    ensures |r| == |keys|
    ensures forall i :: 0 <= i < |keys| ==> r[i] == (keys[i][|prefix|..], s.data[keys[i]])
  {
    if |keys| == 0 then []
    else
      var rest := Listed(s, prefix, keys[1..]);
      assert forall i :: 1 <= i < |keys| ==> keys[i] == keys[1..][i - 1];
      [(keys[0][|prefix|..], s.data[keys[0]])] + rest
  }

  /** Every key of the page has a value the server returns. */
  predicate Readable(s: Server, prefix: string, keys: seq<string>) {
    forall i :: 0 <= i < |keys| ==>
      keys[i] !in s.failing && keys[i] in s.data && Strings.HasPrefix(keys[i], prefix)
  }

  /** From key `idx` of the last page on, Next yields the rest of the page. */
  lemma {:induction false} WalkRest(c: RCursor, s: Server, fuel: nat)
    requires c.Valid() && OnPage(c, c.keys) && c.next == 0 && Readable(s, c.bucket.prefix, c.keys)
    requires fuel >= |c.keys| - c.idx
    ensures Walk(c, s, fuel) == Listed(s, c.bucket.prefix, c.keys[c.idx + 1..])
    decreases |c.keys| - c.idx
  {
    var keys := c.keys;
    if c.idx + 1 < |keys| {
      NextOnPage(c, s);
      var c1 := c.(idx := c.idx + 1);
      assert Next(c, s) == (c1, Ok(Some((keys[c.idx + 1][|c.bucket.prefix|..], s.data[keys[c.idx + 1]]))));
      WalkRest(c1, s, fuel - 1);
      assert keys[c.idx + 1..][1..] == keys[c1.idx + 1..];
    } else {
      PageEnd(c, s);
      assert keys[c.idx + 1..] == [];
    }
  }

  /** A bucket whose keys fit in one page: iterating a fresh cursor yields
      every key of the page, prefix stripped, with its value, in the order
      SCAN listed them. */
  lemma SinglePage(b: RBucket, s: Server, keys: seq<string>)
    requires LastID(s, b).Ok? && s.scan(b.prefix, 0, KeyRangeLimit, None) == Ok(Page(0, keys))
    requires Readable(s, b.prefix, keys)
    ensures Walk(Fresh(b), s, |keys| + 1) == Listed(s, b.prefix, keys)
  {
    var c := Fresh(b);
    var c1 := Init(c, s);
    assert c1 == RCursor(b, None, true, LastID(s, b).value, keys, 0, 0, 0);
    if |keys| > 0 {
      assert Next(c, s) == (c1, Ok(Some((keys[0][|b.prefix|..], s.data[keys[0]]))));
      WalkRest(c1, s, |keys|);
      assert keys == [keys[0]] + keys[1..];
    }
  }

  // ------------------------------------------------------------ transactions

  /** store.Begin: the backend's transaction, whatever `writable` says. */
  function Begin(backend: Result<Server>, writable: bool): (r: Result<Server>)
    ensures r.Ok? <==> backend.Ok?
    ensures r.Ok? ==> r.value == backend.value
    ensures r.Err? ==> r.error == backend.error
  {
    backend
  }

  /** A read-only transaction is the same as a writable one. */
  lemma BeginIgnoresWritable(backend: Result<Server>)
    ensures Begin(backend, false) == Begin(backend, true)
  {
  }

  /** kvtx.Bucket never depends on createIfNotExists. */
  lemma BucketIgnoresCreate(name: string)
    ensures BucketOf(name, true) == BucketOf(name, false)
  {
  }
}

=== FILE: schema.dfy ===
/** The document descriptor that replaces reflection: the struct fields of a
    document type, the JSON document a value of that type encodes to, the index
    metadata of kv/indexing.go:49-84 and the id/createdAt/updatedAt setters of
    reflection/meta.go:18-50. */
module Schema {
  import opened Wrappers
  import opened Values
  import opened Docs

  /** The Go type of a struct field, as far as the engine cares: exactly
      `string` (the only indexed type), `time.Time` (the timestamp setters'
      target), an interface type (`empty` when it has no methods, as
      `interface{}`; `timeImplements` when time.Time has all its methods), or
      anything else. */
  datatype Kind = StringKind | TimeKind | InterfaceKind(empty: bool, timeImplements: bool) | OtherKind

  /** A struct field: its Go name, its `json` tag and its kind. */
  datatype Field = Field(goName: string, tag: string, kind: Kind)

  type Descriptor = seq<Field>

  /** A value of the document type: one Value per field, in field order. */
  type Entity = seq<Value>

  /** The first comma-separated component of a tag. */
  function TagName(tag: string): (r: string)
    ensures |r| <= |tag| && r == tag[..|r|]
    ensures forall i :: 0 <= i < |r| ==> r[i] != ','
    ensures |r| < |tag| ==> tag[|r|] == ','
  {
    if |tag| == 0 || tag[0] == ',' then ""
    else [tag[0]] + TagName(tag[1..])
  }

  /** A tag whose name part `a` holds no comma, followed by options `b`. */
  lemma TagSplit(a: string, b: string)
    requires forall i :: 0 <= i < |a| ==> a[i] != ','
    ensures TagName(a + "," + b) == a
    ensures (forall i :: 0 <= i < |b| ==> b[i] != ',') ==> Parts(a + "," + b) == [a, b]
  {
    var t := a + "," + b;
    NameBeforeComma(a, b);
    if forall i :: 0 <= i < |b| ==> b[i] != ',' {
      NoCommaTag(b);
      assert t[|a| + 1..] == b;
    }
  }

  lemma {:induction false} NameBeforeComma(a: string, b: string)
    requires forall i :: 0 <= i < |a| ==> a[i] != ','
    ensures TagName(a + "," + b) == a
    decreases |a|
  {
    var t := a + "," + b;
    if |a| > 0 {
      NameBeforeComma(a[1..], b);
      assert t[1..] == a[1..] + "," + b;
    } else {
      assert t[0] == ',';
    }
  }

  /** A string without a comma is one whole name part. */
  lemma {:induction false} NoCommaTag(s: string)
    requires forall i :: 0 <= i < |s| ==> s[i] != ','
    ensures TagName(s) == s && Parts(s) == [s]
    decreases |s|
  {
    if |s| > 0 {
      NoCommaTag(s[1..]);
    }
  }

  /** The comma-separated parts of `s`, the empty string giving one empty
      part. */
  function Parts(s: string): (r: seq<string>)
    ensures |r| > 0 && r[0] == TagName(s)
    decreases |s|
  {
    var n := TagName(s);
    if |n| == |s| then [n] else [n] + Parts(s[|n| + 1..])
  }

  /** The options of a tag: its parts after the name. */
  function Options(tag: string): (r: seq<string>)
    ensures |TagName(tag)| == |tag| ==> r == []
  {
    Parts(tag)[1..]
  }

  /** A field encoding/json leaves out: the tag is exactly "-". */
  predicate Ignored(f: Field) {
    f.tag == "-"
  }

  /** The tag carries the omitempty option. */
  predicate OmitEmpty(f: Field) {
    "omitempty" in Options(f.tag)
  }

  /** encoding/json's empty values: false, 0, "", nil. A time.Time is a
      struct and never empty, even though its JSON text is kept as a string
      here. */
  predicate IsEmpty(f: Field, v: Value) {
    && f.kind != TimeKind
    && (f.kind.InterfaceKind? ==> v.Nil?)
    && match v
       case Nil => true
       case Bool(b) => !b
       case Int(i, _) => i == 0
       case UInt(u) => u == 0
       case NativeUInt(w) => w == 0
       case Float(r) => r == 0.0
       case Str(t) => t == ""
       case Other => false
  }

  /** A field json.Marshal does not write: an ignored one, or an omitempty
      one holding an empty value. */
  predicate Omitted(f: Field, v: Value) {
    Ignored(f) || (OmitEmpty(f) && IsEmpty(f, v))
  }

  /** The key encoding/json writes the field under: the tag's name part when
      it is non-empty, the Go name otherwise. */
  function JsonName(f: Field): string {
    var t := TagName(f.tag);
    if |t| > 0 then t else f.goName
  }

  /** The name makemeta gives the index field: the tag's name part whenever
      the tag is non-empty, even when that part is empty. */
  function MetaNameAsWritten(f: Field): string {
    if |f.tag| > 0 then TagName(f.tag) else f.goName
  }

  /** The two names differ exactly for a tag with an empty name part, such as
      ",omitempty". */
  lemma MetaNameMismatch(f: Field)
    requires |f.goName| > 0
    ensures MetaNameAsWritten(f) != JsonName(f) <==> |f.tag| > 0 && f.tag[0] == ','
  {
  }

  /** A descriptor encoding/json can use as is: every field has a name and the
      JSON names of the fields it writes are distinct (encoding/json drops
      clashing fields). */
  predicate ValidDescriptor(fields: Descriptor) {
    && (forall i :: 0 <= i < |fields| ==> |fields[i].goName| > 0)
    && (forall i, j :: 0 <= i < j < |fields| && !Ignored(fields[i]) && !Ignored(fields[j]) ==>
          JsonName(fields[i]) != JsonName(fields[j]))
  }

  /** The field values an entity of this descriptor can hold: strings and
      timestamps (kept in their JSON text form) are strings. */
  predicate WellTyped(fields: Descriptor, vals: Entity) {
    && |vals| == |fields|
    && forall i :: 0 <= i < |fields| && (fields[i].kind == StringKind || fields[i].kind == TimeKind) ==> vals[i].Str?
  }

  // ---------------------------------------------------------------- encoding

  /** A field value after a JSON round trip: every number becomes a float. */
  function JsonValue(v: Value): (r: Value)
    ensures v.Int? ==> r == Float(v.i as real)
    ensures v.UInt? ==> r == Float(v.u as real)
    ensures v.NativeUInt? ==> r == Float(v.w as real)
    ensures !(v.Int? || v.UInt? || v.NativeUInt?) ==> r == v
  {
    match v
    case Int(i, _) => Float(i as real)
    case UInt(u) => Float(u as real)
    case NativeUInt(w) => Float(w as real)
    case _ => v
  }

  /** json.Marshal followed by json.Unmarshal into a map: the fields it
      writes, in field order. EncodeKeys and EncodeLookup state what it
      holds. */
  function Encode(fields: Descriptor, vals: Entity): (d: Doc)
    requires |vals| == |fields|
    ensures |d| <= |fields|
  {
    if |fields| == 0 then []
    else
      var rest := Encode(fields[1..], vals[1..]);
      if Omitted(fields[0], vals[0]) then rest else [(JsonName(fields[0]), JsonValue(vals[0]))] + rest
  }

  /** The field at `i` is written and carries `name`. */
  predicate WritesAs(fields: Descriptor, vals: Entity, i: int, name: string)
    requires |vals| == |fields|
  {
    0 <= i < |fields| && !Omitted(fields[i], vals[i]) && JsonName(fields[i]) == name
  }

  /** The keys of the encoding are the names of the fields json.Marshal
      writes. */
  lemma {:induction false} EncodeKeys(fields: Descriptor, vals: Entity, name: string)
    requires |vals| == |fields|
    ensures Has(Encode(fields, vals), name) <==> exists i :: WritesAs(fields, vals, i, name)
    decreases |fields|
  {
    if |fields| > 0 {
      var d := Encode(fields, vals);
      var rest := Encode(fields[1..], vals[1..]);
      EncodeKeys(fields[1..], vals[1..], name);
      if Has(rest, name) {
        var j :| WritesAs(fields[1..], vals[1..], j, name);
        assert WritesAs(fields, vals, j + 1, name);
        var k :| 0 <= k < |rest| && rest[k].0 == name;
        assert d[|d| - |rest| + k] == rest[k];
      }
      if Has(d, name) && !Has(rest, name) {
        assert WritesAs(fields, vals, 0, name);
      }
      if exists i :: WritesAs(fields, vals, i, name) {
        var i :| WritesAs(fields, vals, i, name);
        if i == 0 {
          assert d[0].0 == name;
        } else {
          assert WritesAs(fields[1..], vals[1..], i - 1, name);
        }
      }
    }
  }

  /** The encodings of several entities, in order. */
  function EncodeAll(fields: Descriptor, ents: seq<Entity>): (ds: seq<Doc>)
    requires forall i :: 0 <= i < |ents| ==> WellTyped(fields, ents[i])
    ensures |ds| == |ents|
  {
    if |ents| == 0 then []
    else
      assert WellTyped(fields, ents[0]);
      [Encode(fields, ents[0])] + EncodeAll(fields, ents[1..])
  }

  lemma EncodeAllTail(fields: Descriptor, ents: seq<Entity>)
    requires forall i :: 0 <= i < |ents| ==> WellTyped(fields, ents[i])
    requires |ents| > 0
    ensures EncodeAll(fields, ents)[0] == Encode(fields, ents[0])
    ensures EncodeAll(fields, ents)[1..] == EncodeAll(fields, ents[1..])
  {
  }

  lemma {:induction false} EncodeAllAt(fields: Descriptor, ents: seq<Entity>, i: nat)
    requires forall i :: 0 <= i < |ents| ==> WellTyped(fields, ents[i])
    requires i < |ents|
    ensures EncodeAll(fields, ents)[i] == Encode(fields, ents[i])
  {
    if i > 0 {
      EncodeAllAt(fields, ents[1..], i - 1);
    }
  }

  /** The encoding of a valid descriptor has distinct keys. */
  lemma {:induction false} EncodeWellFormed(fields: Descriptor, vals: Entity)
    requires ValidDescriptor(fields) && |vals| == |fields|
    ensures WellFormed(Encode(fields, vals))
  {
    if |fields| > 0 {
      assert ValidDescriptor(fields[1..]) by {
        forall i, j | 0 <= i < j < |fields| - 1 && !Ignored(fields[1..][i]) && !Ignored(fields[1..][j])
          ensures JsonName(fields[1..][i]) != JsonName(fields[1..][j])
        {
          assert fields[1..][i] == fields[i + 1] && fields[1..][j] == fields[j + 1];
        }
      }
      EncodeWellFormed(fields[1..], vals[1..]);
      var rest := Encode(fields[1..], vals[1..]);
      if !Omitted(fields[0], vals[0]) {
        EncodeKeys(fields[1..], vals[1..], JsonName(fields[0]));
        forall j | WritesAs(fields[1..], vals[1..], j, JsonName(fields[0])) ensures false {
        }
      }
    }
  }

  /** Every field json.Marshal writes reads back as its JSON value, and a
      field it omits is absent. An ignored field's key is absent too unless
      another field is written under the same name. */
  lemma {:induction false} EncodeLookup(fields: Descriptor, vals: Entity, i: nat)
    requires ValidDescriptor(fields) && |vals| == |fields| && i < |fields|
    ensures WellFormed(Encode(fields, vals))
    ensures !Ignored(fields[i]) ==>
      Lookup(Encode(fields, vals), JsonName(fields[i])) == if Omitted(fields[i], vals[i]) then None else Some(JsonValue(vals[i]))
    ensures (forall j :: 0 <= j < |fields| && !Ignored(fields[j]) ==> JsonName(fields[j]) != JsonName(fields[i])) ==>
      Lookup(Encode(fields, vals), JsonName(fields[i])) == None
    decreases |fields|
  {
    EncodeWellFormed(fields, vals);
    var d := Encode(fields, vals);
    var name := JsonName(fields[i]);
    EncodeKeys(fields, vals, name);
    if !Ignored(fields[i]) {
      if Omitted(fields[i], vals[i]) {
        forall j | WritesAs(fields, vals, j, name) ensures false {
        }
      } else if i == 0 {
        assert d[0] == (name, JsonValue(vals[0]));
      } else {
        assert ValidDescriptor(fields[1..]) by {
          forall a, b | 0 <= a < b < |fields| - 1 && !Ignored(fields[1..][a]) && !Ignored(fields[1..][b])
            ensures JsonName(fields[1..][a]) != JsonName(fields[1..][b])
          {
            assert fields[1..][a] == fields[a + 1] && fields[1..][b] == fields[b + 1];
          }
        }
        EncodeLookup(fields[1..], vals[1..], i - 1);
        assert fields[1..][i - 1] == fields[i];
        if !Omitted(fields[0], vals[0]) {
          assert JsonName(fields[0]) != name;
        }
      }
    }
    forall j | WritesAs(fields, vals, j, name) ensures !Ignored(fields[j]) {
    }
  }

  /** A name no written field carries is absent. */
  lemma EncodeAbsent(fields: Descriptor, vals: Entity, name: string)
    requires |vals| == |fields|
    requires forall i :: 0 <= i < |fields| && !Omitted(fields[i], vals[i]) ==> JsonName(fields[i]) != name
    ensures Lookup(Encode(fields, vals), name) == None
  {
    EncodeKeys(fields, vals, name);
  }

  // ------------------------------------------------------------ index metadata

  /** The bucket holding the index of `field` in collection `c`. */
  function IdxName(c: string, field: string): (r: string)
    ensures |r| == |c| + |field| + 5
  {
    "idx_" + c + "_" + field
  }

  /** Within one collection, index buckets of different fields differ, and none
      is the collection's own bucket. */
  lemma IdxNameInjective(c: string, f: string, g: string)
    ensures IdxName(c, f) == IdxName(c, g) <==> f == g
    ensures IdxName(c, f) != c
  {
    if IdxName(c, f) == IdxName(c, g) {
      assert f == IdxName(c, f)[|c| + 5..];
      assert g == IdxName(c, g)[|c| + 5..];
    }
  }

  /** Across collections, bucket names collide: collection "a_b" field "c" and
      collection "a" field "b_c" share one index bucket. */
  lemma IdxNameCollision()
    ensures IdxName("a_b", "c") == IdxName("a", "b_c")
  {
  }

  /** One indexed field: its bucket, the document key it reads, and the
      position of the struct field holding the value (the getter). */
  datatype IdxMeta = IdxMeta(bucket: string, field: string, pos: nat)

  /** A field makemeta indexes under `name`: exactly of type string, not named
      "id" or "_id". */
  predicate Indexed(f: Field, name: string) {
    f.kind == StringKind && name != "id" && name != "_id"
  }

  /** A field the loop of makemeta takes, named `name`; with `skipIgnored`
      it also passes over the fields encoding/json leaves out. */
  predicate Takes(f: Field, name: string, skipIgnored: bool) {
    Indexed(f, name) && !(skipIgnored && Ignored(f))
  }

  /** makemeta's loop from field `i` on, with `names[j]` the name it gives field j. */
  function MetasFrom(c: string, fields: Descriptor, names: seq<string>, skipIgnored: bool, i: nat): seq<IdxMeta>
    requires |names| == |fields| && i <= |fields|
    decreases |fields| - i
  {
    if i == |fields| then []
    else
      var rest := MetasFrom(c, fields, names, skipIgnored, i + 1);
      if Takes(fields[i], names[i], skipIgnored) then [IdxMeta(IdxName(c, names[i]), names[i], i)] + rest
      else rest
  }

  /** The metadata lists exactly the fields taken from `i` on, in field order. */
  lemma {:induction false} MetasFromSpec(c: string, fields: Descriptor, names: seq<string>, skipIgnored: bool, i: nat)
    requires |names| == |fields| && i <= |fields|
    ensures forall m :: m in MetasFrom(c, fields, names, skipIgnored, i) ==>
      && i <= m.pos < |fields|
      && Takes(fields[m.pos], names[m.pos], skipIgnored)
      && m == IdxMeta(IdxName(c, names[m.pos]), names[m.pos], m.pos)
    ensures forall k :: i <= k < |fields| && Takes(fields[k], names[k], skipIgnored) ==>
      IdxMeta(IdxName(c, names[k]), names[k], k) in MetasFrom(c, fields, names, skipIgnored, i)
    ensures forall j, l :: 0 <= j < l < |MetasFrom(c, fields, names, skipIgnored, i)| ==>
      MetasFrom(c, fields, names, skipIgnored, i)[j].pos < MetasFrom(c, fields, names, skipIgnored, i)[l].pos
    decreases |fields| - i
  {
    if i < |fields| {
      MetasFromSpec(c, fields, names, skipIgnored, i + 1);
      var rest := MetasFrom(c, fields, names, skipIgnored, i + 1);
      var r := MetasFrom(c, fields, names, skipIgnored, i);
      if Takes(fields[i], names[i], skipIgnored) {
        assert r == [IdxMeta(IdxName(c, names[i]), names[i], i)] + rest;
        forall j | 0 <= j < |rest| ensures i < rest[j].pos {
          assert rest[j] in rest;
        }
        forall j, l | 0 <= j < l < |r| ensures r[j].pos < r[l].pos {
          assert r[l] == rest[l - 1];
          if j > 0 {
            assert r[j] == rest[j - 1];
          }
        }
      } else {
        assert r == rest;
      }
    }
  }

  function JsonNames(fields: Descriptor): (r: seq<string>)
    ensures |r| == |fields| && forall i :: 0 <= i < |fields| ==> r[i] == JsonName(fields[i])
  {
    if |fields| == 0 then [] else [JsonName(fields[0])] + JsonNames(fields[1..])
  }

  function MetaNamesAsWritten(fields: Descriptor): (r: seq<string>)
    ensures |r| == |fields| && forall i :: 0 <= i < |fields| ==> r[i] == MetaNameAsWritten(fields[i])
  {
    if |fields| == 0 then [] else [MetaNameAsWritten(fields[0])] + MetaNamesAsWritten(fields[1..])
  }

  /** makemeta as written: the index field name comes from MetaNameAsWritten,
      and a field tagged "-" is indexed like any other. */
  function MakeMetaAsWritten(c: string, fields: Descriptor): (r: seq<IdxMeta>)
    ensures forall m :: m in r ==>
      && m.pos < |fields| && Indexed(fields[m.pos], m.field)
      && m.field == MetaNameAsWritten(fields[m.pos]) && m.bucket == IdxName(c, m.field)
    ensures forall k :: 0 <= k < |fields| && Indexed(fields[k], MetaNameAsWritten(fields[k])) ==>
      IdxMeta(IdxName(c, MetaNameAsWritten(fields[k])), MetaNameAsWritten(fields[k]), k) in r
  {
    MetasFromSpec(c, fields, MetaNamesAsWritten(fields), false, 0);
    MetasFrom(c, fields, MetaNamesAsWritten(fields), false, 0)
  }

  /** makemeta with the index field named as encoding/json names the key,
      passing over the fields encoding/json leaves out. */
  function MakeMeta(c: string, fields: Descriptor): (r: seq<IdxMeta>)
    ensures forall m :: m in r ==>
      && m.pos < |fields| && Indexed(fields[m.pos], m.field) && !Ignored(fields[m.pos])
      && m.field == JsonName(fields[m.pos]) && m.bucket == IdxName(c, m.field)
    ensures forall k :: 0 <= k < |fields| && Indexed(fields[k], JsonName(fields[k])) && !Ignored(fields[k]) ==>
      IdxMeta(IdxName(c, JsonName(fields[k])), JsonName(fields[k]), k) in r
  {
    MetasFromSpec(c, fields, JsonNames(fields), true, 0);
    MetasFrom(c, fields, JsonNames(fields), true, 0)
  }

  /** Two runs of makemeta's loop, one with `a` and every field taken, one with
      `b` passing over ignored fields, agree when they take the same fields
      under the same names. */
  lemma {:induction false} MetasFromAgree(c: string, fields: Descriptor, a: seq<string>, b: seq<string>, i: nat)
    requires |a| == |fields| && |b| == |fields| && i <= |fields|
    requires forall k :: i <= k < |fields| ==>
      Takes(fields[k], a[k], false) == Takes(fields[k], b[k], true) && (Takes(fields[k], a[k], false) ==> a[k] == b[k])
    ensures MetasFrom(c, fields, a, false, i) == MetasFrom(c, fields, b, true, i)
    decreases |fields| - i
  {
    if i < |fields| {
      MetasFromAgree(c, fields, a, b, i + 1);
    }
  }

  /** Whether makemeta as written names each string field as encoding/json
      does and takes none that encoding/json leaves out: no string field is
      tagged "-" or has a tag with an empty name part. */
  predicate PlainStringTags(fields: Descriptor) {
    forall k :: 0 <= k < |fields| && fields[k].kind == StringKind ==>
      !Ignored(fields[k]) && (|fields[k].tag| == 0 || fields[k].tag[0] != ',')
  }

  /** On such descriptors makemeta as written is the corrected makemeta, so
      its metadata meets MetaFor. */
  lemma MakeMetaAgrees(c: string, fields: Descriptor)
    requires PlainStringTags(fields)
    ensures MakeMetaAsWritten(c, fields) == MakeMeta(c, fields)
    ensures ValidDescriptor(fields) ==> MetaFor(c, fields, MakeMetaAsWritten(c, fields))
  {
    var a, b := MetaNamesAsWritten(fields), JsonNames(fields);
    forall k | 0 <= k < |fields| && fields[k].kind == StringKind ensures a[k] == b[k] {
      var f := fields[k];
      if |f.tag| > 0 {
        assert TagName(f.tag) != "" by {
          assert f.tag[0] != ',';
        }
      }
    }
    MetasFromAgree(c, fields, a, b, 0);
    if ValidDescriptor(fields) {
      MakeMetaSpec(c, fields);
    }
  }

  /** The index metadata of a valid descriptor: one entry per string field not
      called id/_id that encoding/json writes, in field order, reading the
      field's JSON key, with pairwise distinct buckets none of which is the
      collection's own bucket. */
  predicate MetaFor(c: string, fields: Descriptor, metas: seq<IdxMeta>) {
    && (forall m :: m in metas ==>
          && m.pos < |fields|
          && Indexed(fields[m.pos], m.field)
          && !Ignored(fields[m.pos])
          && m.field == JsonName(fields[m.pos])
          && m.bucket == IdxName(c, m.field))
    && (forall k :: 0 <= k < |fields| && Indexed(fields[k], JsonName(fields[k])) && !Ignored(fields[k]) ==>
          IdxMeta(IdxName(c, JsonName(fields[k])), JsonName(fields[k]), k) in metas)
    && (forall j, l :: 0 <= j < l < |metas| ==> metas[j].bucket != metas[l].bucket)
    && (forall m :: m in metas ==> m.bucket != c)
  }

  lemma MakeMetaSpec(c: string, fields: Descriptor)
    requires ValidDescriptor(fields)
    ensures MetaFor(c, fields, MakeMeta(c, fields))
  {
    var ms := MakeMeta(c, fields);
    MetasFromSpec(c, fields, JsonNames(fields), true, 0);
    forall j, l | 0 <= j < l < |ms| ensures ms[j].bucket != ms[l].bucket {
      assert ms[j] in ms && ms[l] in ms;
      IdxNameInjective(c, ms[j].field, ms[l].field);
    }
    forall m | m in ms ensures m.bucket != c {
      IdxNameInjective(c, m.field, m.field);
    }
  }

  /** With a ",omitempty" tag makemeta indexes a key encoding/json never writes. */
  lemma OmitEmptyTagMismatch()
    ensures MakeMetaAsWritten("users", [Field("Name", ",omitempty", StringKind)])
         == [IdxMeta("idx_users_", "", 0)]
    ensures Encode([Field("Name", ",omitempty", StringKind)], [Str("bob")]) == [("Name", Str("bob"))]
  {
    var f := Field("Name", ",omitempty", StringKind);
    var fs := [f];
    assert TagName(f.tag) == "";
    assert MetaNamesAsWritten(fs) == [""];
    assert MetasFrom("users", fs, [""], false, 1) == [];
    assert IdxName("users", "") == "idx_users_";
    assert Takes(f, "", false);
    assert MetasFrom("users", fs, [""], false, 0) == [IdxMeta("idx_users_", "", 0)];
    assert JsonName(f) == "Name";
    assert !IsEmpty(f, Str("bob")) && !Ignored(f);
    EncodeOne(f, Str("bob"));
  }

  /** One field: written under its JSON name unless omitted. */
  lemma EncodeOne(f: Field, v: Value)
    ensures Encode([f], [v]) == if Omitted(f, v) then [] else [(JsonName(f), JsonValue(v))]
  {
    assert [f][1..] == [] && [v][1..] == [];
  }

  /** A string field tagged "-": makemeta indexes it under the key "-" in
      bucket idx_users_-, but json.Marshal never writes it, so the stored
      document has no "-" key to read back. The corrected makemeta leaves it
      out. */
  lemma IgnoredFieldIndexed()
    ensures MakeMetaAsWritten("users", [Field("Secret", "-", StringKind)]) == [IdxMeta("idx_users_-", "-", 0)]
    ensures Encode([Field("Secret", "-", StringKind)], [Str("x")]) == []
    ensures MakeMeta("users", [Field("Secret", "-", StringKind)]) == []
  {
    var fs := [Field("Secret", "-", StringKind)];
    assert TagName("-") == "-";
    assert MetaNamesAsWritten(fs) == ["-"];
    assert MetasFrom("users", fs, ["-"], false, 1) == [];
    assert IdxName("users", "-") == "idx_users_-";
    assert Takes(fs[0], "-", false);
    assert MetasFrom("users", fs, ["-"], false, 0) == [IdxMeta("idx_users_-", "-", 0)];
    assert MetasFrom("users", fs, JsonNames(fs), true, 1) == [];
  }

  /** encoding/json leaves out an omitempty string field holding "", and
      writes it otherwise. */
  lemma OmitsEmptyString(f: Field, t: string)
    requires OmitEmpty(f) && f.kind == StringKind && !Ignored(f)
    ensures Encode([f], [Str(t)]) == if t == "" then [] else [(JsonName(f), Str(t))]
  {
    EncodeOne(f, Str(t));
  }

  /** A tag "<name>,<opt>" names the key <name> and carries the one option
      <opt>, so it is omitempty exactly when <opt> is. */
  lemma NameOptionTag(goName: string, name: string, opt: string, k: Kind)
    requires |name| > 0 && forall i :: 0 <= i < |name| ==> name[i] != ','
    requires forall i :: 0 <= i < |opt| ==> opt[i] != ','
    ensures var f := Field(goName, name + "," + opt, k);
      && Options(f.tag) == [opt] && JsonName(f) == name && !Ignored(f)
      && (OmitEmpty(f) <==> opt == "omitempty")
  {
    TagSplit(name, opt);
  }

  // ------------------------------------------------------------ meta setters

  /** strings.ToLower(name) == "id": besides 'i' and 'I', Go's case mapping
      lowers U+0130 (capital I with dot above) to 'i'; only 'd' and 'D' lower
      to 'd'. */
  predicate IsIdName(name: string) {
    |name| == 2 && (name[0] == 'i' || name[0] == 'I' || name[0] == '\U{0130}') && (name[1] == 'd' || name[1] == 'D')
  }

  predicate IsCreatedAt(name: string) { name == "CreatedAt" }

  predicate IsUpdatedAt(name: string) { name == "UpdatedAt" }

  /** The last field whose Go name satisfies `p`. */
  function Last(fields: Descriptor, p: string -> bool): (r: Option<nat>)
    ensures r.Some? ==> r.value < |fields| && p(fields[r.value].goName)
    ensures r.Some? ==> forall j :: r.value < j < |fields| ==> !p(fields[j].goName)
    ensures r.None? ==> forall j :: 0 <= j < |fields| ==> !p(fields[j].goName)
  {
    if |fields| == 0 then None
    else if p(fields[|fields| - 1].goName) then Some(|fields| - 1)
    else Last(fields[..|fields| - 1], p)
  }

  /** The positions MakeMeta binds its setters to (None: the no-op setter). */
  datatype Setters = Setters(id: Option<nat>, createdAt: Option<nat>, updatedAt: Option<nat>)

  /** reflection.MakeMeta's loop: a later matching field replaces an earlier one. */
  method MakeSetters(fields: Descriptor) returns (s: Setters)
    ensures s.id == Last(fields, IsIdName)
    ensures s.createdAt == Last(fields, IsCreatedAt)
    ensures s.updatedAt == Last(fields, IsUpdatedAt)
  {
    s := Setters(None, None, None);
    var i := 0;
    while i < |fields|
      invariant 0 <= i <= |fields|
      invariant s.id == Last(fields[..i], IsIdName)
      invariant s.createdAt == Last(fields[..i], IsCreatedAt)
      invariant s.updatedAt == Last(fields[..i], IsUpdatedAt)
    {
      var name := fields[i].goName;
      assert fields[..i + 1][..i] == fields[..i];
      if IsIdName(name) {
        s := s.(id := Some(i));
      } else if IsCreatedAt(name) {
        s := s.(createdAt := Some(i));
      } else if IsUpdatedAt(name) {
        s := s.(updatedAt := Some(i));
      }
      i := i + 1;
    }
    assert fields[..i] == fields;
  }

  /** Go's assignability of a value of type `k` to a field of type `to`: the
      same type, or an interface the value's type implements. Every type
      implements an empty interface; string has no methods, so of the
      non-empty interfaces only time.Time can implement one. */
  predicate Assignable(k: Kind, to: Kind) {
    to == k || (to.InterfaceKind? && (to.empty || (k == TimeKind && to.timeImplements)))
  }

  /** A setter call: no field is a no-op; reflect's Set panics when a value of
      type `k` is not assignable to the field. */
  function SetAt(fields: Descriptor, vals: Entity, pos: Option<nat>, v: Value, k: Kind): (r: Result<Entity>)
    requires WellTyped(fields, vals)
    requires pos.Some? ==> pos.value < |fields|
    ensures pos.None? ==> r == Ok(vals)
    ensures pos.Some? && !Assignable(k, fields[pos.value].kind) ==> r.Err?
    ensures pos.Some? && Assignable(k, fields[pos.value].kind) ==> r == Ok(vals[pos.value := v])
    ensures r.Ok? && v.Str? ==> WellTyped(fields, r.value)
  {
    if pos.None? then Ok(vals)
    else if !Assignable(k, fields[pos.value].kind) then Err(Panic("reflect.Set: value is not assignable to the field"))
    else Ok(vals[pos.value := v])
  }

  /** A field named "İd" is the id field, as strings.ToLower makes it "id";
      one named "Ïd" is not. */
  lemma DottedCapitalIsId()
    ensures Last([Field("\U{0130}d", "", StringKind)], IsIdName) == Some(0)
    ensures Last([Field("\U{00CF}d", "", StringKind)], IsIdName) == None
  {
  }
}

=== FILE: sorting.dfy ===
/** A sort over an arbitrary "less" relation, standing for Go's sort.Strings and
    sort.Sort. Whatever the relation, the result is a permutation of the input;
    when the relation is a strict weak order on the elements being sorted, the
    result is also ordered by it. The order among equivalent elements is left
    unspecified by every contract here, as it is by Go's unstable sort. */
module Sorting {

  /** No later element is less than an earlier one. */
  predicate SortedBy<T>(s: seq<T>, less: (T, T) -> bool) {
    forall i, j :: 0 <= i < j < |s| ==> !less(s[j], s[i])
  }

  /** `less` is asymmetric and negatively transitive on the elements of `s`,
      that is, a strict weak order there. */
  ghost predicate WeakOrderOn<T>(less: (T, T) -> bool, s: seq<T>) {
    && (forall a, b :: a in s && b in s && less(a, b) ==> !less(b, a))
    && (forall a, b, c :: a in s && b in s && c in s && !less(a, b) && !less(b, c) ==> !less(a, c))
  }

  /** Places `x` before the first element that is not less than it. */
  function Insert<T>(x: T, s: seq<T>, less: (T, T) -> bool): (r: seq<T>)
    ensures multiset(r) == multiset(s) + multiset{x}
    ensures |r| == |s| + 1
  {
    if |s| == 0 then [x]
    else if !less(s[0], x) then [x] + s
    else
      assert s == [s[0]] + s[1..];
      [s[0]] + Insert(x, s[1..], less)
  }

  function Sort<T>(s: seq<T>, less: (T, T) -> bool): (r: seq<T>)
    ensures multiset(r) == multiset(s)
    ensures |r| == |s|
  {
    if |s| == 0 then []
    else
      assert s == [s[0]] + s[1..];
      Insert(s[0], Sort(s[1..], less), less)
  }

  lemma WeakOrderOnSub<T>(less: (T, T) -> bool, s: seq<T>, t: seq<T>)
    requires WeakOrderOn(less, s)
    requires multiset(t) <= multiset(s)
    ensures WeakOrderOn(less, t)
  {
    forall a | a in t ensures a in s {
      assert a in multiset(t);
    }
  }

  /** Prepending an element that nothing in a sorted sequence is less than keeps it sorted. */
  lemma PrependSorted<T>(x: T, s: seq<T>, less: (T, T) -> bool)
    requires SortedBy(s, less)
    requires forall j :: 0 <= j < |s| ==> !less(s[j], x)
    ensures SortedBy([x] + s, less)
  {
    var r := [x] + s;
    forall i, j | 0 <= i < j < |r| ensures !less(r[j], r[i]) {
      if i == 0 {
        assert r[j] == s[j - 1];
      } else {
        assert r[i] == s[i - 1] && r[j] == s[j - 1];
      }
    }
  }

  lemma {:induction false} InsertSorted<T>(x: T, s: seq<T>, less: (T, T) -> bool)
    requires SortedBy(s, less)
    requires WeakOrderOn(less, s + [x])
    ensures SortedBy(Insert(x, s, less), less)
  {
    var all := s + [x];
    if |s| == 0 {
    } else if !less(s[0], x) {
      forall j | 0 <= j < |s| ensures !less(s[j], x) {
        assert s[j] in all && s[0] in all && x in all;
        if j > 0 {
          assert !less(s[j], s[0]);
        }
      }
      PrependSorted(x, s, less);
    } else {
      var tail := s[1..];
      assert s + [x] == [s[0]] + (tail + [x]);
      assert multiset(tail + [x]) <= multiset(all);
      WeakOrderOnSub(less, all, tail + [x]);
      assert SortedBy(tail, less) by {
        forall i, j | 0 <= i < j < |tail| ensures !less(tail[j], tail[i]) {
          assert tail[i] == s[i + 1] && tail[j] == s[j + 1];
        }
      }
      InsertSorted(x, tail, less);
      var rest := Insert(x, tail, less);
      forall j | 0 <= j < |rest| ensures !less(rest[j], s[0]) {
        assert rest[j] in multiset(rest);
        assert rest[j] in multiset(tail) || rest[j] == x;
        if rest[j] == x {
          assert s[0] in all && x in all;
        } else {
          assert rest[j] in tail;
          var k :| 0 <= k < |tail| && tail[k] == rest[j];
          assert s[k + 1] == rest[j];
        }
      }
      PrependSorted(s[0], rest, less);
    }
  }

  /** The result of `Sort` is ordered whenever `less` is a strict weak order on the input. */
  lemma {:induction false} SortSorted<T>(s: seq<T>, less: (T, T) -> bool)
    requires WeakOrderOn(less, s)
    ensures SortedBy(Sort(s, less), less)
  {
    if |s| > 0 {
      assert s == [s[0]] + s[1..];
      assert multiset(s[1..]) <= multiset(s);
      WeakOrderOnSub(less, s, s[1..]);
      SortSorted(s[1..], less);
      var sorted := Sort(s[1..], less);
      assert multiset(sorted + [s[0]]) == multiset(s);
      WeakOrderOnSub(less, s, sorted + [s[0]]);
      InsertSorted(s[0], sorted, less);
    }
  }

  /** Sorting three elements, by the comparisons insertion sort makes:
      inserting `b` before `c`, then `a` into the result. */
  lemma SortThree<T>(a: T, b: T, c: T, less: (T, T) -> bool)
    ensures var bc := if !less(c, b) then [b, c] else [c, b];
      Sort([a, b, c], less) == Insert(a, bc, less)
  {
    assert [a, b, c][1..] == [b, c] && [b, c][1..] == [c] && [c][1..] == [];
    assert Sort([c], less) == Insert(c, [], less) == [c];
    assert Sort([b, c], less) == Insert(b, [c], less);
    assert Insert(b, [c], less) == if !less(c, b) then [b, c] else [c, b];
    assert Sort([a, b, c], less) == Insert(a, Sort([b, c], less), less);
  }

  /** Inserting into a sorted pair. */
  lemma InsertTwo<T>(x: T, y: T, z: T, less: (T, T) -> bool)
    ensures Insert(x, [y, z], less) ==
      if !less(y, x) then [x, y, z] else if !less(z, x) then [y, x, z] else [y, z, x]
  {
    assert [y, z][1..] == [z];
    assert Insert(x, [z], less) == if !less(z, x) then [x, z] else [z, x];
  }
}

=== FILE: sortiter.dfy ===
/** The sort stage (kv/sortiter.go) and the iterator pipeline a view builds.
    The first Next drains the wrapped iterator, decoding every value, and
    sorts the pairs lexicographically by the sort fields; later calls step
    through the sorted pairs. The sort is Go's unstable sort.Sort, so the
    contracts here fix the result only up to the order of pairs the sort
    fields cannot tell apart. */
module SortIter {
  import opened Wrappers
  import opened Values
  import opened Docs
  import opened Kv
  import Strings
  import Sorting
  import FilterIter
  import KeysIter

  /** What panic(err) reports when a drained value does not decode. */
  const DecodePanic: Error := Panic("json.Unmarshal")

  // ------------------------------------------------------------ inner iterators

  /** The iterators the sort stage can wrap: the scan or the index iterator. */
  datatype Inner = Scan(scan: FilterIter.Iter) | Index(index: KeysIter.Iter) {
    predicate Valid() {
      match this
      case Scan(f) => f.Valid()
      case Index(k) => k.Valid()
    }
  }

  /** Draining the wrapped iterator. */
  function InnerCollect(i: Inner): Drained
    requires i.Valid()
  {
    match i
    case Scan(f) => FilterIter.Collect(f)
    case Index(k) => KeysIter.Collect(k)
  }

  // ------------------------------------------------------------ order

  /** A sort field: "-name" sorts by `name`, descending. */
  function FieldOf(f: string): (string, bool) {
    if Strings.HasPrefix(f, "-") then (f[1..], false) else (f, true)
  }

  /** sortIter.Less on two decoded documents: the first sort field on which
      Compare tells them apart decides, in that field's direction; a missing
      field reads as nil; documents equal on every field are not less. */
  function LessBy(fields: seq<string>, a: Doc, b: Doc): bool
    decreases |fields|
  {
    if |fields| == 0 then false
    else
      var (k, asc) := FieldOf(fields[0]);
      var t := Compare(Docs.Get(a, k), Docs.Get(b, k));
      if t == 0 then LessBy(fields[1..], a, b)
      else if t < 0 then asc
      else !asc
  }

  /** The document of a drained pair. The stage decodes every value before
      it compares any, so the empty fallback is never compared. */
  function DocOf(e: Entry): Doc {
    match e.1
    case Json(d) => d
    case Bytes(_) => []
  }

  function LessEntries(fields: seq<string>): (Entry, Entry) -> bool {
    (a: Entry, b: Entry) => LessBy(fields, DocOf(a), DocOf(b))
  }

  /** Every sort field of `d` holds nil, a number or a string, the values on
      which Compare is a total order. */
  predicate OrderedOn(fields: seq<string>, d: Doc) {
    forall i :: 0 <= i < |fields| ==> Ordered(Docs.Get(d, FieldOf(fields[i]).0))
  }

  lemma OrderedOnTail(fields: seq<string>, d: Doc)
    requires |fields| > 0 && OrderedOn(fields, d)
    ensures Ordered(Docs.Get(d, FieldOf(fields[0]).0)) && OrderedOn(fields[1..], d)
  {
    forall i | 0 <= i < |fields| - 1 ensures Ordered(Docs.Get(d, FieldOf(fields[1..][i]).0)) {
      assert fields[1..][i] == fields[i + 1];
    }
  }

  /** Less is asymmetric on documents whose sort fields are ordered. */
  lemma {:induction false} LessByAsymmetric(fields: seq<string>, a: Doc, b: Doc)
    requires OrderedOn(fields, a) && OrderedOn(fields, b)
    ensures LessBy(fields, a, b) ==> !LessBy(fields, b, a)
    decreases |fields|
  {
    if |fields| > 0 {
      var k := FieldOf(fields[0]).0;
      OrderedOnTail(fields, a);
      OrderedOnTail(fields, b);
      OrderedTotal(Docs.Get(a, k), Docs.Get(b, k));
      LessByAsymmetric(fields[1..], a, b);
    }
  }

  lemma Transitive3(x: Value, y: Value, z: Value)
    requires Ordered(x) && Ordered(y) && Ordered(z)
    ensures Compare(x, y) < 0 && Compare(y, z) < 0 ==> Compare(x, z) < 0
    ensures Compare(y, x) < 0 && Compare(x, z) < 0 ==> Compare(y, z) < 0
    ensures Compare(x, z) < 0 && Compare(z, y) < 0 ==> Compare(x, y) < 0
    ensures Compare(z, x) < 0 && Compare(x, y) < 0 ==> Compare(z, y) < 0
    ensures Compare(y, z) < 0 && Compare(z, x) < 0 ==> Compare(y, x) < 0
    ensures Compare(z, y) < 0 && Compare(y, x) < 0 ==> Compare(z, x) < 0
  {
    if Compare(x, y) < 0 && Compare(y, z) < 0 { OrderedTransitive(x, y, z); }
    if Compare(y, x) < 0 && Compare(x, z) < 0 { OrderedTransitive(y, x, z); }
    if Compare(x, z) < 0 && Compare(z, y) < 0 { OrderedTransitive(x, z, y); }
    if Compare(z, x) < 0 && Compare(x, y) < 0 { OrderedTransitive(z, x, y); }
    if Compare(y, z) < 0 && Compare(z, x) < 0 { OrderedTransitive(y, z, x); }
    if Compare(z, y) < 0 && Compare(y, x) < 0 { OrderedTransitive(z, y, x); }
  }

  /** Less is negatively transitive on documents whose sort fields are
      ordered: if a is before c, then a is before b or b is before c. */
  lemma {:induction false} LessByNegTransitive(fields: seq<string>, a: Doc, b: Doc, c: Doc)
    requires OrderedOn(fields, a) && OrderedOn(fields, b) && OrderedOn(fields, c)
    ensures LessBy(fields, a, c) ==> LessBy(fields, a, b) || LessBy(fields, b, c)
    decreases |fields|
  {
    if |fields| > 0 {
      var k := FieldOf(fields[0]).0;
      OrderedOnTail(fields, a);
      OrderedOnTail(fields, b);
      OrderedOnTail(fields, c);
      var x, y, z := Docs.Get(a, k), Docs.Get(b, k), Docs.Get(c, k);
      OrderedTotal(x, y);
      OrderedTotal(y, z);
      OrderedTotal(x, z);
      Transitive3(x, y, z);
      LessByNegTransitive(fields[1..], a, b, c);
    }
  }

  /** Pairs whose sort fields are all ordered are sorted by a strict weak
      order, so the stage's output is ordered by Less. */
  lemma WeakOrderWhenOrdered(fields: seq<string>, s: seq<Entry>)
    requires forall i :: 0 <= i < |s| ==> OrderedOn(fields, DocOf(s[i]))
    ensures Sorting.WeakOrderOn(LessEntries(fields), s)
  {
    var less := LessEntries(fields);
    forall a, b | a in s && b in s && less(a, b) ensures !less(b, a) {
      LessByAsymmetric(fields, DocOf(a), DocOf(b));
    }
    forall a, b, c | a in s && b in s && c in s && !less(a, b) && !less(b, c) ensures !less(a, c) {
      LessByNegTransitive(fields, DocOf(a), DocOf(b), DocOf(c));
    }
  }

  // ------------------------------------------------------------ the stage

  /** The sort stage: the wrapped iterator, the sort fields, the two flags,
      the sorted pairs and the position of the current one. */
  datatype Iter = Iter(inner: Inner, fields: seq<string>, initialized: bool, closed: bool, data: seq<Entry>, idx: nat) {
    predicate Valid() {
      inner.Valid() && (!closed ==> idx <= |data|)
    }
  }

  function New(inner: Inner, fields: seq<string>): (r: Iter)
    requires inner.Valid()
    ensures r.Valid() && !r.initialized && !r.closed && r.inner == inner && r.fields == fields
  {
    Iter(inner, fields, false, false, [], 0)
  }

  /** Every drained value decodes. */
  predicate AllJson(es: seq<Entry>) {
    forall i :: 0 <= i < |es| ==> es[i].1.Json?
  }

  /** sortIter.Next. */
  function Next(it: Iter): (r: (Iter, Result<bool>))
    requires it.Valid()
    ensures r.0.Valid() && r.0.fields == it.fields && r.0.inner == it.inner
    ensures it.closed ==> r == (it, Ok(false))
    ensures r.1 == Ok(false) ==> r.0.closed
    ensures r.1 == Ok(true) ==> !r.0.closed && r.0.initialized && r.0.idx < |r.0.data|
    ensures !it.closed && !it.initialized && r.1.Ok? ==> AllJson(InnerCollect(it.inner).items) && InnerCollect(it.inner).err.None?
    ensures !it.closed && !it.initialized && r.1.Ok? ==> multiset(r.0.data) == multiset(InnerCollect(it.inner).items)
    ensures it.initialized && r.1 == Ok(true) ==> r.0.data == it.data && r.0.idx == it.idx + 1
  {
    if it.closed then (it, Ok(false))
    else if !it.initialized then
      var d := InnerCollect(it.inner);
      var data := Sorting.Sort(d.items, LessEntries(it.fields));
      var it1 := it.(initialized := true, data := data, idx := 0);
      if !AllJson(d.items) then (it.(initialized := true), Err(DecodePanic))
      else if d.err.Some? then (it1, Err(d.err.value))
      else if 0 >= |data| then (it1.(closed := true), Ok(false))
      else (it1, Ok(true))
    else
      var it1 := it.(idx := it.idx + 1);
      if it1.idx >= |it.data| then (it1.(closed := true), Ok(false)) else (it1, Ok(true))
  }

  /** Calling Next until it reports the end or an error. */
  function Collect(it: Iter): (r: Drained)
    requires it.Valid()
    decreases if it.closed then 0 else 1, if it.initialized then 0 else 1, if it.closed then 0 else |it.data| - it.idx
  {
    var (it1, res) := Next(it);
    match res
    case Err(e) => Drained([], Some(e))
    case Ok(more) =>
      if !more then Drained([], None)
      else
        var rest := Collect(it1);
        Drained([it1.data[it1.idx]] + rest.items, rest.err)
  }

  /** Once the stage has yielded the pair at `idx`, the rest of the sorted
      pairs follow in order. */
  lemma {:induction false} CollectResumed(it: Iter)
    requires it.Valid() && it.initialized && !it.closed && it.idx < |it.data|
    ensures Collect(it) == Drained(it.data[it.idx + 1..], None)
    decreases |it.data| - it.idx
  {
    var (it1, res) := Next(it);
    if res == Ok(true) {
      CollectResumed(it1);
      assert it.data[it.idx + 1..] == [it.data[it1.idx]] + it.data[it1.idx + 1..];
    }
  }

  /** Everything a new sort stage yields, in terms of what the wrapped
      iterator yields: an undecodable value panics, an error of the wrapped
      iterator is passed on, and otherwise all of its pairs come out, once
      each, sorted. */
  lemma CollectNew(inner: Inner, fields: seq<string>)
    requires inner.Valid()
    ensures var d := InnerCollect(inner); var r := Collect(New(inner, fields));
      && (!AllJson(d.items) ==> r == Drained([], Some(DecodePanic)))
      && (AllJson(d.items) && d.err.Some? ==> r == Drained([], d.err))
      && (AllJson(d.items) && d.err.None? ==>
            r == Drained(Sorting.Sort(d.items, LessEntries(fields)), None)
            && multiset(r.items) == multiset(d.items) && |r.items| == |d.items|)
  {
    var it := New(inner, fields);
    var d := InnerCollect(inner);
    var data := Sorting.Sort(d.items, LessEntries(fields));
    var r := Next(it);
    if AllJson(d.items) && d.err.None? {
      assert r.0 == it.(initialized := true, data := data, idx := 0, closed := |data| == 0);
      if |data| > 0 {
        assert r.1 == Ok(true);
        CollectResumed(r.0);
        assert data == [data[0]] + data[1..];
      }
    }
  }

  /** When every drained document holds ordered values in the sort fields,
      the stage's output is ordered by Less. */
  lemma CollectSorted(inner: Inner, fields: seq<string>)
    requires inner.Valid()
    requires forall i :: 0 <= i < |InnerCollect(inner).items| ==> OrderedOn(fields, DocOf(InnerCollect(inner).items[i]))
    ensures Sorting.SortedBy(Collect(New(inner, fields)).items, LessEntries(fields))
  {
    var d := InnerCollect(inner);
    CollectNew(inner, fields);
    if AllJson(d.items) && d.err.None? {
      WeakOrderWhenOrdered(fields, d.items);
      Sorting.SortSorted(d.items, LessEntries(fields));
    }
  }

  // ------------------------------------------------------------ the pipeline

  /** The Iter interface value a view ends up with: a wrapped iterator on its
      own, or the sort stage around it. */
  datatype Pipeline = Plain(inner: Inner) | Sorted(sorter: Iter) {
    predicate Valid() {
      match this
      case Plain(i) => i.Valid()
      case Sorted(s) => s.Valid()
    }
  }

  /** SortIter: with no sort fields the wrapped iterator is returned as is. */
  function Wrap(inner: Inner, fields: seq<string>): (r: Pipeline)
    requires inner.Valid()
    ensures r.Valid()
    ensures |fields| == 0 <==> r.Plain?
    ensures r.Plain? ==> r.inner == inner
  {
    if |fields| == 0 then Plain(inner) else Sorted(New(inner, fields))
  }

  /** Iter.Next on the pipeline. */
  function PipelineNext(p: Pipeline): (r: (Pipeline, Result<bool>))
    requires p.Valid()
    ensures r.0.Valid() && r.0.Plain? == p.Plain?
    ensures r.1 == Ok(true) ==> Current(r.0).Some? && Below(r.0, p)
  {
    match p
    case Plain(Scan(f)) =>
      var (f1, res) := FilterIter.Next(f);
      (Plain(Scan(f1)), res)
    case Plain(Index(k)) =>
      var (k1, more) := KeysIter.Next(k);
      (Plain(Index(k1)), Ok(more))
    case Sorted(s) =>
      var (s1, res) := Next(s);
      (Sorted(s1), res)
  }

  /** Iter.Key and Iter.Value: the current pair, if the last Next yielded one. */
  function Current(p: Pipeline): Option<Entry> {
    match p
    case Plain(Scan(f)) => if f.key.Some? && f.value.Some? then Some((f.key.value, f.value.value)) else None
    case Plain(Index(k)) => if k.key.Some? && k.value.Some? then Some((k.key.value, k.value.value)) else None
    case Sorted(s) => if s.initialized && !s.closed && s.idx < |s.data| then Some(s.data[s.idx]) else None
  }

  // The termination measure of draining a pipeline: closed, initialized,
  // then the pairs left to visit.
  function RankClosed(p: Pipeline): nat {
    match p
    case Plain(Scan(f)) => if f.closed then 0 else 1
    case Plain(Index(k)) => if k.closed then 0 else 1
    case Sorted(s) => if s.closed then 0 else 1
  }

  function RankInit(p: Pipeline): nat {
    match p
    case Plain(Scan(f)) => if f.initialized then 0 else 1
    case Plain(Index(k)) => if k.initialized then 0 else 1
    case Sorted(s) => if s.initialized then 0 else 1
  }

  function RankLeft(p: Pipeline): nat
    requires p.Valid()
  {
    match p
    case Plain(Scan(f)) => |f.cur.entries| - f.cur.next
    case Plain(Index(k)) => |k.keys| - k.idx
    case Sorted(s) => if s.closed then 0 else |s.data| - s.idx
  }

  /** `q` is further along than `p`. */
  predicate Below(q: Pipeline, p: Pipeline)
    requires q.Valid() && p.Valid()
  {
    || RankClosed(q) < RankClosed(p)
    || (RankClosed(q) == RankClosed(p) && RankInit(q) < RankInit(p))
    || (RankClosed(q) == RankClosed(p) && RankInit(q) == RankInit(p) && RankLeft(q) < RankLeft(p))
  }

  /** Calling Next on the pipeline until it reports the end or an error. */
  function PipelineCollect(p: Pipeline): (r: Drained)
    requires p.Valid()
    decreases RankClosed(p), RankInit(p), RankLeft(p)
  {
    var (p1, res) := PipelineNext(p);
    match res
    case Err(e) => Drained([], Some(e))
    case Ok(more) =>
      if !more then Drained([], None)
      else
        var rest := PipelineCollect(p1);
        Drained([Current(p1).value] + rest.items, rest.err)
  }

  /** Draining the pipeline drains the stage it consists of. */
  lemma {:induction false} PipelineCollectIs(p: Pipeline)
    requires p.Valid()
    ensures PipelineCollect(p) == match p
      case Plain(i) => InnerCollect(i)
      case Sorted(s) => Collect(s)
    decreases RankClosed(p), RankInit(p), RankLeft(p)
  {
    var (p1, res) := PipelineNext(p);
    if res == Ok(true) {
      PipelineCollectIs(p1);
    }
  }

  /** With no sort fields, the pipeline yields exactly what the wrapped
      iterator yields. */
  lemma WrapEmpty(inner: Inner)
    requires inner.Valid()
    ensures PipelineCollect(Wrap(inner, [])) == InnerCollect(inner)
  {
    PipelineCollectIs(Wrap(inner, []));
  }

  // Sort("name") and Sort("-name") over bob, rob and ben.
  const Bob: Entry := ("1", Json([("name", Str("bob"))]))
  const Rob: Entry := ("2", Json([("name", Str("rob"))]))
  const Ben: Entry := ("3", Json([("name", Str("ben"))]))

  lemma NamesCompare()
    ensures Compare(Docs.Get(DocOf(Ben), "name"), Docs.Get(DocOf(Bob), "name")) == -1
    ensures Compare(Docs.Get(DocOf(Bob), "name"), Docs.Get(DocOf(Ben), "name")) == 1
    ensures Compare(Docs.Get(DocOf(Bob), "name"), Docs.Get(DocOf(Rob), "name")) == -1
    ensures Compare(Docs.Get(DocOf(Rob), "name"), Docs.Get(DocOf(Bob), "name")) == 1
    ensures Compare(Docs.Get(DocOf(Ben), "name"), Docs.Get(DocOf(Rob), "name")) == -1
    ensures Compare(Docs.Get(DocOf(Rob), "name"), Docs.Get(DocOf(Ben), "name")) == 1
    ensures FieldOf("name") == ("name", true) && FieldOf("-name") == ("name", false)
  {
    assert Strings.Cmp("ben", "bob") == -1 && Strings.Cmp("bob", "ben") == 1;
    assert Strings.Cmp("bob", "rob") == -1 && Strings.Cmp("rob", "bob") == 1;
    assert Strings.Cmp("ben", "rob") == -1 && Strings.Cmp("rob", "ben") == 1;
    assert !Strings.HasPrefix("name", "-") by { assert "name"[..1][0] == 'n'; }
    assert Strings.HasPrefix("-name", "-") && "-name"[1..] == "name";
  }

  lemma NamesAscending()
    ensures var asc := LessEntries(["name"]);
      asc(Ben, Rob) && !asc(Rob, Ben) && asc(Bob, Rob) && !asc(Rob, Bob) && asc(Ben, Bob) && !asc(Bob, Ben)
  {
    NamesCompare();
  }

  lemma NamesDescending()
    ensures var desc := LessEntries(["-name"]);
      desc(Rob, Ben) && !desc(Ben, Rob) && desc(Rob, Bob) && !desc(Bob, Rob) && desc(Bob, Ben) && !desc(Ben, Bob)
  {
    NamesCompare();
  }

  /** Sort("name") gives ben, bob, rob. */
  lemma SortByNameAscending()
    ensures Sorting.Sort([Bob, Rob, Ben], LessEntries(["name"])) == [Ben, Bob, Rob]
  {
    var asc := LessEntries(["name"]);
    NamesAscending();
    Sorting.SortThree(Bob, Rob, Ben, asc);
    Sorting.InsertTwo(Bob, Ben, Rob, asc);
  }

  /** Sort("-name") gives rob, bob, ben. */
  lemma SortByNameDescending()
    ensures Sorting.Sort([Bob, Rob, Ben], LessEntries(["-name"])) == [Rob, Bob, Ben]
  {
    var desc := LessEntries(["-name"]);
    NamesDescending();
    Sorting.SortThree(Bob, Rob, Ben, desc);
    Sorting.InsertTwo(Bob, Rob, Ben, desc);
  }
}

=== FILE: strings.dfy ===
/** Go's byte-string operations the engine relies on. A Go string is a sequence
    of bytes; here it is a Dafny `string` whose every char stands for one byte,
    so char order is byte order. */
module Strings {
  import opened Wrappers
  import Sorting

  /** strings.Compare: lexicographic three-way comparison. */
  function Cmp(a: string, b: string): (c: int)
    ensures -1 <= c <= 1
    ensures c == 0 <==> a == b
  {
    if |a| == 0 then (if |b| == 0 then 0 else -1)
    else if |b| == 0 then 1
    else if a[0] < b[0] then -1
    else if a[0] > b[0] then 1
    else
      assert a == [a[0]] + a[1..] && b == [b[0]] + b[1..];
      Cmp(a[1..], b[1..])
  }

  /** Go's `<` on strings. */
  predicate Less(a: string, b: string) {
    Cmp(a, b) < 0
  }

  lemma {:induction false} CmpAntisymmetric(a: string, b: string)
    ensures Cmp(b, a) == -Cmp(a, b)
  {
    if |a| > 0 && |b| > 0 && a[0] == b[0] {
      CmpAntisymmetric(a[1..], b[1..]);
    }
  }

  lemma {:induction false} CmpTransitive(a: string, b: string, c: string)
    requires Cmp(a, b) < 0 && Cmp(b, c) < 0
    ensures Cmp(a, c) < 0
  {
    if |a| > 0 && |b| > 0 && |c| > 0 && a[0] == b[0] && b[0] == c[0] {
      CmpTransitive(a[1..], b[1..], c[1..]);
    }
  }

  /** Go's string `<` is a strict total order, hence a strict weak order on any sequence. */
  lemma LessWeakOrder(s: seq<string>)
    ensures Sorting.WeakOrderOn(Less, s)
  {
    forall a, b | Less(a, b) ensures !Less(b, a) {
      CmpAntisymmetric(a, b);
    }
    forall a, b, c | !Less(a, b) && !Less(b, c) ensures !Less(a, c) {
      CmpAntisymmetric(a, b);
      CmpAntisymmetric(b, c);
      CmpAntisymmetric(a, c);
      if Less(a, c) {
        if Cmp(a, b) == 0 {
        } else if Cmp(b, c) == 0 {
        } else {
          CmpTransitive(c, b, a);
        }
      }
    }
  }

  /** sort.Strings: ascending byte order. */
  function SortStrings(s: seq<string>): (r: seq<string>)
    ensures multiset(r) == multiset(s)
    ensures Sorting.SortedBy(r, Less)
  {
    LessWeakOrder(s);
    Sorting.SortSorted(s, Less);
    Sorting.Sort(s, Less)
  }

  /** Ascending with no repeats. */
  predicate StrictlySorted(s: seq<string>) {
    forall i, j :: 0 <= i < j < |s| ==> Less(s[i], s[j])
  }

  lemma SortedDistinctIsStrict(s: seq<string>)
    requires Sorting.SortedBy(s, Less)
    requires forall i, j :: 0 <= i < j < |s| ==> s[i] != s[j]
    ensures StrictlySorted(s)
  {
    forall i, j | 0 <= i < j < |s| ensures Less(s[i], s[j]) {
      CmpAntisymmetric(s[i], s[j]);
    }
  }

  lemma NoMembersEmpty<T>(s: seq<T>, t: seq<T>)
    requires |s| == 0
    requires forall x :: x in s <==> x in t
    ensures t == []
  {
    assert s == [];
    assert forall x :: x !in t;
    forall x ensures multiset(t)[x] == 0 {
      assert x !in t;
    }
    assert multiset(t) == multiset{};
  }

  /** Two strictly ascending sequences with the same elements are the same sequence. */
  lemma {:induction false} StrictlySortedUnique(s: seq<string>, t: seq<string>)
    requires StrictlySorted(s) && StrictlySorted(t)
    requires forall x :: x in s <==> x in t
    ensures s == t
  {
    if |s| == 0 {
      NoMembersEmpty(s, t);
    } else if |t| == 0 {
      NoMembersEmpty(t, s);
    } else {
      if s[0] != t[0] {
        assert s[0] in t && t[0] in s;
        var i :| 0 <= i < |t| && t[i] == s[0];
        var j :| 0 <= j < |s| && s[j] == t[0];
        assert Less(t[0], s[0]);
        assert Less(s[0], t[0]);
        CmpAntisymmetric(s[0], t[0]);
        assert false;
      }
      forall x ensures x in s[1..] <==> x in t[1..] {
        if x in s[1..] {
          var i :| 0 <= i < |s| - 1 && s[1..][i] == x;
          assert s[i + 1] == x;
          assert Less(s[0], x);
          assert x in t;
          var k :| 0 <= k < |t| && t[k] == x;
          assert k != 0;
          assert t[1..][k - 1] == x;
        }
        if x in t[1..] {
          var i :| 0 <= i < |t| - 1 && t[1..][i] == x;
          assert t[i + 1] == x;
          assert Less(t[0], x);
          assert x in s;
          var k :| 0 <= k < |s| && s[k] == x;
          assert k != 0;
          assert s[1..][k - 1] == x;
        }
      }
      StrictlySortedUnique(s[1..], t[1..]);
      assert s == [s[0]] + s[1..] && t == [t[0]] + t[1..];
    }
  }

  predicate HasPrefix(s: string, p: string) {
    |p| <= |s| && s[..|p|] == p
  }

  /** strings.Join. */
  function Join(parts: seq<string>, sep: string): (r: string)
    ensures |parts| == 0 ==> r == ""
    ensures |parts| == 1 ==> r == parts[0]
  {
    if |parts| == 0 then ""
    else if |parts| == 1 then parts[0]
    else parts[0] + sep + Join(parts[1..], sep)
  }

  // ---- decimal integers (strconv.FormatInt / strconv.ParseInt, base 10, 64 bits) ----

  const Int64Min: int := -0x8000_0000_0000_0000
  const Int64Max: int := 0x7FFF_FFFF_FFFF_FFFF

  predicate IsDigit(c: char) {
    '0' <= c <= '9'
  }

  predicate AllDigits(s: string) {
    forall i :: 0 <= i < |s| ==> IsDigit(s[i])
  }

  function DigitChar(d: int): (c: char)
    requires 0 <= d < 10
    ensures IsDigit(c)
  {
    (48 + d) as char
  }

  /** The decimal digits of `n`, most significant first, without leading zeros. */
  function Digits(n: nat): (s: string)
    ensures |s| > 0 && AllDigits(s)
    decreases n
  {
    if n < 10 then [DigitChar(n)]
    else Digits(n / 10) + [DigitChar(n % 10)]
  }

  /** strconv.FormatInt(i, 10). */
  function FormatInt(i: int): string {
    if i < 0 then "-" + Digits(-i) else Digits(i)
  }

  /** The number a string of decimal digits denotes. */
  function DigitsValue(s: string): nat
    requires AllDigits(s)
  {
    if |s| == 0 then 0
    else DigitsValue(s[..|s| - 1]) * 10 + (s[|s| - 1] as int - 48)
  }

  /** strconv.ParseInt(s, 10, 64): an optional sign, at least one digit, and a
      value within the int64 range; anything else is an error (None). */
  function ParseInt(s: string): (r: Option<int>)
    ensures r.Some? ==> Int64Min <= r.value <= Int64Max
  {
    if |s| == 0 then None
    else
      var body := if s[0] == '+' || s[0] == '-' then s[1..] else s;
      if |body| == 0 || !AllDigits(body) then None
      else
        var n: int := DigitsValue(body);
        if s[0] == '-' then (if n <= -Int64Min then Some(-n) else None)
        else if n <= Int64Max then Some(n) else None
  }

  lemma {:induction false} DigitsValueOfDigits(n: nat)
    ensures DigitsValue(Digits(n)) == n
    decreases n
  {
    if n >= 10 {
      var s := Digits(n);
      assert s[..|s| - 1] == Digits(n / 10);
      DigitsValueOfDigits(n / 10);
    }
  }

  /** ParseInt inverts FormatInt on the int64 range. */
  lemma FormatIntRoundTrip(i: int)
    requires Int64Min <= i <= Int64Max
    ensures ParseInt(FormatInt(i)) == Some(i)
  {
    var s := FormatInt(i);
    if i < 0 {
      assert s[1..] == Digits(-i);
      DigitsValueOfDigits(-i);
    } else {
      assert IsDigit(s[0]);
      DigitsValueOfDigits(i);
    }
  }

  /** Distinct int64 values format to distinct strings. */
  lemma FormatIntInjective(i: int, j: int)
    requires Int64Min <= i <= Int64Max && Int64Min <= j <= Int64Max
    requires FormatInt(i) == FormatInt(j)
    ensures i == j
  {
    FormatIntRoundTrip(i);
    FormatIntRoundTrip(j);
  }
}

=== FILE: view.dfy ===
/** A query over a collection (kv/view.go): a filter with limit, skip and
    sort, and the cursor it opens. The cursor takes the index path (the keys
    the planner resolves, fetched one by one) when the filter is non-empty
    and the planner finds it suitable, and the scan otherwise; the sort stage
    wraps whichever it took, so it reorders the window skip and limit have
    already cut. */
module View {
  import opened Wrappers
  import Docs
  import opened Kv
  import opened Query
  import Strings
  import Filter
  import Lookup
  import FilterIter
  import KeysIter
  import opened SortIter
  import opened ViewCursor
  import Bolt
  import Schema
  import Consistency

  datatype View = View(collection: string, filter: seq<Node>, limit: int, skip: int, sort: seq<string>)

  /** collection.Find: the view of the documents the filter selects. */
  function FindView(c: string, filter: seq<Node>): (r: View)
    ensures r.collection == c && r.filter == filter && r.limit == 0 && r.skip == 0 && r.sort == []
  {
    View(c, filter, 0, 0, [])
  }

  /** view.Limit: a copy differing in the limit only. */
  function Limit(v: View, n: int): (r: View)
    ensures r.limit == n && r.(limit := v.limit) == v
  {
    v.(limit := n)
  }

  /** view.Skip: a copy differing in the skip only. */
  function Skip(v: View, n: int): (r: View)
    ensures r.skip == n && r.(skip := v.skip) == v
  {
    v.(skip := n)
  }

  /** view.Sort: a copy differing in the sort fields only. */
  function Sort(v: View, fields: seq<string>): (r: View)
    ensures r.sort == fields && r.(sort := v.sort) == v
  {
    v.(sort := fields)
  }

  /** The planner's choice in view.cursor. */
  predicate ByIndex(st: Store, v: View) {
    |v.filter| > 0 && Lookup.AllSuitable(st, v.collection, v.filter)
  }

  /** The scan of bucket `b` under the view's filter, limit and skip. */
  function ScanOf(v: View, b: Bucket): (r: Result<Inner>)
    ensures r.Ok? <==> Filter.MakeFilterFn(v.filter).Ok?
    ensures r.Ok? ==> r.value.Valid() && r.value.Scan? && r.value.scan == FilterIter.New(CursorOf(b), v.filter, v.limit, v.skip).value
  {
    var f :- FilterIter.New(CursorOf(b), v.filter, v.limit, v.skip);
    Ok(Scan(f))
  }

  /** The iterator view.cursor builds over bucket `b`: the index iterator over
      the planner's keys, or the scan. Building either can panic: the planner
      on an empty And, the filter compiler on a malformed filter. */
  function Plan(st: Store, v: View, b: Bucket): (r: Result<Inner>)
    ensures r.Ok? ==> r.value.Valid()
    ensures r.Ok? ==> (r.value.Index? <==> ByIndex(st, v))
    ensures ByIndex(st, v) ==> (r.Ok? <==> Lookup.Find(st, v.collection, v.filter).Ok?)
    ensures ByIndex(st, v) && r.Ok? ==>
      r.value.index == KeysIter.New(CursorOf(b), Lookup.Find(st, v.collection, v.filter).value, v.limit, v.skip)
    ensures !ByIndex(st, v) ==> r == ScanOf(v, b)
  {
    if ByIndex(st, v) then
      var keys :- Lookup.Find(st, v.collection, v.filter);
      Ok(Index(KeysIter.New(CursorOf(b), keys, v.limit, v.skip)))
    else ScanOf(v, b)
  }

  /** view.cursor: a missing collection bucket is errNotFound; otherwise the
      planned iterator, wrapped in the sort stage when there are sort fields,
      in a fresh transaction. */
  function OpenCursor(st: Store, v: View, writable: bool, commitErr: Option<Error>): (r: Result<ViewCursor.Cursor>)
    ensures Open(st, v.collection).None? ==> r == Err(NotFound)
    ensures Open(st, v.collection).Some? ==> (r.Ok? <==> Plan(st, v, Open(st, v.collection).value).Ok?)
    ensures r.Ok? ==> r.value.Valid() && !r.value.closed && r.value.tx == Bolt.Begin(writable, commitErr)
    ensures r.Ok? ==> r.value.iter == Wrap(Plan(st, v, Open(st, v.collection).value).value, v.sort)
  {
    match Open(st, v.collection)
    case None => Err(NotFound)
    case Some(b) =>
      var inner :- Plan(st, v, b);
      Ok(ViewCursor.Cursor(Bolt.Begin(writable, commitErr), Wrap(inner, v.sort), false))
  }

  /** What the view yields: the pairs its pipeline produces before the end or
      the first error. */
  function Yields(st: Store, v: View): (r: seq<Entry>)
    requires OpenCursor(st, v, false, None).Ok?
  {
    PipelineCollect(OpenCursor(st, v, false, None).value.iter).items
  }

  /** The panic that ends the view's pipeline, if one does. */
  function Unwinds(st: Store, v: View): (r: Option<Error>)
    requires OpenCursor(st, v, false, None).Ok?
  {
    PanicOf(PipelineCollect(OpenCursor(st, v, false, None).value.iter).err)
  }

  /** view.Count: the number of successful next() calls; a panic in the
      pipeline is passed on instead. */
  function Count(st: Store, v: View): (r: Result<nat>)
    ensures OpenCursor(st, v, false, None).Err? ==> r == Err(OpenCursor(st, v, false, None).error)
    ensures OpenCursor(st, v, false, None).Ok? ==>
      r == if Unwinds(st, v).Some? then Err(Unwinds(st, v).value) else Ok(|Yields(st, v)|)
  {
    var c :- OpenCursor(st, v, false, None);
    DrainYields(c);
    var (_, d) := Drain(c);
    if d.err.Some? then Err(d.err.value) else Ok(|d.items|)
  }

  /** view.One: the first pair, decoded; errNotFound when there is none; a
      panic before the first pair is passed on. */
  function One(st: Store, v: View): (r: Result<Docs.Doc>)
    ensures OpenCursor(st, v, false, None).Err? ==> r == Err(OpenCursor(st, v, false, None).error)
    ensures OpenCursor(st, v, false, None).Ok? && |Yields(st, v)| == 0 ==>
      r == Err(if Unwinds(st, v).Some? then Unwinds(st, v).value else NotFound)
    ensures OpenCursor(st, v, false, None).Ok? && |Yields(st, v)| > 0 ==> r == Decode(Yields(st, v)[0].1)
  {
    var c :- OpenCursor(st, v, false, None);
    FirstStep(c);
    var (c1, res) := Step(c);
    match res
    case Err(e) => Err(e)
    case Ok(more) =>
      if !more then Err(NotFound)
      else Decode(Current(c1.iter).value.1)
  }

  /** The items view.All fills in: each yielded value decoded, with the key as
      its id; the first value that does not decode stops it with the error. */
  function DecodeAll(es: seq<Entry>): (r: Result<seq<(string, Docs.Doc)>>)
    ensures r.Ok? <==> AllJson(es)
    ensures r.Ok? ==> |r.value| == |es|
    ensures r.Ok? ==> forall i :: 0 <= i < |es| ==> es[i] == (r.value[i].0, Json(r.value[i].1))
    ensures r.Err? ==> r.error == DecodeFailed
  {
    if |es| == 0 then Ok([])
    else
      var d :- Decode(es[0].1);
      var rest :- DecodeAll(es[1..]);
      assert forall i :: 1 <= i < |es| ==> es[i] == es[1..][i - 1];
      Ok([(es[0].0, d)] + rest)
  }

  /** view.All. `sliceAddr` says whether the target is a pointer to a slice.
      Values are decoded as they come, so a value that does not decode ends
      it before a panic that would follow. */
  function All(st: Store, v: View, sliceAddr: bool): (r: Result<seq<(string, Docs.Doc)>>)
    ensures !sliceAddr ==> r == Err(NotSliceAddr)
    ensures sliceAddr && OpenCursor(st, v, false, None).Err? ==> r == Err(OpenCursor(st, v, false, None).error)
    ensures sliceAddr && OpenCursor(st, v, false, None).Ok? ==>
      r == if DecodeAll(Yields(st, v)).Ok? && Unwinds(st, v).Some? then Err(Unwinds(st, v).value) else DecodeAll(Yields(st, v))
  {
    if !sliceAddr then Err(NotSliceAddr)
    else
      var c :- OpenCursor(st, v, false, None);
      DrainYields(c);
      var (_, d) := Drain(c);
      var items :- DecodeAll(d.items);
      if d.err.Some? then Err(d.err.value) else Ok(items)
  }

  // ------------------------------------------------------------ window

  /** The sort stage only reorders what the wrapped iterator yields: with sort
      fields, the view yields a permutation of what it yields without them. */
  lemma SortReordersWindow(st: Store, v: View)
    requires OpenCursor(st, v, false, None).Ok? && |v.sort| > 0
    requires PipelineCollect(OpenCursor(st, Sort(v, []), false, None).value.iter).err.None?
    requires AllJson(Yields(st, Sort(v, [])))
    ensures OpenCursor(st, Sort(v, []), false, None).Ok?
    ensures multiset(Yields(st, v)) == multiset(Yields(st, Sort(v, [])))
  {
    var inner := Plan(st, v, Open(st, v.collection).value).value;
    assert Plan(st, Sort(v, []), Open(st, v.collection).value) == Plan(st, v, Open(st, v.collection).value);
    PipelineCollectIs(Wrap(inner, v.sort));
    PipelineCollectIs(Wrap(inner, []));
    CollectNew(inner, v.sort);
  }

  /** The output of a pipeline depends only on what its wrapped iterator
      yields, whichever iterator that is. */
  lemma WrapSameDrain(i1: Inner, i2: Inner, fields: seq<string>)
    requires i1.Valid() && i2.Valid() && InnerCollect(i1) == InnerCollect(i2)
    ensures PipelineCollect(Wrap(i1, fields)) == PipelineCollect(Wrap(i2, fields))
  {
    PipelineCollectIs(Wrap(i1, fields));
    PipelineCollectIs(Wrap(i2, fields));
    if |fields| > 0 {
      CollectNew(i1, fields);
      CollectNew(i2, fields);
    }
  }

  // ------------------------------------------------------------ planner agreement

  /** Strictly key-sorted entry lists with the same members are equal. */
  lemma {:induction false} EntriesUnique(a: seq<Entry>, b: seq<Entry>)
    requires KeysSorted(a) && KeysSorted(b)
    requires forall e :: e in a <==> e in b
    ensures a == b
    decreases |a|
  {
    if |a| == 0 {
      Strings.NoMembersEmpty(a, b);
    } else if |b| == 0 {
      Strings.NoMembersEmpty(b, a);
    } else {
      if a[0] != b[0] {
        assert a[0] in b && b[0] in a;
        var i :| 0 <= i < |b| && b[i] == a[0];
        var j :| 0 <= j < |a| && a[j] == b[0];
        assert i > 0 && j > 0;
        assert Strings.Less(b[0].0, a[0].0) && Strings.Less(a[0].0, b[0].0);
        Strings.CmpAntisymmetric(a[0].0, b[0].0);
        assert false;
      }
      SortedTail(a);
      SortedTail(b);
      forall e ensures e in a[1..] <==> e in b[1..] {
        if e in a[1..] {
          var i :| 0 <= i < |a| - 1 && a[1..][i] == e;
          assert a[i + 1] == e && Strings.Less(a[0].0, e.0);
          assert e in a;
          var k :| 0 <= k < |b| && b[k] == e;
          assert k != 0 && b[1..][k - 1] == e;
        }
        if e in b[1..] {
          var i :| 0 <= i < |b| - 1 && b[1..][i] == e;
          assert b[i + 1] == e && Strings.Less(b[0].0, e.0);
          assert e in b;
          var k :| 0 <= k < |a| && a[k] == e;
          assert k != 0 && a[1..][k - 1] == e;
        }
      }
      EntriesUnique(a[1..], b[1..]);
      assert a == [a[0]] + a[1..] && b == [b[0]] + b[1..];
    }
  }

  /** In a key-sorted list the entry under a key is the one Find returns. */
  lemma {:induction false} FindMember(es: seq<Entry>, e: Entry)
    requires KeysSorted(es) && e in es
    ensures Find(es, e.0) == Some(e.1)
    decreases |es|
  {
    if es[0] != e {
      var i :| 0 <= i < |es| && es[i] == e;
      assert i > 0;
      assert es[0].0 != e.0 by {
        assert Strings.Less(es[0].0, es[i].0);
      }
      SortedTail(es);
      assert es[1..][i - 1] == e;
      FindMember(es[1..], e);
    }
  }

  /** The members of the scan's matches. */
  lemma {:induction false} MatchesMembers(fn: Option<Filter.Pred>, es: seq<Entry>)
    requires FilterIter.Clean(fn, es)
    ensures forall e :: e in FilterIter.Matches(fn, es) <==> e in es && FilterIter.Accept(fn, e) == Ok(true)
    decreases |es|
  {
    if |es| > 0 {
      FilterIter.CleanTail(fn, es, 1);
      MatchesMembers(fn, es[1..]);
      assert es == [es[0]] + es[1..];
    }
  }

  lemma {:induction false} MatchesSorted(fn: Option<Filter.Pred>, es: seq<Entry>)
    requires FilterIter.Clean(fn, es) && KeysSorted(es)
    ensures KeysSorted(FilterIter.Matches(fn, es))
    decreases |es|
  {
    if |es| > 0 {
      FilterIter.CleanTail(fn, es, 1);
      SortedTail(es);
      MatchesSorted(fn, es[1..]);
      var rest := FilterIter.Matches(fn, es[1..]);
      MatchesMembers(fn, es[1..]);
      forall i | 0 <= i < |rest| ensures Strings.Less(es[0].0, rest[i].0) {
        assert rest[i] in es[1..];
        var j :| 0 <= j < |es| - 1 && es[1..][j] == rest[i];
        assert es[j + 1] == rest[i];
      }
      if FilterIter.Accept(fn, es[0]).value {
        SortedPrepend(es[0], rest);
      }
    }
  }

  /** Seeks that each land on the key sought, taken in strictly increasing
      key order, fetch entries in key order. */
  lemma {:induction false} FoundSorted(cur: Kv.Cursor, ks: seq<string>)
    requires Strings.StrictlySorted(ks)
    requires forall i :: 0 <= i < |ks| && CursorSeek(cur, ks[i]).Some? ==> CursorSeek(cur, ks[i]).value.0 == ks[i]
    ensures KeysSorted(KeysIter.Found(cur, ks))
    decreases |ks|
  {
    if |ks| > 0 {
      assert Strings.StrictlySorted(ks[1..]) by {
        forall i, j | 0 <= i < j < |ks| - 1 ensures Strings.Less(ks[1..][i], ks[1..][j]) {
          assert ks[1..][i] == ks[i + 1] && ks[1..][j] == ks[j + 1];
        }
      }
      FoundSorted(cur, ks[1..]);
      var rest := KeysIter.Found(cur, ks[1..]);
      KeysIter.FoundMembers(cur, ks[1..]);
      forall i | 0 <= i < |rest| ensures Strings.Less(ks[0], rest[i].0) {
        assert rest[i] in rest;
        var j :| 0 <= j < |ks| - 1 && CursorSeek(cur, ks[1..][j]) == Some(rest[i]);
        assert ks[j + 1] == rest[i].0;
      }
      match CursorSeek(cur, ks[0])
      case Some(e) => SortedPrepend(e, rest);
      case None =>
    }
  }

  /** Every stored value of the bucket is a JSON document. */
  predicate AllDocs(b: Bucket) {
    AllJson(b.entries)
  }

  /** A key with a stored document is a key of the collection's bucket. */
  lemma DocStored(st: Store, c: string, b: Bucket, k: string)
    requires Open(st, c) == Some(b) && Consistency.DocOf(st, c, k).Some?
    ensures HasKey(b.entries, k)
  {
    assert Read(st, c, k).Some?;
  }

  /** When every listed key is stored, bolt's seeks land on the keys
      themselves: the index path fetches exactly the stored entries of the
      listed keys, in key order when the list is. */
  lemma FoundStored(b: Bucket, keys: seq<string>)
    requires b.Valid() && Strings.StrictlySorted(keys)
    requires forall k :: k in keys ==> HasKey(b.entries, k)
    ensures KeysSorted(KeysIter.Found(CursorOf(b), keys))
    ensures forall e :: e in KeysIter.Found(CursorOf(b), keys) <==> e.0 in keys && e in b.entries
  {
    var es := b.entries;
    var cur := CursorOf(b);
    forall i | 0 <= i < |keys| ensures CursorSeek(cur, keys[i]) == Some((keys[i], Find(es, keys[i]).value)) {
      assert keys[i] in keys;
      SeekLands(cur, keys[i]);
    }
    KeysIter.FoundMembers(cur, keys);
    FoundSorted(cur, keys);
    forall e ensures e in KeysIter.Found(cur, keys) <==> e.0 in keys && e in es {
      if e in es && e.0 in keys {
        FindMember(es, e);
        var i :| 0 <= i < |keys| && keys[i] == e.0;
        assert CursorSeek(cur, keys[i]) == Some(e);
      }
      if e in KeysIter.Found(cur, keys) {
        var i :| 0 <= i < |keys| && CursorSeek(cur, keys[i]) == Some(e);
        assert keys[i] in keys;
        var p :| 0 <= p < |es| && es[p] == (e.0, e.1);
      }
    }
  }

  /** On a consistent store, for a filter the index answers exactly, the
      index iterator fetches the same entries as the scan accepts. */
  lemma FoundIsMatches(st: Store, c: string, metas: seq<Schema.IdxMeta>, filter: seq<Node>, b: Bucket)
    requires Consistency.Consistent(st, c, metas) && |filter| > 0 && Lookup.AllExact(c, metas, filter)
    requires Open(st, c) == Some(b) && AllDocs(b)
    ensures Filter.MakeFilterFn(filter).Ok? && Lookup.Find(st, c, filter).Ok?
    ensures FilterIter.Clean(Filter.MakeFilterFn(filter).value, b.entries)
    ensures KeysIter.Found(CursorOf(b), Lookup.Find(st, c, filter).value)
      == FilterIter.Matches(Filter.MakeFilterFn(filter).value, b.entries)
  {
    Lookup.FindExact(st, c, metas, filter);
    var keys := Lookup.Find(st, c, filter).value;
    var es := b.entries;
    var cur := CursorOf(b);
    Filter.MakeFilterFnHolds(filter, []);
    var fn := Filter.MakeFilterFn(filter).value;
    forall d: Docs.Doc ensures Filter.Check(fn, d) == Ok(forall i :: 0 <= i < |filter| ==> Filter.Holds(filter[i], d)) {
      Filter.MakeFilterFnHolds(filter, d);
    }
    forall e: Entry | e.1.Json? ensures FilterIter.Accept(fn, e) == Filter.Check(fn, e.1.doc) {
    }
    assert FilterIter.Clean(fn, es);
    assert b.Valid();
    MatchesMembers(fn, es);
    MatchesSorted(fn, es);
    forall k | k in keys ensures HasKey(es, k) {
      DocStored(st, c, b, k);
    }
    FoundStored(b, keys);
    forall e ensures e in KeysIter.Found(cur, keys) <==> e in FilterIter.Matches(fn, es) {
      if e in es {
        FindMember(es, e);
        assert c in st.buckets;
        assert Consistency.DocOf(st, c, e.0) == Some(e.1.doc);
      }
    }
    EntriesUnique(KeysIter.Found(cur, keys), FilterIter.Matches(fn, es));
  }

  /** The planner's choice does not change the result: on a consistent store,
      for a filter whose every test is a non-empty string equality on an
      indexed field, combined by And and Or, and without skip, the view yields
      the stored documents that satisfy the filter, in key order, up to the
      limit, then sorted, whether it took the index path or the scan. */
  lemma PlannerAgrees(st: Store, metas: seq<Schema.IdxMeta>, v: View)
    requires Consistency.Consistent(st, v.collection, metas)
    requires |v.filter| > 0 && Lookup.AllExact(v.collection, metas, v.filter) && v.skip <= 0
    requires Open(st, v.collection).Some? && AllDocs(Open(st, v.collection).value)
    ensures Filter.MakeFilterFn(v.filter).Ok?
    ensures OpenCursor(st, v, false, None).Ok?
    ensures var b := Open(st, v.collection).value;
      var scan := ScanOf(v, b).value;
      && FilterIter.Clean(Filter.MakeFilterFn(v.filter).value, b.entries)
      && InnerCollect(scan) == Drained(Allow(FilterIter.Matches(Filter.MakeFilterFn(v.filter).value, b.entries), v.limit, 0), None)
      && InnerCollect(Plan(st, v, b).value) == InnerCollect(scan)
      && Yields(st, v) == PipelineCollect(Wrap(scan, v.sort)).items
  {
    var c := v.collection;
    var b := Open(st, c).value;
    FoundIsMatches(st, c, metas, v.filter, b);
    var fn := Filter.MakeFilterFn(v.filter).value;
    var scan := ScanOf(v, b).value;
    FilterIter.CollectNoSkip(CursorOf(b), v.filter, v.limit, v.skip);
    var inner := Plan(st, v, b).value;
    if ByIndex(st, v) {
      var keys := Lookup.Find(st, c, v.filter).value;
      KeysIter.CollectNew(CursorOf(b), keys, v.limit, v.skip);
      assert KeysIter.Found(CursorOf(b), keys)[0..] == KeysIter.Found(CursorOf(b), keys);
    }
    WrapSameDrain(inner, scan, v.sort);
  }

  /** q.And{"x"} holds an operand that is not a query, so the filter stage
      calls a nil filter function and panics; Count passes that panic on
      instead of counting. */
  lemma NilFilterPanics()
    ensures var st := Store(map["c" := Bucket([("1", Json([("name", Values.Str("bob"))]))], 1)], false);
      Count(st, FindView("c", [And([Raw(Values.Str("x"))])])) == Err(Filter.NilFilter)
  {
  }

  /** The planner answers an id equality with that id, whether or not it is
      stored. */
  lemma IdLookup(st: Store, c: string, id: string)
    ensures Lookup.Find(st, c, [M([("id", Is(Values.Str(id)))])]) == Ok([id])
  {
    var fs := [("id", Is(Values.Str(id)))];
    var ks := Lookup.MKeys(st, c, fs);
    assert Lookup.FieldKeys(st, c, fs[0].0, fs[0].1) == [id];
    forall x ensures x in ks <==> x in [id] {
      assert Lookup.InAllFields(st, c, fs, x) <==> x in Lookup.FieldKeys(st, c, fs[0].0, fs[0].1);
    }
    Strings.StrictlySortedUnique(ks, [id]);
    assert Lookup.CondKeys(st, c, M(fs)) == Ok([id]);
  }

  /** Looking up an id that is not stored: q.M{"id": "0"} over the ids "1",
      "2" and "3" takes the index path, the planner answers ["0"], and bolt's
      Seek("0") lands on "1", so the view yields the document under "1" and
      counts one. */
  lemma MissingIdSeeksNext()
    ensures var st := Store(map["c" := Bucket([("1", Json([])), ("2", Json([])), ("3", Json([]))], 3)], false);
      var v := FindView("c", [M([("id", Is(Values.Str("0")))])]);
      && ByIndex(st, v) && Lookup.Find(st, "c", v.filter) == Ok(["0"])
      && OpenCursor(st, v, false, None).Ok? && Yields(st, v) == [("1", Json([]))] && Count(st, v) == Ok(1)
  {
    var b := Bucket([("1", Json([])), ("2", Json([])), ("3", Json([]))], 3);
    var st := Store(map["c" := b], false);
    var n := M([("id", Is(Values.Str("0")))]);
    var v := FindView("c", [n]);
    assert Lookup.IsSuitable(st, "c", n);
    IdLookup(st, "c", "0");
    assert Strings.Less("1", "2") && Strings.Less("2", "3") && Strings.Less("1", "3");
    assert b.Valid();
    assert !Strings.Less("1", "0");
    assert CursorSeek(CursorOf(b), "0") == Some(("1", Json([])));
    assert KeysIter.Found(CursorOf(b), ["0"]) == [("1", Json([]))];
    KeysIter.CollectNew(CursorOf(b), ["0"], 0, 0);
    WrapEmpty(Plan(st, v, b).value);
  }
}

=== FILE: wrappers.dfy ===
/** Failure-carrying result types shared by every module, and the error values
    the document engine reports (kv/store.go:11-15 names the three sentinel errors). */
module Wrappers {

  datatype Option<+T> = None | Some(value: T) {
    predicate IsFailure() { None? }

    function PropagateFailure<U>(): Option<U>
      requires None?
    {
      None
    }

    function Extract(): T
      requires Some?
    {
      value
    }

    function GetOr(default: T): T {
      match this
      case Some(v) => v
      case None => default
    }
  }

  /** The engine's error values. `Panic` stands for a Go panic, which aborts the
      caller just as an error return would. */
  datatype Error =
    | NotFound          // errNotFound
    | NotSliceAddr      // errNotSliceAddr
    | NotString         // errNotString
    | DecodeFailed      // a json.Unmarshal failure
    | Panic(msg: string)
    | Backend(msg: string) // an error the key-value primitive itself reports

  datatype Result<+T> = Ok(value: T) | Err(error: Error) {
    predicate IsFailure() { Err? }

    function PropagateFailure<U>(): Result<U>
      requires Err?
    {
      Err(error)
    }

    function Extract(): T
      requires Ok?
    {
      value
    }
  }
}
